=== FILE: README.md ===
# homeiot core, modelled in Dafny

This project models the sequential logic inside the homeiot TypeScript packages: Xiaomi, Yeelight and Aqara device clients, plus their Homebridge accessories. Sockets, timers, HTTP and crypto are abstracted away. What remains is a set of pure functions and two small state machines.

- **miIO local binary protocol** (`packages/xiaomi`), in both codec versions:
  - `MiIO.ts` is the codec class;
  - `miio.ts` holds the free functions with a key/iv cache;
  - also the device's stamp clock and reply dispatch, and the discovery classifier.
  - The 32-byte header is big-endian: magic 0x2131, total length, a zero word, device id, stamp, and a 16-byte MD5 checksum. The body is AES-128-CBC.
  - MD5, AES-128-CBC with PKCS#7 padding, SHA-1/SHA-256, HMAC, base64 and UTF-8 are opaque primitives. They are fields of a `Crypto.Primitives` record. The only assumption about them is the predicate `Crypto.Sound`: decryption inverts encryption under the same key and iv, digests have their fixed lengths, and padding has its fixed length. `Crypto.Witness` shows the assumption can be met.
- **The request table of `BaseDevice`** (`packages/shared/src/BaseDevice.ts`):
  - the attribute store and the global id counter;
  - the bounded connect poll;
  - the uuid→pending-request table, as an event-driven state machine. Its events are issue, resolve, reject, timeout and send failure; time is an integer input.
- **The Yeelight text protocol** (`packages/yeelight`):
  - the SSDP-like discovery parser and the capability table with its fallbacks;
  - CRLF-delimited JSON reply dispatch and the command builders with the default transition;
  - property setters that send only on change, and the case converters.
- **Pure parts of the Xiaomi cloud client**:
  - RC4 with the first 1024 keystream bytes dropped, and request signing;
  - the nonce layout, the error-code table and URL building;
  - MIoT `siid.piid` and URN parsing, and spec-instance flattening;
  - the service-token cookie scan and the login decision sequence.
- **Small mappings**:
  - nested-path get/set over JSON-like values;
  - the Aqara reply-correlation key, invoke payload and pending table;
  - the Homebridge kelvin→mired conversion, PM2.5 banding and air-purifier state mappings.

JavaScript values are `Json.Value`: undefined, null, booleans, integers, NaN, strings, arrays and objects. `Json.Truthy`, `Json.IsNullish`, `Json.Get`, `Json.Entries` and `Json.JsString` model JavaScript truthiness, `== null`, property access, `Object.entries` and `String(v)`. A thrown exception is an explicit outcome: `Failure`, `Threw` or `TypeError`.

Layout: one module per file. `Wrappers`, `Strings`, `Bytes`, `Json` and `Crypto` are shared helpers. The other modules follow the source as follows:
- most model one source file each: `MiioHeader` and `MiioCodec` split `MiIO.ts` between them, and `MiioPacket`, `XiaomiDevice`, `XiaomiDiscovery`, `BaseDevice`, the four `Yeelight…` modules, `NestedPath`, `Account`, `AqaraDevice` and `HomebridgeYeelight` each follow one file;
- `Rc4`, `Signing` and `CloudApi` each model one part of the xiaomi `Api.ts`, and `Signing` also covers the nonce and the plain-request signature of `service/MiIOClient.ts`;
- `MiioClient` spans `service/Client.ts` and `service/MiIOClient.ts`;
- `MiotService` spans `service/MIoT.ts` and the `catchError` check of `service/MiIOClient.ts`;
- `MiotSpec` spans `miot.ts`, `cloud/MIoTSpec.ts` and `service/MIoTSpec.ts`;
- `HomebridgeXiaomi` spans `models.ts` and `models/air-purifier.ts`.

## Model

| member | source | states |
|---|---|---|
| MiioHeader.HelloBytes | packages/xiaomi/src/MiIO.ts:43-50 | the hello packet is 32 bytes: magic 0x2131, length field 32, then 28 bytes of 0xFF |
| MiioHeader.Prefix | packages/xiaomi/src/MiIO.ts:73-88 | the first 16 header bytes read back as magic, the given length, a zero word, the device id and the stamp |
| MiioHeader.ReadFields | packages/xiaomi/src/MiIO.ts:99-105 | the fixed-offset reads throw exactly for packets shorter than 16 bytes; otherwise they give device id, stamp, the clamped checksum slice and the body |
| MiioHeader.ReadFieldsOfAssembled | packages/xiaomi/src/MiIO.ts:86-105 | reading a packet assembled from a prefix, a checksum and a body gives back exactly those parts |
| MiioCodec.SetToken | packages/xiaomi/src/MiIO.ts:62-66 | key = MD5(hex-decoded token), iv = MD5(key ++ hex-decoded token); the device id is kept |
| MiioCodec.New | packages/xiaomi/src/MiIO.ts:55-60 | a key and iv are derived exactly when the token is truthy |
| MiioCodec.Encode | packages/xiaomi/src/MiIO.ts:68-97 | no packet iff token, device id, key or iv is falsy (device id 0 counts as missing); otherwise magic, length 32+\|ciphertext\|, zero word, device id, stamp (0xFFFFFFFF only when omitted; 0 stays 0), and MD5 over header, token bytes and ciphertext |
| MiioCodec.Decode | packages/xiaomi/src/MiIO.ts:99-131 | short packets throw; empty bodies come back undecrypted; a non-empty body without a token gives nothing; a decrypted body passed the checksum |
| MiioCodec.DecodeRejectsBadChecksum | packages/xiaomi/src/MiIO.ts:114-122 | a body whose checksum does not match is never decrypted: decode yields nothing |
| MiioCodec.DecodeEncode | packages/xiaomi/src/MiIO.ts:68-131 | for a truthy token and non-zero device id, decode(encode(d, s)) returns the device id, the stamp written and the original text |
| MiioCodec.DecodeHeaderOnly | packages/xiaomi/src/MiIO.ts:106-109 | header-only packets are returned undecrypted whether or not a token is set |
| MiioCodec.DecodeHello | packages/xiaomi/src/MiIO.ts:43-50 | the hello packet decodes to device id and stamp 0xFFFFFFFF with no body |
| MiioPacket.GetKeyAndIv | packages/xiaomi/src/miio.ts:5-12 | a cached token returns its stored pair without computing; otherwise the pair is computed and added; the cache only grows |
| MiioPacket.RunCalls | packages/xiaomi/src/miio.ts:3-12 | after a run of calls, the cache keys are the old keys plus every token used |
| MiioPacket.ComputedAtMostOnce | packages/xiaomi/src/miio.ts:3-12 | over any sequence of calls, the pair for a token is computed at most once |
| MiioPacket.CreateHelloPacket | packages/xiaomi/src/miio.ts:30-39 | the 32-byte 0x2131 / 32 / 0xFF… layout, byte for byte the hello packet of the codec class |
| MiioPacket.WrittenStamp | packages/xiaomi/src/miio.ts:87-92 | a falsy stamp, including 0, is written as 0xFFFFFFFF; any other stamp as itself |
| MiioPacket.EncodePacket | packages/xiaomi/src/miio.ts:63-107 | the header layout, with the hex-decoded token inside the checksum; the cache after the call is the one the key lookup leaves |
| MiioPacket.EncodePacketSucceeds | packages/xiaomi/src/miio.ts:63-107 | with 16-byte cipher keys and a 32-bit device id and stamp, encoding yields a packet |
| MiioPacket.DecodePacket | packages/xiaomi/src/miio.ts:117-148 | header fields always; no decryption for an empty body or no token; a checksum mismatch still returns the header fields, undecrypted |
| MiioPacket.DecodePacketFixed | packages/xiaomi/src/miio.ts:117-148 | the same decoder, with the hex-decoded token hashed as the encoder does |
| MiioPacket.DecodeFixedEncode | packages/xiaomi/src/miio.ts:63-148 | the corrected decoder decrypts what the encoder produced back to the original text |
| MiioPacket.DecodeAsWrittenMissesHexChecksum | packages/xiaomi/src/miio.ts:98-135 | when raw-text and hex-decoded digests differ, the decoder as written returns an encoded packet undecrypted |
| MiioPacket.DecodeAsWrittenCounterexample | packages/xiaomi/src/miio.ts:98-135 | a concrete token and primitives for which decode-after-encode as written loses the text, while the corrected decoder recovers it |
| MiioPacket.StampZeroWrittenDifferently | packages/xiaomi/src/miio.ts:88-92 | stamp 0 becomes 0xFFFFFFFF here but stays 0 under `??` in MiIO.ts |
| XiaomiDevice.Id | packages/xiaomi/src/Device.ts:6-8 | the id is "xiaomi_" followed by the text of the did attribute |
| XiaomiDevice.IdInjective | packages/xiaomi/src/Device.ts:6-8 | two devices with different numeric dids have different ids |
| XiaomiDevice.New | packages/xiaomi/src/Device.ts:36-43 | port defaults to 54321; a timestamp is recorded only when a truthy stamp is present; the codec is built from the did and token attributes |
| XiaomiDevice.SetToken | packages/xiaomi/src/Device.ts:45-48 | the token attribute and the codec's token and key are updated; nothing else changes |
| XiaomiDevice.OutgoingStamp | packages/xiaomi/src/Device.ts:57-62 | a stamp is sent only when both stamp and timestamp are truthy |
| XiaomiDevice.OutgoingStampSeconds | packages/xiaomi/src/Device.ts:59-61 | the sent stamp exceeds the last device stamp by the whole seconds elapsed |
| XiaomiDevice.OutgoingStampMonotone | packages/xiaomi/src/Device.ts:59-61 | a later clock never gives a smaller outgoing stamp |
| XiaomiDevice.Send | packages/xiaomi/src/Device.ts:56-67 | rejects with "Token is required to call method" iff the codec is not ready; a packet the codec encodes is sent, and a codec throw is thrown; the sent packet carries the outgoing stamp or 0xFFFFFFFF |
| XiaomiDevice.Call | packages/xiaomi/src/Device.ts:50-54 | a fresh id above the counter, the payload {id, method, params}, and a waiting request under String(id) |
| XiaomiDevice.CallResult | packages/xiaomi/src/Device.ts:53 | the caller gets the reply's `result` |
| XiaomiDevice.Dispatch | packages/xiaomi/src/Device.ts:77-88 | {id, result} resolves String(id); {id, error{code, message}} rejects it with the message; a primitive message, or a primitive `error` beside an `id` and no `result`, throws a TypeError; arrays and other objects change nothing |
| XiaomiDevice.OnMessage | packages/xiaomi/src/Device.ts:69-89 | a decode error escapes the listener; header-only packets change nothing; stamp and timestamp change only for a decoded stamp > 0; an empty plaintext is not parsed; non-JSON text escapes as a SyntaxError after the stamp is recorded; a parsed message is dispatched and its TypeError escapes |
| XiaomiDevice.ShortPacketEscapes | packages/xiaomi/src/Device.ts:69-70 | a packet shorter than 16 bytes throws out of the listener and changes nothing |
| XiaomiDevice.EmptyTextNotParsed | packages/xiaomi/src/Device.ts:76 | a body that decrypts to "" returns before `JSON.parse`, whatever the parser would do |
| XiaomiDevice.PrimitiveMessageThrows | packages/xiaomi/src/Device.ts:78-79 | `null`, numbers, text and booleans throw at `message.id` or `'id' in message`; an array is ignored |
| XiaomiDevice.PrimitiveErrorThrows | packages/xiaomi/src/Device.ts:82-84 | `{id, error}` with a primitive `error` throws at `'code' in message.error` and settles nothing |
| XiaomiDevice.StampRecorded | packages/xiaomi/src/Device.ts:72-75 | a body-carrying packet with a positive stamp records that stamp and the current time |
| XiaomiDevice.CallThenReplyResolves | packages/xiaomi/src/Device.ts:50-88 | a reply {id, result} to a call resolves exactly that call and removes it |
| XiaomiDevice.CallThenErrorRejects | packages/xiaomi/src/Device.ts:50-88 | a reply {id, error} to a call rejects exactly that call with the error message |
| XiaomiDevice.MiIoInfo | packages/xiaomi/src/Device.ts:93-99 | a null or undefined reply throws a TypeError; otherwise every entry `Object.entries` lists (object fields, array or string indices) is copied into the attribute store, and other attributes are kept |
| Json.Entries | packages/xiaomi/src/Device.ts:95 | `Object.entries` throws exactly on null and undefined; every listed entry is the value a property read gives; objects list their fields, arrays and strings exactly their indices, other primitives nothing |
| XiaomiDevice.MiIoInfoIndexKeys | packages/xiaomi/src/Device.ts:94-96 | an array reply stores element i under the key String(i) |
| XiaomiDiscovery.Probe | packages/xiaomi/src/Discovery.ts:12-38 | the probe is the 32-byte hello packet |
| XiaomiDiscovery.OnMessage | packages/xiaomi/src/Discovery.ts:41-62 | short messages throw; stamp 0 or a non-empty body announce nothing; otherwise one device with sender host/port, id = did and server stamp = stamp |
| XiaomiDiscovery.TokenWithheldIff | packages/xiaomi/src/Discovery.ts:50-52 | the token is withheld iff every checksum byte renders as hex digits from {0, f} |
| XiaomiDiscovery.ProbeEchoAnnounced | packages/xiaomi/src/Discovery.ts:48-61 | an echo of the probe itself is announced as a device with stamp 0xFFFFFFFF and no token |
| XiaomiDiscovery.AnnouncementOfReply | packages/xiaomi/src/Discovery.ts:43-61 | every header-only reply with a non-zero stamp is announced, token withheld exactly for blank checksums |
| BaseDevice.SetAttribute | packages/shared/src/BaseDevice.ts:35 | the key now maps to the value, and every other key is unchanged |
| BaseDevice.SetAttributes | packages/shared/src/BaseDevice.ts:37 | the whole store is replaced by the record |
| BaseDevice.GetAttributes | packages/shared/src/BaseDevice.ts:36 | a copy of the store in which host and port override stored keys of the same name |
| BaseDevice.GetAfterSet | packages/shared/src/BaseDevice.ts:33-35 | get after set returns the value; other keys read as before |
| BaseDevice.GenerateId | packages/shared/src/BaseDevice.ts:125 | the id returned is the new counter and exceeds the old one |
| BaseDevice.GenerateIdsIncreasing | packages/shared/src/BaseDevice.ts:13-125 | successive ids from the shared counter strictly increase |
| BaseDevice.Issue | packages/shared/src/BaseDevice.ts:127-159 | a request is registered under its uuid with a timer armed 500 ms ahead; a pending uuid is overwritten |
| BaseDevice.GetWaitingRequest | packages/shared/src/BaseDevice.ts:162 | a request is found iff its uuid is in the table, and the one found is still unsettled |
| BaseDevice.Settle | packages/shared/src/BaseDevice.ts:132-149 | settling deletes the uuid, disarms the timer, records the first outcome only, and reports whether to close the connection |
| BaseDevice.Deliver | packages/shared/src/BaseDevice.ts:138-143 | a reply resolves the waiting request if there is one and does nothing otherwise |
| BaseDevice.DeliverError | packages/shared/src/BaseDevice.ts:145-149 | an error reply rejects the waiting request if there is one and does nothing otherwise |
| BaseDevice.Fire | packages/shared/src/BaseDevice.ts:151 | an armed timer at or past its deadline rejects with "Request timeout <uuid>"; otherwise nothing happens |
| BaseDevice.SendFailed | packages/shared/src/BaseDevice.ts:158 | a send failure rejects the request |
| BaseDevice.Step | packages/shared/src/BaseDevice.ts:127-162 | every event keeps the table valid and never changes a settled request |
| BaseDevice.SettledStaysSettled | packages/shared/src/BaseDevice.ts:132-156 | over any run of events, a settled request keeps its outcome |
| BaseDevice.DeliveredOnce | packages/shared/src/BaseDevice.ts:132-162 | after a reply is delivered, the same uuid finds no waiting request |
| BaseDevice.IssueThenWaiting | packages/shared/src/BaseDevice.ts:153-162 | after a request is issued, its uuid is waiting |
| BaseDevice.SharedUuidEntry | packages/shared/src/BaseDevice.ts:132-156 | two requests with one uuid share one entry; settling one removes it for both |
| BaseDevice.TimeoutRejects | packages/shared/src/BaseDevice.ts:138-151 | an unanswered request times out with "Request timeout <uuid>"; the connection closes only when deconnect was asked |
| BaseDevice.WaitForConnect | packages/shared/src/BaseDevice.ts:52-58 | at most 29 sleeps; rejects iff still connecting at all 30 checks; otherwise stops at the first check that finds the socket connected |
| BaseDevice.Connect | packages/shared/src/BaseDevice.ts:49-62 | an existing UDP client resolves at once; no client opens a socket; a connecting TCP client polls |
| YeelightModel.Fallback | packages/yeelight/src/model.ts:217-225 | no model name, no night light; ct {2700, 2700} iff set_ct_abx is supported; color iff set_hsv; background iff bg_set_hsv |
| YeelightModel.ParseModel | packages/yeelight/src/model.ts:209-226 | an exact table key returns its entry; no or empty model falls back; a result without a model name is the fallback |
| YeelightModel.TableRangesOrdered | packages/yeelight/src/model.ts:3-207 | every table entry has a model name and a colour temperature range with min ≤ max |
| YeelightModel.ParsedRangeOrdered | packages/yeelight/src/model.ts:209-226 | every range `parseModel` reports has min ≤ max |
| YeelightModel.PrefixFallbacks | packages/yeelight/src/model.ts:212-214 | unlisted models starting with mono, stripe or color map to those entries, tested in that order |
| YeelightModel.StripIsNotStripe | packages/yeelight/src/model.ts:212-225 | "strip9" matches no prefix and takes the support-list fallback |
| YeelightCase.ToKebabCase | packages/yeelight/src/utils.ts:3-8 | the three replace/lower stages equal one left-to-right pass over the input, whose output uses only a-z, 0-9 and '-' |
| YeelightCase.StagesAreOnePass | packages/yeelight/src/utils.ts:5-7 | non-alphanumerics become '-' and a '-' goes before each uppercase letter that follows a letter or digit |
| YeelightCase.KebabCaseIdempotent | packages/yeelight/src/utils.ts:3-8 | kebab-casing twice equals kebab-casing once |
| YeelightCase.ToSnakeCase | packages/yeelight/src/utils.ts:10-12 | the kebab form with every '-' replaced by '_' and every other character kept in place, so no '-' remains and the output uses only a-z, 0-9 and '_' |
| YeelightCase.ToCamelCase | packages/yeelight/src/utils.ts:14-16 | never longer than the input; text without '-' or '_' is unchanged |
| YeelightCase.CamelLeavesNoDashLower | packages/yeelight/src/utils.ts:14-16 | no '-' is left directly before a lowercase letter, because each joiner before a word character is consumed |
| YeelightDiscovery.Probe | packages/yeelight/src/Discovery.ts:11-20 | the three CRLF-joined probe lines |
| YeelightDiscovery.FromOf | packages/yeelight/src/Discovery.ts:30-34 | 'notify' and 'response' for the two known first lines, otherwise the first line itself |
| YeelightDiscovery.HeaderLine | packages/yeelight/src/Discovery.ts:39-42 | lines without ':' are skipped; key before the first ':', value the rest rejoined and trimmed |
| YeelightDiscovery.HeaderValue | packages/yeelight/src/Discovery.ts:43-67 | six headers dropped, six made numeric, support split on ' ', everything else kept as text |
| YeelightDiscovery.CollectLastWins | packages/yeelight/src/Discovery.ts:36-71 | a later header line with the same key overwrites an earlier one |
| YeelightDiscovery.OnMessage | packages/yeelight/src/Discovery.ts:22-82 | a device is announced iff the first line contains HTTP/1.1, is not the M-SEARCH echo, and the collected `location` starts with yeelight://; the device carries the collected headers plus the parsed host and numeric port |
| YeelightDiscovery.Address | packages/yeelight/src/Discovery.ts:75 | the host starts the text after 'yeelight://' and holds no ':'; the port is a number or NaN |
| YeelightDiscovery.LocationAddress | packages/yeelight/src/Discovery.ts:75-80 | host and port are the parts after '//' split on ':' |
| YeelightDevice.New | packages/yeelight/src/Device.ts:230-239 | default port 55443; the capabilities come from `parseModel` of the model and support properties |
| YeelightDevice.DisplayName | packages/yeelight/src/Device.ts:226-228 | name, else model name, else model, else 'unknown'; always truthy |
| YeelightDevice.Payload | packages/yeelight/src/Device.ts:243 | {id: Number(uuid), method, params} |
| YeelightDevice.Call | packages/yeelight/src/Device.ts:241-246 | the payload is sent and a request waits under the uuid, with the connection kept |
| YeelightDevice.CallResult | packages/yeelight/src/Device.ts:245 | the caller gets the reply's `result` |
| YeelightDevice.HandleItem | packages/yeelight/src/Device.ts:255-267 | props notifications are emitted; otherwise {id, result} resolves String(id); otherwise {id, error{code, message}} rejects it with the message; a primitive, or a primitive `error` beside an `id`, throws; any other object or array leaves the table unchanged and emits nothing |
| YeelightDevice.HandleItemsAppend | packages/yeelight/src/Device.ts:255-268 | handling a list is handling its parts in order |
| YeelightDevice.HandleItems | packages/yeelight/src/Device.ts:255-268 | the table stays valid with the same requests, and each line emits at most one payload |
| YeelightDevice.HandleItemsThrows | packages/yeelight/src/Device.ts:255-268 | the loop throws iff some line is a primitive, or an object that is neither notification nor result and has a primitive `error` beside an `id` |
| YeelightDevice.HandleItemsEmitsNotified | packages/yeelight/src/Device.ts:255-257 | when nothing throws, the emitted `update:props` payloads are the params of every props notification, in order |
| YeelightDevice.NonEmpty | packages/yeelight/src/Device.ts:252 | the lines kept are exactly the non-empty ones |
| YeelightDevice.ParseAll | packages/yeelight/src/Device.ts:253 | parsing succeeds iff every line parses, and keeps the order |
| YeelightDevice.OnMessage | packages/yeelight/src/Device.ts:248-269 | split on CRLF, drop empty lines, parse all (one bad line throws before anything is handled), then handle each in order |
| YeelightDevice.OneLineMessage | packages/yeelight/src/Device.ts:248-269 | a single-line message is that line handled, or a throw when it does not parse |
| YeelightDevice.ResultItemResolves | packages/yeelight/src/Device.ts:258-259 | a result line resolves the waiting request with the whole line |
| YeelightDevice.ErrorItemRejects | packages/yeelight/src/Device.ts:260-266 | an error line rejects the waiting request with the error message |
| YeelightDevice.CallThenResultLine | packages/yeelight/src/Device.ts:241-268 | a call followed by its result line resolves that call |
| YeelightDevice.BadLineHandlesNothing | packages/yeelight/src/Device.ts:249-253 | one unparseable line makes the whole message throw without handling any line |
| YeelightDevice.GetPropSingle | packages/yeelight/src/Device.ts:281 | a single key returns values[0] |
| YeelightDevice.GetPropMany | packages/yeelight/src/Device.ts:282-286 | an array of keys maps each key to its value; the key set is exactly the keys given |
| YeelightDevice.GetPropPairs | packages/yeelight/src/Device.ts:282-286 | for distinct keys, keys[i] maps to values[i] |
| YeelightDevice.GetPropLastWins | packages/yeelight/src/Device.ts:283-285 | a repeated key maps to the value of its last occurrence |
| YeelightDevice.TransitionParams | packages/yeelight/src/Device.ts:295-346 | effect and duration default to 'smooth' and 400 |
| YeelightDevice.TransitionRoundTrip | packages/yeelight/src/Device.ts:295-346 | the trailing parameters read back as the transition given, or the defaults |
| YeelightDevice.SetCtAbx | packages/yeelight/src/Device.ts:295-300 | [ct, effect, duration] |
| YeelightDevice.SetRgb | packages/yeelight/src/Device.ts:309-314 | [rgb, effect, duration] |
| YeelightDevice.SetHsv | packages/yeelight/src/Device.ts:325-330 | [hue, sat, effect, duration] |
| YeelightDevice.SetBright | packages/yeelight/src/Device.ts:340-345 | [bright, effect, duration] |
| YeelightDevice.SetPower | packages/yeelight/src/Device.ts:361-367 | [power, effect, duration, mode], mode defaulting to 0 |
| YeelightDevice.StartCf | packages/yeelight/src/Device.ts:411-412 | [count, action, expression], both numbers defaulting to 0 |
| YeelightDevice.CronAdd | packages/yeelight/src/Device.ts:450-451 | [type, value], type defaulting to 0 |
| YeelightDevice.BuildersCarryTransition | packages/yeelight/src/Device.ts:295-367 | every transition-taking builder ends with the default transition when none is given |
| YeelightDevice.KeyOfInjective | packages/yeelight/src/Device.ts:64-137 | the six properties have distinct attribute keys |
| YeelightDevice.SetProp | packages/yeelight/src/Device.ts:68-137 | the value is always stored; a command is sent iff the value is defined and not `===` the stored one (hue/sat also need the other component defined) |
| YeelightDevice.SetPropIdempotent | packages/yeelight/src/Device.ts:68-137 | assigning the same primitive, non-NaN value again sends nothing |
| YeelightDevice.SetPropResendsNonPrimitive | packages/yeelight/src/Device.ts:68-137 | re-assigning NaN, an array or an object sends the command again, since `!==` holds for them |
| YeelightDevice.SetPropLeavesOthers | packages/yeelight/src/Device.ts:68-137 | a setter leaves the other properties unchanged |
| NestedPath.PathToPaths | packages/shared/src/utils.ts:3-8 | never empty; the pieces contain no '.' and rejoin to the bracket-rewritten path minus one leading '.' |
| NestedPath.DottedPath | packages/shared/src/utils.ts:3-8 | a path without brackets or a leading dot splits into its '.' pieces |
| NestedPath.BracketIsDot | packages/shared/src/utils.ts:5 | [word] is rewritten to .word |
| NestedPath.GetNested | packages/shared/src/utils.ts:10-21 | empty path: obj, or fallback for undefined; otherwise the value at the path, or fallback when an intermediate is nullish or the final value is undefined |
| NestedPath.GetNestedLoop | packages/shared/src/utils.ts:10-21 | the loop computes the same value as the recursive definition |
| NestedPath.Assign | packages/shared/src/utils.ts:29 | an object stores any key; an array stores any index, growing with holes when the index is at or past its length and keeping its other entries; a primitive, null or undefined throws |
| NestedPath.AssignPastEnd | packages/shared/src/utils.ts:29 | writing index 2 of an empty array gives [ , , v] |
| NestedPath.SetNested | packages/shared/src/utils.ts:23-30 | a successful set leaves an object or array |
| NestedPath.GetAfterSet | packages/shared/src/utils.ts:10-30 | get after set on the same non-empty path returns the value, when it is not undefined and no intermediate is null |
| NestedPath.WalkAfterSet | packages/shared/src/utils.ts:23-30 | after a successful set the path leads to the value |
| NestedPath.SetLeavesOtherKeys | packages/shared/src/utils.ts:23-30 | keys off the path keep their values |
| NestedPath.SetDescends | packages/shared/src/utils.ts:26-27 | a non-object intermediate is replaced by {} before descending |
| NestedPath.NullIntermediateThrows | packages/shared/src/utils.ts:26-29 | a null intermediate is not replaced (null is typeof 'object'), so assigning into it throws |
| Rc4.Init | packages/xiaomi/src/Api.ts:247-266 | whatever the key and drop count, the table is a permutation of 0..255; an empty key gives the identity with i = j = 0; otherwise i has advanced once per dropped round |
| Rc4.Schedule | packages/xiaomi/src/Api.ts:250-256 | after any number of key-schedule rounds the table is still a permutation of 0..255 and j stays a byte |
| Rc4.Steps | packages/xiaomi/src/Api.ts:257-262 | n output-free steps advance i by n modulo 256 |
| Rc4.StepsPermute | packages/xiaomi/src/Api.ts:257-262 | output-free steps keep the table a permutation of 0..255 |
| Rc4.Step | packages/xiaomi/src/Api.ts:257-262 | one output-free step advances i and j as RC4 does and keeps both within 0..255 |
| Rc4.Crypt | packages/xiaomi/src/Api.ts:269-282 | the output is as long as the input |
| Rc4.CryptInvolution | packages/xiaomi/src/Api.ts:269-282 | crypt works on a copy of the state, so crypting twice gives the input back |
| Rc4.ScheduleLoop | packages/xiaomi/src/Api.ts:250-256 | the in-place key-schedule loop computes the functional schedule |
| Rc4.DropLoop | packages/xiaomi/src/Api.ts:257-262 | the drop loop computes `rounds` output-free steps |
| Rc4.InitLoop | packages/xiaomi/src/Api.ts:247-266 | the constructor's loops compute the functional initial state |
| Rc4.CryptLoop | packages/xiaomi/src/Api.ts:269-282 | the crypt loop computes the functional keystream XOR |
| Signing.Lookup | packages/xiaomi/src/Api.ts:153-162 | a parameter is found iff its key is present, with a value stored under it |
| Signing.SortedPairs | packages/xiaomi/src/Api.ts:155-160 | one key=value pair per parameter |
| Signing.SortedPairsCover | packages/xiaomi/src/Api.ts:155-160 | every parameter's pair is present, in sorted key order |
| Signing.SignatureTextOrderFree | packages/xiaomi/src/Api.ts:153-162 | the signature text depends on the parameters, not their insertion order |
| Signing.SignatureText | packages/xiaomi/src/Api.ts:155-160 | the hashed text starts with 'POST&', the signed path and '&', and ends with '&' and the signed nonce |
| Signing.Signature | packages/xiaomi/src/Api.ts:153-162 | the base64 text carries the 20-byte SHA-1 digest of the UTF-8 signature text |
| Signing.DecodeEncode | packages/xiaomi/src/Api.ts:284-290 | each value decodes back after encoding, since every call restarts the keystream |
| Signing.Encode | packages/xiaomi/src/Api.ts:284-286 | RC4 over the base64-decoded result, from the saved state, gives back the text's UTF-8 bytes |
| Signing.Decode | packages/xiaomi/src/Api.ts:288-290 | whatever text was encoded under the same state is what decoding returns |
| Signing.EncryptedParams | packages/xiaomi/src/Api.ts:151-167 | keys in order data, rc4_hash__, signature, ssecurity, _nonce; rc4_hash__ over plaintext; signature over the encrypted pair; ssecurity and _nonce unsigned |
| Signing.EncryptedParamsRecoverable | packages/xiaomi/src/Api.ts:151-167 | the encrypted data and hash decrypt to the plaintext and its hash |
| Signing.NonceBytes | packages/xiaomi/src/service/MiIOClient.ts:154-159 | 12 bytes: 8 random bytes, then the minute count as big-endian 32-bit; the write throws from 2^31 minutes on |
| Signing.HmacText | packages/xiaomi/src/service/MiIOClient.ts:207-208 | url, signed nonce, nonce and 'data=<json>', joined by '&' |
| Signing.PlainParams | packages/xiaomi/src/service/MiIOClient.ts:200-212 | _nonce, data and the base64 HMAC-SHA256 signature of the text, under the signed nonce |
| Signing.SignedNonce | packages/xiaomi/src/service/MiIOClient.ts:161-166 | the signed nonce carries the 32-byte SHA-256 of the decoded ssecurity followed by the decoded nonce |
| CloudApi.BaseUrl | packages/xiaomi/src/Api.ts:42-47 | the default host without a country; otherwise the country host |
| CloudApi.Locale | packages/xiaomi/src/Api.ts:45 | the given locale or 'en' |
| CloudApi.SignedPath | packages/xiaomi/src/Api.ts:153-154 | the text after the first 'com' with '/app/' replaced by '/'; nothing when the url has no 'com' |
| CloudApi.SignedPathDefault | packages/xiaomi/src/Api.ts:153-154 | on the default host the signed path is the request path |
| CloudApi.RequestParams | packages/xiaomi/src/Api.ts:124-167 | the encrypted request signs the path after 'com' with the signed nonce of ssecurity and nonce |
| CloudApi.PlainTextIsHmacText | packages/xiaomi/src/Api.ts:182-194 | the unencrypted signing text is the same as the service client's HMAC text |
| CloudApi.PlainRequestParams | packages/xiaomi/src/Api.ts:182-194 | the unencrypted body is the service client's `_nonce`, `data` and HMAC signature over the same '&'-joined text |
| CloudApi.DefaultRequestSignsPath | packages/xiaomi/src/Api.ts:124-167 | on the default host the request signs exactly the request path |
| CloudApi.ResultOf | packages/xiaomi/src/Api.ts:200-205 | a truthy result is returned; a falsy one fails; a nullish reply throws |
| CloudApi.ServiceTokenOf | packages/xiaomi/src/Api.ts:103-118 | a cookie yields a token only when its first '; ' segment is named exactly serviceToken |
| CloudApi.ScanCookies | packages/xiaomi/src/Api.ts:103-118 | the first cookie that carries a service token wins; none iff no cookie does |
| CloudApi.ServiceTokenOfCookie | packages/xiaomi/src/Api.ts:103-118 | name=value yields the trimmed value iff the name is serviceToken |
| CloudApi.Login | packages/xiaomi/src/Api.ts:49-122 | a cached token is returned without requests; a failure leaves the session unchanged; success stores the new session |
| CloudApi.Step1 | packages/xiaomi/src/Api.ts:56-69 | step 1 succeeds iff the reply parses to an object with a truthy `_sign` |
| CloudApi.Step2 | packages/xiaomi/src/Api.ts:87-97 | step 2 succeeds iff the reply carries ssecurity, userId and location and no notificationUrl, and yields ssecurity and userId; a notificationUrl asks for two-factor |
| CloudApi.Step3 | packages/xiaomi/src/Api.ts:99-119 | step 3 succeeds iff a cookie carries the service token; otherwise "Login step 3 failed" |
| CloudApi.LoginThenCached | packages/xiaomi/src/Api.ts:49-54 | after a successful login, the next login returns the cached session |
| CloudApi.LoginSteps | packages/xiaomi/src/Api.ts:49-122 | login succeeds iff all three steps succeed, and stores their results |
| MiioClient.ClientRequestUrl | packages/xiaomi/src/service/Client.ts:21-25 | with a non-empty base, the result starts with base + '/' and continues with the url, less one leading '/' if it has one; with no base or an empty one, the url itself |
| MiioClient.ClientRequestUrlSlash | packages/xiaomi/src/service/Client.ts:21-25 | one leading '/' makes no difference; without a base the url is unchanged |
| MiioClient.ClientRequestInit | packages/xiaomi/src/service/Client.ts:27-35 | init fields kept; User-Agent from config unless init.headers supplies one; the other headers kept |
| MiioClient.ClientRequest | packages/xiaomi/src/service/Client.ts:41-58 | a non-ok response fails with its status and is not unwrapped; an ok one is unwrapped |
| MiioClient.StatusErrorSkipsUnwrap | packages/xiaomi/src/service/Client.ts:48-57 | for a non-ok response the unwrapper has no effect |
| MiioClient.BaseUnwrap | packages/xiaomi/src/service/Client.ts:37-39 | the base unwrapper returns the response itself |
| MiioClient.RequestUrl | packages/xiaomi/src/service/MiIOClient.ts:106-112 | a non-empty country sends the request to https://<country>.api.io.mi.com/app/<url>; no country or an empty one keeps the default https://api.io.mi.com/app |
| MiioClient.CodeMessage | packages/xiaomi/src/service/MiIOClient.ts:16-104 | every listed code is negative and has a non-empty message; entries commented out are absent |
| MiioClient.CatchError | packages/xiaomi/src/service/MiIOClient.ts:215-221 | no code never throws; a code throws the table message iff the table lists it |
| MiioClient.KeyedByText | packages/xiaomi/src/service/MiIOClient.ts:17-103 | looking the table up by decimal text is the same as looking it up by integer code |
| MiioClient.CatchErrorExamples | packages/xiaomi/src/service/MiIOClient.ts:17-221 | '-702000000' throws 'OK'; an unlisted code and an absent code return |
| MiioClient.UnwrapResponse | packages/xiaomi/src/service/MiIOClient.ts:137-152 | a nullish body throws; a truthy code fails with code and message; then a falsy result fails; otherwise the result |
| MiioClient.MiioRequest | packages/xiaomi/src/service/MiIOClient.ts:168-213 | the status check comes before the body is unwrapped |
| MiioClient.NonceText | packages/xiaomi/src/service/MiIOClient.ts:154-159 | the nonce is the base64 of the 12-byte layout |
| MiioClient.NonceTextDecodes | packages/xiaomi/src/service/MiIOClient.ts:154-159 | decoding the nonce gives the random bytes and then the minute count |
| MiioClient.RequestBody | packages/xiaomi/src/service/MiIOClient.ts:168-212 | the encrypted path uses the Api.ts field order; the plain path HMACs exactly url, signed nonce, nonce and data |
| MiioClient.RequestBodyCarries | packages/xiaomi/src/service/MiIOClient.ts:179-208 | both bodies carry the nonce and a signature |
| Account.LastSegment | packages/xiaomi/src/cloud/Account.ts:50-53 | the piece's last ', '-segment: a suffix containing no ', ' |
| Account.TokenOfPiece | packages/xiaomi/src/cloud/Account.ts:54-55 | a token iff the last segment starts with 'serviceToken=', which is stripped |
| Account.FindToken | packages/xiaomi/src/cloud/Account.ts:48-55 | the first piece that yields a token; none iff no piece does |
| Account.ServiceToken | packages/xiaomi/src/cloud/Account.ts:47-57 | nothing for a failed response or no header; otherwise a token iff some piece carries one |
| Account.SingleCookie | packages/xiaomi/src/cloud/Account.ts:47-57 | 'serviceToken=T; attrs' yields T |
| Account.FoldedCookie | packages/xiaomi/src/cloud/Account.ts:47-57 | a token cookie folded after another cookie by ', ' is still found |
| Account.EncodeUriComponent | packages/xiaomi/src/cloud/Account.ts:34 | the output uses only unreserved characters and %XX escapes; unreserved text is unchanged |
| Account.EncodeUriComponentDecodes | packages/xiaomi/src/cloud/Account.ts:34 | percent-decoding the output gives the UTF-8 bytes of the input |
| Account.TokenUrl | packages/xiaomi/src/cloud/Account.ts:33-41 | the location, with '&clientSign=' and the escaped signature appended only when needed |
| Account.ClientSignRecoverable | packages/xiaomi/src/cloud/Account.ts:34-40 | the appended value decodes back to base64 of the hex SHA-1 of 'nonce=…&ssecurity' |
| Account.ClientSign | packages/xiaomi/src/cloud/Account.ts:34-40 | the base64 text decodes to 40 lower-case hex digits that decode to the SHA-1 of 'nonce=…&ssecurity' |
| Account.Entry | packages/xiaomi/src/cloud/Account.ts:75-81 | the stored entry is the response fields plus serviceToken, userAgent and deviceId |
| Account.Settle | packages/xiaomi/src/cloud/Account.ts:65-82 | a non-zero code fails with code and description; a notificationUrl asks for two-factor; success stores an entry under sid and keeps the others |
| Account.Store | packages/xiaomi/src/cloud/Account.ts:76-81 | the entry is stored under sid; other sids and the config are kept |
| Account.Login | packages/xiaomi/src/cloud/Account.ts:60-83 | the second-step login runs only when the first code is non-zero |
| Account.LoginSkipsAuth2 | packages/xiaomi/src/cloud/Account.ts:61-64 | with a zero first code, the second step makes no difference |
| Account.LoginSucceeds | packages/xiaomi/src/cloud/Account.ts:60-83 | a successful login had a zero code, no notificationUrl and a service token |
| Account.LoginNeedsToken | packages/xiaomi/src/cloud/Account.ts:71-74 | without a service token the login fails |
| MiotService.StripZero | packages/xiaomi/src/service/MIoT.ts:6 | one leading '0.' is stripped |
| MiotService.ResolveIidOfNumbers | packages/xiaomi/src/service/MIoT.ts:4-9 | 'siid.piid…' gives the two numbers; extra parts are ignored |
| MiotService.ResolveIidZeroService | packages/xiaomi/src/service/MIoT.ts:4-9 | '0.n' resolves to siid n and piid NaN, because the '0.' is stripped |
| MiotService.ResolveIid | packages/xiaomi/src/service/MIoT.ts:4-9 | both ids are numbers or NaN; without a '.' after the strip, siid is Number of the whole and piid is NaN |
| MiotService.PropParam | packages/xiaomi/src/service/MIoT.ts:13-16 | {did: String(did), siid, piid} plus any extra fields |
| MiotService.GetProps | packages/xiaomi/src/service/MIoT.ts:11-18 | each iid, in order, becomes one parameter object |
| MiotService.SetProps | packages/xiaomi/src/service/MIoT.ts:26-33 | each [iid, value], in order, becomes {did, siid, piid, value} |
| MiotService.SetPropsCarriesValues | packages/xiaomi/src/service/MIoT.ts:28-31 | the i-th parameter carries the i-th value |
| MiotService.Action | packages/xiaomi/src/service/MIoT.ts:41-50 | the parsed piid is sent as aiid and the args as `in` |
| MiotService.MessageOfCodeText | packages/xiaomi/src/service/MiIOClient.ts:215-221 | looking a code's text up gives the table message of that code |
| MiotService.CatchCode | packages/xiaomi/src/service/MiIOClient.ts:215-221 | undefined passes; null throws a TypeError; any other code throws iff its text is a table key |
| MiotService.CatchCodeNumber | packages/xiaomi/src/service/MiIOClient.ts:215-221 | for a numeric code the check agrees with the integer-keyed table |
| MiotService.FirstChecked | packages/xiaomi/src/service/MIoT.ts:20-39 | the first result element is returned after its code passes the check |
| MiotService.GetProp | packages/xiaomi/src/service/MIoT.ts:20-24 | requests one iid and checks the first result |
| MiotService.SetProp | packages/xiaomi/src/service/MIoT.ts:35-39 | sets one iid and checks the first result |
| MiotService.ActionResult | packages/xiaomi/src/service/MIoT.ts:48-49 | the result is returned only when its code passes the check |
| MiotService.GetPropListedCode | packages/xiaomi/src/service/MIoT.ts:20-24 | a listed error code in the first result throws its message |
| MiotSpec.ParseTypeOfParts | packages/xiaomi/src/miot.ts:22-33 | positional fields by ':'; value is the hex parse of field 5; version is undefined without field 7, else Number of it |
| MiotSpec.ParseType | packages/xiaomi/src/miot.ts:22-33 | the urn is the text up to the first ':'; a text without ':' is all urn, with no namespace, value NaN and no version |
| MiotSpec.DeviceInformationType | packages/xiaomi/src/cloud/MIoTSpec.ts:66-77 | a five-field URN parses to name 'device-information', value 0x7801 and an undefined version |
| MiotSpec.PropertyEntry | packages/xiaomi/src/miot.ts:37-46 | the entry is the property with siid = service iid, unless the property carries its own siid |
| MiotSpec.ParseInstanceProperties | packages/xiaomi/src/miot.ts:35-48 | at most as many keys as properties |
| MiotSpec.EveryPropertyKeyed | packages/xiaomi/src/miot.ts:37-46 | every property's '<service>.<property>' key is present |
| MiotSpec.KeysAreProperties | packages/xiaomi/src/cloud/MIoTSpec.ts:79-92 | every key comes from some property |
| MiotSpec.LastPropertyWins | packages/xiaomi/src/miot.ts:37-46 | a property's key holds that property's entry whenever no property visited after it has the same key, so the last duplicate wins |
| MiotSpec.ParseInstancePropertiesLoop | packages/xiaomi/src/cloud/MIoTSpec.ts:79-92 | the nested forEach loops compute the flattening |
| MiotSpec.FindModel | packages/xiaomi/src/miot.ts:12-16 | the first non-nullish instance with a matching model; a nullish item before it throws |
| MiotSpec.InstancesPath | packages/xiaomi/src/service/MIoTSpec.ts:16-19 | status '' when none is given |
| MiotSpec.CloudFind | packages/xiaomi/src/cloud/MIoTSpec.ts:5-11 | 'urn…' names are used directly; otherwise the first match's type, which is 'undefined' when none matches |
| MiotSpec.ServiceFind | packages/xiaomi/src/service/MIoTSpec.ts:5-14 | 'urn…' names are used directly; the name is kept when nothing matches |
| MiotSpec.FindInstance | packages/xiaomi/src/miot.ts:12-16 | succeeds iff a matching instance exists, with its type |
| MiotSpec.FindClientsCompared | packages/xiaomi/src/cloud/MIoTSpec.ts:5-11 | the two clients agree when a match has a text type and differ when none matches |
| AqaraDevice.UuidAsWritten | packages/aqara/src/Device.ts:32-35 | an '_ack' command keeps only its first four characters before the sid |
| AqaraDevice.WriteAckMissesWrite | packages/aqara/src/Device.ts:33 | 'write_ack' is keyed as 'writ', so it never finds the 'write' request |
| AqaraDevice.Uuid | packages/aqara/src/Device.ts:32-35 | the key with '_ack' removed |
| AqaraDevice.AckCorrelates | packages/aqara/src/Device.ts:32-35 | a reply '<cmd>_ack' has its request's key |
| AqaraDevice.UuidInjective | packages/aqara/src/Device.ts:32-35 | two commands share a key iff they are equal |
| AqaraDevice.AsWrittenAgreesIff | packages/aqara/src/Device.ts:33 | the written key matches the corrected one iff the command has four letters, like 'read' |
| AqaraDevice.Payload | packages/aqara/src/Device.ts:51-57 | cmd, model, sid and short_id always; data iff params were given |
| AqaraDevice.WriteParams | packages/aqara/src/Device.ts:69-71 | the write properties plus the generated key |
| AqaraDevice.Invoke | packages/aqara/src/Device.ts:49-67 | registers under the corrected key (see ## Findings); on send failure rejects and removes the entry; other entries unchanged |
| AqaraDevice.OnMessage | packages/aqara/src/Device.ts:37-47 | a message is ignored iff it is unparseable text; a null message or non-text cmd throws; otherwise the entry under the corrected key (see ## Findings) is taken out and resolved with data |
| AqaraDevice.ReplyResolvesInvoke | packages/aqara/src/Device.ts:37-67 | under the corrected key (see ## Findings): after a successful invoke, the ack reply resolves exactly that request and removes it |
| AqaraDevice.DeliveredOnce | packages/aqara/src/Device.ts:37-47 | the same reply again finds nothing |
| AqaraDevice.FailedSendLeavesNothing | packages/aqara/src/Device.ts:62-65 | under the corrected key (see ## Findings): after a failed send, the reply finds no waiting request |
| AqaraDevice.PayloadData | packages/aqara/src/Device.ts:51-71 | read and get_id_list send no data; write always does |
| HomebridgeYeelight.Mired | packages/homebridge-yeelight/src/accessory.ts:6-8 | round(10^6 / v) with halves rounded up; division by zero has no value |
| HomebridgeYeelight.MiredExamples | packages/homebridge-yeelight/src/accessory.ts:6-8 | 6500 K → 154 and 1700 K → 588 |
| HomebridgeYeelight.MiredNonIncreasing | packages/homebridge-yeelight/src/accessory.ts:6-8 | a higher positive kelvin never gives a larger mired value |
| HomebridgeYeelight.CharacteristicRange | packages/homebridge-yeelight/src/accessory.ts:108-111 | minValue converts the maximum kelvin and maxValue the minimum |
| HomebridgeYeelight.RangeOrdered | packages/homebridge-yeelight/src/accessory.ts:108-111 | positive ordered kelvins give a finite, ordered range |
| HomebridgeYeelight.ParsedModelRangeOrdered | packages/homebridge-yeelight/src/accessory.ts:102-112 | every parsed model with a positive minimum kelvin gets an ordered range |
| HomebridgeYeelight.ColorTemperatureGet | packages/homebridge-yeelight/src/accessory.ts:102-107 | a truthy ct reads as its mired value, and 0 as null |
| HomebridgeYeelight.ColorTemperatureSet | packages/homebridge-yeelight/src/accessory.ts:105-107 | the written mired value is converted back to kelvin with the same half-up rounding, and 0 gives Infinity |
| HomebridgeYeelight.ColorTemperatureSetReversesOrder | packages/homebridge-yeelight/src/accessory.ts:105-107 | a larger positive mired value never sets a higher kelvin |
| HomebridgeYeelight.ConfigureGuard | packages/homebridge-yeelight/src/accessory.ts:19-24 | proceeds iff the id is non-empty and not yet configured, and then records it |
| HomebridgeYeelight.ConfigureOnce | packages/homebridge-yeelight/src/accessory.ts:19-24 | configuring the same accessory again is ignored |
| HomebridgeYeelight.OnGet | packages/homebridge-yeelight/src/accessory.ts:76-80 | on iff power is 'on' |
| HomebridgeYeelight.OnSet | packages/homebridge-yeelight/src/accessory.ts:76-80 | writes 'on' or 'off' |
| HomebridgeYeelight.OnRoundTrip | packages/homebridge-yeelight/src/accessory.ts:76-80 | reading back a write gives the value's truthiness |
| HomebridgeYeelight.Wire | packages/homebridge-yeelight/src/accessory.ts:88-112 | Hue/Saturation iff the bulb has colour; ColorTemperature iff it has a range, with that range |
| HomebridgeYeelight.MonoRangeDividesByZero | packages/homebridge-yeelight/src/accessory.ts:102-112 | the mono bulb's {0, 0} range is wired, and both ends divide by zero |
| HomebridgeXiaomi.NameGet | packages/homebridge-xiaomi/src/models.ts:9-12 | the property value, else the device name, else 'name'; never nullish |
| HomebridgeXiaomi.ActiveGet | packages/homebridge-xiaomi/src/models.ts:24-30 | ACTIVE iff the value is truthy, else INACTIVE |
| HomebridgeXiaomi.ActiveSet | packages/homebridge-xiaomi/src/models.ts:28-30 | writes Boolean(v) |
| HomebridgeXiaomi.ActiveRoundTrip | packages/homebridge-xiaomi/src/models.ts:24-30 | reading back a written 0 or 1 gives it back |
| HomebridgeXiaomi.CurrentStateGet | packages/homebridge-xiaomi/src/models.ts:31-36 | PURIFYING_AIR iff truthy, else INACTIVE |
| HomebridgeXiaomi.TargetStateGet | packages/homebridge-xiaomi/src/models.ts:37-43 | AUTO iff mode is 0 or 1, else MANUAL |
| HomebridgeXiaomi.TargetStateSet | packages/homebridge-xiaomi/src/models.ts:37-43 | AUTO writes mode 0; anything else writes 2 |
| HomebridgeXiaomi.TargetStateRoundTrip | packages/homebridge-xiaomi/src/models.ts:41-42 | reading back a written AUTO or MANUAL gives it back |
| HomebridgeXiaomi.FirstSpeed | packages/homebridge-xiaomi/src/models.ts:46-52 | the first candidate key present with a value range; none iff no key qualifies |
| HomebridgeXiaomi.SpeedPercent | packages/homebridge-xiaomi/src/models.ts:53-58 | round(val / max · 100), halves up, for a positive or negative max; no finite value for a max of 0 |
| HomebridgeXiaomi.SpeedPercentEnds | packages/homebridge-xiaomi/src/models.ts:53-58 | 100 at val = max and 0 at val = 0, for any non-zero max |
| HomebridgeXiaomi.SpeakerOnGet | packages/homebridge-xiaomi/src/models.ts:74-87 | on iff playing-state is 1 |
| HomebridgeXiaomi.SpeakerOnSet | packages/homebridge-xiaomi/src/models.ts:78-85 | play-music and store 1, or pause and store 0 |
| HomebridgeXiaomi.SpeakerRoundTrip | packages/homebridge-xiaomi/src/models.ts:74-87 | reading back a write gives the value's truthiness |
| HomebridgeXiaomi.AirQualityOf | packages/homebridge-xiaomi/src/models/air-purifier.ts:122-139 | UNKNOWN iff no density; bands at 10, 30, 60 and 120 |
| HomebridgeXiaomi.AirQualityMonotone | packages/homebridge-xiaomi/src/models/air-purifier.ts:124-137 | a higher density never gives a better level |
| HomebridgeXiaomi.AirQualityBands | packages/homebridge-xiaomi/src/models/air-purifier.ts:124-137 | each band's density interval |
| HomebridgeXiaomi.PurifierActiveSet | packages/homebridge-xiaomi/src/models/air-purifier.ts:78-82 | writes only when currently off, writing the value's truthiness |
| HomebridgeXiaomi.CannotTurnOff | packages/homebridge-xiaomi/src/models/air-purifier.ts:78-82 | a request to turn off while on writes nothing |
| HomebridgeXiaomi.PurifierActiveRoundTrip | packages/homebridge-xiaomi/src/models/air-purifier.ts:73-82 | when a write happens, reading it back gives the requested state |
| HomebridgeXiaomi.ActiveIffPurifying | packages/homebridge-xiaomi/src/models/air-purifier.ts:73-90 | ACTIVE iff PURIFYING_AIR |
| HomebridgeXiaomi.PurifierTargetSet | packages/homebridge-xiaomi/src/models/air-purifier.ts:95-101 | the same mode mapping as models.ts |
| HomebridgeXiaomi.LastSpeed | packages/homebridge-xiaomi/src/models/air-purifier.ts:52-63 | the last candidate key present wins; none iff no key is present |
| HomebridgeXiaomi.FirstAndLastDiffer | packages/homebridge-xiaomi/src/models/air-purifier.ts:52-63 | with all three keys present, models.ts picks the first and the purifier the last |
| HomebridgeXiaomi.PurifierCharacteristics | packages/homebridge-xiaomi/src/models/air-purifier.ts:104-116 | four fixed characteristics; RotationSpeed iff a speed key was found |

## Left out

- Socket plumbing: socket creation, bind, connect, write and close, plus the shared Device, DeviceTcp, DeviceUdp and discovery base classes. These are Node dgram/net I/O. Only the connect poll counter of `BaseDevice` is modelled.
- Timers and the wall clock: a timeout is the `Fire` event, and `now` is an integer-millisecond input.
- MD5, AES-128-CBC, SHA-1, SHA-256, HMAC, base64 and UTF-8 validation: opaque, as described above. `miio.ts` turns digests into text. Its key/iv are therefore not equated with those of `MiIO.ts`.
- JSON.parse and JSON.stringify: they are function parameters, and parsed values are inputs.
- Floating point: numbers are integers. PM2.5 densities and speed values are whole numbers. `SpeedPercent` uses exact rational rounding rather than IEEE doubles.
- `HomebridgeXiaomi.SpeedPercent`: a range max of 0 gives `None`, which stands for both the `Infinity` and the `NaN` that `Math.round` returns there; the two are not told apart.
- `HomebridgeYeelight.Mired`: models whole kelvin values only.
- `Strings.JsNumber`: decimal digits only. Exponents, hex literals and fractions are not modelled. `Number("")` is 0, as in JavaScript.
- Randomness (`getRandomString`, the nonce's random bytes): the random bytes are a parameter.
- HTTP clients and thin wrappers (Cloud.ts, the cloud/ client duplicates, MinaClient, MIoTSpecClient): network plumbing without further logic.
- `MiotSpec.InstancesPath`: models only the request path of `getInstances`, not the fetched `instances` field.
- The cloud Account `serviceLogin`/`serviceLoginAuth2` requests and the fetch in `getServiceToken`: these are function parameters. The form body and the emitted 'serviceToken' event are not modelled.
- Homebridge glue: platforms, accessory registration, the speaker, gateway and airer models' timers, AccessoryInformation, and the Brightness/Hue/Saturation handlers. Those three handlers only pass values through. The ColorTemperature write converts its value and is modelled as `HomebridgeYeelight.ColorTemperatureSet`.
- The purifier's LockPhysicalControls characteristic: it passes the value through.
- CLI front ends (xiaomi-cli, yeelight-cli).
- Cross-class composition: each function is modelled against its own file. The xiaomi Device passes its properties where `BaseDevice` expects options, and `XiaomiDevice.New` takes them as the attribute store. The yeelight Device's `uuid`, `get` and `set` are not in `BaseDevice`, so the uuid is a parameter. Discovery announces `id`/`serverStamp` while Device reads `did`/`stamp`. The aqara Device calls `setPromose` and `pullPromise` (packages/aqara/src/Device.ts:46,60,64), which `BaseDevice` does not define. The model reads them as putting a request into the waiting table and taking it out, the way `request` and `getWaitingRequest` do; that reading is an assumption.
- JavaScript `in` on the Yeelight model table and on the MIoT client's `errorCodes` table (`MiotService.CatchCode`): it would also match inherited names such as 'toString' or 'constructor'. Only the listed entries are keys, so a code whose text is such a name passes instead of throwing.
- `YeelightDevice.SetProp`: object identity is not modelled. Every array or object counts as a different object from the stored one, so assigning back the very object the getter returned (which JavaScript finds `===`) is modelled as a change and sends a command.
- `YeelightDevice.SetPropIdempotent`: holds only for primitive values other than `NaN`. For `NaN`, arrays and objects the source re-sends, and `SetPropResendsNonPrimitive` states that.
- `__proto__` keys in plain objects: JavaScript treats them specially; the model does not.
- `NestedPath.Assign`: an array takes only index keys below 2^32 - 1. Assigning `length` or a named property to an array is reported as `ArrayNotModelled`, because `Json.Value` arrays carry no named properties. Holes are read as `undefined`, so they are stored as `Undefined`. `NestedPath.SetNested`, `NestedPath.GetAfterSet` and `NestedPath.WalkAfterSet` inherit this limit.
- `NestedPath.SetNested`: returns the updated value instead of mutating in place, so aliasing between shared sub-objects is not modelled.
- `Signing.NonceBytes`: `writeInt32BE` throws from 2^31 minutes on, which is modelled as no nonce.
- `MiioClient.CatchError`: the table is indexed by integer code. `MiioClient.KeyedByText` and `MiotService.MessageOfCodeText` show this agrees with lookup by decimal text.
- `Rc4.Init`: with an empty key the source skips both the key schedule and the drop rounds, which sit inside the same `if`. The state stays the identity with i = j = 0, and the model does the same.
- The yeelight builders without transitions (toggle, set_default, stop_cf, cron_get/cron_del, set_scene, set_adjust, set_music, set_name, adjust_*): their fixed parameter lists are defined but carry no contract.
- Locale casing: `toLocaleUpperCase` is ASCII upper-casing.

## Findings

| source | as written | input that shows it | evidently intended | confidence | as-written member | corrected member |
|---|---|---|---|---|---|---|
| packages/xiaomi/src/miio.ts:128-135 | `decodePacket` hashes the token's raw text, while `encodePacket` (lines 98-102) hashes its hex-decoded bytes, so the checksum of a packet it encoded does not match and the body comes back undecrypted | any 32-hex-digit token whose text and hex-decoded bytes hash differently, such as the one in `MiioPacket.DecodeAsWrittenCounterexample` | hash the hex-decoded token, as the encoder and `MiIO.ts` do, so decode(encode(d)) = d | not executed | MiioPacket.DecodeAsWrittenCounterexample | MiioPacket.DecodeFixedEncode |
| packages/aqara/src/Device.ts:33 | an `_ack` command is cut with `substring(-1, 4)`, which keeps its first four characters whatever its length | cmd "write_ack" is keyed "writ" + sid, so the reply never finds the "write" request | strip the "_ack" suffix, so that a reply finds its request | not executed | AqaraDevice.WriteAckMissesWrite | AqaraDevice.AckCorrelates |

=== FILE: account.dfy ===
/**
 * The account-site login of `cloud/Account.ts`: the service-login decision sequence, the
 * `clientSign` query parameter and the extraction of the service token from the
 * `set-cookie` header of the final redirect.
 */
module Account {
  import opened Wrappers
  import opened Strings
  import opened Bytes
  import opened Json
  import opened Crypto

  // ---------------------------------------------------------------------------------------
  // The service token in `set-cookie`
  // ---------------------------------------------------------------------------------------

  const TOKEN_PREFIX: string := "serviceToken="

  /**
   * The last ", "-segment of a "; "-piece. The runtime folds several `set-cookie` headers into
   * one, separated by ", ", so the cookie that starts a header sits after the last ", ".
   */
  function LastSegment(piece: string): (r: string)
    ensures EndsWith(piece, r) && !Contains(r, ", ")
    ensures !Contains(piece, ", ") ==> r == piece
  {
    var parts := Split(piece, ", ");
    JoinSplit(piece, ", ");
    JoinEndsWithLast(parts, ", ");
    SplitPiecesAvoidSeparator(piece, ", ");
    SplitSingle(piece, ", ");
    parts[|parts| - 1]
  }

  /** The token a piece carries: its last segment without the `serviceToken=` prefix. */
  function TokenOfPiece(piece: string): (r: Option<string>)
    ensures r.Some? <==> StartsWith(LastSegment(piece), TOKEN_PREFIX)
    ensures r.Some? ==> LastSegment(piece) == TOKEN_PREFIX + r.value
  {
    var segment := LastSegment(piece);
    if StartsWith(segment, TOKEN_PREFIX) then
      assert segment == TOKEN_PREFIX + segment[|TOKEN_PREFIX|..];
      Some(segment[|TOKEN_PREFIX|..])
    else None
  }

  /** `find(key => key.startsWith('serviceToken='))` over the pieces, then the prefix removed. */
  function FindToken(pieces: seq<string>): (r: Option<string>)
    ensures r.None? <==> forall i :: 0 <= i < |pieces| ==> TokenOfPiece(pieces[i]).None?
    ensures r.Some? ==> exists i :: (0 <= i < |pieces| && TokenOfPiece(pieces[i]) == r
      && forall j :: 0 <= j < i ==> TokenOfPiece(pieces[j]).None?)
    decreases |pieces|
  {
    if |pieces| == 0 then None
    else match TokenOfPiece(pieces[0])
      case Some(t) => Some(t)
      case None =>
        var r := FindToken(pieces[1..]);
        assert forall i :: 0 < i < |pieces| ==> pieces[i] == pieces[1..][i - 1];
        assert r.Some? ==> exists i :: (1 <= i < |pieces| && TokenOfPiece(pieces[i]) == r
          && forall j :: 0 <= j < i ==> TokenOfPiece(pieces[j]).None?);
        r
  }

  /** The reply to the redirect: whether it was ok, and its `set-cookie` header if present. */
  datatype TokenReply = TokenReply(ok: bool, setCookie: Option<string>)

  /** Some "; "-piece of the header has a last segment that starts with `serviceToken=`. */
  predicate CarriesToken(header: string) {
    exists i :: 0 <= i < |Split(header, "; ")| && TokenOfPiece(Split(header, "; ")[i]).Some?
  }

  /** `getServiceToken` once the reply is in: `None` is `undefined`. */
  function ServiceToken(reply: TokenReply): (r: Option<string>)
    ensures !reply.ok || reply.setCookie.None? ==> r.None?
    ensures reply.ok && reply.setCookie.Some? ==> (r.Some? <==> CarriesToken(reply.setCookie.value))
  {
    if !reply.ok then None
    else match reply.setCookie
      case None => None
      case Some(header) =>
        var found := FindToken(Split(header, "; "));
        assert found.Some? <==> CarriesToken(header);
        found
  }

  /** A text without ';' is the first "; "-piece of itself followed by "; " and anything. */
  lemma FirstPiece(x: string, rest: string)
    requires !Contains(x, ";")
    ensures Split(x + "; " + rest, "; ")[0] == x
  {
    var s := x + "; " + rest;
    assert IsOccurrence(s, "; ", |x|);
    forall k | 0 <= k < |x| ensures !IsOccurrence(s, "; ", k) {
      assert s[k] == x[k];
      if IsOccurrence(s, "; ", k) {
        assert x[k..k + 1] == ";";
        assert IsOccurrence(x, ";", k);
      }
    }
    assert IndexOf(s, "; ") == Some(|x|);
    SplitHead(s, "; ");
    assert s[..|x|] == x;
  }

  /** The last ", "-segment of `a + ", " + b` is `b` when `b` has no ','. */
  lemma {:induction false} LastSegmentAfter(a: string, b: string)
    requires !Contains(b, ",")
    ensures LastSegment(a + ", " + b) == b
    decreases |a|
  {
    var s := a + ", " + b;
    NoCharNoPattern(b, ", ");
    SplitSingle(b, ", ");
    assert IsOccurrence(s, ", ", |a|);
    var i := IndexOf(s, ", ").value;
    if i == |a| {
      assert s[i + 2..] == b;
      assert Split(s, ", ") == [s[..i]] + [b];
    } else {
      assert i != |a| - 1 by {
        assert s[|a|] == ',';
        assert s[i..i + 2][1] == s[i + 1];
      }
      var rest := s[i + 2..];
      assert rest == a[i + 2..] + ", " + b;
      LastSegmentAfter(a[i + 2..], b);
      var tail := Split(rest, ", ");
      assert Split(s, ", ") == [s[..i]] + tail;
    }
  }

  /** A header that is just the token cookie, with attributes after "; ", yields the token. */
  lemma SingleCookie(token: string, attributes: string)
    requires !Contains(token, ";") && !Contains(token, ",")
    ensures ServiceToken(TokenReply(true, Some(TOKEN_PREFIX + token + "; " + attributes))) == Some(token)
  {
    var piece := TOKEN_PREFIX + token;
    CharFree(TOKEN_PREFIX, ';');
    CharFree(TOKEN_PREFIX, ',');
    NoCharConcat(TOKEN_PREFIX, token, ';');
    NoCharConcat(TOKEN_PREFIX, token, ',');
    NoCharNoPattern(piece, ", ");
    FirstPiece(piece, attributes);
    assert piece[..|TOKEN_PREFIX|] == TOKEN_PREFIX;
    assert piece[|TOKEN_PREFIX|..] == token;
  }

  /**
   * A token cookie folded after another cookie (`other, serviceToken=...; attributes`) is
   * found in the first piece, as the segment after the last ", ".
   */
  lemma FoldedCookie(other: string, token: string, attributes: string)
    requires !Contains(other, ";") && !Contains(token, ";") && !Contains(token, ",")
    ensures ServiceToken(TokenReply(true, Some(other + ", " + TOKEN_PREFIX + token + "; " + attributes))) == Some(token)
  {
    var segment := TOKEN_PREFIX + token;
    var piece := other + ", " + segment;
    CharFree(TOKEN_PREFIX, ';');
    CharFree(TOKEN_PREFIX, ',');
    CharFree(", ", ';');
    NoCharConcat(TOKEN_PREFIX, token, ';');
    NoCharConcat(TOKEN_PREFIX, token, ',');
    NoCharConcat(other, ", ", ';');
    NoCharConcat(other + ", ", segment, ';');
    assert other + ", " + TOKEN_PREFIX + token + "; " + attributes == piece + "; " + attributes;
    FirstPiece(piece, attributes);
    LastSegmentAfter(other, segment);
    assert segment[..|TOKEN_PREFIX|] == TOKEN_PREFIX;
    assert segment[|TOKEN_PREFIX|..] == token;
  }

  // ---------------------------------------------------------------------------------------
  // encodeURIComponent and clientSign
  // ---------------------------------------------------------------------------------------

  /** The characters `encodeURIComponent` leaves as they are. */
  predicate IsUnreserved(c: char) {
    IsAlnum(c) || c == '-' || c == '_' || c == '.' || c == '!' || c == '~' || c == '*' || c == '\'' || c == '(' || c == ')'
  }

  function UpperHexChar(d: nat): (c: char)
    requires d < 16
    ensures IsHexDigit(c) && HexDigitValue(c) == d
  {
    if d < 10 then ('0' as int + d) as char else ('A' as int + d - 10) as char
  }

  /** `%XY` for one byte, upper-case hex. */
  function PercentByte(b: byte): (r: string)
    ensures |r| == 3 && r[0] == '%' && IsHexDigit(r[1]) && IsHexDigit(r[2])
    ensures HexDigitValue(r[1]) * 16 + HexDigitValue(r[2]) == b
  {
    ['%', UpperHexChar(b / 16), UpperHexChar(b % 16)]
  }

  function PercentBytes(bs: seq<byte>): (r: string)
    ensures |r| == 3 * |bs|
  {
    if |bs| == 0 then "" else PercentByte(bs[0]) + PercentBytes(bs[1..])
  }

  /** Every character of an encoded text is unreserved, '%' or a hex digit. */
  predicate UriSafe(t: string) {
    forall k :: 0 <= k < |t| ==> IsUnreserved(t[k]) || t[k] == '%' || IsHexDigit(t[k])
  }

  lemma {:induction false} PercentBytesSafe(bs: seq<byte>)
    ensures UriSafe(PercentBytes(bs))
    decreases |bs|
  {
    if |bs| > 0 {
      PercentBytesSafe(bs[1..]);
      var head, tail := PercentByte(bs[0]), PercentBytes(bs[1..]);
      assert forall k :: 3 <= k < |head + tail| ==> (head + tail)[k] == tail[k - 3];
    }
  }

  /**
   * `encodeURIComponent(s)`: unreserved characters are kept, every other character becomes
   * the `%XY` escapes of its UTF-8 bytes.
   */
  function EncodeUriComponent(p: Primitives, s: string): (r: string)
    ensures UriSafe(r)
    ensures (forall k :: 0 <= k < |s| ==> IsUnreserved(s[k])) ==> r == s
    decreases |s|
  {
    if |s| == 0 then ""
    else
      var head := if IsUnreserved(s[0]) then [s[0]] else PercentBytes(p.utf8Encode([s[0]]));
      var tail := EncodeUriComponent(p, s[1..]);
      PercentBytesSafe(p.utf8Encode([s[0]]));
      assert forall k :: |head| <= k < |head + tail| ==> (head + tail)[k] == tail[k - |head|];
      assert (forall k :: 0 <= k < |s| ==> IsUnreserved(s[k])) ==> head == [s[0]] && (forall k :: 0 <= k < |s[1..]| ==> IsUnreserved(s[1..][k]));
      assert s == [s[0]] + s[1..];
      head + tail
  }

  /** The bytes an encoded text stands for: ASCII characters as themselves, `%XY` as one byte. */
  function PercentDecode(t: string): (r: Option<seq<byte>>)
    decreases |t|
  {
    if |t| == 0 then Some([])
    else if t[0] == '%' then
      if |t| >= 3 && IsHexDigit(t[1]) && IsHexDigit(t[2]) then
        match PercentDecode(t[3..])
        case None => None
        case Some(rest) => Some([HexDigitValue(t[1]) * 16 + HexDigitValue(t[2])] + rest)
      else None
    else if t[0] as int < 128 then
      match PercentDecode(t[1..])
      case None => None
      case Some(rest) => Some([t[0] as int] + rest)
    else None
  }

  /** What `encodeURIComponent` escapes: each character's bytes, ASCII unreserved ones as themselves. */
  function UriBytes(p: Primitives, s: string): seq<byte>
    decreases |s|
  {
    if |s| == 0 then []
    else (if IsUnreserved(s[0]) then [s[0] as int] else p.utf8Encode([s[0]])) + UriBytes(p, s[1..])
  }

  lemma {:induction false} PercentBytesDecode(bs: seq<byte>, t: string)
    requires PercentDecode(t).Some?
    ensures PercentDecode(PercentBytes(bs) + t) == Some(bs + PercentDecode(t).value)
    decreases |bs|
  {
    if |bs| > 0 {
      PercentBytesDecode(bs[1..], t);
      var head := PercentByte(bs[0]);
      var rest := PercentBytes(bs[1..]) + t;
      var whole := head + rest;
      assert PercentBytes(bs) + t == whole;
      var v := PercentDecode(t).value;
      assert whole[0] == '%' && whole[1] == head[1] && whole[2] == head[2] && whole[3..] == rest;
      assert PercentDecode(rest) == Some(bs[1..] + v);
      assert PercentDecode(whole) == Some([HexDigitValue(head[1]) * 16 + HexDigitValue(head[2])] + (bs[1..] + v));
      assert [HexDigitValue(head[1]) * 16 + HexDigitValue(head[2])] == [bs[0]];
      assert [bs[0]] + (bs[1..] + v) == bs + v;
    } else {
      assert PercentBytes(bs) + t == t;
      assert bs + PercentDecode(t).value == PercentDecode(t).value;
    }
  }

  /** Decoding an encoded text gives back the bytes its characters stand for. */
  lemma {:induction false} EncodeUriComponentDecodes(p: Primitives, s: string)
    ensures PercentDecode(EncodeUriComponent(p, s)) == Some(UriBytes(p, s))
    decreases |s|
  {
    if |s| > 0 {
      EncodeUriComponentDecodes(p, s[1..]);
      var tail := EncodeUriComponent(p, s[1..]);
      if IsUnreserved(s[0]) {
        var whole := [s[0]] + tail;
        assert whole[1..] == tail;
      } else {
        PercentBytesDecode(p.utf8Encode([s[0]]), tail);
      }
    }
  }

  /** The `clientSign` value: base64 of the lower-case hex SHA-1 of `nonce=<nonce>&<ssecurity>`. */
  function ClientSign(p: Primitives, nonce: Value, ssecurity: Value): (r: string)
    ensures Sound(p) ==>
      var hex := p.utf8Decode(p.base64Decode(r));
      && |hex| == 40 && (forall k :: 0 <= k < |hex| ==> IsHexDigit(hex[k]) && !IsUpper(hex[k]))
      && HexDecode(hex) == p.sha1(p.utf8Encode("nonce=" + JsString(nonce) + "&" + JsString(ssecurity)))
  {
    HexRoundTrip(p.sha1(p.utf8Encode("nonce=" + JsString(nonce) + "&" + JsString(ssecurity))));
    p.base64Encode(p.utf8Encode(HexEncode(p.sha1(p.utf8Encode("nonce=" + JsString(nonce) + "&" + JsString(ssecurity))))))
  }

  /** `sid === 'micoapi'`: only that service asks for a client signature. */
  predicate NeedClientSign(sid: string) { sid == "micoapi" }

  /**
   * The URL of the final redirect: the reply's `location`, followed by `&clientSign=` and the
   * escaped signature when one is needed.
   */
  function TokenUrl(p: Primitives, res: Value, needClientSign: bool): (r: string)
    requires !IsNullish(res)
    ensures StartsWith(r, JsString(Get(res, "location")))
    ensures !needClientSign ==> r == JsString(Get(res, "location"))
    ensures needClientSign ==> (r[|JsString(Get(res, "location"))|..]
      == "&clientSign=" + EncodeUriComponent(p, ClientSign(p, Get(res, "nonce"), Get(res, "ssecurity"))))
  {
    var location := JsString(Get(res, "location"));
    if needClientSign then
      var escaped := EncodeUriComponent(p, ClientSign(p, Get(res, "nonce"), Get(res, "ssecurity")));
      var r := location + ("&clientSign=" + escaped);
      assert r[..|location|] == location && r[|location|..] == "&clientSign=" + escaped;
      r
    else location
  }

  /** The escaped signature in the URL is plain ASCII and decodes back to the signature's bytes. */
  lemma ClientSignRecoverable(p: Primitives, res: Value)
    requires !IsNullish(res)
    ensures var sign := ClientSign(p, Get(res, "nonce"), Get(res, "ssecurity"));
      var escaped := TokenUrl(p, res, true)[|JsString(Get(res, "location"))| + 12..];
      UriSafe(escaped) && PercentDecode(escaped) == Some(UriBytes(p, sign))
  {
    var sign := ClientSign(p, Get(res, "nonce"), Get(res, "ssecurity"));
    var url := TokenUrl(p, res, true);
    var location := JsString(Get(res, "location"));
    assert url[|location| + 12..] == url[|location|..][12..];
    assert url[|location| + 12..] == EncodeUriComponent(p, sign);
    EncodeUriComponentDecodes(p, sign);
  }

  // ---------------------------------------------------------------------------------------
  // login
  // ---------------------------------------------------------------------------------------

  /** The stored configuration `login` reads and writes. */
  datatype Config = Config(userAgent: string, deviceId: string, serviceTokens: map<string, map<string, Value>>)

  datatype Error =
    | TypeError                                     // `res.code` read on `null`/`undefined`
    | LoginFailed(code: Value, description: Value)  // "Login failed <code> <description>"
    | TwoFactor(url: Value)                         // "Two factor authentication required ..."
    | MissingToken                                  // "Login failed missing serviceToken"

  /** `res.code !== 0`. */
  predicate CodeIsZero(res: Value)
    requires !IsNullish(res)
  {
    Get(res, "code") == Num(0)
  }

  /** Only an object can carry a `code` of 0. */
  lemma CodeZeroIsObject(res: Value)
    requires !IsNullish(res) && CodeIsZero(res)
    ensures res.Obj?
  {
    assert IndexKey("code").None? by { assert !IsDigit("code"[0]); }
  }

  /** The stored entry: the reply's fields with `serviceToken`, `userAgent` and `deviceId` on top. */
  function Entry(res: Value, token: string, config: Config): (r: map<string, Value>)
    requires res.Obj?
    ensures r.Keys == res.fields.Keys + {"serviceToken", "userAgent", "deviceId"}
    ensures r["serviceToken"] == Str(token) && r["userAgent"] == Str(config.userAgent) && r["deviceId"] == Str(config.deviceId)
    ensures forall k :: k in res.fields && k !in {"serviceToken", "userAgent", "deviceId"} ==> r[k] == res.fields[k]
  {
    res.fields + map["serviceToken" := Str(token), "userAgent" := Str(config.userAgent), "deviceId" := Str(config.deviceId)]
  }

  /**
   * What `login` does with the reply that settles the login (the first one when its code is 0,
   * the second one otherwise): its code must be 0, there must be no `notificationUrl`, and the
   * redirect must yield a non-empty token; only then is the entry for `sid` stored.
   */
  function Settle(p: Primitives, config: Config, sid: string, res: Value, fetch: string -> TokenReply): (r: Result<Config, Error>)
    ensures IsNullish(res) ==> r == Failure(TypeError)
    ensures !IsNullish(res) && !CodeIsZero(res) ==> r == Failure(LoginFailed(Get(res, "code"), Get(res, "description")))
    ensures !IsNullish(res) && CodeIsZero(res) && Truthy(Get(res, "notificationUrl")) ==> r == Failure(TwoFactor(Get(res, "notificationUrl")))
    ensures r.Success? ==> r.value.userAgent == config.userAgent && r.value.deviceId == config.deviceId
    ensures r.Success? ==> sid in r.value.serviceTokens && r.value.serviceTokens - {sid} == config.serviceTokens - {sid}
  {
    if IsNullish(res) then Failure(TypeError)
    else if !CodeIsZero(res) then Failure(LoginFailed(Get(res, "code"), Get(res, "description")))
    else if Truthy(Get(res, "notificationUrl")) then Failure(TwoFactor(Get(res, "notificationUrl")))
    else
      match ServiceToken(fetch(TokenUrl(p, res, NeedClientSign(sid))))
      case None => Failure(MissingToken)
      case Some(token) =>
        if token == "" then Failure(MissingToken)
        else
          CodeZeroIsObject(res);
          Success(Store(config, sid, Entry(res, token, config)))
  }

  /** `this.config.serviceTokens[sid] = entry`: no other service's entry changes. */
  function Store(config: Config, sid: string, entry: map<string, Value>): (r: Config)
    ensures r.userAgent == config.userAgent && r.deviceId == config.deviceId
    ensures sid in r.serviceTokens && r.serviceTokens[sid] == entry
    ensures r.serviceTokens - {sid} == config.serviceTokens - {sid}
  {
    config.(serviceTokens := config.serviceTokens[sid := entry])
  }

  /**
   * `login(sid)`. `first` is the reply to `serviceLogin`; `auth2` answers `serviceLoginAuth2`
   * for the reply it is given; `fetch` answers the final redirect. The second step is taken
   * only when the first reply's code is not 0.
   */
  function Login(p: Primitives, config: Config, sid: string, first: Value, auth2: Value -> Value,
                 fetch: string -> TokenReply): (r: Result<Config, Error>)
    ensures IsNullish(first) ==> r == Failure(TypeError)
    ensures !IsNullish(first) && CodeIsZero(first) ==> r == Settle(p, config, sid, first, fetch)
    ensures !IsNullish(first) && !CodeIsZero(first) ==> r == Settle(p, config, sid, auth2(first), fetch)
  {
    if IsNullish(first) then Failure(TypeError)
    else Settle(p, config, sid, if CodeIsZero(first) then first else auth2(first), fetch)
  }

  /** When the first reply's code is 0 the second step is never taken. */
  lemma LoginSkipsAuth2(p: Primitives, config: Config, sid: string, first: Value, a: Value -> Value, b: Value -> Value,
                        fetch: string -> TokenReply)
    requires !IsNullish(first) && CodeIsZero(first)
    ensures Login(p, config, sid, first, a, fetch) == Login(p, config, sid, first, b, fetch)
  {
  }

  /**
   * A successful login fetched the redirect URL with a client signature exactly when `sid` is
   * "micoapi", and stored the token that redirect yielded together with the reply that had code 0.
   */
  lemma LoginSucceeds(p: Primitives, config: Config, sid: string, first: Value, auth2: Value -> Value,
                      fetch: string -> TokenReply)
    requires Login(p, config, sid, first, auth2, fetch).Success?
    ensures !IsNullish(first)
    ensures var res := if CodeIsZero(first) then first else auth2(first);
      && !IsNullish(res) && res.Obj? && Get(res, "code") == Num(0) && !Truthy(Get(res, "notificationUrl"))
      && var url := TokenUrl(p, res, sid == "micoapi");
         && ServiceToken(fetch(url)).Some?
         && Login(p, config, sid, first, auth2, fetch).value.serviceTokens[sid] == Entry(res, ServiceToken(fetch(url)).value, config)
  {
    var res := if CodeIsZero(first) then first else auth2(first);
    CodeZeroIsObject(res);
  }

  /** A redirect whose reply is not ok, or carries no token, fails the login whatever came before. */
  lemma LoginNeedsToken(p: Primitives, config: Config, sid: string, first: Value, auth2: Value -> Value,
                        fetch: string -> TokenReply)
    requires forall url :: ServiceToken(fetch(url)).None?
    ensures Login(p, config, sid, first, auth2, fetch).Failure?
  {
  }
}

=== FILE: aqara_device.dfy ===
/**
 * The Aqara gateway device of `packages/aqara/src/Device.ts`: the key that pairs a reply with
 * the request waiting for it, the JSON payload `invoke` sends, and the pending-request table
 * that `invoke` fills and `onMessage` drains. The table is a map from key to the waiting
 * request; sending is an event that succeeds or fails. `setPromose` and `pullPromise`, which
 * the shared base device does not define, are read as a put into that table and a take from it.
 */
module AqaraDevice {
  import opened Wrappers
  import opened Strings
  import opened Json

  /** The fields of a gateway the device is built from. */
  datatype Info = Info(model: string, sid: string, shortId: int)

  // ---------------------------------------------------------------------------------------
  // The correlation key
  // ---------------------------------------------------------------------------------------

  const ACK := "_ack"

  /**
   * `uuid(cmd)` as written: an `_ack` command is cut with `substring(-1, 4)`, which clamps the
   * start to 0, so it keeps the first four characters whatever the command is.
   */
  function UuidAsWritten(sid: string, cmd: string): (r: string)
    ensures EndsWith(cmd, ACK) ==> r == cmd[..4] + sid
    ensures !EndsWith(cmd, ACK) ==> r == cmd + sid
  {
    if EndsWith(cmd, ACK) then cmd[..4] + sid else cmd + sid
  }

  /** The reply to `write` is keyed as `writ`, so it never finds the `write` request. */
  lemma WriteAckMissesWrite(sid: string)
    ensures UuidAsWritten(sid, "write_ack") == "writ" + sid
    ensures UuidAsWritten(sid, "write_ack") != UuidAsWritten(sid, "write")
  {
    assert EndsWith("write_ack", ACK);
    assert !EndsWith("write", ACK);
    assert "write_ack"[..4] == "writ";
    assert |UuidAsWritten(sid, "write_ack")| == 4 + |sid| < 5 + |sid| == |UuidAsWritten(sid, "write")|;
  }

  /**
   * The correlation key with the `_ack` suffix removed, so that a reply `<cmd>_ack` finds the
   * request `<cmd>`. The rest of this model uses it.
   */
  function Uuid(sid: string, cmd: string): (r: string)
    ensures EndsWith(cmd, ACK) ==> r == cmd[..|cmd| - |ACK|] + sid
    ensures !EndsWith(cmd, ACK) ==> r == cmd + sid
  {
    if EndsWith(cmd, ACK) then cmd[..|cmd| - |ACK|] + sid else cmd + sid
  }

  /** A reply's key is its request's key. */
  lemma AckCorrelates(sid: string, cmd: string)
    requires !EndsWith(cmd, ACK)
    ensures Uuid(sid, cmd + ACK) == Uuid(sid, cmd)
  {
    var c := cmd + ACK;
    assert c[|c| - |ACK|..] == ACK;
    assert c[..|c| - |ACK|] == cmd;
  }

  /** Two requests of one gateway share a key only when they are the same command. */
  lemma UuidInjective(sid: string, a: string, b: string)
    requires !EndsWith(a, ACK) && !EndsWith(b, ACK)
    ensures Uuid(sid, a) == Uuid(sid, b) <==> a == b
  {
    if Uuid(sid, a) == Uuid(sid, b) {
      assert |a| == |b|;
      assert a == (a + sid)[..|a|] == (b + sid)[..|b|] == b;
    }
  }

  /** The key as written agrees with the corrected one exactly for the four-letter commands, such as `read`. */
  lemma AsWrittenAgreesIff(sid: string, cmd: string)
    requires EndsWith(cmd, ACK)
    ensures UuidAsWritten(sid, cmd) == Uuid(sid, cmd) <==> |cmd| == 4 + |ACK|
  {
    if UuidAsWritten(sid, cmd) == Uuid(sid, cmd) {
      assert |cmd[..4] + sid| == |cmd[..|cmd| - |ACK|] + sid|;
    }
  }

  // ---------------------------------------------------------------------------------------
  // invoke and onMessage
  // ---------------------------------------------------------------------------------------

  /**
   * The object `invoke` sends (before `JSON.stringify`): command, model, sid and short id, and
   * `data` (the JSON text of the parameters, rendered by `stringify`) only when parameters
   * were given.
   */
  function Payload(info: Info, cmd: string, params: Value, stringify: Value -> string): (r: map<string, Value>)
    ensures r.Keys == {"cmd", "model", "sid", "short_id"} + (if Truthy(params) then {"data"} else {})
    ensures r["cmd"] == Str(cmd) && r["model"] == Str(info.model)
    ensures r["sid"] == Str(info.sid) && r["short_id"] == Num(info.shortId)
    ensures "data" in r ==> r["data"] == Str(stringify(params))
  {
    var base := map["cmd" := Str(cmd), "model" := Str(info.model), "sid" := Str(info.sid), "short_id" := Num(info.shortId)];
    if Truthy(params) then base["data" := Str(stringify(params))] else base
  }

  /** The parameters of `write`: the properties with `key` set to the generated key. */
  function WriteParams(props: map<string, Value>, key: string): (r: Value)
    ensures r.Obj? && r.fields.Keys == props.Keys + {"key"}
    ensures r.fields["key"] == Str(key)
    ensures forall k :: k in props && k != "key" ==> r.fields[k] == props[k]
  {
    Obj(props["key" := Str(key)])
  }

  /** A waiting request: the promise `invoke` returned, told apart by a number. */
  datatype Pending = Pending(request: nat)

  /** What `invoke` leaves behind: the table, the payload sent and whether the promise was rejected. */
  datatype Invocation = Invocation(table: map<string, Pending>, payload: map<string, Value>, rejected: bool)

  /**
   * `invoke(cmd, params)`: register the request under its key and send the payload; when the
   * send fails, reject and take the entry out again.
   */
  function Invoke(info: Info, table: map<string, Pending>, cmd: string, params: Value,
                  stringify: Value -> string, waiter: Pending, sendOk: bool): (r: Invocation)
    ensures r.payload == Payload(info, cmd, params, stringify)
    ensures r.rejected <==> !sendOk
    ensures sendOk ==> Uuid(info.sid, cmd) in r.table && r.table[Uuid(info.sid, cmd)] == waiter
    ensures !sendOk ==> Uuid(info.sid, cmd) !in r.table
    ensures forall k :: k != Uuid(info.sid, cmd) ==> (k in r.table <==> k in table)
    ensures forall k :: k in table && k != Uuid(info.sid, cmd) ==> r.table[k] == table[k]
  {
    var id := Uuid(info.sid, cmd);
    var registered := table[id := waiter];
    Invocation(if sendOk then registered else registered - {id}, Payload(info, cmd, params, stringify), !sendOk)
  }

  /** A reply handed to the waiting request. */
  datatype Delivery = Delivery(waiter: Pending, data: Value)

  /** What `onMessage` does: nothing for text that is not JSON, a throw, or a handled reply. */
  datatype Reaction = Ignored | Threw | Handled(table: map<string, Pending>, delivered: Option<Delivery>)

  /**
   * `onMessage(buffer)`, given the result of `JSON.parse` (`None` when it throws): destructuring
   * `null` throws, as does `endsWith` on a `cmd` that is not text; otherwise the entry under the
   * reply's key, if there is one, is taken out of the table and resolved with `data`.
   */
  function OnMessage(sid: string, table: map<string, Pending>, message: Option<Value>): (r: Reaction)
    ensures r.Ignored? <==> message.None?
    ensures r.Threw? <==> message.Some? && (IsNullish(message.value) || !Get(message.value, "cmd").Str?)
    ensures r.Handled? ==> (r.delivered.Some? <==> Uuid(sid, Get(message.value, "cmd").s) in table)
    ensures r.Handled? && r.delivered.Some? ==>
      var id := Uuid(sid, Get(message.value, "cmd").s);
      r.table == table - {id} && r.delivered.value == Delivery(table[id], Get(message.value, "data"))
    ensures r.Handled? && r.delivered.None? ==> r.table == table
  {
    match message
    case None => Ignored
    case Some(v) =>
      if IsNullish(v) then Threw
      else
        match Get(v, "cmd")
        case Str(cmd) =>
          var id := Uuid(sid, cmd);
          if id in table then Handled(table - {id}, Some(Delivery(table[id], Get(v, "data"))))
          else Handled(table, None)
        case _ => Threw
  }

  /** The gateway's reply `{cmd: <cmd>_ack, data}`. */
  function Reply(cmd: string, data: Value): Value {
    Obj(map["cmd" := Str(cmd + ACK), "data" := data])
  }

  /**
   * After a successful `invoke(cmd)`, the gateway's `<cmd>_ack` reply resolves exactly that
   * request with the reply's data and removes it from the table.
   */
  lemma ReplyResolvesInvoke(info: Info, table: map<string, Pending>, cmd: string, params: Value,
                            stringify: Value -> string, waiter: Pending, data: Value)
    requires !EndsWith(cmd, ACK)
    ensures var sent := Invoke(info, table, cmd, params, stringify, waiter, true);
      var r := OnMessage(info.sid, sent.table, Some(Reply(cmd, data)));
      r.Handled? && r.delivered == Some(Delivery(waiter, data))
      && Uuid(info.sid, cmd) !in r.table
  {
    AckCorrelates(info.sid, cmd);
  }

  /** A reply is delivered at most once: the same reply again finds nothing. */
  lemma DeliveredOnce(sid: string, table: map<string, Pending>, message: Value)
    requires OnMessage(sid, table, Some(message)).Handled?
    ensures var r := OnMessage(sid, table, Some(message));
      var again := OnMessage(sid, r.table, Some(message));
      again.Handled? && again.delivered.None? && again.table == r.table
  {
  }

  /** After a failed send, the reply to that command finds no waiting request. */
  lemma FailedSendLeavesNothing(info: Info, table: map<string, Pending>, cmd: string, params: Value,
                                stringify: Value -> string, waiter: Pending, data: Value)
    requires !EndsWith(cmd, ACK)
    ensures var sent := Invoke(info, table, cmd, params, stringify, waiter, false);
      sent.rejected && OnMessage(info.sid, sent.table, Some(Reply(cmd, data))) == Handled(sent.table, None)
  {
    AckCorrelates(info.sid, cmd);
  }

  /** `read()` and `getIdList()` send no `data`; `write(props)` always does. */
  lemma PayloadData(info: Info, props: map<string, Value>, key: string, stringify: Value -> string)
    ensures "data" !in Payload(info, "read", Undefined, stringify)
    ensures "data" !in Payload(info, "get_id_list", Undefined, stringify)
    ensures "data" in Payload(info, "write", WriteParams(props, key), stringify)
  {
  }
}

=== FILE: base_device.dfy ===
/**
 * `BaseDevice`: the attribute store, the id counter shared by all devices, the table of
 * requests waiting for a reply, and the bounded wait for an in-flight TCP connect.
 *
 * Timers and the socket are events of a state machine: a request is issued, then a reply,
 * an error reply, its 500 ms timer or a send failure settles it. `now` is a millisecond count
 * supplied by the caller.
 */
module BaseDevice {
  import opened Wrappers
  import opened Json

  // ---------------------------------------------------------------------------------------
  // Attributes
  // ---------------------------------------------------------------------------------------

  type Attributes = map<string, Value>

  /** `getAttribute(key)`: `undefined` for a key never set. */
  function GetAttribute(attrs: Attributes, key: string): (v: Value)
    ensures key !in attrs ==> v == Undefined
  {
    if key in attrs then attrs[key] else Undefined
  }

  /** `hasAttribute(key)`. */
  predicate HasAttribute(attrs: Attributes, key: string) {
    key in attrs
  }

  /** `setAttribute(key, value)`. */
  function SetAttribute(attrs: Attributes, key: string, value: Value): (r: Attributes)
    ensures key in r && r[key] == value
    ensures r.Keys == attrs.Keys + {key}
    ensures forall k :: k in attrs && k != key ==> r[k] == attrs[k]
  {
    attrs[key := value]
  }

  /** `setAttributes(record)`: the store becomes exactly the record's entries. */
  function SetAttributes(attrs: Attributes, record: map<string, Value>): (r: Attributes)
    ensures r == record
  {
    record
  }

  /** `getAttributes()`: a copy of the store in which `host` and `port` override stored keys of the same name. */
  function GetAttributes(attrs: Attributes, host: string, port: int): (r: map<string, Value>)
    ensures r.Keys == attrs.Keys + {"host", "port"}
    ensures r["host"] == Str(host) && r["port"] == Num(port)
    ensures forall k :: k in attrs && k != "host" && k != "port" ==> r[k] == attrs[k]
  {
    attrs["host" := Str(host)]["port" := Num(port)]
  }

  /** Reading a key back after setting it gives the value; every other key reads as before. */
  lemma GetAfterSet(attrs: Attributes, key: string, value: Value, other: string)
    ensures GetAttribute(SetAttribute(attrs, key, value), key) == value
    ensures HasAttribute(SetAttribute(attrs, key, value), key)
    ensures other != key ==> GetAttribute(SetAttribute(attrs, key, value), other) == GetAttribute(attrs, other)
  {
  }

  // ---------------------------------------------------------------------------------------
  // generateId: one counter for all devices
  // ---------------------------------------------------------------------------------------

  /** `generateId()`: pre-increment of the shared counter. */
  function GenerateId(counter: int): (r: (int, int))
    ensures r.0 == r.1 && r.0 > counter
  {
    (counter + 1, counter + 1)
  }

  /** The ids handed out by `n` consecutive calls, from any device. */
  function GenerateIds(counter: int, n: nat): (ids: seq<int>)
    ensures |ids| == n
    ensures forall i :: 0 <= i < n ==> ids[i] > counter
    decreases n
  {
    if n == 0 then []
    else
      var (id, counter') := GenerateId(counter);
      [id] + GenerateIds(counter', n - 1)
  }

  /** Ids come out strictly increasing, so no two calls return the same id. */
  lemma {:induction false} GenerateIdsIncreasing(counter: int, n: nat)
    ensures forall i, j :: 0 <= i < j < n ==> GenerateIds(counter, n)[i] < GenerateIds(counter, n)[j]
    decreases n
  {
    if n > 0 {
      var id := counter + 1;
      GenerateIdsIncreasing(id, n - 1);
      var ids := GenerateIds(counter, n);
      var rest := GenerateIds(id, n - 1);
      assert ids == [id] + rest;
      forall i, j | 0 <= i < j < n ensures ids[i] < ids[j] {
        assert ids[j] == rest[j - 1];
        if i > 0 {
          assert ids[i] == rest[i - 1];
          assert rest[i - 1] < rest[j - 1];
        } else {
          assert rest[j - 1] > id;
        }
      }
    }
  }

  // ---------------------------------------------------------------------------------------
  // The waiting-request table
  // ---------------------------------------------------------------------------------------

  const REQUEST_TIMEOUT_MS: int := 500

  /** How a request's promise settled. */
  datatype Outcome = Resolved(value: Value) | Rejected(reason: string)

  /**
   * One `request(uuid, data, options)` call: its uuid, whether it disconnects after settling,
   * its promise's outcome once settled, and whether its timeout timer is still pending.
   */
  datatype Request = Request(uuid: string, deconnect: bool, outcome: Option<Outcome>, armed: bool, deadline: int)

  /**
   * Every request issued so far (indexed by issue order) and the `_waitingRequests` map,
   * from uuid to the request whose callbacks it holds.
   */
  datatype Table = Table(requests: seq<Request>, waiting: map<string, nat>)

  /** A request still has its timer pending exactly when its promise has not settled; every
   *  waiting entry points at an unsettled request with the same uuid. */
  ghost predicate Valid(t: Table) {
    && (forall r :: 0 <= r < |t.requests| ==> (t.requests[r].armed <==> t.requests[r].outcome.None?))
    && (forall u :: u in t.waiting ==>
          t.waiting[u] < |t.requests|
          && t.requests[t.waiting[u]].uuid == u
          && t.requests[t.waiting[u]].outcome.None?)
  }

  function Empty(): (t: Table)
    ensures Valid(t) && t.waiting == map[]
  {
    Table([], map[])
  }

  /**
   * `request(uuid, data, options)` at time `now`: arm a 500 ms timer and register the
   * request under its uuid, replacing whatever entry the uuid had.
   */
  function Issue(t: Table, uuid: string, deconnect: bool, now: int): (r: Table)
    requires Valid(t)
    ensures Valid(r)
    ensures |r.requests| == |t.requests| + 1 && r.requests[..|t.requests|] == t.requests
    ensures r.waiting == t.waiting[uuid := |t.requests|]
    ensures r.requests[|t.requests|] == Request(uuid, deconnect, None, true, now + REQUEST_TIMEOUT_MS)
  {
    Table(t.requests + [Request(uuid, deconnect, None, true, now + REQUEST_TIMEOUT_MS)], t.waiting[uuid := |t.requests|])
  }

  /** `getWaitingRequest(uuid)`: the request whose callbacks are registered under the uuid. */
  function GetWaitingRequest(t: Table, uuid: string): (r: Option<nat>)
    requires Valid(t)
    ensures r.Some? <==> uuid in t.waiting
    ensures r.Some? ==> r.value < |t.requests| && t.requests[r.value].uuid == uuid && t.requests[r.value].outcome.None?
  {
    if uuid in t.waiting then Some(t.waiting[uuid]) else None
  }

  /**
   * The shared `clear()` then settle of request `r`'s `onResolve`/`onReject`: the uuid's entry
   * is deleted whichever request it belongs to, this request's timer is cleared, and the
   * promise keeps its first outcome. The flag says whether `deconnect()` is called.
   */
  function Settle(t: Table, r: nat, o: Outcome): (res: (Table, bool))
    requires Valid(t) && r < |t.requests|
    ensures Valid(res.0)
    ensures |res.0.requests| == |t.requests|
    ensures res.0.waiting == t.waiting - {t.requests[r].uuid}
    ensures !res.0.requests[r].armed
    ensures res.0.requests[r].outcome == if t.requests[r].outcome.Some? then t.requests[r].outcome else Some(o)
    ensures forall q :: 0 <= q < |t.requests| && q != r ==> res.0.requests[q] == t.requests[q]
    ensures res.1 == t.requests[r].deconnect
  {
    var req := t.requests[r];
    var outcome := if req.outcome.Some? then req.outcome else Some(o);
    var t' := Table(t.requests[r := req.(outcome := outcome, armed := false)], t.waiting - {req.uuid});
    (t', req.deconnect)
  }

  /** A reply `{id, result}` for a uuid: the waiting request, if any, resolves. */
  function Deliver(t: Table, uuid: string, v: Value): (res: (Table, bool))
    requires Valid(t)
    ensures Valid(res.0)
    ensures uuid !in t.waiting ==> res == (t, false)
    ensures uuid in t.waiting ==> res == Settle(t, t.waiting[uuid], Resolved(v))
  {
    match GetWaitingRequest(t, uuid)
    case None => (t, false)
    case Some(r) => Settle(t, r, Resolved(v))
  }

  /** An error reply for a uuid: the waiting request, if any, rejects. */
  function DeliverError(t: Table, uuid: string, reason: string): (res: (Table, bool))
    requires Valid(t)
    ensures Valid(res.0)
    ensures uuid !in t.waiting ==> res == (t, false)
    ensures uuid in t.waiting ==> res == Settle(t, t.waiting[uuid], Rejected(reason))
  {
    match GetWaitingRequest(t, uuid)
    case None => (t, false)
    case Some(r) => Settle(t, r, Rejected(reason))
  }

  /** The rejection a timer delivers. */
  function TimeoutReason(uuid: string): string {
    "Request timeout " + uuid
  }

  /** Request `r`'s timer fires at `now`; nothing happens unless it is pending and due. */
  function Fire(t: Table, r: nat, now: int): (res: (Table, bool))
    requires Valid(t) && r < |t.requests|
    ensures Valid(res.0) && |res.0.requests| == |t.requests|
    ensures !(t.requests[r].armed && now >= t.requests[r].deadline) ==> res == (t, false)
    ensures t.requests[r].armed && now >= t.requests[r].deadline ==>
      res.0.requests[r].outcome == Some(Rejected(TimeoutReason(t.requests[r].uuid)))
  {
    if t.requests[r].armed && now >= t.requests[r].deadline then Settle(t, r, Rejected(TimeoutReason(t.requests[r].uuid)))
    else (t, false)
  }

  /** `send(data).catch(onReject)`: a send failure runs request `r`'s `onReject`, settled or not. */
  function SendFailed(t: Table, r: nat, err: string): (res: (Table, bool))
    requires Valid(t) && r < |t.requests|
    ensures Valid(res.0)
    ensures res == Settle(t, r, Rejected(err))
  {
    Settle(t, r, Rejected(err))
  }

  /** The events that drive the table. */
  datatype Event =
    | IssueEvent(uuid: string, deconnect: bool, now: int)
    | ReplyEvent(uuid: string, v: Value)
    | ErrorEvent(uuid: string, reason: string)
    | TimerEvent(r: nat, now: int)
    | SendFailEvent(r: nat, err: string)

  /** One event; events naming a request that does not exist change nothing. */
  function Step(t: Table, e: Event): (res: (Table, bool))
    requires Valid(t)
    ensures Valid(res.0)
    ensures |res.0.requests| >= |t.requests|
    ensures forall q :: 0 <= q < |t.requests| && t.requests[q].outcome.Some? ==> res.0.requests[q] == t.requests[q]
  {
    match e
    case IssueEvent(uuid, d, now) => (Issue(t, uuid, d, now), false)
    case ReplyEvent(uuid, v) => Deliver(t, uuid, v)
    case ErrorEvent(uuid, reason) => DeliverError(t, uuid, reason)
    case TimerEvent(r, now) => if r < |t.requests| then Fire(t, r, now) else (t, false)
    case SendFailEvent(r, err) => if r < |t.requests| then SendFailed(t, r, err) else (t, false)
  }

  /** The table after a run of events. */
  function Run(t: Table, es: seq<Event>): (r: Table)
    requires Valid(t)
    ensures Valid(r)
    decreases |es|
  {
    if |es| == 0 then t else Run(Step(t, es[0]).0, es[1..])
  }

  /** A settled promise never changes again, whatever events follow: each request settles at most once. */
  lemma {:induction false} SettledStaysSettled(t: Table, es: seq<Event>, q: nat)
    requires Valid(t) && q < |t.requests| && t.requests[q].outcome.Some?
    ensures q < |Run(t, es).requests| && Run(t, es).requests[q] == t.requests[q]
    decreases |es|
  {
    if |es| > 0 {
      var t' := Step(t, es[0]).0;
      SettledStaysSettled(t', es[1..], q);
    }
  }

  /** A reply for a uuid reaches its waiting request once; a second identical reply finds no entry. */
  lemma DeliveredOnce(t: Table, uuid: string, v: Value, w: Value)
    requires Valid(t) && uuid in t.waiting
    ensures var t1 := Deliver(t, uuid, v).0;
      && t1.requests[t.waiting[uuid]].outcome == Some(Resolved(v))
      && GetWaitingRequest(t1, uuid).None?
      && Deliver(t1, uuid, w) == (t1, false)
  {
  }

  /** Issuing a request makes it the waiting one for its uuid, unsettled, with its timer pending. */
  lemma IssueThenWaiting(t: Table, uuid: string, d: bool, now: int)
    requires Valid(t)
    ensures var t1 := Issue(t, uuid, d, now);
      GetWaitingRequest(t1, uuid) == Some(|t.requests|) && t1.requests[|t.requests|].armed
  {
  }

  /**
   * Two requests under one uuid share the entry: the second replaces the first, and when the
   * first settles (say, by a send failure) it deletes the entry, so the second can no longer
   * be found although it is still pending.
   */
  lemma SharedUuidEntry(t: Table, uuid: string, now: int, err: string)
    requires Valid(t)
    ensures var t1 := Issue(Issue(t, uuid, false, now), uuid, false, now);
      var first := |t.requests|;
      && GetWaitingRequest(t1, uuid) == Some(first + 1)
      && var t2 := SendFailed(t1, first, err).0;
      && GetWaitingRequest(t2, uuid).None?
      && t2.requests[first + 1].outcome.None? && t2.requests[first + 1].armed
  {
  }

  /** A pending request whose deadline has passed is rejected with the timeout message by its timer. */
  lemma TimeoutRejects(t: Table, uuid: string, d: bool, now: int, later: int)
    requires Valid(t) && later >= now + REQUEST_TIMEOUT_MS
    ensures var t1 := Issue(t, uuid, d, now);
      var (t2, closes) := Fire(t1, |t.requests|, later);
      && t2.requests[|t.requests|].outcome == Some(Rejected("Request timeout " + uuid))
      && GetWaitingRequest(t2, uuid).None?
      && closes == d
  {
  }

  // ---------------------------------------------------------------------------------------
  // connect(): waiting for an in-flight TCP connect
  // ---------------------------------------------------------------------------------------

  const CONNECT_CHECKS: nat := 30

  /**
   * The `waitForConnect` poll: `connecting(k)` is whether the TCP client is still connecting
   * at the k-th check. Each check that finds it connecting decrements the counter and, while
   * the counter stays non-zero, sleeps 100 ms before the next check.
   */
  method WaitForConnect(connecting: nat -> bool) returns (sleeps: nat, rejected: bool)
    ensures sleeps <= CONNECT_CHECKS - 1
    ensures rejected <==> forall k :: 0 <= k < CONNECT_CHECKS ==> connecting(k)
    ensures rejected ==> sleeps == CONNECT_CHECKS - 1
    ensures !rejected ==> !connecting(sleeps) && forall k :: 0 <= k < sleeps ==> connecting(k)
  {
    var counts: int := CONNECT_CHECKS;
    sleeps := 0;
    while true
      invariant 0 <= sleeps < CONNECT_CHECKS
      invariant counts == CONNECT_CHECKS - sleeps
      invariant forall k :: 0 <= k < sleeps ==> connecting(k)
      decreases counts
    {
      if connecting(sleeps) {
        counts := counts - 1;
        if counts == 0 { break; }
        sleeps := sleeps + 1;
      } else {
        break;
      }
    }
    rejected := counts <= 0;
  }

  /** The client a device holds when `connect()` is called. */
  datatype Client = NoClient | UdpClient | TcpClient

  /** What `connect()` does: resolve at once for UDP, poll for TCP, open a socket otherwise. */
  datatype ConnectResult = Connected | ConnectTimeout | OpensSocket

  method Connect(client: Client, connecting: nat -> bool) returns (r: ConnectResult, sleeps: nat)
    ensures client == UdpClient ==> r == Connected && sleeps == 0
    ensures client == NoClient ==> r == OpensSocket && sleeps == 0
    ensures client == TcpClient ==>
      (r == ConnectTimeout <==> forall k :: 0 <= k < CONNECT_CHECKS ==> connecting(k))
    ensures client == TcpClient ==> r != OpensSocket && sleeps < CONNECT_CHECKS
  {
    match client
    case UdpClient => r, sleeps := Connected, 0;
    case NoClient => r, sleeps := OpensSocket, 0;
    case TcpClient =>
      var rejected;
      sleeps, rejected := WaitForConnect(connecting);
      r := if rejected then ConnectTimeout else Connected;
  }
}

=== FILE: bytes.dfy ===
/** Octets, Node `Buffer` integer accessors (big-endian) and the `'hex'` encoding. */
module Bytes {
  import opened Strings

  /** An octet, as the integers 0..255 that a Node `Buffer` holds. */
  type byte = x: int | 0 <= x < 256

  const TWO_16: int := 0x1_0000
  const TWO_32: int := 0x1_0000_0000

  predicate IsU16(n: int) { 0 <= n < TWO_16 }
  predicate IsU32(n: int) { 0 <= n < TWO_32 }

  function ByteOf(n: int): (b: byte)
    requires 0 <= n < 256
    ensures b == n
  {
    n
  }

  /** `n` copies of the byte `b`. */
  function Fill(n: nat, b: byte): (r: seq<byte>)
    ensures |r| == n && forall i :: 0 <= i < n ==> r[i] == b
  {
    seq(n, _ => b)
  }

  /** `writeUInt16BE(n)`: two bytes, most significant first. */
  function U16BE(n: int): (r: seq<byte>)
    requires IsU16(n)
    ensures |r| == 2
  {
    [ByteOf(n / 256), ByteOf(n % 256)]
  }

  /** `writeUInt32BE(n)`: four bytes, most significant first. */
  function U32BE(n: int): (r: seq<byte>)
    requires IsU32(n)
    ensures |r| == 4
  {
    var n1 := n / 256;
    var n2 := n1 / 256;
    [ByteOf(n2 / 256), ByteOf(n2 % 256), ByteOf(n1 % 256), ByteOf(n % 256)]
  }

  /** `readUInt16BE(off)`. */
  function ReadU16BE(s: seq<byte>, off: nat): (n: int)
    requires off + 2 <= |s|
    ensures IsU16(n)
  {
    (s[off] as int) * 256 + s[off + 1]
  }

  /** `readUInt32BE(off)`. */
  function ReadU32BE(s: seq<byte>, off: nat): (n: int)
    requires off + 4 <= |s|
    ensures IsU32(n)
  {
    (s[off] as int) * 0x100_0000 + (s[off + 1] as int) * 0x1_0000 + (s[off + 2] as int) * 256 + s[off + 3]
  }

  lemma U16RoundTrip(n: int)
    requires IsU16(n)
    ensures ReadU16BE(U16BE(n), 0) == n
  {
  }

  lemma U32RoundTrip(n: int)
    requires IsU32(n)
    ensures ReadU32BE(U32BE(n), 0) == n
  {
  }

  /** Division by 256 undoes `q * 256 + r` for a byte-sized remainder. */
  lemma DivMod256(q: int, r: int)
    requires 0 <= r < 256
    ensures (q * 256 + r) / 256 == q && (q * 256 + r) % 256 == r
  {
  }

  /** Reading four bytes and writing the number back reproduces the bytes. */
  lemma U32ReadWrite(s: seq<byte>, off: nat)
    requires off + 4 <= |s|
    ensures U32BE(ReadU32BE(s, off)) == s[off..off + 4]
  {
    var n := ReadU32BE(s, off);
    var a: int, b: int, c: int, d: int := s[off], s[off + 1], s[off + 2], s[off + 3];
    var m2 := a * 256 + b;
    var m1 := m2 * 256 + c;
    assert n == m1 * 256 + d;
    DivMod256(m1, d);
    DivMod256(m2, c);
    DivMod256(a, b);
    var r := U32BE(n);
    assert r[0] == s[off] && r[1] == s[off + 1] && r[2] == s[off + 2] && r[3] == s[off + 3];
    assert r == s[off..off + 4];
  }

  /** Reading at an offset only depends on the four bytes there. */
  lemma ReadU32BEAt(prefix: seq<byte>, n: int, suffix: seq<byte>)
    requires IsU32(n)
    ensures ReadU32BE(prefix + U32BE(n) + suffix, |prefix|) == n
  {
    var s := prefix + U32BE(n) + suffix;
    assert s[|prefix|..|prefix| + 4] == U32BE(n);
    U32RoundTrip(n);
  }

  /** `2^k`. */
  function Pow2(k: nat): (r: nat)
    ensures r >= 1
  {
    if k == 0 then 1 else 2 * Pow2(k - 1)
  }

  /** Exclusive or of the low `k` bits of `a` and `b`, least significant bit first. */
  function XorBits(a: nat, b: nat, k: nat): (r: nat)
    ensures r < Pow2(k)
  {
    if k == 0 then 0 else 2 * XorBits(a / 2, b / 2, k - 1) + (a % 2 + b % 2) % 2
  }

  /** Bitwise exclusive or of two octets (`a ^ b`). */
  function Xor(a: byte, b: byte): (r: byte)
  {
    XorBits(a, b, 8)
  }

  /** Applying the same `k`-bit mask twice gives back a number below `2^k`. */
  lemma {:induction false} XorBitsInvolution(a: nat, m: nat, k: nat)
    requires a < Pow2(k)
    ensures XorBits(XorBits(a, m, k), m, k) == a
  {
    if k > 0 {
      var y := XorBits(a / 2, m / 2, k - 1);
      var bit := (a % 2 + m % 2) % 2;
      HalveBit(y, bit);
      assert a / 2 < Pow2(k - 1);
      XorBitsInvolution(a / 2, m / 2, k - 1);
      assert (bit + m % 2) % 2 == a % 2;
    }
  }

  /** A number written as twice `y` plus a bit halves to `y` with that bit left over. */
  lemma HalveBit(y: nat, bit: nat)
    requires bit < 2
    ensures (2 * y + bit) / 2 == y && (2 * y + bit) % 2 == bit
  {
  }

  /** Exclusive or with the same key byte twice is the identity. */
  lemma XorInvolution(a: byte, k: byte)
    ensures Xor(Xor(a, k), k) == a
  {
    assert Pow2(8) == 256;
    XorBitsInvolution(a, k, 8);
  }

  // ---------------------------------------------------------------------------------------
  // 'hex' encoding
  // ---------------------------------------------------------------------------------------

  function HexChar(d: nat): (c: char)
    requires d < 16
    ensures IsHexDigit(c) && HexDigitValue(c) == d && !IsUpper(c)
  {
    if d < 10 then ('0' as int + d) as char else ('a' as int + d - 10) as char
  }

  /** `buf.toString('hex')`: two lower-case digits per byte. */
  function HexEncode(b: seq<byte>): (r: string)
    ensures |r| == 2 * |b|
    ensures forall k :: 0 <= k < |r| ==> IsHexDigit(r[k]) && !IsUpper(r[k])
  {
    if |b| == 0 then ""
    else [HexChar(b[0] / 16), HexChar(b[0] % 16)] + HexEncode(b[1..])
  }

  /** `Buffer.from(text, 'hex')`: digit pairs are decoded until the first pair that is not two hex digits. */
  function HexDecode(text: string): (r: seq<byte>)
    ensures |r| <= |text| / 2
    decreases |text|
  {
    if |text| >= 2 && IsHexDigit(text[0]) && IsHexDigit(text[1]) then
      [ByteOf(HexDigitValue(text[0]) * 16 + HexDigitValue(text[1]))] + HexDecode(text[2..])
    else []
  }

  /** Digits 2k and 2k+1 of the rendering are the high and low nibble of byte k. */
  lemma {:induction false} HexEncodeAt(b: seq<byte>, k: nat)
    requires k < |b|
    ensures HexEncode(b)[2 * k] == HexChar(b[k] / 16) && HexEncode(b)[2 * k + 1] == HexChar(b[k] % 16)
    decreases k
  {
    if k > 0 {
      HexEncodeAt(b[1..], k - 1);
      assert HexEncode(b)[2..] == HexEncode(b[1..]);
    }
  }

  /** Hex-decoding the hex rendering of bytes gives the bytes back. */
  lemma {:induction false} HexRoundTrip(b: seq<byte>)
    ensures HexDecode(HexEncode(b)) == b
  {
    if |b| > 0 {
      var t := HexEncode(b);
      assert t[2..] == HexEncode(b[1..]);
      HexRoundTrip(b[1..]);
      assert b == [b[0]] + b[1..];
    }
  }

  /** A text made of 2n hex digits decodes to exactly n bytes. */
  lemma {:induction false} HexDecodeLength(text: string)
    requires |text| % 2 == 0 && AllHexDigits(text)
    ensures |HexDecode(text)| == |text| / 2
    decreases |text|
  {
    if |text| >= 2 {
      assert AllHexDigits(text[2..]);
      HexDecodeLength(text[2..]);
    }
  }

  /** The `k`-th decoded byte comes from the `k`-th pair of digits. */
  lemma {:induction false} HexDecodeAt(text: string, k: nat)
    requires |text| % 2 == 0 && AllHexDigits(text) && k < |text| / 2
    ensures |HexDecode(text)| == |text| / 2
    ensures HexDecode(text)[k] == HexDigitValue(text[2 * k]) * 16 + HexDigitValue(text[2 * k + 1])
    decreases k
  {
    HexDecodeLength(text);
    if k > 0 {
      assert AllHexDigits(text[2..]);
      HexDecodeAt(text[2..], k - 1);
    }
  }

  /** Reading two bytes at an offset only depends on the bytes there. */
  lemma ReadU16BEAt(prefix: seq<byte>, n: int, suffix: seq<byte>)
    requires IsU16(n)
    ensures ReadU16BE(prefix + U16BE(n) + suffix, |prefix|) == n
  {
    var s := prefix + U16BE(n) + suffix;
    assert s[|prefix|..|prefix| + 2] == U16BE(n);
    U16RoundTrip(n);
  }
}

=== FILE: cloud_api.dfy ===
/**
 * The pure parts of the legacy cloud client `Api`: its base URL, the path it signs, the
 * request body it builds, the three-step login with the `serviceToken` cookie scan, and the
 * check on the `result` of a reply. The HTTP exchanges are inputs: each step receives the
 * reply it would have fetched.
 */
module CloudApi {
  import opened Wrappers
  import opened Strings
  import opened Json
  import opened Crypto
  import opened Signing

  // ---------------------------------------------------------------------------------------
  // Construction
  // ---------------------------------------------------------------------------------------

  const DEFAULT_BASE_URL: string := "https://api.io.mi.com/app"

  /** The base URL: a truthy country selects its regional host. */
  function BaseUrl(country: Option<string>): (r: string)
    ensures country.None? || country == Some("") ==> r == DEFAULT_BASE_URL
    ensures country.Some? && country.value != "" ==> r == "https://" + country.value + ".api.io.mi.com/app"
  {
    match country
    case Some(c) => if c != "" then "https://" + c + ".api.io.mi.com/app" else DEFAULT_BASE_URL
    case None => DEFAULT_BASE_URL
  }

  /** `options.locale ?? 'en'`. */
  function Locale(locale: Option<string>): (r: string)
    ensures locale.Some? ==> r == locale.value
    ensures locale.None? ==> r == "en"
  {
    locale.GetOr("en")
  }

  // ---------------------------------------------------------------------------------------
  // The signed path
  // ---------------------------------------------------------------------------------------

  /**
   * `url.split('com')[1].replace('/app/', '/')`: the text between the first and second
   * "com", with its first "/app/" shortened to "/". `None` when the URL holds no "com", where
   * reading `replace` of `undefined` throws.
   */
  function SignedPath(url: string): (r: Option<string>)
    ensures r.None? <==> !Contains(url, "com")
    ensures r.Some? ==> r.value == ReplaceFirst(Split(url, "com")[1], "/app/", "/")
  {
    SplitSingle(url, "com");
    var parts := Split(url, "com");
    if |parts| < 2 then None else Some(ReplaceFirst(parts[1], "/app/", "/"))
  }

  /** A text that starts with '/' gains no "com" from a "/app" in front of it. */
  lemma NoComAfterApp(path: string)
    requires |path| > 0 && path[0] == '/' && !Contains(path, "com")
    ensures !Contains("/app" + path, "com")
  {
    var s := "/app" + path;
    forall k | 0 <= k <= |s| ensures !IsOccurrence(s, "com", k) {
      if k < 4 {
        assert s[k] != 'c';
      } else if IsOccurrence(s, "com", k) {
        assert s[k..k + 3] == path[k - 4..k - 4 + 3];
        assert IsOccurrence(path, "com", k - 4);
      }
    }
  }

  /** On the default host, a request path that starts with '/' and holds no "com" is signed as it is. */
  lemma SignedPathDefault(path: string)
    requires |path| > 0 && path[0] == '/' && !Contains(path, "com")
    ensures SignedPath(DEFAULT_BASE_URL + path) == Some(path)
  {
    var url := DEFAULT_BASE_URL + path;
    assert IsOccurrence(url, "com", 18);
    forall k | 0 <= k < 18 ensures !IsOccurrence(url, "com", k) {
      assert url[k] == DEFAULT_BASE_URL[k];
    }
    assert IndexOf(url, "com") == Some(18);
    var rest := url[21..];
    assert rest == "/app" + path;
    NoComAfterApp(path);
    SplitSingle(rest, "com");
    assert Split(url, "com") == [url[..18], rest];
    assert IsOccurrence(rest, "/app/", 0);
    assert IndexOf(rest, "/app/") == Some(0);
    assert Split(url, "com")[1] == rest;
    assert ReplaceFirst(rest, "/app/", "/") == "/" + rest[5..];
    assert "/" + rest[5..] == path;
  }

  // ---------------------------------------------------------------------------------------
  // The request body
  // ---------------------------------------------------------------------------------------

  /**
   * The encrypted body of `request(path, data)`: `None` when the URL has no "com".
   * `data` is the JSON text of the request data.
   */
  function RequestParams(p: Primitives, baseUrl: string, path: string, data: string, ssecurity: string, nonce: string): (r: Option<Params>)
    ensures r.None? <==> !Contains(baseUrl + path, "com")
    ensures r.Some? ==> r.value == EncryptedParams(p, SignedPath(baseUrl + path).value, data, SignedNonce(p, ssecurity, nonce), nonce, ssecurity)
  {
    match SignedPath(baseUrl + path)
    case None => None
    case Some(signed) => Some(EncryptedParams(p, signed, data, SignedNonce(p, ssecurity, nonce), nonce, ssecurity))
  }

  /**
   * The unencrypted body: the HMAC covers the request path (not the signed path), the signed
   * nonce, the nonce and the sorted pairs of `{ data }`.
   */
  function PlainRequestParams(p: Primitives, path: string, data: string, ssecurity: string, nonce: string): (r: Params)
    ensures var signedNonce := SignedNonce(p, ssecurity, nonce);
      r == PlainParams(p, HmacText(path, signedNonce, nonce, data), data, signedNonce, nonce)
  {
    var signedNonce := SignedNonce(p, ssecurity, nonce);
    var text := Join([path, signedNonce, nonce] + SortedPairs([("data", data)]), "&");
    PlainTextIsHmacText(path, signedNonce, nonce, data);
    PlainParams(p, text, data, signedNonce, nonce)
  }

  /** With `{ data }` as the only parameter, the sorted pairs are the one `data=` pair. */
  lemma PlainTextIsHmacText(path: string, signedNonce: string, nonce: string, data: string)
    ensures Join([path, signedNonce, nonce] + SortedPairs([("data", data)]), "&") == HmacText(path, signedNonce, nonce, data)
  {
    var one := [("data", data)];
    assert Keys(one) == ["data"];
    assert ["data"][1..] == [];
    assert SortStrings(["data"]) == ["data"];
    assert Lookup(one, "data") == Some(data);
    assert Pairs(one, ["data"])[0] == "data=" + data;
    assert SortedPairs(one) == ["data=" + data];
    assert [path, signedNonce, nonce] + ["data=" + data] == [path, signedNonce, nonce, "data=" + data];
  }

  /** The encrypted body on the default host signs exactly the request path. */
  lemma DefaultRequestSignsPath(p: Primitives, path: string, data: string, ssecurity: string, nonce: string)
    requires |path| > 0 && path[0] == '/' && !Contains(path, "com")
    ensures RequestParams(p, DEFAULT_BASE_URL, path, data, ssecurity, nonce)
         == Some(EncryptedParams(p, path, data, SignedNonce(p, ssecurity, nonce), nonce, ssecurity))
  {
    SignedPathDefault(path);
  }

  // ---------------------------------------------------------------------------------------
  // The reply
  // ---------------------------------------------------------------------------------------

  /** Why a request or a login fails. */
  datatype Error =
    | StatusError(status: int)   // the status middleware rejects a non-ok response
    | ParseError                 // JSON.parse throws
    | TypeError                  // a property read on null or undefined
    | Step1Failed
    | Step2Failed
    | TwoFactor(url: Value)
    | Step3Failed
    | NoResult(message: string)

  /**
   * The last step of `request`: a truthy reply without a truthy `result` fails with its
   * `message` (or '-'); a nullish reply throws on the property read; otherwise the reply's
   * `result` is returned.
   */
  function ResultOf(data: Value): (r: Result<Value, Error>)
    ensures Truthy(data) && Truthy(Get(data, "result")) ==> r == Success(Get(data, "result"))
    ensures Truthy(data) && !Truthy(Get(data, "result")) ==> r.Failure? && r.error.NoResult?
    ensures IsNullish(data) ==> r == Failure(TypeError)
    ensures r.Success? && Truthy(data) ==> Truthy(r.value)
  {
    if IsNullish(data) then Failure(TypeError)
    else
      var result := Get(data, "result");
      if Truthy(data) && !Truthy(result) then
        var message := Get(data, "message");
        Failure(NoResult(if IsNullish(message) then "-" else JsString(message)))
      else Success(result)
  }

  /** A reply object with a truthy `result` yields that result. */
  lemma ResultOfObject(fields: map<string, Value>)
    requires "result" in fields && Truthy(fields["result"])
    ensures ResultOf(Obj(fields)) == Success(fields["result"])
  {
  }

  // ---------------------------------------------------------------------------------------
  // Login
  // ---------------------------------------------------------------------------------------

  /** A fetched reply after the status middleware and the JSON parse. */
  datatype Reply = Failed(status: int) | Unparsable | Parsed(body: Value)

  /** The reply to the fetch of the login location: its `set-cookie` headers, when present. */
  datatype CookieReply = CookieFailed(status: int) | Cookies(cookies: Option<seq<string>>)

  /** The credentials `Api` keeps; an empty `serviceToken` means not logged in. */
  datatype Session = Session(ssecurity: Value, userId: Value, serviceToken: string)

  /**
   * One `set-cookie` entry: its first "; " piece is `name=value`; when the name is exactly
   * "serviceToken", the trimmed value. A piece without '=' compares its empty prefix, as
   * `substring(0, -1)` is empty, and never matches.
   */
  function ServiceTokenOf(cookieStr: string): (r: Option<string>)
    ensures r.Some? ==> var cookie := Split(cookieStr, "; ")[0];
      IndexOf(cookie, "=") == Some(12) && cookie[..12] == "serviceToken" && r.value == Trim(cookie[13..])
  {
    var cookie := Split(cookieStr, "; ")[0];
    match IndexOf(cookie, "=")
    case None => None
    case Some(idx) => if cookie[..idx] == "serviceToken" then Some(Trim(cookie[idx + 1..])) else None
  }

  /** The first result `f` gives along `xs`, scanning in order: the `for ... of` loop that returns on the first hit. */
  function FirstSome<T, U>(xs: seq<T>, f: T -> Option<U>): (r: Option<U>)
    ensures r.None? <==> forall i :: 0 <= i < |xs| ==> f(xs[i]).None?
    ensures r.Some? ==> exists i :: (0 <= i < |xs| && f(xs[i]) == r
      && forall j :: 0 <= j < i ==> f(xs[j]).None?)
    decreases |xs|
  {
    if |xs| == 0 then None
    else match f(xs[0])
      case Some(t) => Some(t)
      case None =>
        var r := FirstSome(xs[1..], f);
        assert r.Some? ==> exists i :: (0 <= i < |xs| && f(xs[i]) == r
          && forall j :: 0 <= j < i ==> f(xs[j]).None?) by {
          if r.Some? {
            var k :| 0 <= k < |xs| - 1 && f(xs[1..][k]) == r
              && forall j :: 0 <= j < k ==> f(xs[1..][j]).None?;
            assert xs[k + 1] == xs[1..][k];
            forall j | 0 <= j < k + 1 ensures f(xs[j]).None? {
              if j > 0 {
                assert xs[j] == xs[1..][j - 1];
              }
            }
          }
        }
        assert r.None? ==> forall i :: 0 <= i < |xs| ==> f(xs[i]).None? by {
          if r.None? {
            forall i | 0 <= i < |xs| ensures f(xs[i]).None? {
              if i > 0 {
                assert xs[i] == xs[1..][i - 1];
              }
            }
          }
        }
        r
  }

  /** The first cookie that carries a service token. */
  function ScanCookies(cookies: seq<string>): (r: Option<string>)
    ensures r.None? <==> forall i :: 0 <= i < |cookies| ==> ServiceTokenOf(cookies[i]).None?
    ensures r.Some? ==> exists i :: (0 <= i < |cookies| && ServiceTokenOf(cookies[i]) == r
      && forall j :: 0 <= j < i ==> ServiceTokenOf(cookies[j]).None?)
  {
    FirstSome(cookies, ServiceTokenOf)
  }

  /**
   * A cookie `name=value` with no ';' anywhere and no '=' in the name carries a service token
   * exactly when the name is "serviceToken", and the token is the trimmed value.
   */
  lemma ServiceTokenOfCookie(name: string, value: string)
    requires !Contains(name, "=") && !Contains(name + "=" + value, ";")
    ensures ServiceTokenOf(name + "=" + value) == if name == "serviceToken" then Some(Trim(value)) else None
  {
    var cookie := name + "=" + value;
    NoCharNoPattern(cookie, "; ");
    SplitSingle(cookie, "; ");
    assert IsOccurrence(cookie, "=", |name|);
    forall k | 0 <= k < |name| ensures !IsOccurrence(cookie, "=", k) {
      if IsOccurrence(cookie, "=", k) {
        assert cookie[k..k + 1] == name[k..k + 1];
        assert IsOccurrence(name, "=", k);
      }
    }
    assert IndexOf(cookie, "=") == Some(|name|);
    assert cookie[..|name|] == name && cookie[|name| + 1..] == value;
  }

  /**
   * `login()`. A session with a service token is returned as it is. Otherwise: step 1 needs
   * a truthy `_sign`; step 2 needs truthy `ssecurity`, `userId` and `location`, and fails on
   * a truthy `notificationUrl`; step 3 scans the cookies of the location's reply. Only a
   * found token updates the session.
   */
  function Login(s: Session, step1: Reply, step2: Reply, step3: CookieReply): (r: (Session, Result<Session, Error>))
    ensures s.serviceToken != "" ==> r == (s, Success(s))
    ensures r.1.Failure? ==> r.0 == s
    ensures r.1.Success? ==> r.0 == r.1.value
  {
    if s.serviceToken != "" then (s, Success(s))
    else
      match Step1(step1)
      case Failure(e) => (s, Failure(e))
      case Success(_) =>
        match Step2(step2)
        case Failure(e) => (s, Failure(e))
        case Success((ssecurity, userId)) =>
          match Step3(step3)
          case Failure(e) => (s, Failure(e))
          case Success(token) =>
            var s' := Session(ssecurity, userId, token);
            (s', Success(s'))
  }

  /** Step 1: the `_sign` of the service-login reply. */
  function Step1(reply: Reply): (r: Result<Value, Error>)
    ensures r.Success? <==> reply.Parsed? && !IsNullish(reply.body) && Truthy(Get(reply.body, "_sign"))
  {
    match reply
    case Failed(status) => Failure(StatusError(status))
    case Unparsable => Failure(ParseError)
    case Parsed(data) =>
      if IsNullish(data) then Failure(TypeError)
      else if Truthy(Get(data, "_sign")) then Success(Get(data, "_sign"))
      else Failure(Step1Failed)
  }

  /** Step 2: `ssecurity` and `userId` of the authentication reply. */
  function Step2(reply: Reply): (r: Result<(Value, Value), Error>)
    ensures r.Success? <==> (reply.Parsed? && !IsNullish(reply.body)
      && Truthy(Get(reply.body, "ssecurity")) && Truthy(Get(reply.body, "userId")) && Truthy(Get(reply.body, "location"))
      && !Truthy(Get(reply.body, "notificationUrl")))
    ensures r.Success? ==> r.value == (Get(reply.body, "ssecurity"), Get(reply.body, "userId"))
    ensures r.Failure? && reply.Parsed? && !IsNullish(reply.body) && Truthy(Get(reply.body, "ssecurity"))
      && Truthy(Get(reply.body, "userId")) && Truthy(Get(reply.body, "location"))
      ==> r.error == TwoFactor(Get(reply.body, "notificationUrl"))
  {
    match reply
    case Failed(status) => Failure(StatusError(status))
    case Unparsable => Failure(ParseError)
    case Parsed(data) =>
      if IsNullish(data) then Failure(TypeError)
      else if !Truthy(Get(data, "ssecurity")) || !Truthy(Get(data, "userId")) || !Truthy(Get(data, "location")) then
        Failure(Step2Failed)
      else if Truthy(Get(data, "notificationUrl")) then Failure(TwoFactor(Get(data, "notificationUrl")))
      else Success((Get(data, "ssecurity"), Get(data, "userId")))
  }

  /** Step 3: the service token among the location's cookies; a missing header throws in the loop. */
  function Step3(reply: CookieReply): (r: Result<string, Error>)
    ensures r.Success? <==> reply.Cookies? && reply.cookies.Some? && ScanCookies(reply.cookies.value).Some?
    ensures r.Success? ==> r.value == ScanCookies(reply.cookies.value).value
    ensures reply.Cookies? && reply.cookies.Some? && ScanCookies(reply.cookies.value).None? ==> r == Failure(Step3Failed)
  {
    match reply
    case CookieFailed(status) => Failure(StatusError(status))
    case Cookies(None) => Failure(TypeError)
    case Cookies(Some(cookies)) =>
      match ScanCookies(cookies)
      case Some(token) => Success(token)
      case None => Failure(Step3Failed)
  }

  /**
   * After a login that found a non-empty token, logging in again returns the same session
   * without looking at any reply.
   */
  lemma LoginThenCached(s: Session, a1: Reply, a2: Reply, a3: CookieReply, b1: Reply, b2: Reply, b3: CookieReply)
    requires Login(s, a1, a2, a3).1.Success? && Login(s, a1, a2, a3).0.serviceToken != ""
    ensures var s' := Login(s, a1, a2, a3).0;
      Login(s', b1, b2, b3) == (s', Success(s'))
  {
  }

  /** A fresh login succeeds exactly when all three steps do, and keeps the token of the first matching cookie. */
  lemma LoginSteps(s: Session, step1: Reply, step2: Reply, step3: CookieReply)
    requires s.serviceToken == ""
    ensures Login(s, step1, step2, step3).1.Success? <==> Step1(step1).Success? && Step2(step2).Success? && Step3(step3).Success?
    ensures Login(s, step1, step2, step3).1.Success? ==>
      Login(s, step1, step2, step3).0 == Session(Step2(step2).value.0, Step2(step2).value.1, Step3(step3).value)
  {
  }
}

=== FILE: crypto.dfy ===
/**
 * The cryptographic and text-encoding primitives the repository calls from Node's runtime but
 * does not implement: MD5 (RFC 1321), AES-128-CBC (NIST SP 800-38A section 6.2) with PKCS#7
 * padding (RFC 5652 section 6.3), SHA-1, SHA-256, HMAC-SHA-256, base64 and UTF-8.
 *
 * They are opaque: a `Primitives` record of function values is passed to every operation that
 * uses them, and the only facts assumed about them are the ones `Sound` collects.
 * `SoundIsSatisfiable` shows that these facts are consistent by exhibiting primitives that
 * meet them (with PKCS#7 padding standing in for the block cipher).
 */
module Crypto {
  import opened Wrappers
  import opened Bytes

  datatype Primitives = Primitives(
    md5: seq<byte> -> seq<byte>,
    /** `createCipheriv('aes-128-cbc', key, iv)` then `update` + `final`; `None` is a throw. */
    aesEncrypt: (seq<byte>, seq<byte>, seq<byte>) -> Option<seq<byte>>,
    /** `createDecipheriv('aes-128-cbc', key, iv)` then `update` + `final`; `None` is a throw. */
    aesDecrypt: (seq<byte>, seq<byte>, seq<byte>) -> Option<seq<byte>>,
    /** `Buffer.from(text, 'utf8')`. */
    utf8Encode: string -> seq<byte>,
    /** `buf.toString()` / `buf.toString('utf8')`. */
    utf8Decode: seq<byte> -> string,
    sha1: seq<byte> -> seq<byte>,
    sha256: seq<byte> -> seq<byte>,
    hmacSha256: (seq<byte>, seq<byte>) -> seq<byte>,
    /** `buf.toString('base64')`. */
    base64Encode: seq<byte> -> string,
    /** `Buffer.from(text, 'base64')`. */
    base64Decode: string -> seq<byte>
  )

  const AES_BLOCK: nat := 16

  /** Length of a PKCS#7-padded AES-CBC ciphertext of a `len`-byte plaintext. */
  function CipherLength(len: nat): (n: nat)
    ensures n > len && n % AES_BLOCK == 0 && n - len <= AES_BLOCK
  {
    AES_BLOCK * (len / AES_BLOCK + 1)
  }

  /** The facts the model assumes about the runtime's primitives. */
  ghost predicate Sound(p: Primitives) {
    && (forall x :: |p.md5(x)| == 16)
    && (forall x :: |p.sha1(x)| == 20)
    && (forall x :: |p.sha256(x)| == 32)
    // A key or iv that is not 16 bytes long throws ("Invalid key length" / "Invalid IV").
    && (forall k, iv, m :: p.aesEncrypt(k, iv, m).Some? <==> |k| == 16 && |iv| == 16)
    && (forall k, iv, c :: p.aesDecrypt(k, iv, c).Some? ==> |k| == 16 && |iv| == 16)
    // Decryption under the same key and iv inverts encryption.
    && (forall k, iv, m :: p.aesEncrypt(k, iv, m).Some? ==>
          |p.aesEncrypt(k, iv, m).value| == CipherLength(|m|)
          && p.aesDecrypt(k, iv, p.aesEncrypt(k, iv, m).value) == Some(m))
    && (forall s :: p.utf8Decode(p.utf8Encode(s)) == s)
    && (forall b :: p.base64Decode(p.base64Encode(b)) == b)
  }

  // ---------------------------------------------------------------------------------------
  // PKCS#7 padding (RFC 5652 section 6.3)
  // ---------------------------------------------------------------------------------------

  /** Pad to a whole number of blocks with `n` copies of the byte `n`, 1 <= n <= 16. */
  function Pad(m: seq<byte>): (r: seq<byte>)
    ensures |r| == CipherLength(|m|) && r[..|m|] == m
  {
    var n := AES_BLOCK - |m| % AES_BLOCK;
    m + Fill(n, n)
  }

  /** Strip a PKCS#7 padding, or `None` ("bad decrypt") when the last block is not padded correctly. */
  function Unpad(c: seq<byte>): (r: Option<seq<byte>>)
    ensures r.Some? ==> |r.value| < |c| && r.value == c[..|r.value|]
  {
    if |c| == 0 || |c| % AES_BLOCK != 0 then None
    else
      var n := c[|c| - 1];
      if 1 <= n <= AES_BLOCK && forall k :: |c| - n <= k < |c| ==> c[k] == n then Some(c[..|c| - n])
      else None
  }

  lemma UnpadPad(m: seq<byte>)
    ensures Unpad(Pad(m)) == Some(m)
  {
    var c := Pad(m);
    var n := AES_BLOCK - |m| % AES_BLOCK;
    assert c[|c| - 1] == n;
    assert c[..|c| - n] == m;
  }

  // ---------------------------------------------------------------------------------------
  // Consistency of the assumptions
  // ---------------------------------------------------------------------------------------

  /** A variable-length byte encoding of characters: one byte below 128, three bytes otherwise. */
  function EncodeChar(c: char): (r: seq<byte>)
    ensures |r| == 1 || |r| == 3
    ensures (c as int < 128) <==> |r| == 1
  {
    var v := c as int;
    if v < 128 then [v]
    else [128 + v / 0x1_0000, (v / 256) % 256, v % 256]
  }

  function EncodeText(s: string): (r: seq<byte>)
    ensures (forall k :: 0 <= k < |s| ==> s[k] as int < 128) ==> |r| == |s|
  {
    if |s| == 0 then [] else EncodeChar(s[0]) + EncodeText(s[1..])
  }

  predicate IsScalar(v: int) { 0 <= v < 0xD800 || 0xE000 <= v < 0x11_0000 }

  /** Inverse of `EncodeText`; a malformed sequence decodes to U+FFFD. */
  function DecodeText(b: seq<byte>): (r: string)
    ensures (forall k :: 0 <= k < |b| ==> b[k] < 128) ==> |r| == |b| && forall k :: 0 <= k < |r| ==> r[k] as int < 128
    decreases |b|
  {
    if |b| == 0 then ""
    else if b[0] < 128 then [b[0] as char] + DecodeText(b[1..])
    else if |b| < 3 then "�"
    else
      var v := (b[0] as int - 128) * 0x1_0000 + (b[1] as int) * 256 + b[2];
      [if IsScalar(v) then v as char else '�'] + DecodeText(b[3..])
  }

  lemma DecodeEncodeChar(c: char, rest: seq<byte>)
    ensures DecodeText(EncodeChar(c) + rest) == [c] + DecodeText(rest)
  {
    var v := c as int;
    var b := EncodeChar(c) + rest;
    if v >= 128 {
      var hi, mid, lo := v / 0x1_0000, (v / 256) % 256, v % 256;
      assert v == hi * 0x1_0000 + mid * 256 + lo;
      assert b[3..] == rest;
    } else {
      assert b[1..] == rest;
    }
  }

  lemma {:induction false} DecodeEncodeText(s: string)
    ensures DecodeText(EncodeText(s)) == s
  {
    if |s| > 0 {
      DecodeEncodeChar(s[0], EncodeText(s[1..]));
      DecodeEncodeText(s[1..]);
    }
  }

  /** Bytes below 128 survive decoding to text and encoding back. */
  lemma {:induction false} AsciiBytesRoundTrip(b: seq<byte>)
    requires forall k :: 0 <= k < |b| ==> b[k] < 128
    ensures EncodeText(DecodeText(b)) == b
    decreases |b|
  {
    if |b| > 0 {
      AsciiBytesRoundTrip(b[1..]);
      assert DecodeText(b) == [b[0] as char] + DecodeText(b[1..]);
      assert b == [b[0]] + b[1..];
    }
  }

  function Base64Text(b: seq<byte>): (r: string)
    ensures |r| == |b|
  {
    seq(|b|, i requires 0 <= i < |b| => b[i] as char)
  }

  function Base64Bytes(s: string): (r: seq<byte>)
    ensures |r| == |s|
  {
    seq(|s|, i requires 0 <= i < |s| => (s[i] as int) % 256)
  }

  /** MD5 stand-in: the input length, then fifteen zeros. */
  function LengthDigest(x: seq<byte>, size: nat): (r: seq<byte>)
    requires size >= 1
    ensures |r| == size && r[0] == |x| % 128
  {
    [|x| % 128] + Fill(size - 1, 0)
  }

  /** Primitives that meet `Sound`; they are used only to show the assumptions consistent. */
  function Witness(): Primitives
  {
    Primitives(
      x => LengthDigest(x, 16),
      (k: seq<byte>, iv: seq<byte>, m) => if |k| == 16 && |iv| == 16 then Some(Pad(m)) else None,
      (k: seq<byte>, iv: seq<byte>, c) => if |k| == 16 && |iv| == 16 then Unpad(c) else None,
      EncodeText,
      DecodeText,
      x => LengthDigest(x, 20),
      x => LengthDigest(x, 32),
      (k, x) => LengthDigest(x, 32),
      Base64Text,
      Base64Bytes)
  }

  /** A stand-in digest is ASCII, so turning it into text and back keeps its 16 bytes. */
  lemma WitnessDigestText(x: seq<byte>)
    ensures |Witness().utf8Encode(Witness().utf8Decode(Witness().md5(x)))| == 16
  {
    var d := LengthDigest(x, 16);
    assert Witness().md5(x) == d;
    AsciiBytesRoundTrip(d);
  }

  lemma SoundIsSatisfiable()
    ensures Sound(Witness())
  {
    var p := Witness();
    forall k, iv, m | p.aesEncrypt(k, iv, m).Some?
      ensures |p.aesEncrypt(k, iv, m).value| == CipherLength(|m|)
      ensures p.aesDecrypt(k, iv, p.aesEncrypt(k, iv, m).value) == Some(m)
    {
      UnpadPad(m);
    }
    forall s ensures p.utf8Decode(p.utf8Encode(s)) == s {
      DecodeEncodeText(s);
    }
    forall b ensures p.base64Decode(p.base64Encode(b)) == b {
      assert Base64Bytes(Base64Text(b)) == b;
    }
  }
}

=== FILE: homebridge_xiaomi.dfy ===
/**
 * The HomeKit characteristic mappings of the Homebridge Xiaomi plugin: the declarative table of
 * `packages/homebridge-xiaomi/src/models.ts` and the air purifier model of
 * `packages/homebridge-xiaomi/src/models/air-purifier.ts`. Property values are JavaScript
 * values; the HomeKit enumerations are the numbers HomeKit defines for them.
 */
module HomebridgeXiaomi {
  import opened Wrappers
  import opened Json
  import HomebridgeYeelight

  // HomeKit enumeration values used below.
  const INACTIVE := 0
  const ACTIVE := 1
  const PURIFYING_AIR := 2
  const MANUAL := 0
  const AUTO := 1

  // ---------------------------------------------------------------------------------------
  // models.ts
  // ---------------------------------------------------------------------------------------

  /** `Name`: the property value, else the device's `name`, else the text "name". */
  function NameGet(v: Value, deviceName: Value): (r: Value)
    ensures !IsNullish(r)
    ensures !IsNullish(v) ==> r == v
    ensures IsNullish(v) && !IsNullish(deviceName) ==> r == deviceName
  {
    if !IsNullish(v) then v else if !IsNullish(deviceName) then deviceName else Str("name")
  }

  /** `Active`: a truthy `air-purifier:on` reads as ACTIVE, anything else as INACTIVE; writes are `Boolean(v)`. */
  function ActiveGet(v: Value): (r: int)
    ensures r == ACTIVE <==> Truthy(v)
    ensures r == ACTIVE || r == INACTIVE
  {
    if Truthy(v) then ACTIVE else INACTIVE
  }

  function ActiveSet(v: Value): (r: Value)
    ensures r.Bool? && (r.b <==> Truthy(v))
  {
    Bool(Truthy(v))
  }

  /** `CurrentAirPurifierState`: a truthy `air-purifier:on` reads as PURIFYING_AIR, anything else as INACTIVE. */
  function CurrentStateGet(v: Value): (r: int)
    ensures r == PURIFYING_AIR <==> Truthy(v)
    ensures r == PURIFYING_AIR || r == INACTIVE
  {
    if Truthy(v) then PURIFYING_AIR else INACTIVE
  }

  /** The device's Auto (0) and Sleep (1) modes, matched with `includes`, that is, only as numbers. */
  predicate IsAutoMode(mode: Value) {
    mode == Num(0) || mode == Num(1)
  }

  /** `TargetAirPurifierState` read: AUTO for the Auto and Sleep modes, MANUAL otherwise. */
  function TargetStateGet(mode: Value): (r: int)
    ensures r == AUTO <==> IsAutoMode(mode)
    ensures r == AUTO || r == MANUAL
  {
    if IsAutoMode(mode) then AUTO else MANUAL
  }

  /** `TargetAirPurifierState` write: AUTO becomes the Auto mode (0), anything else Favorite (2). */
  function TargetStateSet(v: Value): (r: Value)
    ensures v == Num(AUTO) ==> r == Num(0)
    ensures v != Num(AUTO) ==> r == Num(2)
  {
    if v == Num(AUTO) then Num(0) else Num(2)
  }

  /** Reading back a written target state gives it back. */
  lemma TargetStateRoundTrip(x: int)
    requires x == AUTO || x == MANUAL
    ensures TargetStateGet(TargetStateSet(Num(x))) == x
  {
  }

  /** Reading back a written Active state gives it back. */
  lemma ActiveRoundTrip(x: int)
    requires x == ACTIVE || x == INACTIVE
    ensures ActiveGet(ActiveSet(Num(x))) == x
  {
  }

  /** The three candidate properties for the fan speed, in the order they are tried. */
  const SPEED_KEYS := ["air-purifier-favorite:favorite-fan-level", "motor-speed:favorite-fan-level", "motor-speed:motor-favorite"]

  /** A chosen speed property: its key and its `value-range`. */
  datatype Speed = Speed(key: string, range: Value)

  /** The `value-range` field of a spec property (`?.` gives `undefined` for a missing property object). */
  function RangeOf(property: Value): (r: Value)
    ensures IsNullish(property) ==> r == Undefined
  {
    if IsNullish(property) then Undefined else Get(property, "value-range")
  }

  /** A candidate the `RotationSpeed` table entry accepts: present, with a truthy range. */
  predicate Qualifies(props: map<string, Value>, key: string) {
    key in props && Truthy(RangeOf(props[key]))
  }

  /** `RotationSpeed` of the table: the first candidate that qualifies, or nothing. */
  function FirstSpeed(props: map<string, Value>, keys: seq<string>): (r: Option<Speed>)
    ensures r.Some? ==> exists i :: (0 <= i < |keys| && keys[i] == r.value.key && Qualifies(props, keys[i])
      && (forall j :: 0 <= j < i ==> !Qualifies(props, keys[j])))
    ensures r.Some? ==> r.value.range == RangeOf(props[r.value.key])
    ensures r.None? <==> forall j :: 0 <= j < |keys| ==> !Qualifies(props, keys[j])
  {
    if |keys| == 0 then None
    else if Qualifies(props, keys[0]) then Some(Speed(keys[0], RangeOf(props[keys[0]])))
    else
      var r := FirstSpeed(props, keys[1..]);
      assert forall j :: 1 <= j < |keys| ==> keys[j] == keys[1..][j - 1];
      if r.Some? then
        var i :| 0 <= i < |keys[1..]| && keys[1..][i] == r.value.key && Qualifies(props, keys[1..][i])
          && (forall j :: 0 <= j < i ==> !Qualifies(props, keys[1..][j]));
        assert keys[i + 1] == r.value.key && forall j :: 0 <= j < i + 1 ==> !Qualifies(props, keys[j]);
        r
      else r
  }

  /**
   * The speed percentage `Math.round(val / max * 100)` for whole `val` and `max`. Rounding half
   * up is `floor(q + 1/2)`, the floored quotient `(200·val + max) / (2·max)`, taken through its
   * negated numerator and denominator when `max` is negative. The range's `max` is read from the
   * device's spec unchecked, so it may be 0: `None` is the `Infinity` or `NaN` of that division.
   */
  function SpeedPercent(val: int, max: int): (r: Option<int>)
    ensures r.None? <==> max == 0
    ensures max > 0 ==> 2 * max * r.value - max <= 200 * val < 2 * max * r.value + max
    ensures max < 0 ==> 2 * max * r.value + max < 200 * val <= 2 * max * r.value - max
  {
    if max > 0 then Some((200 * val + max) / (2 * max))
    else if max < 0 then Some((-(200 * val + max)) / (-2 * max))
    else None
  }

  /** The full speed reads as 100 and a stopped fan as 0, whatever the sign of the range's end. */
  lemma SpeedPercentEnds(max: int)
    requires max != 0
    ensures SpeedPercent(max, max) == Some(100) && SpeedPercent(0, max) == Some(0)
  {
    var b := if max > 0 then 2 * max else -2 * max;
    var m := if max > 0 then max else -max;
    QuotientOf(b * 100 + m, b, 100, m);
    QuotientOf(m, b, 0, m);
  }

  /** A numerator written as `b·q + rem` with `0 <= rem < b` has quotient `q`. */
  lemma QuotientOf(a: int, b: int, q: int, rem: int)
    requires 0 <= rem < b && a == b * q + rem
    ensures a / b == q
  {
    SameQuotient(b, q, a / b, rem, a % b);
  }

  /** Two ways of writing a number as `b·q + r` with `0 <= r < b` have the same `q`. */
  lemma SameQuotient(b: int, q: int, q0: int, r: int, r0: int)
    requires 0 <= r < b && 0 <= r0 < b && b * q + r == b * q0 + r0
    ensures q == q0
  {
    if q > q0 {
      HomebridgeYeelight.MultiplyLe(b, q0 + 1, q);
    } else if q < q0 {
      HomebridgeYeelight.MultiplyLe(b, q + 1, q0);
    }
  }

  /** Speaker `On` read: playing when `playing-state` is the number 1. */
  function SpeakerOnGet(v: Value): (r: bool)
    ensures r <==> v == Num(1)
  {
    v == Num(1)
  }

  /** What a speaker `On` write does: the action it invokes and the `playing-state` it stores. */
  datatype SpeakerWrite = SpeakerWrite(action: string, playingState: Value)

  function SpeakerOnSet(v: Value): (r: SpeakerWrite)
    ensures Truthy(v) ==> r == SpeakerWrite("intelligent-speaker:play-music", Num(1))
    ensures !Truthy(v) ==> r == SpeakerWrite("play-control:pause", Num(0))
  {
    if Truthy(v) then SpeakerWrite("intelligent-speaker:play-music", Num(1))
    else SpeakerWrite("play-control:pause", Num(0))
  }

  /** The stored playing state reads back as the written value's truthiness. */
  lemma SpeakerRoundTrip(v: Value)
    ensures SpeakerOnGet(SpeakerOnSet(v).playingState) == Truthy(v)
  {
  }

  // ---------------------------------------------------------------------------------------
  // models/air-purifier.ts
  // ---------------------------------------------------------------------------------------

  /** The air quality levels of HomeKit, in order. */
  datatype AirQuality = Unknown | Excellent | Good | Fair | Inferior | Poor {
    function Level(): (r: nat)
      ensures r <= 5
    {
      match this
      case Unknown => 0
      case Excellent => 1
      case Good => 2
      case Fair => 3
      case Inferior => 4
      case Poor => 5
    }
  }

  /** The PM2.5 banding: below 10, 30, 60 and 120, and above. */
  function AirQualityOf(density: Option<int>): (r: AirQuality)
    ensures r.Unknown? <==> density.None?
    ensures r.Excellent? <==> density.Some? && density.value < 10
    ensures r.Poor? <==> density.Some? && density.value >= 120
  {
    match density
    case None => Unknown
    case Some(d) =>
      if d < 10 then Excellent
      else if d < 30 then Good
      else if d < 60 then Fair
      else if d < 120 then Inferior
      else Poor
  }

  /** More particles never read as better air. */
  lemma AirQualityMonotone(a: int, b: int)
    requires a <= b
    ensures AirQualityOf(Some(a)).Level() <= AirQualityOf(Some(b)).Level()
  {
  }

  /** Every known density has a band, bounded by the band's limits. */
  lemma AirQualityBands(d: int)
    ensures var q := AirQualityOf(Some(d));
      (q.Good? <==> 10 <= d < 30) && (q.Fair? <==> 30 <= d < 60) && (q.Inferior? <==> 60 <= d < 120)
  {
  }

  /**
   * The purifier's `Active` write: a call to set `air-purifier:on` to `Boolean(val)`, made only
   * while the purifier is off.
   */
  function PurifierActiveSet(on: Value, val: Value): (r: Option<bool>)
    ensures r.Some? <==> !Truthy(on)
    ensures r.Some? ==> (r.value <==> Truthy(val))
  {
    if !Truthy(on) then Some(Truthy(val)) else None
  }

  /** While the purifier is on, asking it to turn off does nothing. */
  lemma CannotTurnOff(on: Value)
    requires Truthy(on)
    ensures PurifierActiveSet(on, Bool(false)).None?
  {
  }

  /** Turning a purifier that is off on (or off) is read back as written. */
  lemma PurifierActiveRoundTrip(on: Value, val: Value)
    requires !Truthy(on)
    ensures ActiveGet(Bool(PurifierActiveSet(on, val).value)) == ActiveGet(val)
  {
  }

  /** The purifier reports ACTIVE exactly when it reports PURIFYING_AIR. */
  lemma ActiveIffPurifying(on: Value)
    ensures ActiveGet(on) == ACTIVE <==> CurrentStateGet(on) == PURIFYING_AIR
  {
  }

  /** The purifier's target-state write: AUTO sets mode 0, anything else mode 2, as in the table. */
  function PurifierTargetSet(val: Value): (r: int)
    ensures TargetStateSet(val) == Num(r)
  {
    if val == Num(AUTO) then 0 else 2
  }

  /**
   * The speed key of the purifier model: every candidate present overwrites the previous one,
   * so the last present candidate wins, whatever its range; without a spec there is none.
   */
  function LastSpeed(spec: Option<map<string, Value>>, keys: seq<string>): (r: Option<Speed>)
    ensures r.Some? ==> spec.Some? && exists i :: (0 <= i < |keys| && keys[i] == r.value.key && keys[i] in spec.value
      && (forall j :: i < j < |keys| ==> keys[j] !in spec.value))
    ensures r.Some? ==> r.value.range == RangeOf(spec.value[r.value.key])
    ensures r.None? <==> spec.None? || forall j :: 0 <= j < |keys| ==> keys[j] !in spec.value
  {
    if spec.None? || |keys| == 0 then None
    else
      var last := keys[|keys| - 1];
      if last in spec.value then Some(Speed(last, RangeOf(spec.value[last])))
      else
        var r := LastSpeed(spec, keys[..|keys| - 1]);
        assert forall j :: 0 <= j < |keys| - 1 ==> keys[j] == keys[..|keys| - 1][j];
        r
  }

  /** The two files differ: with all three candidates present and qualifying, the table takes the first, the purifier the last. */
  lemma FirstAndLastDiffer(props: map<string, Value>)
    requires forall k :: k in SPEED_KEYS ==> Qualifies(props, k)
    ensures FirstSpeed(props, SPEED_KEYS).value.key == SPEED_KEYS[0]
    ensures LastSpeed(Some(props), SPEED_KEYS).value.key == SPEED_KEYS[2]
  {
    assert Qualifies(props, SPEED_KEYS[0]);
    assert SPEED_KEYS[2] in props by { assert Qualifies(props, SPEED_KEYS[2]); }
  }

  /** The characteristics of the purifier service; `RotationSpeed` only when a speed key was found. */
  function PurifierCharacteristics(spec: Option<map<string, Value>>): (r: seq<string>)
    ensures |r| >= 4 && r[..4] == ["Active", "CurrentAirPurifierState", "TargetAirPurifierState", "LockPhysicalControls"]
    ensures "RotationSpeed" in r <==> LastSpeed(spec, SPEED_KEYS).Some?
  {
    var base := ["Active", "CurrentAirPurifierState", "TargetAirPurifierState", "LockPhysicalControls"];
    if LastSpeed(spec, SPEED_KEYS).Some? then base + ["RotationSpeed"] else base
  }
}

=== FILE: homebridge_yeelight.dfy ===
/**
 * The Homebridge accessory for Yeelight bulbs (`packages/homebridge-yeelight/src/accessory.ts`):
 * the kelvin/mired conversion, the HomeKit colour temperature range, the guard against
 * configuring one bulb twice, and which characteristics get wired for a bulb.
 */
module HomebridgeYeelight {
  import opened Wrappers
  import opened Json
  import opened YeelightModel

  const MILLION := 1_000_000

  /**
   * `convertColorTemperature(v)` = `Math.round(1_000_000 / v)`, for a whole `v`. Rounding half
   * up is `floor(q + 1/2)`, which for `v > 0` is the integer quotient `(2·10^6 + v) / (2v)`;
   * for `v < 0` the same rational is floored through its negated numerator and denominator.
   * `None` is the `Infinity` of a division by zero.
   */
  function Mired(v: int): (r: Option<int>)
    ensures r.None? <==> v == 0
    ensures v > 0 ==> 2 * v * r.value - v <= 2 * MILLION < 2 * v * r.value + v
  {
    if v > 0 then Some((2 * MILLION + v) / (2 * v))
    else if v < 0 then Some((-(2 * MILLION + v)) / (-2 * v))
    else None
  }

  /** The conversion on the two ends of the usual kelvin range. */
  lemma MiredExamples()
    ensures Mired(6500) == Some(154) && Mired(1700) == Some(588)
  {
  }

  /** A warmer (lower) kelvin never gives a smaller mired value. */
  lemma MiredNonIncreasing(a: int, b: int)
    requires 0 < a <= b
    ensures Mired(b).value <= Mired(a).value
  {
    var x := Mired(b).value;
    var y := Mired(a).value;
    ScaleDown(a, b, x, 2 * MILLION);
    if x > y {
      MultiplyLe(2 * a, y + 1, x);
      assert false;
    }
  }

  /** If `x <= (n + b) / 2b` as rationals, then also `x <= (n + a) / 2a` for `0 < a <= b`. */
  lemma ScaleDown(a: int, b: int, x: int, n: int)
    requires 0 < a <= b && n >= 0 && 2 * b * x <= n + b
    ensures 2 * a * x <= n + a
  {
    MultiplyLe(a, 2 * b * x, n + b);
    MultiplyLe(n, a, b);
    assert a * (2 * b * x) == b * (2 * a * x);
    assert a * (n + b) == a * n + a * b;
    assert b * (n + a) == b * n + a * b;
    DivideLe(b, 2 * a * x, n + a);
  }

  lemma MultiplyLe(k: int, p: int, q: int)
    requires k >= 0 && p <= q
    ensures k * p <= k * q
  {
  }

  lemma DivideLe(k: int, p: int, q: int)
    requires k > 0 && k * p <= k * q
    ensures p <= q
  {
    if p > q { MultiplyLe(k, q + 1, p); }
  }

  /**
   * The props of the ColorTemperature characteristic: the maximum is the conversion of the
   * minimum kelvin and the minimum the conversion of the maximum kelvin.
   */
  datatype MiredRange = MiredRange(minValue: Option<int>, maxValue: Option<int>)

  function CharacteristicRange(ct: CtRange): (r: MiredRange)
    ensures r.minValue == Mired(ct.max) && r.maxValue == Mired(ct.min)
  {
    MiredRange(Mired(ct.max), Mired(ct.min))
  }

  /** With positive kelvins in order, the HomeKit range is finite and in order too. */
  lemma RangeOrdered(ct: CtRange)
    requires 0 < ct.min <= ct.max
    ensures var r := CharacteristicRange(ct);
      r.minValue.Some? && r.maxValue.Some? && r.minValue.value <= r.maxValue.value
  {
    MiredNonIncreasing(ct.min, ct.max);
  }

  /** Every model `parseModel` reports with a positive minimum kelvin gets an ordered range. */
  lemma ParsedModelRangeOrdered(model: Option<string>, support: Option<seq<string>>)
    requires ParseModel(model, support).ct.Some? && ParseModel(model, support).ct.value.min > 0
    ensures var r := CharacteristicRange(ParseModel(model, support).ct.value);
      r.minValue.Some? && r.maxValue.Some? && r.minValue.value <= r.maxValue.value
  {
    ParsedRangeOrdered(model, support);
    RangeOrdered(ParseModel(model, support).ct.value);
  }

  /** The colour temperature read: the mired value of a truthy `ct`, and `null` otherwise. */
  function ColorTemperatureGet(ct: int): (r: Option<int>)
    ensures r.None? <==> ct == 0
    ensures r.Some? ==> r == Mired(ct)
  {
    if ct != 0 then Mired(ct) else None
  }

  /**
   * The colour temperature write: `device.ct = convertColorTemperature(Number(val))`, the
   * same conversion back from mired to kelvin, rounded half up; zero gives `Infinity`.
   */
  function ColorTemperatureSet(val: int): (r: Option<int>)
    ensures r.None? <==> val == 0
    ensures val > 0 ==> 2 * val * r.value - val <= 2 * MILLION < 2 * val * r.value + val
  {
    Mired(val)
  }

  /** A warmer mired setting (a larger value) never asks the bulb for a higher kelvin. */
  lemma ColorTemperatureSetReversesOrder(a: int, b: int)
    requires 0 < a <= b
    ensures ColorTemperatureSet(b).value <= ColorTemperatureSet(a).value
  {
    MiredNonIncreasing(a, b);
  }

  // ---------------------------------------------------------------------------------------
  // configureAccessory
  // ---------------------------------------------------------------------------------------

  /** The outcome of the duplicate guard: the set of configured ids and whether to go on. */
  datatype Guard = Guard(configured: set<string>, proceed: bool)

  /** An accessory with no (or an empty) id, or one already configured, is ignored; otherwise its id is recorded. */
  function ConfigureGuard(configured: set<string>, id: Option<string>): (r: Guard)
    ensures r.proceed <==> id.Some? && id.value != "" && id.value !in configured
    ensures r.proceed ==> r.configured == configured + {id.value}
    ensures !r.proceed ==> r.configured == configured
  {
    if id.None? || id.value == "" || id.value in configured then Guard(configured, false)
    else Guard(configured + {id.value}, true)
  }

  /** Configuring the same accessory again is ignored and records nothing new. */
  lemma ConfigureOnce(configured: set<string>, id: Option<string>)
    ensures var first := ConfigureGuard(configured, id);
      var second := ConfigureGuard(first.configured, id);
      !second.proceed && second.configured == first.configured
  {
  }

  /** The On characteristic: read as `power === 'on'`, written as 'on' or 'off' from the value's truthiness. */
  function OnGet(power: Value): (r: bool)
    ensures r <==> power == Str("on")
  {
    power == Str("on")
  }

  function OnSet(val: Value): (r: Value)
    ensures r == Str("on") || r == Str("off")
  {
    Str(if Truthy(val) then "on" else "off")
  }

  /** Reading back what was written gives the value's truthiness. */
  lemma OnRoundTrip(val: Value)
    ensures OnGet(OnSet(val)) == Truthy(val)
  {
  }

  /**
   * The characteristics wired on the light bulb: On and Brightness always, Hue and Saturation
   * only for a colour bulb, ColorTemperature (with its range) whenever a range is present,
   * including the `{min: 0, max: 0}` of a mono bulb.
   */
  datatype Wiring = Wiring(hueSaturation: bool, colorTemperature: Option<MiredRange>)

  function Wire(info: ModelInfo): (r: Wiring)
    ensures r.hueSaturation <==> info.color
    ensures r.colorTemperature.Some? <==> info.ct.Some?
    ensures r.colorTemperature.Some? ==> r.colorTemperature.value == CharacteristicRange(info.ct.value)
  {
    Wiring(info.color, if info.ct.Some? then Some(CharacteristicRange(info.ct.value)) else None)
  }

  /** A mono bulb's `{0, 0}` range is wired, and both ends of it divide by zero. */
  lemma MonoRangeDividesByZero()
    ensures var w := Wire(MODELS["mono"]);
      w.colorTemperature.Some? && w.colorTemperature.value == MiredRange(None, None)
  {
    assert MODELS["mono"].ct == Some(CtRange(0, 0));
  }
}

=== FILE: json.dfy ===
/**
 * JavaScript values as the repository handles them after `JSON.parse`: the primitive values,
 * arrays and plain objects, with the few language operations the code relies on
 * (truthiness, `String(v)`, property reads, `typeof v === 'object'`).
 * Numbers are integers; floating point is not modelled.
 */
module Json {
  import opened Wrappers
  import opened Strings

  datatype Value =
    | Undefined
    | Null
    | Bool(b: bool)
    | Num(n: int)
    | NaN
    | Str(s: string)
    | Arr(items: seq<Value>)
    | Obj(fields: map<string, Value>)

  /** `Boolean(v)`: `undefined`, `null`, `false`, `0`, `NaN` and `''` are falsy; everything else is truthy. */
  predicate Truthy(v: Value) {
    match v
    case Undefined => false
    case Null => false
    case Bool(b) => b
    case Num(n) => n != 0
    case NaN => false
    case Str(s) => s != ""
    case Arr(_) => true
    case Obj(_) => true
  }

  /** `v == null`: true of `null` and `undefined` only. */
  predicate IsNullish(v: Value) { v.Undefined? || v.Null? }

  /**
   * `a === b`. `NaN` equals nothing, itself included. Object identity is not modelled: an array
   * or object on either side is taken to be a different object from anything it is compared
   * with, as a value freshly built or freshly parsed always is.
   */
  predicate StrictEquals(a: Value, b: Value) {
    && !(a.NaN? || a.Arr? || a.Obj?)
    && a == b
  }

  /** `===` is symmetric, and on the primitive values other than `NaN` it is plain equality. */
  lemma StrictEqualsPrimitive(a: Value, b: Value)
    ensures StrictEquals(a, b) == StrictEquals(b, a)
    ensures !(a.NaN? || a.Arr? || a.Obj?) ==> (StrictEquals(a, b) <==> a == b)
    ensures a.NaN? || b.NaN? ==> !StrictEquals(a, b)
  {
  }

  /** `typeof v === 'object'`: arrays, objects and (historically) `null`. */
  predicate IsObjectType(v: Value) { v.Null? || v.Arr? || v.Obj? }

  /** The canonical array index that a property key denotes, if any (`"0"`, `"12"`, not `"01"`). */
  function IndexKey(key: string): (r: Option<nat>)
    ensures r.Some? ==> key == NatToDecimal(r.value)
  {
    if |key| > 0 && AllDigits(key) && (|key| == 1 || key[0] != '0') then
      var n := DigitsValue(key);
      CanonicalDigits(key);
      Some(n)
    else None
  }

  /** A canonical decimal text is the rendering of its value. */
  lemma {:induction false} CanonicalDigits(key: string)
    requires |key| > 0 && AllDigits(key) && (|key| == 1 || key[0] != '0')
    ensures NatToDecimal(DigitsValue(key)) == key
    decreases |key|
  {
    if |key| > 1 {
      var init := key[..|key| - 1];
      assert init[0] == key[0];
      assert AllDigits(init);
      CanonicalDigits(init);
      var n := DigitsValue(key);
      assert n / 10 == DigitsValue(init) && n % 10 == DigitValue(key[|key| - 1]);
      assert DigitsValue(init) >= 1 by { NonZeroLead(init); }
      assert key == init + [key[|key| - 1]];
    }
  }

  /** Digits that do not start with '0' have a positive value. */
  lemma {:induction false} NonZeroLead(s: string)
    requires |s| > 0 && AllDigits(s) && s[0] != '0'
    ensures DigitsValue(s) >= 1
    decreases |s|
  {
    if |s| > 1 {
      assert AllDigits(s[..|s| - 1]) && s[..|s| - 1][0] == s[0];
      NonZeroLead(s[..|s| - 1]);
    }
  }

  /** Every index key of the decimal rendering is recognised again. */
  lemma IndexKeyOfDecimal(n: nat)
    ensures IndexKey(NatToDecimal(n)) == Some(n)
  {
    NatToDecimalValue(n);
  }

  /**
   * `v[key]` for a value that is not `null` or `undefined`: own fields of objects, elements
   * and `length` of arrays and strings; anything else reads as `undefined`.
   */
  function Get(v: Value, key: string): (r: Value)
    requires !IsNullish(v)
    ensures v.Obj? ==> r == (if key in v.fields then v.fields[key] else Undefined)
    ensures v.Arr? && IndexKey(key).Some? && IndexKey(key).value < |v.items| ==> r == v.items[IndexKey(key).value]
    ensures v.Str? && IndexKey(key).Some? && IndexKey(key).value < |v.s| ==> r == Str([v.s[IndexKey(key).value]])
    ensures v.Bool? || v.Num? || v.NaN? ==> r == Undefined
  {
    match v
    case Obj(fields) => if key in fields then fields[key] else Undefined
    case Arr(items) =>
      if key == "length" then Num(|items|)
      else (match IndexKey(key)
            case Some(i) => if i < |items| then items[i] else Undefined
            case None => Undefined)
    case Str(s) =>
      if key == "length" then Num(|s|)
      else (match IndexKey(key)
            case Some(i) => if i < |s| then Str([s[i]]) else Undefined
            case None => Undefined)
    case _ => Undefined
  }

  /**
   * The own index properties of an array or string of length `|xs|`: `"0"`, `"1"`, … mapped to
   * the elements.
   */
  function Indexed(xs: seq<Value>): (r: map<string, Value>)
    ensures forall k :: k in r <==> IndexKey(k).Some? && IndexKey(k).value < |xs|
    ensures forall k :: k in r ==> r[k] == xs[IndexKey(k).value]
  {
    assert forall i :: 0 <= i < |xs| ==> IndexKey(NatToDecimal(i)) == Some(i) by {
      forall i | 0 <= i < |xs| ensures IndexKey(NatToDecimal(i)) == Some(i) {
        IndexKeyOfDecimal(i);
      }
    }
    var keys := set i | 0 <= i < |xs| :: NatToDecimal(i);
    assert forall k :: IndexKey(k).Some? && IndexKey(k).value < |xs| ==> k in keys by {
      forall k | IndexKey(k).Some? && IndexKey(k).value < |xs| ensures k in keys {
        assert k == NatToDecimal(IndexKey(k).value);
      }
    }
    map k | k in keys :: xs[IndexKey(k).value]
  }

  /** The characters of a string as one-character strings. */
  function Chars(s: string): (r: seq<Value>)
    ensures |r| == |s| && forall i :: 0 <= i < |s| ==> r[i] == Str([s[i]])
  {
    seq(|s|, i requires 0 <= i < |s| => Str([s[i]]))
  }

  /**
   * `Object.entries(v)`, as a map from key to value: it throws (`None`) on `null` and
   * `undefined`; objects give their fields, arrays and strings their index properties, and
   * other primitives nothing. Values decoded from JSON have no array holes, so every element
   * is listed.
   */
  function Entries(v: Value): (r: Option<map<string, Value>>)
    ensures r.None? <==> IsNullish(v)
    ensures r.Some? ==> forall k :: k in r.value ==> r.value[k] == Get(v, k)
    ensures v.Obj? ==> r == Some(v.fields)
    ensures v.Arr? ==> forall k :: k in r.value <==> IndexKey(k).Some? && IndexKey(k).value < |v.items|
    ensures v.Str? ==> forall k :: k in r.value <==> IndexKey(k).Some? && IndexKey(k).value < |v.s|
    ensures v.Bool? || v.Num? || v.NaN? ==> r == Some(map[])
  {
    match v
    case Undefined => None
    case Null => None
    case Obj(fields) => Some(fields)
    case Arr(items) => Some(Indexed(items))
    case Str(s) => Some(Indexed(Chars(s)))
    case _ => Some(map[])
  }

  /** `'key' in obj` for an object; `in` on a primitive throws, so it is `false` only for objects. */
  predicate Has(v: Value, key: string)
    requires v.Obj?
  {
    key in v.fields
  }

  /** `String(v)` for the values the code renders. Objects print as `[object Object]`. */
  function JsString(v: Value): (r: string)
    ensures v.Str? ==> r == v.s
    ensures v.Num? ==> r == IntToDecimal(v.n)
  {
    match v
    case Undefined => "undefined"
    case Null => "null"
    case Bool(b) => if b then "true" else "false"
    case Num(n) => IntToDecimal(n)
    case NaN => "NaN"
    case Str(s) => s
    case Arr(items) => JoinValues(items)
    case Obj(_) => "[object Object]"
  }

  /** `items.join(',')`, with `null` and `undefined` elements printed as empty text. */
  function JoinValues(items: seq<Value>): string
  {
    if |items| == 0 then ""
    else
      var head := if IsNullish(items[0]) then "" else JsString(items[0]);
      if |items| == 1 then head else head + "," + JoinValues(items[1..])
  }

  /** `Number(v)` for the values the code converts, with `None` for `NaN`. */
  function ToNumber(v: Value): (r: Option<int>)
    ensures v.Num? ==> r == Some(v.n)
    ensures v.Str? ==> r == JsNumber(v.s)
  {
    match v
    case Num(n) => Some(n)
    case Str(s) => JsNumber(s)
    case Bool(b) => Some(if b then 1 else 0)
    case Null => Some(0)
    case _ => None
  }

  /** A number value from an optional parse: `NaN` when the text was not numeric. */
  function NumberValue(r: Option<int>): (v: Value)
    ensures r.Some? <==> v.Num?
    ensures r.Some? ==> v.n == r.value
  {
    match r
    case Some(n) => Num(n)
    case None => NaN
  }

  /** `Number(String(n)) === n`: a number survives being rendered and read back. */
  lemma NumberOfString(n: int)
    ensures ToNumber(Str(JsString(Num(n)))) == Some(n)
  {
    JsNumberOfDecimal(n);
  }
}

=== FILE: miio_client.dfy ===
/**
 * The service-layer cloud clients: the generic `Client` (request URL, request init, status
 * check) and `MiIOClient` (regional host, error-code table, reply unwrapping, nonce and the
 * two request bodies).
 */
module MiioClient {
  import opened Wrappers
  import opened Strings
  import opened Bytes
  import opened Json
  import opened Crypto
  import opened Signing

  // ---------------------------------------------------------------------------------------
  // Client
  // ---------------------------------------------------------------------------------------

  /** `url.replace(/^\//, '')`: at most one leading '/' removed. */
  function StripSlash(url: string): (r: string)
    ensures |url| > 0 && url[0] == '/' ==> r == url[1..]
    ensures (|url| == 0 || url[0] != '/') ==> r == url
  {
    if |url| > 0 && url[0] == '/' then url[1..] else url
  }

  /** `Client.getRequestUrl`: a truthy base URI is joined to the URL with exactly one '/' between them when the URL has at most one. */
  function ClientRequestUrl(baseUri: Option<string>, url: string): (r: string)
    ensures (baseUri.None? || baseUri.value == "") ==> r == url
    ensures baseUri.Some? && baseUri.value != "" ==>
      && StartsWith(r, baseUri.value + "/")
      && (if |url| > 0 && url[0] == '/' then "/" + r[|baseUri.value| + 1..] == url else r[|baseUri.value| + 1..] == url)
  {
    match baseUri
    case Some(base) => if base != "" then base + "/" + StripSlash(url) else url
    case None => url
  }

  /** A relative path with or without its leading '/' gives the same request URL. */
  lemma ClientRequestUrlSlash(base: string, path: string)
    requires base != "" && (|path| == 0 || path[0] != '/')
    ensures ClientRequestUrl(Some(base), "/" + path) == ClientRequestUrl(Some(base), path) == base + "/" + path
    ensures ClientRequestUrl(None, path) == path && ClientRequestUrl(Some(""), path) == path
  {
    assert ("/" + path)[1..] == path;
  }

  /** Request options: plain fields and, possibly, a header record. */
  datatype RequestInit = RequestInit(fields: map<string, Value>, headers: Option<map<string, string>>)

  /**
   * `Client.getRequestInit`: the given fields, with a header record whose `User-Agent` is
   * the configured one unless the given headers supply their own; the given headers are kept.
   */
  function ClientRequestInit(userAgent: string, init: Option<RequestInit>): (r: RequestInit)
    ensures r.headers.Some? && "User-Agent" in r.headers.value
    ensures init.None? ==> r == RequestInit(map[], Some(map["User-Agent" := userAgent]))
    ensures init.Some? ==> r.fields == init.value.fields
    ensures init.Some? && init.value.headers.Some? ==> forall k :: k in init.value.headers.value ==>
      k in r.headers.value && r.headers.value[k] == init.value.headers.value[k]
    ensures (init.None? || init.value.headers.None? || "User-Agent" !in init.value.headers.value) ==>
      r.headers.value["User-Agent"] == userAgent
    ensures forall k :: k in r.headers.value ==> k == "User-Agent" || (init.Some? && init.value.headers.Some? && k in init.value.headers.value)
  {
    var given := if init.Some? && init.value.headers.Some? then init.value.headers.value else map[];
    var fields := if init.Some? then init.value.fields else map[];
    assert map["User-Agent" := userAgent] + map[] == map["User-Agent" := userAgent];
    RequestInit(fields, Some(map["User-Agent" := userAgent] + given))
  }

  /** A fetched response: its status and, when ok, the body the subclass unwraps. */
  datatype Response = Response(ok: bool, status: int, body: Value)

  datatype Error =
    | StatusError(status: int)            // `Response status error <status> <text>`
    | CodeError(code: Value, message: Value)
    | NoResult(data: Value)
    | TypeError                            // destructuring `null` or `undefined`

  /**
   * `Client.request` once the response has arrived: a response that is not ok fails with its
   * status, and only an ok response reaches `unwrap`.
   */
  function ClientRequest(response: Response, unwrap: Response -> Result<Value, Error>): (r: Result<Value, Error>)
    ensures !response.ok ==> r == Failure(StatusError(response.status))
    ensures response.ok ==> r == unwrap(response)
  {
    if !response.ok then Failure(StatusError(response.status)) else unwrap(response)
  }

  /** A failed status never depends on how the body would be unwrapped. */
  lemma StatusErrorSkipsUnwrap(response: Response, u1: Response -> Result<Value, Error>, u2: Response -> Result<Value, Error>)
    requires !response.ok
    ensures ClientRequest(response, u1) == ClientRequest(response, u2) == Failure(StatusError(response.status))
  {
  }

  /** The base `unwrapResponse` hands back the response itself, here its body. */
  function BaseUnwrap(response: Response): (r: Result<Value, Error>)
    ensures r == Success(response.body)
  {
    Success(response.body)
  }

  // ---------------------------------------------------------------------------------------
  // MiIOClient
  // ---------------------------------------------------------------------------------------

  const BASE_URI: string := "https://api.io.mi.com/app"
  const HOST: string := "https://api.io.mi.com"

  /** `MiIOClient.getRequestUrl`: the base URL, with the host made regional for a truthy country. */
  function RequestUrl(country: Option<string>, url: string): (r: string)
    ensures country.Some? && country.value != "" ==>
      r == "https://" + country.value + ".api.io.mi.com/app/" + StripSlash(url)
    ensures country.None? || country == Some("") ==> r == BASE_URI + "/" + StripSlash(url)
  {
    var u := ClientRequestUrl(Some(BASE_URI), url);
    DefaultRequestUrl(url);
    match country
    case Some(c) =>
      if c != "" then
        RegionalRequestUrl(c, url);
        ReplaceFirst(u, HOST, "https://" + c + ".api.io.mi.com")
      else u
    case None => u
  }

  /** Without a country, the request URL is the default base joined to the path. */
  lemma DefaultRequestUrl(url: string)
    ensures ClientRequestUrl(Some(BASE_URI), url) == BASE_URI + "/" + StripSlash(url)
  {
  }

  /** Replacing the default host by a regional one keeps the "/app/" path. */
  lemma RegionalRequestUrl(c: string, url: string)
    ensures ReplaceFirst(BASE_URI + "/" + StripSlash(url), HOST, "https://" + c + ".api.io.mi.com")
      == "https://" + c + ".api.io.mi.com/app/" + StripSlash(url)
  {
    var u := BASE_URI + "/" + StripSlash(url);
    DefaultHostFirst(url);
    assert u[..0] == [];
  }

  /** The default request URL starts with the default host, followed by "/app/" and the path. */
  lemma DefaultHostFirst(url: string)
    ensures var u := BASE_URI + "/" + StripSlash(url);
      IndexOf(u, HOST) == Some(0) && u[|HOST|..] == "/app/" + StripSlash(url)
  {
    var u := BASE_URI + "/" + StripSlash(url);
    assert u[..|HOST|] == HOST;
    assert IsOccurrence(u, HOST, 0);
  }

  /**
   * The `errorCodes` table, as the message listed for a code. Its keys are the decimal texts
   * of negative codes, each written canonically (a '-', then digits without a leading zero),
   * so the table is indexed here by the code itself: the text of a code is a key exactly when
   * the code is (`KeyedByText`). Entries commented out in the table are not listed.
   */
  function CodeMessage(code: int): (r: Option<string>)
    ensures r.Some? ==> code < 0 && r.value != ""
  {
    match code
    case -705001000 => Some("generic internal error")
    case -705004000 => Some("generic internal error")
    case -705005000 => Some("subscriptionId encode error")
    case -705006000 => Some("notify error")
    case -702000000 => Some("OK")
    case -702010000 => Some("accept")
    case -704010000 => Some("generic unauthorized")
    case -704002000 => Some("invalid param")
    case -704000000 => Some("bad request")
    case -704000001 => Some("bad request body")
    case -704001000 => Some("timer only support mi device")
    case -702022036 => Some("trigger scene processing")
    case -704042009 => Some("scene not found")
    case -704042012 => Some("scene no permit")
    case -704042010 => Some("get device list error")
    case -704090001 => Some("device not found")
    case -704042001 => Some("device not found")
    case -704042011 => Some("device offline")
    case -704012901 => Some("token not exist or expired")
    case -704012902 => Some("token invalid")
    case -704012903 => Some("authorized expired")
    case -704012904 => Some("device unauthorized")
    case -704012905 => Some("device not bind")
    case -704012906 => Some("miot oauth failed")
    case -704040002 => Some("service not found")
    case -706010002 => Some("remote service error")
    case -706012000 => Some("3rd cloud bad response")
    case -706010004 => Some("generic miot error")
    case -706010005 => Some("property cache error")
    case -704040003 => Some("property not found")
    case -704030013 => Some("property cannot read")
    case -704030023 => Some("property cannot write")
    case -704030033 => Some("property cannot notify")
    case -704030992 => Some("request too frequent deniedRequest")
    case -704220043 => Some("invalid property value")
    case -705201013 => Some("property read error")
    case -706012013 => Some("property read error")
    case -706012014 => Some("property read not response")
    case -705201023 => Some("property write error")
    case -706012023 => Some("property write error")
    case -705201033 => Some("property notify error")
    case -706012033 => Some("property notify error")
    case -706012043 => Some("subscribe error")
    case -704040004 => Some("event not found")
    case -704222034 => Some("event arguments count mismatch")
    case -704040005 => Some("action not found")
    case -705201015 => Some("action execute error")
    case -706012015 => Some("action execute error")
    case -704220035 => Some("action arguments error")
    case -704220025 => Some("action arguments count mismatch")
    case -704222035 => Some("action results count mismatch")
    case -704044006 => Some("spec not fount")
    case -705204006 => Some("invalid specification")
    case -705204007 => Some("instance not loaded")
    case -704041007 => Some("cloud not fount")
    case -704220008 => Some("invalid id")
    case -704220009 => Some("invalid UDID")
    case -704220010 => Some("invalid subscriptionId")
    case -704053100 => Some("Unable to perform this operation")
    case -704083036 => Some("operation timeout")
    case -704040999 => Some("not implemented")
    case -704013101 => Some("ir device not support operation")
    case -704053101 => Some("camera device sleeping")
    case _ => None
  }

  /**
   * `catchError(code)`: the message thrown, or `None` when it returns. An absent code
   * returns; otherwise the code is looked up in the table.
   */
  function CatchError(code: Option<int>): (r: Option<string>)
    ensures code.None? ==> r.None?
    ensures code.Some? ==> r == CodeMessage(code.value)
  {
    match code
    case None => None
    case Some(c) => CodeMessage(c)
  }

  /** Looking a code up by its decimal text finds the same entries as looking it up by value. */
  lemma KeyedByText(c: int)
    ensures (exists k :: CodeMessage(k).Some? && IntToDecimal(k) == IntToDecimal(c)) <==> CodeMessage(c).Some?
  {
    if exists k :: CodeMessage(k).Some? && IntToDecimal(k) == IntToDecimal(c) {
      var k :| CodeMessage(k).Some? && IntToDecimal(k) == IntToDecimal(c);
      IntToDecimalInjective(k, c);
    }
  }

  /** Even the "OK" code throws, while an unlisted code and an absent code return. */
  lemma CatchErrorExamples()
    ensures CatchError(Some(-702000000)) == Some("OK")
    ensures CatchError(Some(-704042010)) == Some("get device list error")
    ensures CatchError(Some(0)) == None
    ensures CatchError(None) == None
  {
  }

  /**
   * `MiIOClient.unwrapResponse` on the parsed reply: a truthy `code` fails with it and the
   * message, then a falsy `result` fails; otherwise the result. Destructuring `null` or
   * `undefined` throws.
   */
  function UnwrapResponse(data: Value): (r: Result<Value, Error>)
    ensures IsNullish(data) ==> r == Failure(TypeError)
    ensures !IsNullish(data) && Truthy(Get(data, "code")) ==> r == Failure(CodeError(Get(data, "code"), Get(data, "message")))
    ensures r.Success? <==> !IsNullish(data) && !Truthy(Get(data, "code")) && Truthy(Get(data, "result"))
    ensures r.Success? ==> r.value == Get(data, "result")
  {
    if IsNullish(data) then Failure(TypeError)
    else
      var code := Get(data, "code");
      var result := Get(data, "result");
      if Truthy(code) then Failure(CodeError(code, Get(data, "message")))
      else if !Truthy(result) then Failure(NoResult(data))
      else Success(result)
  }

  /** The request path: a failed status is reported before the body is looked at. */
  function MiioRequest(response: Response): (r: Result<Value, Error>)
    ensures !response.ok ==> r == Failure(StatusError(response.status))
    ensures response.ok ==> r == UnwrapResponse(response.body)
  {
    ClientRequest(response, (res: Response) => UnwrapResponse(res.body))
  }

  /** `generateNonce()` as text: the 12 nonce bytes in base64; `None` where writing the minute stamp throws. */
  function NonceText(p: Primitives, random: seq<byte>, nowMs: nat): (r: Option<string>)
    requires |random| == 8
    ensures r.Some? <==> NonceBytes(random, nowMs).Some?
  {
    match NonceBytes(random, nowMs)
    case Some(b) => Some(p.base64Encode(b))
    case None => None
  }

  /** The server decodes a nonce back to the 8 random bytes followed by the 32-bit minute count. */
  lemma NonceTextDecodes(p: Primitives, random: seq<byte>, nowMs: nat)
    requires Sound(p) && |random| == 8 && nowMs / MINUTE_MS < 0x8000_0000
    ensures NonceText(p, random, nowMs).Some?
    ensures var b := p.base64Decode(NonceText(p, random, nowMs).value);
      |b| == 12 && b[..8] == random && ReadU32BE(b, 8) == nowMs / MINUTE_MS
  {
  }

  /**
   * The two request bodies of `request(url, data)`. Encrypted: the shared RC4 pipeline
   * signing the URL as given (before the base URI is prefixed). Plain: `_nonce`, `data` and
   * an HMAC over url, signed nonce, nonce and the data pair.
   */
  function RequestBody(p: Primitives, useEncrypt: bool, url: string, data: string, ssecurity: string, nonce: string): (r: Params)
    ensures useEncrypt ==> r == EncryptedParams(p, url, data, SignedNonce(p, ssecurity, nonce), nonce, ssecurity)
    ensures !useEncrypt ==> r == PlainParams(p, HmacText(url, SignedNonce(p, ssecurity, nonce), nonce, data), data, SignedNonce(p, ssecurity, nonce), nonce)
  {
    var signedNonce := SignedNonce(p, ssecurity, nonce);
    if useEncrypt then EncryptedParams(p, url, data, signedNonce, nonce, ssecurity)
    else PlainParams(p, HmacText(url, signedNonce, nonce, data), data, signedNonce, nonce)
  }

  /**
   * Whichever body is sent, it carries the nonce under `_nonce` (so the server can derive the
   * same signed nonce); the plain body carries the data as is, the encrypted one carries data
   * that decrypts back under the cipher keyed by the signed nonce.
   */
  lemma RequestBodyCarries(p: Primitives, useEncrypt: bool, url: string, data: string, ssecurity: string, nonce: string)
    requires Sound(p)
    ensures var r := RequestBody(p, useEncrypt, url, data, ssecurity, nonce);
      var signedNonce := SignedNonce(p, ssecurity, nonce);
      && DistinctKeys(r)
      && Lookup(r, "_nonce") == Some(nonce)
      && (!useEncrypt ==> Lookup(r, "data") == Some(data))
      && (useEncrypt ==> Lookup(r, "data").Some? && Decode(p, Cipher(p, signedNonce), Lookup(r, "data").value) == data)
  {
    var r := RequestBody(p, useEncrypt, url, data, ssecurity, nonce);
    var signedNonce := SignedNonce(p, ssecurity, nonce);
    assert forall i :: 0 <= i < |r| ==> r[i].0 == Keys(r)[i];
    if useEncrypt {
      EncryptedParamsRecoverable(p, url, data, signedNonce, nonce, ssecurity);
      LookupAt(r, 4);
      LookupAt(r, 0);
    } else {
      LookupAt(r, 0);
      LookupAt(r, 1);
    }
  }
}

=== FILE: miio_codec.dfy ===
/**
 * The `MiIO` codec class: a device id and token, the AES key and iv derived from the token,
 * and `encode`/`decode` of miIO packets. The token is a hex text; it enters MD5 hex-decoded.
 */
module MiioCodec {
  import opened Wrappers
  import opened Strings
  import opened Bytes
  import opened Crypto
  import opened MiioHeader

  /** The codec's fields; `tokenKey`/`tokenIv` are set together by `SetToken`. */
  datatype Codec = Codec(did: Option<int>, token: Option<string>, tokenKey: Option<seq<byte>>, tokenIv: Option<seq<byte>>)

  /** `!this.did`: an absent device id and device id 0 are both falsy. */
  predicate HasDid(c: Codec) { c.did.Some? && c.did.value != 0 }
  /** `!this.token`: an absent token and the empty token are both falsy. */
  predicate HasToken(c: Codec) { c.token.Some? && c.token.value != "" }

  /** The AES key derived from a token: MD5 of its hex-decoded bytes. */
  function TokenKey(p: Primitives, token: string): seq<byte> {
    p.md5(HexDecode(token))
  }

  /** The AES iv derived from a token: MD5 of the key followed by the token's bytes. */
  function TokenIv(p: Primitives, token: string): seq<byte> {
    p.md5(TokenKey(p, token) + HexDecode(token))
  }

  /** `setToken(token)`: store the token and derive key and iv; the device id is kept. */
  function SetToken(p: Primitives, c: Codec, token: string): (r: Codec)
    ensures r.did == c.did && r.token == Some(token)
    ensures r.tokenKey == Some(p.md5(HexDecode(token)))
    ensures r.tokenIv == Some(p.md5(r.tokenKey.value + HexDecode(token)))
  {
    Codec(c.did, Some(token), Some(TokenKey(p, token)), Some(TokenIv(p, token)))
  }

  /** `new MiIO(did, token)`: `setToken` runs only for a truthy token. */
  function New(p: Primitives, did: Option<int>, token: Option<string>): (r: Codec)
    ensures r.did == did && r.token == token
    ensures r.tokenKey.Some? <==> token.Some? && token.value != ""
    ensures r.tokenKey.Some? ==> r == SetToken(p, Codec(did, None, None, None), token.value)
  {
    if token.Some? && token.value != "" then SetToken(p, Codec(did, None, None, None), token.value)
    else Codec(did, token, None, None)
  }

  /** The codec can encrypt: token, device id, key and iv are all present and truthy. */
  predicate Ready(c: Codec) {
    HasToken(c) && HasDid(c) && c.tokenKey.Some? && c.tokenIv.Some?
  }

  /** `MiIO.helloPacket`. */
  function HelloPacket(): (r: seq<byte>)
    ensures |r| == 32 && ReadU16BE(r, 0) == MAGIC && ReadU16BE(r, 2) == 32
    ensures forall k :: 4 <= k < 32 ==> r[k] == 0xFF
  {
    HelloBytes()
  }

  /**
   * `encode(data, stamp)`: `Success(None)` when the codec is not ready; otherwise the packet,
   * or what the cipher or a header write throws. A missing stamp is written as 0xFFFFFFFF;
   * stamp 0 is written as 0.
   */
  function Encode(p: Primitives, c: Codec, data: string, stamp: Option<int>): (r: Result<Option<seq<byte>>, Thrown>)
    ensures r == Success(None) <==> !Ready(c)
    ensures r.Success? && r.value.Some? ==>
      var packet := r.value.value;
      && |packet| >= HEADER_SIZE
      && ReadU16BE(packet, 0) == MAGIC && ReadU16BE(packet, 2) == |packet|
      && packet[4..8] == [0, 0, 0, 0]
      && ReadU32BE(packet, 8) == c.did.value
      && ReadU32BE(packet, 12) == stamp.GetOr(NO_STAMP)
      && p.aesEncrypt(c.tokenKey.value, c.tokenIv.value, p.utf8Encode(data)) == Some(packet[32..])
      && packet[16..32] == ChecksumField(p.md5(packet[..16] + HexDecode(c.token.value) + packet[32..]))
  {
    if !Ready(c) then Success(None)
    else
      match p.aesEncrypt(c.tokenKey.value, c.tokenIv.value, p.utf8Encode(data))
      case None => Failure(InvalidKeyLength)
      case Some(body) =>
        var len := HEADER_SIZE + |body|;
        var st := stamp.GetOr(NO_STAMP);
        var did := c.did.value;
        if !IsU16(len) then Failure(OutOfRange("length"))
        else if !IsU32(st) then Failure(OutOfRange("stamp"))
        else if !IsU32(did) then Failure(OutOfRange("did"))
        else
          var pre := Prefix(len, did, st);
          var sum := ChecksumField(p.md5(pre + HexDecode(c.token.value) + body));
          var packet := pre + sum + body;
          assert packet[..16] == pre && packet[16..32] == sum && packet[32..] == body;
          assert packet[4..8] == pre[4..8];
          assert ReadU32BE(packet, 8) == ReadU32BE(pre, 8) && ReadU32BE(packet, 12) == ReadU32BE(pre, 12);
          Success(Some(packet))
  }

  /**
   * `decode(packet)`: the header fields are always read first (packets shorter than 16 bytes
   * throw). An empty body is returned as read. Otherwise the token is required, the checksum
   * must match, and only then is the body decrypted.
   */
  function Decode(p: Primitives, c: Codec, packet: seq<byte>): (r: Result<Option<Decoded>, Thrown>)
    ensures |packet| < 16 ==> r == Failure(BufferOutOfBounds)
    ensures |packet| <= HEADER_SIZE && r.Success? ==> r.value == Some(ReadFields(packet).value)
    ensures |packet| > HEADER_SIZE && !(HasToken(c) && c.tokenKey.Some? && c.tokenIv.Some?) ==> r == Success(None)
    ensures r.Success? && r.value.Some? && r.value.value.decrypted.Some? ==>
      && |packet| > HEADER_SIZE
      && packet[16..32] == p.md5(packet[..16] + HexDecode(c.token.value) + packet[32..])
      && p.aesDecrypt(c.tokenKey.value, c.tokenIv.value, packet[32..]).Some?
      && r.value.value.decrypted == Some(p.utf8Decode(p.aesDecrypt(c.tokenKey.value, c.tokenIv.value, packet[32..]).value))
  {
    var fields :- ReadFields(packet);
    if |fields.encrypted| == 0 then Success(Some(fields))
    else if !HasToken(c) || c.tokenKey.None? || c.tokenIv.None? then Success(None)
    else
      assert fields.checksum == packet[16..32] && fields.encrypted == packet[32..];
      var digest := p.md5(packet[..16] + HexDecode(c.token.value) + fields.encrypted);
      if fields.checksum != digest then Success(None)
      else
        match p.aesDecrypt(c.tokenKey.value, c.tokenIv.value, fields.encrypted)
        case None => Failure(BadDecrypt)
        case Some(plain) => Success(Some(fields.(decrypted := Some(p.utf8Decode(plain)))))
  }

  /** A body whose checksum does not match is never decrypted: decode yields nothing. */
  lemma DecodeRejectsBadChecksum(p: Primitives, c: Codec, packet: seq<byte>)
    requires |packet| > HEADER_SIZE && HasToken(c) && c.tokenKey.Some? && c.tokenIv.Some?
    requires packet[16..32] != p.md5(packet[..16] + HexDecode(c.token.value) + packet[32..])
    ensures Decode(p, c, packet) == Success(None)
  {
    assert ReadFields(packet).value.checksum == packet[16..32];
  }

  /**
   * Round trip: a codec made from a truthy token and a non-zero device id decodes its own
   * packets back to the device id, the stamp written (0xFFFFFFFF when none was given) and the
   * original text.
   */
  lemma {:induction false} DecodeEncode(p: Primitives, did: int, token: string, data: string, stamp: Option<int>)
    requires Sound(p)
    requires did != 0 && IsU32(did) && token != ""
    requires IsU32(stamp.GetOr(NO_STAMP))
    requires HEADER_SIZE + CipherLength(|p.utf8Encode(data)|) < TWO_16
    ensures var c := New(p, Some(did), Some(token));
      && Encode(p, c, data, stamp).Success? && Encode(p, c, data, stamp).value.Some?
      && var packet := Encode(p, c, data, stamp).value.value;
      && Decode(p, c, packet).Success? && Decode(p, c, packet).value.Some?
      && var d := Decode(p, c, packet).value.value;
      && d.did == did && d.stamp == stamp.GetOr(NO_STAMP) && d.decrypted == Some(data)
      && d.encrypted == packet[32..] && d.checksum == packet[16..32]
  {
    var c := New(p, Some(did), Some(token));
    var key, iv := c.tokenKey.value, c.tokenIv.value;
    assert |key| == 16 && |iv| == 16;
    var plain := p.utf8Encode(data);
    EncodeReady(p, c, data, stamp);
    var packet := Encode(p, c, data, stamp).value.value;
    var body := packet[32..];
    assert p.aesEncrypt(key, iv, plain) == Some(body);
    assert |body| > 0 && p.aesDecrypt(key, iv, body) == Some(plain);
    var fields := ReadFields(packet).value;
    assert fields.checksum + fields.encrypted == packet[16..32] + body;
    assert fields.checksum == packet[16..32] && fields.encrypted == body;
    assert packet[16..32] == p.md5(packet[..16] + HexDecode(token) + body);
    DecodeAuthentic(p, c, packet, fields, plain);
  }

  /** A ready codec with an in-range device id, stamp and length encodes without throwing. */
  lemma EncodeReady(p: Primitives, c: Codec, data: string, stamp: Option<int>)
    requires Sound(p) && Ready(c) && |c.tokenKey.value| == 16 && |c.tokenIv.value| == 16
    requires IsU32(c.did.value) && IsU32(stamp.GetOr(NO_STAMP))
    requires HEADER_SIZE + CipherLength(|p.utf8Encode(data)|) < TWO_16
    ensures Encode(p, c, data, stamp).Success? && Encode(p, c, data, stamp).value.Some?
  {
    assert |p.aesEncrypt(c.tokenKey.value, c.tokenIv.value, p.utf8Encode(data)).value| == CipherLength(|p.utf8Encode(data)|);
  }

  /** A body whose checksum matches and which decrypts is returned with its decrypted text. */
  lemma DecodeAuthentic(p: Primitives, c: Codec, packet: seq<byte>, fields: Decoded, plain: seq<byte>)
    requires HasToken(c) && c.tokenKey.Some? && c.tokenIv.Some?
    requires ReadFields(packet) == Success(fields) && |fields.encrypted| > 0
    requires fields.checksum == p.md5(packet[..16] + HexDecode(c.token.value) + fields.encrypted)
    requires p.aesDecrypt(c.tokenKey.value, c.tokenIv.value, fields.encrypted) == Some(plain)
    ensures Decode(p, c, packet) == Success(Some(fields.(decrypted := Some(p.utf8Decode(plain)))))
  {
  }

  /** Hello packets and other empty bodies are returned undecrypted whether or not a token is set. */
  lemma DecodeHeaderOnly(p: Primitives, c: Codec, packet: seq<byte>)
    requires 16 <= |packet| <= HEADER_SIZE
    ensures Decode(p, c, packet) == Success(Some(ReadFields(packet).value))
    ensures Decode(p, c, packet).value.value.decrypted.None?
  {
  }

  /** The hello packet decodes to device id and stamp 0xFFFFFFFF, with no body. */
  lemma DecodeHello(p: Primitives, c: Codec)
    ensures Decode(p, c, HelloPacket()).Success?
    ensures var d := Decode(p, c, HelloPacket()).value.value;
      d.did == NO_STAMP && d.stamp == NO_STAMP && d.encrypted == [] && d.decrypted.None?
  {
    var h := HelloPacket();
    assert h[8] == 0xFF && h[9] == 0xFF && h[10] == 0xFF && h[11] == 0xFF;
    assert h[12] == 0xFF && h[13] == 0xFF && h[14] == 0xFF && h[15] == 0xFF;
  }
}

=== FILE: miio_header.dfy ===
/**
 * The miIO packet layout shared by both codec versions: a 32-byte big-endian header
 * (magic 0x2131, total length, an unused zero word, device id, stamp, then 16 bytes holding
 * either an MD5 checksum or the device token) followed by an optional encrypted body.
 */
module MiioHeader {
  import opened Wrappers
  import opened Strings
  import opened Bytes

  const MAGIC: int := 0x2131
  const HEADER_SIZE: nat := 32
  /** The stamp written when none is known. */
  const NO_STAMP: int := 0xFFFF_FFFF

  /** The text the hello packet is built from. */
  const HELLO_HEX: string := "2131" + "0020" + "ffffffff" + "ffffffff" + "ffffffff" + "ffffffffffffffffffffffffffffffff"

  /** What Node throws from the codec's calls. */
  datatype Thrown =
    | BufferOutOfBounds        // readUInt32BE past the end of the packet
    | OutOfRange(field: string) // writeUInt16BE / writeUInt32BE of a value outside the field
    | InvalidKeyLength         // createCipheriv / createDecipheriv with a key or iv that is not 16 bytes
    | BadDecrypt               // decipher.final() on a body whose padding does not check

  /** The header fields and body of a received packet, with the plaintext once it has been decrypted. */
  datatype Decoded = Decoded(did: int, stamp: int, checksum: seq<byte>, encrypted: seq<byte>, decrypted: Option<string>)

  /** The hello text: "2131", "0020", then 56 'f' digits. */
  lemma HelloHexShape()
    ensures |HELLO_HEX| == 64 && HELLO_HEX[..8] == "21310020"
    ensures forall i :: 8 <= i < 64 ==> HELLO_HEX[i] == 'f'
  {
    var f8 := "ffffffff";
    assert forall i :: 0 <= i < 8 ==> f8[i] == 'f';
    assert "ffffffffffffffffffffffffffffffff" == f8 + f8 + f8 + f8;
    assert HELLO_HEX == "21310020" + f8 + f8 + f8 + f8 + f8 + f8 + f8;
  }

  /** `Buffer.from(HELLO_HEX, 'hex')`: magic, length 32, then 28 bytes of 0xFF. */
  function HelloBytes(): (r: seq<byte>)
    ensures |r| == 32
    ensures ReadU16BE(r, 0) == MAGIC && ReadU16BE(r, 2) == 32
    ensures forall k :: 4 <= k < 32 ==> r[k] == 0xFF
  {
    var text := HELLO_HEX;
    HelloHexShape();
    assert text[..8][0] == '2' && text[..8][1] == '1' && text[..8][2] == '3' && text[..8][3] == '1';
    assert text[..8][4] == '0' && text[..8][5] == '0' && text[..8][6] == '2' && text[..8][7] == '0';
    assert AllHexDigits(text);
    var r := HexDecode(text);
    HexDecodeAt(text, 0);
    HexDecodeAt(text, 1);
    HexDecodeAt(text, 2);
    HexDecodeAt(text, 3);
    forall k | 4 <= k < 32 ensures r[k] == 0xFF {
      HexDecodeAt(text, k);
    }
    r
  }

  /** Bytes 0..16 of an outgoing packet: magic, length, zero word, device id, stamp. */
  function Prefix(len: int, did: int, stamp: int): (r: seq<byte>)
    requires IsU16(len) && IsU32(did) && IsU32(stamp)
    ensures |r| == 16
    ensures ReadU16BE(r, 0) == MAGIC && ReadU16BE(r, 2) == len
    ensures r[4..8] == [0, 0, 0, 0]
    ensures ReadU32BE(r, 8) == did && ReadU32BE(r, 12) == stamp
  {
    var a := U16BE(MAGIC);
    var b := U16BE(len);
    var z := U32BE(0);
    var d := U32BE(did);
    var s := U32BE(stamp);
    ReadU16BEAt([], MAGIC, b + z + d + s);
    assert a + b + z + d + s == [] + a + (b + z + d + s);
    ReadU16BEAt(a, len, z + d + s);
    assert a + b + z + d + s == a + b + (z + d + s);
    ReadU32BEAt(a + b + z, did, s);
    ReadU32BEAt(a + b + z + d, stamp, []);
    assert a + b + z + d + s == a + b + z + d + s + [];
    a + b + z + d + s
  }

  /**
   * `digest.copy(header, 16)`: the checksum field after copying a digest into a zero-filled
   * 16-byte field; the copy stops at whichever ends first.
   */
  function ChecksumField(digest: seq<byte>): (r: seq<byte>)
    ensures |r| == 16
    ensures |digest| == 16 ==> r == digest
  {
    if |digest| >= 16 then digest[..16] else digest + Fill(16 - |digest|, 0)
  }

  /**
   * The fixed-offset reads both decoders start with: `readUInt32BE(8)`, `readUInt32BE(12)`
   * (each throws past the end), `subarray(16, 32)` and `subarray(32)` (which clamp).
   */
  function ReadFields(packet: seq<byte>): (r: Result<Decoded, Thrown>)
    ensures r.Failure? <==> |packet| < 16
    ensures r.Failure? ==> r.error == BufferOutOfBounds
    ensures r.Success? ==>
      && r.value.did == ReadU32BE(packet, 8) && r.value.stamp == ReadU32BE(packet, 12)
      && r.value.checksum + r.value.encrypted == packet[16..]
      && |r.value.checksum| == (if |packet| < 32 then |packet| - 16 else 16)
      && r.value.decrypted.None?
  {
    if |packet| < 16 then Failure(BufferOutOfBounds)
    else
      var cut := if |packet| < 32 then |packet| else 32;
      assert packet[16..cut] + packet[cut..] == packet[16..];
      Success(Decoded(ReadU32BE(packet, 8), ReadU32BE(packet, 12), packet[16..cut], packet[cut..], None))
  }

  /** Reading a packet assembled from a prefix, a checksum and a body gives those parts back. */
  lemma ReadFieldsOfAssembled(len: int, did: int, stamp: int, sum: seq<byte>, body: seq<byte>)
    requires IsU16(len) && IsU32(did) && IsU32(stamp) && |sum| == 16
    ensures ReadFields(Prefix(len, did, stamp) + sum + body) == Success(Decoded(did, stamp, sum, body, None))
  {
    var pre := Prefix(len, did, stamp);
    var packet := pre + sum + body;
    assert packet[8..12] == pre[8..12] && packet[12..16] == pre[12..16];
    assert packet[16..32] == sum && packet[32..] == body;
    assert packet[..16] == pre;
  }
}

=== FILE: miio_packet.dfy ===
/**
 * The functional miIO codec (`createHelloPacket`, `encodePacket`, `decodePacket`) and its
 * module-wide key/iv cache. Here the key and iv are MD5 digests turned into UTF-8 text, and the
 * cipher receives that text re-encoded.
 *
 * The cache is a value threaded through the calls that use it.
 */
module MiioPacket {
  import opened Wrappers
  import opened Strings
  import opened Bytes
  import opened Crypto
  import opened MiioHeader
  import MiioCodec

  datatype KeyIv = KeyIv(key: string, iv: string)

  type Cache = map<string, KeyIv>

  /** The pair `getKeyAndIv` computes for a token it has not seen. */
  function DeriveKeyIv(p: Primitives, token: string): KeyIv {
    var key := p.utf8Decode(p.md5(HexDecode(token)));
    KeyIv(key, p.utf8Decode(p.md5(p.utf8Encode(key) + HexDecode(token))))
  }

  /** Every cached pair is the one derived from its token. */
  ghost predicate Coherent(p: Primitives, cache: Cache) {
    forall t :: t in cache ==> cache[t] == DeriveKeyIv(p, t)
  }

  /**
   * `getKeyAndIv(token)`: the cached pair when there is one, otherwise the derived pair, which
   * is then cached. `computed` tells whether the digests were computed by this call.
   */
  function GetKeyAndIv(p: Primitives, cache: Cache, token: string): (r: (KeyIv, Cache, bool))
    ensures var (pair, cache', computed) := r;
      && (computed <==> token !in cache)
      && token in cache' && cache'[token] == pair
      && cache.Keys <= cache'.Keys && cache'.Keys == cache.Keys + {token}
      && (forall t :: t in cache ==> cache'[t] == cache[t])
      && (Coherent(p, cache) ==> Coherent(p, cache') && pair == DeriveKeyIv(p, token))
  {
    if token in cache then (cache[token], cache, false)
    else
      var pair := DeriveKeyIv(p, token);
      (pair, cache[token := pair], true)
  }

  /** The cache after a sequence of `getKeyAndIv` calls, and whether each call computed. */
  function RunCalls(p: Primitives, cache: Cache, tokens: seq<string>): (r: (Cache, seq<bool>))
    ensures |r.1| == |tokens|
    ensures r.0.Keys == cache.Keys + set t | t in tokens
    decreases |tokens|
  {
    if |tokens| == 0 then (cache, [])
    else
      var (_, cache', computed) := GetKeyAndIv(p, cache, tokens[0]);
      var (final, rest) := RunCalls(p, cache', tokens[1..]);
      assert (set t | t in tokens) == {tokens[0]} + set t | t in tokens[1..];
      (final, [computed] + rest)
  }

  /**
   * The digests for a token are computed at most once: only for a token the cache did not
   * hold and on its first occurrence in the sequence of calls.
   */
  lemma {:induction false} ComputedAtMostOnce(p: Primitives, cache: Cache, tokens: seq<string>)
    ensures var computed := RunCalls(p, cache, tokens).1;
      forall i :: 0 <= i < |tokens| && computed[i] ==>
        tokens[i] !in cache && forall j :: 0 <= j < i ==> tokens[j] != tokens[i]
    decreases |tokens|
  {
    if |tokens| > 0 {
      var (_, cache', c0) := GetKeyAndIv(p, cache, tokens[0]);
      ComputedAtMostOnce(p, cache', tokens[1..]);
      var computed := RunCalls(p, cache, tokens).1;
      var rest := RunCalls(p, cache', tokens[1..]).1;
      assert computed == [c0] + rest;
      forall i | 0 <= i < |tokens| && computed[i]
        ensures tokens[i] !in cache && forall j :: 0 <= j < i ==> tokens[j] != tokens[i]
      {
        if i > 0 {
          assert rest[i - 1] && tokens[1..][i - 1] == tokens[i];
          assert tokens[i] !in cache';
          forall j | 0 <= j < i ensures tokens[j] != tokens[i] {
            if j > 0 { assert tokens[1..][j - 1] == tokens[j]; }
          }
        }
      }
    }
  }

  /** `createHelloPacket()`: the same bytes the codec class sends as its hello. */
  function CreateHelloPacket(): (r: seq<byte>)
    ensures |r| == 32 && ReadU16BE(r, 0) == MAGIC && ReadU16BE(r, 2) == 32
    ensures forall k :: 4 <= k < 32 ==> r[k] == 0xFF
    ensures r == MiioCodec.HelloPacket()
  {
    HelloBytes()
  }

  /** The stamp `encodePacket` writes: the given one when truthy, otherwise 0xFFFFFFFF. */
  function WrittenStamp(stamp: Option<int>): (s: int)
    ensures stamp.Some? && stamp.value != 0 ==> s == stamp.value
    ensures stamp.None? || stamp.value == 0 ==> s == NO_STAMP
  {
    if stamp.Some? && stamp.value != 0 then stamp.value else NO_STAMP
  }

  /** `createCipheriv`/`createDecipheriv` with a text key and iv, which are UTF-8 encoded first. */
  function CipherKey(p: Primitives, pair: KeyIv): (r: (seq<byte>, seq<byte>))
  {
    (p.utf8Encode(pair.key), p.utf8Encode(pair.iv))
  }

  /**
   * `encodePacket(data, deviceId, token, stamp)`: the cache is consulted (and filled) first;
   * the checksum hashes the token hex-decoded.
   */
  function EncodePacket(p: Primitives, cache: Cache, data: string, deviceId: int, token: string, stamp: Option<int>)
    : (r: (Cache, Result<seq<byte>, Thrown>))
    ensures r.0 == GetKeyAndIv(p, cache, token).1
    ensures r.1.Success? ==>
      var packet := r.1.value;
      var (k, iv) := CipherKey(p, GetKeyAndIv(p, cache, token).0);
      && |packet| >= HEADER_SIZE
      && ReadU16BE(packet, 0) == MAGIC && ReadU16BE(packet, 2) == |packet|
      && packet[4..8] == [0, 0, 0, 0]
      && ReadU32BE(packet, 8) == deviceId && ReadU32BE(packet, 12) == WrittenStamp(stamp)
      && p.aesEncrypt(k, iv, p.utf8Encode(data)) == Some(packet[32..])
      && packet[16..32] == ChecksumField(p.md5(packet[..16] + HexDecode(token) + packet[32..]))
  {
    var (pair, cache', _) := GetKeyAndIv(p, cache, token);
    var (k, iv) := CipherKey(p, pair);
    match p.aesEncrypt(k, iv, p.utf8Encode(data))
    case None => (cache', Failure(InvalidKeyLength))
    case Some(body) =>
      var len := HEADER_SIZE + |body|;
      var st := WrittenStamp(stamp);
      if !IsU16(len) then (cache', Failure(OutOfRange("length")))
      else if !IsU32(st) then (cache', Failure(OutOfRange("stamp")))
      else if !IsU32(deviceId) then (cache', Failure(OutOfRange("deviceId")))
      else
        var pre := Prefix(len, deviceId, st);
        var sum := ChecksumField(p.md5(pre + HexDecode(token) + body));
        var packet := pre + sum + body;
        assert packet[..16] == pre && packet[16..32] == sum && packet[32..] == body;
        assert packet[4..8] == pre[4..8];
        assert ReadU32BE(packet, 8) == ReadU32BE(pre, 8) && ReadU32BE(packet, 12) == ReadU32BE(pre, 12);
        (cache', Success(packet))
  }

  /**
   * `encodePacket` throws only from the cipher or a header write: when the cipher accepts the
   * key and the length, stamp and device id fit their fields, the packet is produced.
   */
  lemma EncodePacketSucceeds(p: Primitives, cache: Cache, data: string, deviceId: int, token: string, stamp: Option<int>)
    requires var (k, iv) := CipherKey(p, GetKeyAndIv(p, cache, token).0);
      var body := p.aesEncrypt(k, iv, p.utf8Encode(data));
      body.Some? && IsU16(HEADER_SIZE + |body.value|)
    requires IsU32(WrittenStamp(stamp)) && IsU32(deviceId)
    ensures var (k, iv) := CipherKey(p, GetKeyAndIv(p, cache, token).0);
      var res := EncodePacket(p, cache, data, deviceId, token, stamp).1;
      res.Success? && |res.value| == HEADER_SIZE + |p.aesEncrypt(k, iv, p.utf8Encode(data)).value|
  {
  }

  /** Decrypt a body with the token's cached key and iv. */
  function DecryptBody(p: Primitives, cache: Cache, token: string, fields: Decoded): (r: (Cache, Result<Decoded, Thrown>))
    ensures r.0 == GetKeyAndIv(p, cache, token).1
    ensures r.1.Success? ==> r.1.value == fields.(decrypted := r.1.value.decrypted) && r.1.value.decrypted.Some?
  {
    var (pair, cache', _) := GetKeyAndIv(p, cache, token);
    var (k, iv) := CipherKey(p, pair);
    if |k| != 16 || |iv| != 16 then (cache', Failure(InvalidKeyLength))
    else
      match p.aesDecrypt(k, iv, fields.encrypted)
      case None => (cache', Failure(BadDecrypt))
      case Some(plain) => (cache', Success(fields.(decrypted := Some(p.utf8Decode(plain)))))
  }

  /**
   * `decodePacket(packet, token)` as written: the header fields come back even when the body
   * is empty, the token is falsy or the checksum does not match; the checksum here hashes the
   * token's raw text.
   */
  function DecodePacket(p: Primitives, cache: Cache, packet: seq<byte>, token: Option<string>)
    : (r: (Cache, Result<Decoded, Thrown>))
    ensures |packet| < 16 ==> r == (cache, Failure(BufferOutOfBounds))
    ensures |packet| >= 16 && (|packet| <= HEADER_SIZE || token.None? || token.value == "") ==>
      r == (cache, Success(ReadFields(packet).value))
    ensures (&& |packet| > HEADER_SIZE && token.Some? && token.value != ""
             && packet[16..32] != p.md5(packet[..16] + p.utf8Encode(token.value) + packet[32..]))
      ==> r == (cache, Success(ReadFields(packet).value))
    ensures r.1.Success? && r.1.value.decrypted.Some? ==>
      packet[16..32] == p.md5(packet[..16] + p.utf8Encode(token.value) + packet[32..])
  {
    match ReadFields(packet)
    case Failure(e) => (cache, Failure(e))
    case Success(fields) =>
      if |fields.encrypted| == 0 || token.None? || token.value == "" then (cache, Success(fields))
      else
        assert fields.checksum == packet[16..32] && fields.encrypted == packet[32..];
        var digest := p.md5(packet[..16] + p.utf8Encode(token.value) + fields.encrypted);
        if fields.checksum != digest then (cache, Success(fields))
        else DecryptBody(p, cache, token.value, fields)
  }

  /** `decodePacket` with the checksum computed as `encodePacket` computes it: over the hex-decoded token. */
  function DecodePacketFixed(p: Primitives, cache: Cache, packet: seq<byte>, token: Option<string>)
    : (r: (Cache, Result<Decoded, Thrown>))
    ensures |packet| < 16 ==> r == (cache, Failure(BufferOutOfBounds))
    ensures |packet| >= 16 && (|packet| <= HEADER_SIZE || token.None? || token.value == "") ==>
      r == (cache, Success(ReadFields(packet).value))
    ensures r.1.Success? && r.1.value.decrypted.Some? ==>
      packet[16..32] == p.md5(packet[..16] + HexDecode(token.value) + packet[32..])
  {
    match ReadFields(packet)
    case Failure(e) => (cache, Failure(e))
    case Success(fields) =>
      if |fields.encrypted| == 0 || token.None? || token.value == "" then (cache, Success(fields))
      else
        assert fields.checksum == packet[16..32] && fields.encrypted == packet[32..];
        var digest := p.md5(packet[..16] + HexDecode(token.value) + fields.encrypted);
        if fields.checksum != digest then (cache, Success(fields))
        else DecryptBody(p, cache, token.value, fields)
  }

  /**
   * Round trip of the corrected decoder: whatever `encodePacket` produced for a truthy token,
   * decoding it with the same token and a coherent cache gives back the device id, the written
   * stamp and the text.
   */
  lemma DecodeFixedEncode(p: Primitives, cache: Cache, data: string, deviceId: int, token: string, stamp: Option<int>)
    requires Sound(p) && Coherent(p, cache) && token != ""
    requires EncodePacket(p, cache, data, deviceId, token, stamp).1.Success?
    ensures var (cache', res) := EncodePacket(p, cache, data, deviceId, token, stamp);
      var (_, dec) := DecodePacketFixed(p, cache', res.value, Some(token));
      && dec.Success?
      && dec.value.did == deviceId && dec.value.stamp == WrittenStamp(stamp)
      && dec.value.decrypted == Some(data)
  {
    var (pair, cache', _) := GetKeyAndIv(p, cache, token);
    var (k, iv) := CipherKey(p, pair);
    var body := p.aesEncrypt(k, iv, p.utf8Encode(data)).value;
    var len := HEADER_SIZE + |body|;
    var st := WrittenStamp(stamp);
    var pre := Prefix(len, deviceId, st);
    var sum := ChecksumField(p.md5(pre + HexDecode(token) + body));
    var packet := pre + sum + body;
    assert EncodePacket(p, cache, data, deviceId, token, stamp).1 == Success(packet);
    ReadFieldsOfAssembled(len, deviceId, st, sum, body);
    assert packet[..16] == pre && packet[16..32] == sum && packet[32..] == body;
    assert |body| > 0;
    var (pair2, _, _) := GetKeyAndIv(p, cache', token);
    assert pair2 == pair;
  }

  /** The as-written decoder never decrypts a packet whose checksum was made over the hex-decoded token,
   *  unless MD5 happens to agree on the raw text. */
  lemma DecodeAsWrittenMissesHexChecksum(p: Primitives, cache: Cache, data: string, deviceId: int, token: string, stamp: Option<int>)
    requires token != ""
    requires EncodePacket(p, cache, data, deviceId, token, stamp).1.Success?
    requires var packet := EncodePacket(p, cache, data, deviceId, token, stamp).1.value;
      p.md5(packet[..16] + HexDecode(token) + packet[32..]) != p.md5(packet[..16] + p.utf8Encode(token) + packet[32..])
      && |p.md5(packet[..16] + HexDecode(token) + packet[32..])| == 16
    ensures var (cache', res) := EncodePacket(p, cache, data, deviceId, token, stamp);
      DecodePacket(p, cache', res.value, Some(token)).1.value.decrypted.None?
  {
  }

  /** Under the stand-in primitives every token yields a 16-byte key and iv. */
  lemma WitnessCipherKey(token: string)
    ensures var (k, iv) := CipherKey(Witness(), DeriveKeyIv(Witness(), token)); |k| == 16 && |iv| == 16
  {
    var p := Witness();
    var tb := HexDecode(token);
    WitnessDigestText(tb);
    var key := p.utf8Decode(p.md5(tb));
    WitnessDigestText(p.utf8Encode(key) + tb);
  }

  /** Under the stand-in primitives, encrypting the empty text for any token is the 16-byte padding block. */
  lemma WitnessEncryptsEmpty(token: string)
    ensures var (k, iv) := CipherKey(Witness(), GetKeyAndIv(Witness(), map[], token).0);
      Witness().aesEncrypt(k, iv, Witness().utf8Encode("")) == Some(Pad([]))
  {
    var p := Witness();
    WitnessCipherKey(token);
    var pair := DeriveKeyIv(p, token);
    assert GetKeyAndIv(p, map[], token).0 == pair;
    assert p.utf8Encode("") == [];
  }

  /** Under the stand-in primitives, encoding the empty text succeeds with a 16-byte body. */
  lemma WitnessEncodesEmpty(token: string)
    ensures var (_, res) := EncodePacket(Witness(), map[], "", 1, token, Some(1));
      res.Success? && |res.value| == 48
  {
    var p := Witness();
    var (k, iv) := CipherKey(p, GetKeyAndIv(p, map[], token).0);
    assert p.aesEncrypt(k, iv, p.utf8Encode("")) == Some(Pad([])) by { WitnessEncryptsEmpty(token); }
    assert |Pad([])| == 16 by { assert |Pad([])| == CipherLength(0); }
    EncodesOneBlock(p, token, Pad([]));
  }

  /** A cipher that turns the empty text into one block gives a 48-byte packet for device id 1 and stamp 1. */
  lemma EncodesOneBlock(p: Primitives, token: string, block: seq<byte>)
    requires var (k, iv) := CipherKey(p, GetKeyAndIv(p, map[], token).0);
      p.aesEncrypt(k, iv, p.utf8Encode("")) == Some(block) && |block| == 16
    ensures var (_, res) := EncodePacket(p, map[], "", 1, token, Some(1));
      res.Success? && |res.value| == 48
  {
    EncodePacketSucceeds(p, map[], "", 1, token, Some(1));
  }

  /**
   * The as-written decoder finds no plaintext in that packet for a 32-digit token: the token
   * is 16 bytes hex-decoded but 32 bytes as text, and the stand-in MD5 sees the difference.
   */
  lemma WitnessAsWritten(token: string)
    requires |token| == 32 && AllHexDigits(token)
    ensures var p := Witness();
      var (cache', res) := EncodePacket(p, map[], "", 1, token, Some(1));
      && res.Success?
      && DecodePacket(p, cache', res.value, Some(token)).1.Success?
      && DecodePacket(p, cache', res.value, Some(token)).1.value.decrypted.None?
  {
    var p := Witness();
    WitnessEncodesEmpty(token);
    var packet := EncodePacket(p, map[], "", 1, token, Some(1)).1.value;
    WitnessDigestsDiffer(token, packet);
    DecodeAsWrittenMissesHexChecksum(p, map[], "", 1, token, Some(1));
  }

  /** The stand-in MD5 of a 48-byte packet tells the hex-decoded token from its 32-byte text. */
  lemma WitnessDigestsDiffer(token: string, packet: seq<byte>)
    requires |token| == 32 && AllHexDigits(token) && |packet| == 48
    ensures var p := Witness();
      p.md5(packet[..16] + HexDecode(token) + packet[32..]) != p.md5(packet[..16] + p.utf8Encode(token) + packet[32..])
      && |p.md5(packet[..16] + HexDecode(token) + packet[32..])| == 16
  {
    var p := Witness();
    WitnessTokenLengths(token);
    var hexIn := packet[..16] + HexDecode(token) + packet[32..];
    var textIn := packet[..16] + p.utf8Encode(token) + packet[32..];
    assert |hexIn| == 48 && |textIn| == 64;
    WitnessDigestsOfLengths(hexIn, textIn);
  }

  /** The stand-in MD5 of 48 bytes is not that of 64 bytes. */
  lemma WitnessDigestsOfLengths(x: seq<byte>, y: seq<byte>)
    requires |x| == 48 && |y| == 64
    ensures Witness().md5(x) != Witness().md5(y) && |Witness().md5(x)| == 16
  {
    assert Witness().md5(x)[0] == 48 && Witness().md5(y)[0] == 64;
  }

  /** A 32-digit token is 16 bytes hex-decoded and 32 bytes as text. */
  lemma WitnessTokenLengths(token: string)
    requires |token| == 32 && AllHexDigits(token)
    ensures |HexDecode(token)| == 16 && |Witness().utf8Encode(token)| == 32
  {
    HexDecodeLength(token);
    assert forall k :: 0 <= k < |token| ==> token[k] as int < 128;
    assert Witness().utf8Encode(token) == EncodeText(token);
  }

  /** The corrected decoder recovers the empty text from the same packet. */
  lemma WitnessFixed(token: string)
    requires token != ""
    ensures var p := Witness();
      var (cache', res) := EncodePacket(p, map[], "", 1, token, Some(1));
      && res.Success?
      && DecodePacketFixed(p, cache', res.value, Some(token)).1.Success?
      && DecodePacketFixed(p, cache', res.value, Some(token)).1.value.decrypted == Some("")
  {
    SoundIsSatisfiable();
    WitnessEncodesEmpty(token);
    DecodeFixedEncode(Witness(), map[], "", 1, token, Some(1));
  }

  /**
   * With primitives that meet `Sound`, any 32-digit token (the form device tokens take),
   * device id 1 and stamp 1, the as-written decoder returns no plaintext for the packet
   * `encodePacket` has just produced, while the corrected decoder returns the text.
   */
  lemma DecodeAsWrittenCounterexample(token: string)
    requires |token| == 32 && AllHexDigits(token)
    ensures var p := Witness();
      var (cache', res) := EncodePacket(p, map[], "", 1, token, Some(1));
      && res.Success?
      && DecodePacket(p, cache', res.value, Some(token)).1.Success?
      && DecodePacket(p, cache', res.value, Some(token)).1.value.decrypted.None?
      && DecodePacketFixed(p, cache', res.value, Some(token)).1.Success?
      && DecodePacketFixed(p, cache', res.value, Some(token)).1.value.decrypted == Some("")
  {
    WitnessAsWritten(token);
    WitnessFixed(token);
  }

  /** The two codecs disagree on stamp 0: `encode` writes 0, `encodePacket` writes 0xFFFFFFFF. */
  lemma StampZeroWrittenDifferently()
    ensures WrittenStamp(Some(0)) == NO_STAMP && Some(0).GetOr(NO_STAMP) == 0
  {
  }
}

=== FILE: miot_service.dfy ===
/**
 * The MIoT property and action calls of `service/MIoT.ts`: the `siid.piid` identifiers, the
 * request parameters of `getProps`, `setProps` and `action`, and the error check the single
 * calls apply to the first result.
 */
module MiotService {
  import opened Wrappers
  import opened Strings
  import opened Json
  import MiioClient

  // ---------------------------------------------------------------------------------------
  // resovleIid
  // ---------------------------------------------------------------------------------------

  /** `iid.replace(/^0\./, '')`: one leading "0." is removed. */
  function StripZero(iid: string): (r: string)
    ensures StartsWith(iid, "0.") ==> iid == "0." + r
    ensures !StartsWith(iid, "0.") ==> r == iid
  {
    if StartsWith(iid, "0.") then
      assert iid == iid[..2] + iid[2..];
      iid[2..]
    else iid
  }

  /** The service and property (or action) ids an identifier names; `NaN` where a part is not a number. */
  datatype Iid = Iid(siid: Value, piid: Value)

  /** `Number(part)`, where a missing part is `Number(undefined)`, which is `NaN`. */
  function NumberOfPart(parts: seq<string>, k: nat): (v: Value)
    ensures v.Num? || v.NaN?
    ensures k >= |parts| ==> v == NaN
  {
    if k < |parts| then NumberValue(JsNumber(parts[k])) else NaN
  }

  /** `resovleIid(iid)`: the first two '.'-parts after the strip, as numbers; later parts are ignored. */
  function ResolveIid(iid: string): (r: Iid)
    ensures (r.siid.Num? || r.siid.NaN?) && (r.piid.Num? || r.piid.NaN?)
    ensures !Contains(StripZero(iid), ".") ==> r.piid == NaN && r.siid == NumberValue(JsNumber(StripZero(iid)))
  {
    var parts := Split(StripZero(iid), ".");
    SplitSingle(StripZero(iid), ".");
    Iid(NumberOfPart(parts, 0), NumberOfPart(parts, 1))
  }

  /** A decimal rendering has no '.' in it. */
  lemma DecimalHasNoDot(n: nat)
    ensures !Contains(NatToDecimal(n), ".")
  {
    var s := NatToDecimal(n);
    assert forall k :: 0 <= k < |s| ==> s[k] != '.' by {
      forall k | 0 <= k < |s| ensures s[k] != '.' { assert IsDigit(s[k]); }
    }
    CharFree(s, '.');
  }

  /** The first two '.'-parts of `a.b` followed by nothing or by further parts are `a` and `b`. */
  lemma FirstTwoParts(a: string, b: string, more: string)
    requires !Contains(a, ".") && !Contains(b, ".") && (more == "" || more[0] == '.')
    ensures var parts := Split(a + "." + b + more, ".");
      |parts| >= 2 && parts[0] == a && parts[1] == b
  {
    var whole := a + "." + b + more;
    assert whole == a + ['.'] + (b + more);
    SplitCons(a, b + more, '.');
    var rest := Split(b + more, ".");
    assert Split(whole, ".") == [a] + rest;
    if more == "" {
      assert b + more == b;
      SplitSingle(b, ".");
      assert rest == [b];
    } else {
      assert b + more == b + ['.'] + more[1..];
      SplitCons(b, more[1..], '.');
      assert rest[0] == b;
    }
  }

  /**
   * `"<siid>.<piid>"`, optionally followed by further ".parts", resolves to the two numbers
   * when `siid` is not 0.
   */
  lemma ResolveIidOfNumbers(siid: nat, piid: nat, more: string)
    requires siid != 0 && (more == "" || more[0] == '.')
    ensures ResolveIid(NatToDecimal(siid) + "." + NatToDecimal(piid) + more) == Iid(Num(siid), Num(piid))
  {
    var a, b := NatToDecimal(siid), NatToDecimal(piid);
    var iid := a + "." + b + more;
    assert a[0] != '0' by {
      if |a| == 1 { assert a == [DigitChar(siid)]; }
    }
    assert iid[0] == a[0];
    assert StripZero(iid) == iid;
    DecimalHasNoDot(siid);
    DecimalHasNoDot(piid);
    FirstTwoParts(a, b, more);
    JsNumberOfDecimal(siid);
    JsNumberOfDecimal(piid);
  }

  /** A zero service id is swallowed by the strip: "0.<n>" names service `n` and no property. */
  lemma ResolveIidZeroService(n: nat)
    ensures ResolveIid("0." + NatToDecimal(n)) == Iid(Num(n), NaN)
  {
    var b := NatToDecimal(n);
    assert StartsWith("0." + b, "0.");
    assert StripZero("0." + b) == b;
    DecimalHasNoDot(n);
    SplitSingle(b, ".");
    JsNumberOfDecimal(n);
  }

  // ---------------------------------------------------------------------------------------
  // Request parameters
  // ---------------------------------------------------------------------------------------

  /** A request to the cloud API: the path and the `data` object. */
  datatype Request = Request(path: string, data: Value)

  /** `{ did: String(did), siid, piid }` with the ids of `iid`, and any extra fields. */
  function PropParam(did: Value, iid: string, extra: map<string, Value>): (r: Value)
    ensures r.Obj? && r.fields.Keys == {"did", "siid", "piid"} + extra.Keys
    ensures r.fields["did"] == Str(JsString(did))
    ensures r.fields["siid"] == ResolveIid(iid).siid && r.fields["piid"] == ResolveIid(iid).piid
  {
    var ids := ResolveIid(iid);
    Obj(extra + map["did" := Str(JsString(did)), "siid" := ids.siid, "piid" := ids.piid])
  }

  /** `getProps(did, iids)`: one parameter per identifier, in the same order. */
  function GetProps(did: Value, iids: seq<string>): (r: Request)
    ensures r.path == "/miotspec/prop/get" && r.data.Obj? && r.data.fields.Keys == {"params"}
    ensures var ps := r.data.fields["params"];
      ps.Arr? && |ps.items| == |iids| && forall i :: 0 <= i < |iids| ==> ps.items[i] == PropParam(did, iids[i], map[])
  {
    Request("/miotspec/prop/get", Obj(map["params" := Arr(seq(|iids|, i requires 0 <= i < |iids| => PropParam(did, iids[i], map[])))]))
  }

  /** `setProps(did, props)`: one parameter per pair, in the same order, with its value. */
  function SetProps(did: Value, props: seq<(string, Value)>): (r: Request)
    ensures r.path == "/miotspec/prop/set" && r.data.Obj? && r.data.fields.Keys == {"params"}
    ensures var ps := r.data.fields["params"];
      ps.Arr? && |ps.items| == |props|
      && forall i :: 0 <= i < |props| ==> ps.items[i] == PropParam(did, props[i].0, map["value" := props[i].1])
  {
    Request("/miotspec/prop/set", Obj(map["params" := Arr(seq(|props|, i requires 0 <= i < |props| => PropParam(did, props[i].0, map["value" := props[i].1])))]))
  }

  /** Every set parameter carries the ids of its identifier and the value it sets. */
  lemma SetPropsCarriesValues(did: Value, props: seq<(string, Value)>, i: nat)
    requires i < |props|
    ensures var p := SetProps(did, props).data.fields["params"].items[i];
      p.Obj? && p.fields["value"] == props[i].1 && p.fields["did"] == Str(JsString(did))
      && Iid(p.fields["siid"], p.fields["piid"]) == ResolveIid(props[i].0)
  {
    var p := PropParam(did, props[i].0, map["value" := props[i].1]);
    assert p.fields == map["value" := props[i].1] + map["did" := Str(JsString(did)), "siid" := ResolveIid(props[i].0).siid, "piid" := ResolveIid(props[i].0).piid];
  }

  /** `action(did, iid, args)`: the second id is sent as `aiid`, the arguments as `in`. */
  function Action(did: Value, iid: string, args: seq<Value>): (r: Request)
    ensures r.path == "/miotspec/action" && r.data.Obj? && r.data.fields.Keys == {"params"}
    ensures var p := r.data.fields["params"];
      p.Obj? && p.fields.Keys == {"did", "siid", "aiid", "in"}
      && p.fields["did"] == Str(JsString(did)) && p.fields["in"] == Arr(args)
      && Iid(p.fields["siid"], p.fields["aiid"]) == ResolveIid(iid)
  {
    var ids := ResolveIid(iid);
    Request("/miotspec/action", Obj(map["params" := Obj(map["did" := Str(JsString(did)), "siid" := ids.siid, "aiid" := ids.piid, "in" := Arr(args)])]))
  }

  // ---------------------------------------------------------------------------------------
  // The error check on a result
  // ---------------------------------------------------------------------------------------

  /** The message listed for a key of the error table, given as text. */
  function MessageOfText(text: string): (r: Option<string>)
    ensures r.Some? ==> exists k :: IntToDecimal(k) == text && MiioClient.CodeMessage(k) == r
  {
    match JsNumber(text)
    case Some(n) => if IntToDecimal(n) == text then MiioClient.CodeMessage(n) else None
    case None => None
  }

  /** The text of a listed code finds that code's message. */
  lemma MessageOfCodeText(code: int)
    ensures MessageOfText(IntToDecimal(code)) == MiioClient.CodeMessage(code)
  {
    JsNumberOfDecimal(code);
  }

  /** Outcome of `catchError(code)` on whatever the reply holds: it returns, throws a message, or fails reading `toString`. */
  datatype Check = Passes | Throws(message: string) | TypeError

  /** `catchError(result.code)`: `undefined` passes, `null` cannot be turned into text, anything else is looked up by its text. */
  function CatchCode(code: Value): (r: Check)
    ensures code.Undefined? ==> r == Passes
    ensures code.Null? ==> r == TypeError
    ensures !IsNullish(code) ==> (r.Throws? <==> MessageOfText(JsString(code)).Some?)
  {
    match code
    case Undefined => Passes
    case Null => TypeError
    case _ =>
      match MessageOfText(JsString(code))
      case Some(m) => Throws(m)
      case None => Passes
  }

  /** On a number, the check throws exactly what `catchError` on that number throws. */
  lemma CatchCodeNumber(n: int)
    ensures CatchCode(Num(n)) == match MiioClient.CatchError(Some(n)) case Some(m) => Throws(m) case None => Passes
  {
    MessageOfCodeText(n);
  }

  /** What the single-value calls return or throw. */
  datatype Outcome = Returned(result: Value) | Failed(check: Check)

  /** The first element of a reply, checked: reading `.code` of a missing element fails. */
  function FirstChecked(res: Value): (r: Outcome)
    ensures IsNullish(res) ==> r == Failed(TypeError)
    ensures res.Arr? && |res.items| == 0 ==> r == Failed(TypeError)
    ensures r.Returned? ==> res.Arr? ==> r.result == res.items[0]
    ensures r.Returned? ==> !IsNullish(r.result) && CatchCode(Get(r.result, "code")) == Passes
  {
    if IsNullish(res) then Failed(TypeError)
    else
      var first := Get(res, "0");
      assert res.Arr? ==> IndexKey("0") == Some(0) by { IndexKeyOfDecimal(0); }
      if IsNullish(first) then Failed(TypeError)
      else
        match CatchCode(Get(first, "code"))
        case Passes => Returned(first)
        case failure => Failed(failure)
  }

  /** `getProp(did, iid)`: the reply to a one-element `getProps`, checked. */
  function GetProp(did: Value, iid: string, reply: Value): (r: (Request, Outcome))
    ensures r.0 == GetProps(did, [iid])
    ensures r.1 == FirstChecked(reply)
  {
    (GetProps(did, [iid]), FirstChecked(reply))
  }

  /** `setProp(did, iid, value)`: the reply to a one-element `setProps`, checked. */
  function SetProp(did: Value, iid: string, value: Value, reply: Value): (r: (Request, Outcome))
    ensures r.0 == SetProps(did, [(iid, value)])
    ensures r.1 == FirstChecked(reply)
  {
    (SetProps(did, [(iid, value)]), FirstChecked(reply))
  }

  /** `action` checks the code of the whole reply and returns the reply. */
  function ActionResult(reply: Value): (r: Outcome)
    ensures IsNullish(reply) ==> r == Failed(TypeError)
    ensures r.Returned? ==> r.result == reply && CatchCode(Get(reply, "code")) == Passes
  {
    if IsNullish(reply) then Failed(TypeError)
    else
      match CatchCode(Get(reply, "code"))
      case Passes => Returned(reply)
      case failure => Failed(failure)
  }

  /** A listed code in the first result makes `getProp` throw that code's message, even for "OK". */
  lemma GetPropListedCode(did: Value, iid: string, first: map<string, Value>, rest: seq<Value>, code: int)
    requires "code" in first && first["code"] == Num(code) && MiioClient.CodeMessage(code).Some?
    ensures GetProp(did, iid, Arr([Obj(first)] + rest)).1 == Failed(Throws(MiioClient.CodeMessage(code).value))
  {
    var res := Arr([Obj(first)] + rest);
    assert IndexKey("0") == Some(0) by { IndexKeyOfDecimal(0); assert NatToDecimal(0) == "0"; }
    assert Get(res, "0") == Obj(first);
    assert Get(Obj(first), "code") == Num(code);
    CatchCodeNumber(code);
    assert CatchCode(Num(code)) == Throws(MiioClient.CodeMessage(code).value);
  }
}

=== FILE: miot_spec.dfy ===
/**
 * The MIoT specification helpers of `miot.ts`, `cloud/MIoTSpec.ts` and `service/MIoTSpec.ts`:
 * parsing a specification URN, flattening an instance into `service.property` keys, and
 * resolving a device model to the instance type that is then requested.
 */
module MiotSpec {
  import opened Wrappers
  import opened Strings
  import opened Json

  // ---------------------------------------------------------------------------------------
  // URNs
  // ---------------------------------------------------------------------------------------

  /**
   * A parsed `urn:<namespace>:<type>:<name>:<value>[:<vendor-product>:<version>]`. A field the
   * text does not have is `None` (`undefined`); `value` is `None` when it is `NaN`; `version`
   * is `undefined`, a number or `NaN`.
   */
  datatype SpecType = SpecType(
    urn: Option<string>, namespace: Option<string>, kind: Option<string>, name: Option<string>,
    value: Option<int>, vendorProduct: Option<string>, version: Value)

  /** Part `k` of a destructured split, `undefined` past the end. */
  function Field(parts: seq<string>, k: nat): (r: Option<string>)
    ensures r.Some? <==> k < |parts|
    ensures r.Some? ==> r.value == parts[k]
  {
    if k < |parts| then Some(parts[k]) else None
  }

  /** `String(x)` of a destructured part: the part itself, or "undefined". */
  function FieldText(f: Option<string>): string {
    match f
    case Some(s) => s
    case None => "undefined"
  }

  /**
   * `parseSpecificationType` (and `parseType`): the ':'-parts by position, the fifth read as
   * hexadecimal with `parseInt(value, 16)`, the seventh read with `Number` when it is a
   * non-empty text.
   */
  function ParseType(text: string): (r: SpecType)
    ensures r.urn.Some? && StartsWith(text, r.urn.value) && !Contains(r.urn.value, ":")
    ensures !Contains(text, ":") ==>
      r.urn == Some(text) && r.namespace == None && r.value == None && r.version == Undefined
  {
    var parts := Split(text, ":");
    SplitHeadPrefix(text, ":");
    SplitSingle(text, ":");
    MissingValueIsNaN();
    var version := Field(parts, 6);
    SpecType(Field(parts, 0), Field(parts, 1), Field(parts, 2), Field(parts, 3),
             ParseIntHex(FieldText(Field(parts, 4))), Field(parts, 5),
             if version.Some? && version.value != "" then NumberValue(JsNumber(version.value)) else Undefined)
  }

  /** "undefined" has no hexadecimal digit, so a missing value field is `NaN`. */
  lemma MissingValueIsNaN()
    ensures ParseIntHex("undefined") == None
  {
    assert TrimStart("undefined") == "undefined";
    assert !IsHexDigit("undefined"[0]);
  }

  /** Every part of a ':'-joined URN comes back at its position; absent parts are `undefined`. */
  lemma ParseTypeOfParts(parts: seq<string>)
    requires |parts| > 0 && forall k :: 0 <= k < |parts| ==> !Contains(parts[k], ":")
    ensures var r := ParseType(Join(parts, ":"));
      && r.urn == Some(parts[0]) && r.namespace == Field(parts, 1) && r.kind == Field(parts, 2)
      && r.name == Field(parts, 3) && r.vendorProduct == Field(parts, 5)
      && (|parts| <= 4 ==> r.value == None)
      && (|parts| > 4 && |parts[4]| > 0 && AllHexDigits(parts[4]) ==> r.value == Some(HexDigitsValue(parts[4])))
      && (|parts| <= 6 ==> r.version == Undefined)
      && (|parts| > 6 && |parts[6]| > 0 && AllDigits(parts[6]) ==> r.version == Num(DigitsValue(parts[6])))
  {
    SplitJoin(parts, ':');
    MissingValueIsNaN();
  }

  /**
   * The device-information service type `urn:miot-spec-v2:service:device-information:00007801`
   * (written as its ':'-joined parts): name, value and no version.
   */
  lemma DeviceInformationType()
    ensures var r := ParseType(Join(["urn", "miot-spec-v2", "service", "device-information", "00007801"], ":"));
      r.name == Some("device-information") && r.value == Some(0x7801) && r.version == Undefined
  {
    var parts := ["urn", "miot-spec-v2", "service", "device-information", "00007801"];
    CharFree("urn", ':');
    CharFree("miot-spec-v2", ':');
    CharFree("service", ':');
    CharFree("device-information", ':');
    CharFree("00007801", ':');
    ParseTypeOfParts(parts);
    DeviceInformationValue();
  }

  lemma DeviceInformationValue()
    ensures AllHexDigits("00007801") && HexDigitsValue("00007801") == 0x7801
  {
    var s := "00007801";
    assert s[..1][..0] == [];
    assert HexDigitsValue(s[..1]) == 0;
    assert s[..2][..1] == s[..1];
    assert HexDigitsValue(s[..2]) == 0;
    assert s[..3][..2] == s[..2];
    assert HexDigitsValue(s[..3]) == 0;
    assert s[..4][..3] == s[..3];
    assert HexDigitsValue(s[..4]) == 0;
    assert s[..5][..4] == s[..4];
    assert HexDigitsValue(s[..5]) == 7;
    assert s[..6][..5] == s[..5];
    assert HexDigitsValue(s[..6]) == 0x78;
    assert s[..7][..6] == s[..6];
    assert HexDigitsValue(s[..7]) == 0x780;
    assert s[..7] == s[..|s| - 1];
  }

  // ---------------------------------------------------------------------------------------
  // parseInstanceProperties
  // ---------------------------------------------------------------------------------------

  /** A property of a service: its type URN and its other fields. */
  datatype Property = Property(kind: string, others: map<string, Value>)

  /** A service of an instance: its `iid`, its type URN and its properties. */
  datatype Service = Service(iid: Value, kind: string, properties: seq<Property>)

  /** The property as an object: its fields with `type`. */
  function PropertyObject(p: Property): (r: map<string, Value>)
    ensures "type" in r && r["type"] == Str(p.kind)
  {
    p.others["type" := Str(p.kind)]
  }

  /** `${serviceName}.${propertyName}`. */
  function Key(s: Service, p: Property): string {
    FieldText(ParseType(s.kind).name) + "." + FieldText(ParseType(p.kind).name)
  }

  /** `{ siid: service.iid, ...property }`: the property's own `siid`, if it has one, wins. */
  function PropertyEntry(s: Service, p: Property): (r: map<string, Value>)
    ensures r.Keys == PropertyObject(p).Keys + {"siid"}
    ensures r["siid"] == if "siid" in PropertyObject(p) then PropertyObject(p)["siid"] else s.iid
    ensures forall k :: k in PropertyObject(p) ==> r[k] == PropertyObject(p)[k]
  {
    map["siid" := s.iid] + PropertyObject(p)
  }

  /** The `(key, entry)` pairs of one service's properties, in order. */
  function ServiceEntries(s: Service): (r: seq<(string, map<string, Value>)>)
    ensures |r| == |s.properties|
    ensures forall j :: 0 <= j < |r| ==> r[j] == (Key(s, s.properties[j]), PropertyEntry(s, s.properties[j]))
  {
    seq(|s.properties|, j requires 0 <= j < |s.properties| => (Key(s, s.properties[j]), PropertyEntry(s, s.properties[j])))
  }

  /** The pairs of every service, one group per service. */
  function Groups(services: seq<Service>): (r: seq<seq<(string, map<string, Value>)>>)
    ensures |r| == |services|
    ensures forall i :: 0 <= i < |r| ==> r[i] == ServiceEntries(services[i])
  {
    seq(|services|, i requires 0 <= i < |services| => ServiceEntries(services[i]))
  }

  /** The groups concatenated in order. */
  function Flatten<T>(groups: seq<seq<T>>): seq<T> {
    if |groups| == 0 then [] else Flatten(groups[..|groups| - 1]) + groups[|groups| - 1]
  }

  /** The total size of the groups. */
  function TotalSize<T>(groups: seq<seq<T>>): nat {
    if |groups| == 0 then 0 else TotalSize(groups[..|groups| - 1]) + |groups[|groups| - 1]|
  }

  /** One element of the flattening per element of a group. */
  lemma {:induction false} FlattenLength<T>(groups: seq<seq<T>>)
    ensures |Flatten(groups)| == TotalSize(groups)
  {
    if |groups| > 0 { FlattenLength(groups[..|groups| - 1]); }
  }

  /** Every element of every group sits somewhere in the flattening. */
  lemma {:induction false} FlattenIndex<T>(groups: seq<seq<T>>, gi: nat, j: nat) returns (at: nat)
    requires gi < |groups| && j < |groups[gi]|
    ensures at < |Flatten(groups)| && Flatten(groups)[at] == groups[gi][j]
  {
    var init := groups[..|groups| - 1];
    if gi == |groups| - 1 {
      at := |Flatten(init)| + j;
    } else {
      at := FlattenIndex(init, gi, j);
      assert init[gi] == groups[gi];
    }
  }

  /**
   * Assigning key-value pairs in order into an empty object: a later pair with the same key
   * replaces an earlier one.
   */
  function FromPairs<K, V>(entries: seq<(K, V)>): (r: map<K, V>)
    ensures |r.Keys| <= |entries|
  {
    if |entries| == 0 then map[]
    else
      var init := FromPairs(entries[..|entries| - 1]);
      var last := entries[|entries| - 1];
      assert init[last.0 := last.1].Keys <= init.Keys + {last.0};
      SetSizeBound(init.Keys, last.0);
      init[last.0 := last.1]
  }

  lemma SetSizeBound<K>(s: set<K>, x: K)
    ensures |s + {x}| <= |s| + 1
  {
    if x in s { assert s + {x} == s; }
  }

  /** The keys of the assigned object are the keys of the pairs. */
  lemma {:induction false} FromPairsKeys<K, V>(entries: seq<(K, V)>, key: K)
    ensures key in FromPairs(entries) <==> exists i :: 0 <= i < |entries| && entries[i].0 == key
    decreases |entries|
  {
    if |entries| > 0 {
      var init := entries[..|entries| - 1];
      FromPairsKeys(init, key);
      if exists i :: 0 <= i < |init| && init[i].0 == key {
        var i :| 0 <= i < |init| && init[i].0 == key;
        assert entries[i].0 == key;
      }
      if exists i :: 0 <= i < |entries| && entries[i].0 == key {
        var i :| 0 <= i < |entries| && entries[i].0 == key;
        if i < |init| { assert init[i].0 == key; }
      }
    }
  }

  /** The value under a key is that of the last pair with the key. */
  lemma {:induction false} FromPairsLast<K, V>(entries: seq<(K, V)>, i: nat)
    requires i < |entries| && forall j :: i < j < |entries| ==> entries[j].0 != entries[i].0
    ensures entries[i].0 in FromPairs(entries) && FromPairs(entries)[entries[i].0] == entries[i].1
    decreases |entries|
  {
    if i < |entries| - 1 {
      var init := entries[..|entries| - 1];
      assert forall j :: i < j < |init| ==> init[j] == entries[j];
      FromPairsLast(init, i);
    }
  }

  /** `parseInstanceProperties(instance)`: at most one key per property. */
  function ParseInstanceProperties(services: seq<Service>): (r: map<string, map<string, Value>>)
    ensures |r.Keys| <= TotalSize(Groups(services))
  {
    FlattenLength(Groups(services));
    FromPairs(Flatten(Groups(services)))
  }

  /** Every property of every service has its key in the result. */
  lemma EveryPropertyKeyed(services: seq<Service>, si: nat, pj: nat)
    requires si < |services| && pj < |services[si].properties|
    ensures Key(services[si], services[si].properties[pj]) in ParseInstanceProperties(services)
  {
    var groups := Groups(services);
    var at := FlattenIndex(groups, si, pj);
    FromPairsKeys(Flatten(groups), Key(services[si], services[si].properties[pj]));
  }

  /** Every key of the result is the key of some property. */
  lemma KeysAreProperties(services: seq<Service>, k: string)
    requires k in ParseInstanceProperties(services)
    ensures exists si, pj :: (0 <= si < |services| && 0 <= pj < |services[si].properties|
      && Key(services[si], services[si].properties[pj]) == k)
  {
    var groups := Groups(services);
    var es := Flatten(groups);
    FromPairsKeys(es, k);
    var at :| 0 <= at < |es| && es[at].0 == k;
    var si, pj := FlattenSource(groups, at);
  }

  /** The group and position an element of the flattening comes from. */
  lemma {:induction false} FlattenSource<T>(groups: seq<seq<T>>, at: nat) returns (gi: nat, j: nat)
    requires at < |Flatten(groups)|
    ensures gi < |groups| && j < |groups[gi]| && Flatten(groups)[at] == groups[gi][j]
  {
    var init := groups[..|groups| - 1];
    if at < |Flatten(init)| {
      gi, j := FlattenSource(init, at);
      assert init[gi] == groups[gi];
    } else {
      gi, j := |groups| - 1, at - |Flatten(init)|;
    }
  }

  /**
   * The value under a property's key is that property's entry when no property after it, in
   * the order the two loops visit them, has the same key: a later duplicate overwrites an
   * earlier one.
   */
  lemma LastPropertyWins(services: seq<Service>, si: nat, pj: nat)
    requires si < |services| && pj < |services[si].properties|
    requires forall sk, pk :: (0 <= sk < |services| && 0 <= pk < |services[sk].properties|
      && (sk > si || (sk == si && pk > pj))) ==>
        Key(services[sk], services[sk].properties[pk]) != Key(services[si], services[si].properties[pj])
    ensures var k := Key(services[si], services[si].properties[pj]);
      k in ParseInstanceProperties(services)
      && ParseInstanceProperties(services)[k] == PropertyEntry(services[si], services[si].properties[pj])
  {
    var groups: seq<seq<(string, map<string, Value>)>> := Groups(services);
    forall gk: int, jk: int | 0 <= gk < |groups| && 0 <= jk < |groups[gk]| && (gk > si || (gk == si && jk > pj))
      ensures groups[gk][jk].0 != groups[si][pj].0
    {
      assert groups[gk][jk].0 == Key(services[gk], services[gk].properties[jk]);
    }
    FromPairsFlattenLast(groups, si, pj);
  }

  /** The pair at group `gi`, position `j` gives the value of its key when no later pair shares that key. */
  lemma {:induction false} FromPairsFlattenLast<K, V>(groups: seq<seq<(K, V)>>, gi: nat, j: nat)
    requires gi < |groups| && j < |groups[gi]|
    requires forall gk, jk :: (0 <= gk < |groups| && 0 <= jk < |groups[gk]| && (gk > gi || (gk == gi && jk > j))) ==>
      groups[gk][jk].0 != groups[gi][j].0
    ensures groups[gi][j].0 in FromPairs(Flatten(groups)) && FromPairs(Flatten(groups))[groups[gi][j].0] == groups[gi][j].1
    decreases |groups|
  {
    var init: seq<seq<(K, V)>> := groups[..|groups| - 1];
    var last: seq<(K, V)> := groups[|groups| - 1];
    var es := Flatten(groups);
    assert es == Flatten(init) + last;
    if gi == |groups| - 1 {
      var at := |Flatten(init)| + j;
      assert es[at] == last[j];
      forall q | at < q < |es| ensures es[q].0 != es[at].0 {
        assert es[q] == groups[gi][q - |Flatten(init)|];
      }
      FromPairsLast(es, at);
    } else {
      forall gk: int, jk: int | 0 <= gk < |init| && 0 <= jk < |init[gk]| && (gk > gi || (gk == gi && jk > j))
        ensures init[gk][jk].0 != init[gi][j].0
      {
        assert init[gk] == groups[gk];
      }
      assert init[gi] == groups[gi];
      FromPairsFlattenLast(init, gi, j);
      forall q | 0 <= q < |last| ensures last[q].0 != groups[gi][j].0 {
        assert last[q] == groups[|groups| - 1][q];
      }
      FromPairsAppendOther(Flatten(init), last, groups[gi][j].0);
    }
  }

  /** Pairs with other keys appended after a key leave its value alone. */
  lemma {:induction false} FromPairsAppendOther<K, V>(xs: seq<(K, V)>, ys: seq<(K, V)>, k: K)
    requires k in FromPairs(xs)
    requires forall i :: 0 <= i < |ys| ==> ys[i].0 != k
    ensures k in FromPairs(xs + ys) && FromPairs(xs + ys)[k] == FromPairs(xs)[k]
    decreases |ys|
  {
    if |ys| > 0 {
      var init := ys[..|ys| - 1];
      assert (xs + ys)[..|xs + ys| - 1] == xs + init;
      FromPairsAppendOther(xs, init, k);
    } else {
      assert xs + ys == xs;
    }
  }

  /** The two loops of `parseInstanceProperties`, assigning entry by entry. */
  method ParseInstancePropertiesLoop(services: seq<Service>) returns (result: map<string, map<string, Value>>)
    ensures result == ParseInstanceProperties(services)
  {
    result := AddGroups(Groups(services));
  }

  /** The outer loop: the groups assigned one after the other. */
  method AddGroups<K, V>(groups: seq<seq<(K, V)>>) returns (result: map<K, V>)
    ensures result == FromPairs(Flatten(groups))
  {
    result := map[];
    var i := 0;
    while i < |groups|
      invariant 0 <= i <= |groups|
      invariant result == FromPairs(Flatten(groups[..i]))
    {
      result := AddPairs(groups[i], result, Flatten(groups[..i]));
      FlattenStep(groups, i);
      i := i + 1;
    }
    assert groups[..|groups|] == groups;
  }

  /** The flattening of one more group of a prefix. */
  lemma FlattenStep<T>(groups: seq<seq<T>>, i: nat)
    requires i < |groups|
    ensures Flatten(groups[..i + 1]) == Flatten(groups[..i]) + groups[i]
  {
    assert groups[..i + 1][..i] == groups[..i];
  }

  /** The inner loop: the pairs of one group assigned in order over `start`. */
  method AddPairs<K, V>(group: seq<(K, V)>, start: map<K, V>, ghost done: seq<(K, V)>) returns (result: map<K, V>)
    requires start == FromPairs(done)
    ensures result == FromPairs(done + group)
  {
    ghost var seen := done;
    result := start;
    var j := 0;
    while j < |group|
      invariant 0 <= j <= |group|
      invariant seen == done + group[..j]
      invariant result == FromPairs(seen)
    {
      var (key, value) := group[j];
      FromPairsAppend(seen, key, value);
      result := result[key := value];
      seen := seen + [(key, value)];
      assert group[..j + 1] == group[..j] + [group[j]];
      j := j + 1;
    }
    assert group[..j] == group;
  }

  /** Assigning one more pair at the end. */
  lemma FromPairsAppend<K, V>(done: seq<(K, V)>, key: K, value: V)
    ensures FromPairs(done + [(key, value)]) == FromPairs(done)[key := value]
  {
    var es := done + [(key, value)];
    assert es[..|es| - 1] == done;
  }

  // ---------------------------------------------------------------------------------------
  // Resolving a model to an instance type
  // ---------------------------------------------------------------------------------------

  /** `instances.find(item => item.model === model)`: reading `model` of `null` or `undefined` throws. */
  datatype Found = Throws | NotFound | FoundAt(item: Value)

  function FindModel(items: seq<Value>, model: string): (r: Found)
    ensures r.FoundAt? ==> exists i :: (0 <= i < |items| && items[i] == r.item && !IsNullish(items[i])
      && Get(items[i], "model") == Str(model)
      && forall j :: 0 <= j < i ==> !IsNullish(items[j]) && Get(items[j], "model") != Str(model))
    ensures r.NotFound? <==> forall j :: 0 <= j < |items| ==> !IsNullish(items[j]) && Get(items[j], "model") != Str(model)
    decreases |items|
  {
    if |items| == 0 then NotFound
    else if IsNullish(items[0]) then Throws
    else if Get(items[0], "model") == Str(model) then FoundAt(items[0])
    else
      var r := FindModel(items[1..], model);
      assert forall j :: 0 < j < |items| ==> items[j] == items[1..][j - 1];
      assert r.FoundAt? ==> exists i :: (1 <= i < |items| && items[i] == r.item && !IsNullish(items[i])
        && Get(items[i], "model") == Str(model)
        && forall j :: 0 <= j < i ==> !IsNullish(items[j]) && Get(items[j], "model") != Str(model));
      r
  }

  datatype Error = TypeError

  /** The request path of `instances?status=`, with an absent status as empty text. */
  function InstancesPath(status: Option<string>): (r: string)
    ensures status.None? ==> r == "/instances?status="
    ensures status.Some? ==> r == "/instances?status=" + status.value
  {
    "/instances?status=" + status.GetOr("")
  }

  /**
   * `find(name)` of the cloud client: a name starting with "urn" is requested directly;
   * otherwise the first released instance of that model gives the type, and a missing one
   * gives `undefined`, which is requested as the text "undefined".
   */
  function CloudFind(name: string, released: seq<Value>): (r: Result<string, Error>)
    ensures StartsWith(name, "urn") ==> r == Success("/instance?type=" + name)
  {
    if StartsWith(name, "urn") then Success("/instance?type=" + name)
    else
      match FindModel(released, name)
      case Throws => Failure(TypeError)
      case NotFound => Success("/instance?type=undefined")
      case FoundAt(item) => Success("/instance?type=" + JsString(Get(item, "type")))
  }

  /**
   * `find(name)` of the service client: as the cloud client, except that the name is only
   * replaced by a truthy type and is otherwise kept.
   */
  function ServiceFind(name: string, released: seq<Value>): (r: Result<string, Error>)
    ensures StartsWith(name, "urn") ==> r == Success("/instance?type=" + name)
    ensures FindModel(released, name).NotFound? ==> r == Success("/instance?type=" + name)
  {
    if StartsWith(name, "urn") then Success("/instance?type=" + name)
    else
      match FindModel(released, name)
      case Throws => Failure(TypeError)
      case NotFound => Success("/instance?type=" + name)
      case FoundAt(item) =>
        var kind := Get(item, "type");
        Success("/instance?type=" + (if Truthy(kind) then JsString(kind) else name))
  }

  /** `findInstance(model)` of `miot.ts`: the non-null assertion turns a missing instance into a throw. */
  function FindInstance(model: string, released: seq<Value>): (r: Result<string, Error>)
    ensures r.Success? <==> FindModel(released, model).FoundAt?
    ensures r.Success? ==> r.value == "instance?type=" + JsString(Get(FindModel(released, model).item, "type"))
  {
    match FindModel(released, model)
    case FoundAt(item) => Success("instance?type=" + JsString(Get(item, "type")))
    case _ => Failure(TypeError)
  }

  /**
   * The clients agree when a released instance of the model has a string type, and differ
   * when none is found: the cloud client asks for "undefined", the service client for the name.
   */
  lemma FindClientsCompared(name: string, released: seq<Value>)
    requires !StartsWith(name, "urn")
    ensures FindModel(released, name).FoundAt? && Get(FindModel(released, name).item, "type").Str?
            && Get(FindModel(released, name).item, "type").s != "" ==>
      CloudFind(name, released) == ServiceFind(name, released)
    ensures FindModel(released, name).NotFound? ==>
      CloudFind(name, released) == Success("/instance?type=undefined")
      && ServiceFind(name, released) == Success("/instance?type=" + name)
  {
  }
}

=== FILE: nested_path.dfy ===
/**
 * The shared path helpers: `pathToPaths` turns "a[0].b" into ["a", "0", "b"], and
 * `getNestedValue` / `setNestedValue` read and write along such a path in a JSON-like tree.
 * Property keys are strings (a numeric path element is the key it converts to).
 */
module NestedPath {
  import opened Wrappers
  import opened Strings
  import opened Json

  // ---------------------------------------------------------------------------------------
  // pathToPaths
  // ---------------------------------------------------------------------------------------

  /** The length of the run of word characters that starts `s`. */
  function WordRun(s: string): (n: nat)
    ensures n <= |s|
    ensures forall k :: 0 <= k < n ==> IsWordChar(s[k])
    ensures n < |s| ==> !IsWordChar(s[n])
  {
    if |s| > 0 && IsWordChar(s[0]) then 1 + WordRun(s[1..]) else 0
  }

  /** `s` starts with `[word]`: a '[' , one or more word characters, then ']'. */
  predicate BracketAt(s: string) {
    |s| > 0 && s[0] == '[' && 0 < WordRun(s[1..]) && 1 + WordRun(s[1..]) < |s| && s[1 + WordRun(s[1..])] == ']'
  }

  /** `replace(/\[(\w+)]/g, '.$1')`: each `[word]`, scanning left to right, becomes `.word`. */
  function Unbracket(s: string): (r: string)
    ensures |r| <= |s|
    decreases |s|
  {
    if |s| == 0 then ""
    else if BracketAt(s) then
      var n := WordRun(s[1..]);
      "." + s[1..1 + n] + Unbracket(s[2 + n..])
    else [s[0]] + Unbracket(s[1..])
  }

  /** `replace(/^\./, '')`: one leading '.' removed. */
  function DropLeadingDot(s: string): (r: string)
    ensures |s| > 0 && s[0] == '.' ==> r == s[1..]
    ensures !(|s| > 0 && s[0] == '.') ==> r == s
  {
    if |s| > 0 && s[0] == '.' then s[1..] else s
  }

  /** `pathToPaths(path)`: never empty, and no piece contains '.'. */
  function PathToPaths(path: string): (r: seq<string>)
    ensures |r| >= 1
    ensures forall k :: 0 <= k < |r| ==> !Contains(r[k], ".")
    ensures Join(r, ".") == DropLeadingDot(Unbracket(path))
  {
    var text := DropLeadingDot(Unbracket(path));
    SplitPiecesAvoidSeparator(text, ".");
    JoinSplit(text, ".");
    Split(text, ".")
  }

  /** Text without '[' passes through `Unbracket` unchanged. */
  lemma {:induction false} UnbracketPlain(s: string)
    requires forall k :: 0 <= k < |s| ==> s[k] != '['
    ensures Unbracket(s) == s
    decreases |s|
  {
    if |s| > 0 {
      UnbracketPlain(s[1..]);
      assert s == [s[0]] + s[1..];
    }
  }

  /** Rewriting distributes over a prefix without '['. */
  lemma {:induction false} UnbracketAppend(a: string, b: string)
    requires forall k :: 0 <= k < |a| ==> a[k] != '['
    ensures Unbracket(a + b) == a + Unbracket(b)
    decreases |a|
  {
    if |a| > 0 {
      assert (a + b)[0] == a[0] && (a + b)[1..] == a[1..] + b;
      assert !BracketAt(a + b);
      assert Unbracket(a + b) == [a[0]] + Unbracket(a[1..] + b);
      UnbracketAppend(a[1..], b);
      assert a == [a[0]] + a[1..];
      assert a + Unbracket(b) == [a[0]] + (a[1..] + Unbracket(b));
    } else {
      assert a + b == b && a + Unbracket(b) == Unbracket(b);
    }
  }

  /** `[word]` becomes `.word`, followed by the rewrite of what comes after. */
  lemma {:induction false} UnbracketIndex(w: string, b: string)
    requires |w| > 0 && forall k :: 0 <= k < |w| ==> IsWordChar(w[k])
    ensures Unbracket("[" + w + "]" + b) == "." + w + Unbracket(b)
  {
    var s := "[" + w + "]" + b;
    WordRunExact(w, "]" + b);
    assert s[1..] == w + ("]" + b);
    assert s[1..1 + |w|] == w && s[2 + |w|..] == b;
  }

  lemma {:induction false} WordRunExact(w: string, rest: string)
    requires forall k :: 0 <= k < |w| ==> IsWordChar(w[k])
    requires |rest| > 0 && !IsWordChar(rest[0])
    ensures WordRun(w + rest) == |w|
    decreases |w|
  {
    if |w| > 0 {
      assert (w + rest)[1..] == w[1..] + rest;
      WordRunExact(w[1..], rest);
    }
  }

  /** A dotted path without brackets or a leading dot splits into exactly its '.'-separated pieces, which join back to it. */
  lemma {:induction false} DottedPath(path: string)
    requires forall k :: 0 <= k < |path| ==> path[k] != '['
    requires |path| == 0 || path[0] != '.'
    ensures PathToPaths(path) == Split(path, ".")
    ensures Join(PathToPaths(path), ".") == path
  {
    UnbracketPlain(path);
  }

  /** `a[w]` is the path `a.w`: a bracketed trailing index reads like a dotted one. */
  lemma {:induction false} BracketIsDot(a: string, w: string)
    requires forall k :: 0 <= k < |a| ==> a[k] != '['
    requires |w| > 0 && forall k :: 0 <= k < |w| ==> IsWordChar(w[k])
    ensures Unbracket(a + "[" + w + "]") == a + "." + w
  {
    var tail := "[" + w + "]";
    UnbracketAppend(a, tail);
    UnbracketIndex(w, "");
    assert tail + "" == tail;
    assert a + "[" + w + "]" == a + tail;
    assert a + ("." + w) == a + "." + w;
  }

  // ---------------------------------------------------------------------------------------
  // getNestedValue
  // ---------------------------------------------------------------------------------------

  /** The value reached along `keys`, or `None` once a `null`/`undefined` has to be read from. */
  function Walk(obj: Value, keys: seq<string>): (r: Option<Value>)
    decreases |keys|
  {
    if |keys| == 0 then Some(obj)
    else if IsNullish(obj) then None
    else Walk(Get(obj, keys[0]), keys[1..])
  }

  /**
   * `getNestedValue(obj, path, fallback)`: with an empty path, `obj` unless it is `undefined`;
   * otherwise the value at the path, or the fallback when a `null`/`undefined` is met on the
   * way or the final value is `undefined`. A final `null` is returned as it is.
   */
  function GetNested(obj: Value, path: seq<string>, fallback: Value): (r: Value)
    ensures |path| == 0 ==> r == (if obj.Undefined? then fallback else obj)
    ensures |path| > 0 && Walk(obj, path).Some? && !Walk(obj, path).value.Undefined? ==> r == Walk(obj, path).value
    ensures |path| > 0 && (Walk(obj, path).None? || Walk(obj, path).value.Undefined?) ==> r == fallback
  {
    if |path| == 0 then (if obj.Undefined? then fallback else obj)
    else
      WalkSnoc(obj, path[..|path| - 1], path[|path| - 1]);
      assert path[..|path| - 1] + [path[|path| - 1]] == path;
      match Walk(obj, path[..|path| - 1])
      case None => fallback
      case Some(parent) =>
        if IsNullish(parent) then fallback
        else
          var v := Get(parent, path[|path| - 1]);
          if v.Undefined? then fallback else v
  }

  /** Walking one more key is a read from where the shorter walk ended. */
  lemma {:induction false} WalkSnoc(obj: Value, keys: seq<string>, key: string)
    ensures Walk(obj, keys + [key]) ==
      match Walk(obj, keys)
      case None => None
      case Some(v) => if IsNullish(v) then None else Some(Get(v, key))
    decreases |keys|
  {
    if |keys| > 0 {
      assert (keys + [key])[1..] == keys[1..] + [key];
      if !IsNullish(obj) {
        WalkSnoc(Get(obj, keys[0]), keys[1..], key);
      }
    }
  }

  /** The loop of `getNestedValue`, as written: walk to the parent, then read the last key. */
  method GetNestedLoop(obj: Value, path: seq<string>, fallback: Value) returns (r: Value)
    ensures r == GetNested(obj, path, fallback)
  {
    if |path| == 0 {
      return if obj.Undefined? then fallback else obj;
    }
    var last := |path| - 1;
    var cur := obj;
    var i := 0;
    while i < last
      invariant 0 <= i <= last
      invariant Walk(obj, path[..i]) == Some(cur)
    {
      if IsNullish(cur) {
        WalkSnoc(obj, path[..i], path[i]);
        assert path[..i + 1] == path[..i] + [path[i]];
        WalkPrefixNone(obj, path[..i + 1], path[i + 1..last]);
        assert path[..i + 1] + path[i + 1..last] == path[..last];
        return fallback;
      }
      WalkSnoc(obj, path[..i], path[i]);
      assert path[..i + 1] == path[..i] + [path[i]];
      cur := Get(cur, path[i]);
      i := i + 1;
    }
    if IsNullish(cur) {
      return fallback;
    }
    var v := Get(cur, path[last]);
    r := if v.Undefined? then fallback else v;
  }

  /** Once a walk has failed, walking further fails too. */
  lemma {:induction false} WalkPrefixNone(obj: Value, keys: seq<string>, more: seq<string>)
    requires Walk(obj, keys).None?
    ensures Walk(obj, keys + more).None?
    decreases |keys|
  {
    assert |keys| > 0;
    assert (keys + more)[1..] == keys[1..] + more;
    if !IsNullish(obj) {
      WalkPrefixNone(Get(obj, keys[0]), keys[1..], more);
    }
  }

  // ---------------------------------------------------------------------------------------
  // setNestedValue
  // ---------------------------------------------------------------------------------------

  /**
   * Why a write failed: a property of `null`, `undefined` or a primitive cannot be set, and an
   * array takes only index keys here (its named properties, `length` among them, are not part
   * of `Json.Value`).
   */
  datatype SetError = TypeError | ArrayNotModelled

  /** One more than the largest array index, 2^32 - 1: larger canonical numbers are plain property names. */
  const ARRAY_INDEX_LIMIT: nat := 0xFFFF_FFFF

  /** `n` holes, each read back as `undefined`. */
  function Holes(n: nat): (r: seq<Value>)
    ensures |r| == n && forall k :: 0 <= k < n ==> r[k] == Undefined
  {
    seq(n, k => Undefined)
  }

  /** An array index `key` denotes. */
  predicate IsArrayIndex(key: string) {
    IndexKey(key).Some? && IndexKey(key).value < ARRAY_INDEX_LIMIT
  }

  /**
   * `obj[key] = v` in strict code: objects take any key; an array takes an index, growing to
   * just past it (the entries in between are holes) when the index is at or past its length;
   * setting a property of `null`, `undefined` or a primitive throws a `TypeError`.
   */
  function Assign(obj: Value, key: string, v: Value): (r: Result<Value, SetError>)
    ensures r.Success? ==> r.value.Obj? || r.value.Arr?
    ensures r.Success? ==> Get(r.value, key) == v
    ensures obj.Obj? ==> r == Success(Obj(obj.fields[key := v]))
    ensures !(obj.Obj? || obj.Arr?) ==> r == Failure(TypeError)
    ensures obj.Arr? ==> (r.Success? <==> IsArrayIndex(key))
    ensures obj.Arr? && r.Success? ==>
      var i := IndexKey(key).value;
      && r.value.Arr?
      && |r.value.items| == (if i < |obj.items| then |obj.items| else i + 1)
      && (forall k :: 0 <= k < |obj.items| && k != i ==> r.value.items[k] == obj.items[k])
      && (forall k :: |obj.items| <= k < i ==> r.value.items[k] == Undefined)
  {
    match obj
    case Obj(fields) => Success(Obj(fields[key := v]))
    case Arr(items) =>
      if !IsArrayIndex(key) then Failure(ArrayNotModelled)
      else
        var i := IndexKey(key).value;
        if i < |items| then Success(Arr(items[i := v]))
        else
          var grown := items + Holes(i - |items|) + [v];
          assert grown[i] == v;
          Success(Arr(grown))
    case _ => Failure(TypeError)
  }

  /** Writing past the end of an array grows it: `[]` written at "2" is `[ , , v]`. */
  lemma AssignPastEnd(v: Value)
    ensures Assign(Arr([]), "2", v) == Success(Arr([Undefined, Undefined, v]))
  {
    assert IndexKey("2") == Some(2);
    assert IsArrayIndex("2");
    var empty: seq<Value> := [];
    assert empty + Holes(2) + [v] == [Undefined, Undefined, v];
  }

  /**
   * `setNestedValue(obj, path, value)`, returning the updated tree: every intermediate whose
   * type is not 'object' is first replaced by `{}` (a `null` is of type 'object', so it stays,
   * and the next write into it throws), then the last key is assigned. With an empty path,
   * `path[-1]` is `undefined`, so the key written is "undefined".
   */
  function SetNested(obj: Value, path: seq<string>, value: Value): (r: Result<Value, SetError>)
    ensures r.Success? ==> r.value.Obj? || r.value.Arr?
    decreases |path|
  {
    if |path| == 0 then Assign(obj, "undefined", value)
    else if |path| == 1 then Assign(obj, path[0], value)
    else if IsNullish(obj) then Failure(TypeError)
    else
      var child := Get(obj, path[0]);
      var obj' :- if IsObjectType(child) then Success(obj) else Assign(obj, path[0], Obj(map[]));
      var child' := if IsObjectType(child) then child else Obj(map[]);
      var written :- SetNested(child', path[1..], value);
      Assign(obj', path[0], written)
  }

  /** After a successful write of a defined value along a non-empty path, reading the path gives the value. */
  lemma {:induction false} GetAfterSet(obj: Value, path: seq<string>, value: Value, fallback: Value)
    requires |path| > 0 && !value.Undefined?
    requires SetNested(obj, path, value).Success?
    ensures GetNested(SetNested(obj, path, value).value, path, fallback) == value
  {
    WalkAfterSet(obj, path, value);
  }

  lemma {:induction false} WalkAfterSet(obj: Value, path: seq<string>, value: Value)
    requires |path| > 0
    requires SetNested(obj, path, value).Success?
    ensures Walk(SetNested(obj, path, value).value, path) == Some(value)
    decreases |path|
  {
    var r := SetNested(obj, path, value).value;
    if |path| == 1 {
      assert path[1..] == [];
    } else {
      var child := Get(obj, path[0]);
      var child' := if IsObjectType(child) then child else Obj(map[]);
      WalkAfterSet(child', path[1..], value);
      assert Get(r, path[0]) == SetNested(child', path[1..], value).value;
    }
  }

  /** On an object, a write changes only the entry under the first key of the path. */
  lemma SetLeavesOtherKeys(fields: map<string, Value>, path: seq<string>, value: Value, k: string)
    requires |path| > 0 && k != path[0]
    requires SetNested(Obj(fields), path, value).Success?
    ensures var r := SetNested(Obj(fields), path, value).value;
      r.Obj? && r.fields.Keys == fields.Keys + {path[0]} && Get(r, k) == Get(Obj(fields), k)
  {
  }

  /** Below the first key, the entry written is the write of the rest of the path into the (possibly fresh) child. */
  lemma SetDescends(fields: map<string, Value>, path: seq<string>, value: Value)
    requires |path| > 1
    requires SetNested(Obj(fields), path, value).Success?
    ensures var child := Get(Obj(fields), path[0]);
      var child' := if IsObjectType(child) then child else Obj(map[]);
      && SetNested(child', path[1..], value).Success?
      && Get(SetNested(Obj(fields), path, value).value, path[0]) == SetNested(child', path[1..], value).value
  {
  }

  /** A `null` met as an intermediate is not replaced, so the write throws. */
  lemma NullIntermediateThrows(fields: map<string, Value>, path: seq<string>, value: Value)
    requires |path| > 1 && path[0] in fields && fields[path[0]] == Null
    ensures SetNested(Obj(fields), path, value) == Failure(TypeError)
  {
    if |path| == 2 {
      assert path[1..] == [path[1]];
    }
  }
}

=== FILE: rc4.dfy ===
/**
 * `CryptRC4`: the RC4 stream cipher of the cloud API, with an output-free drop of `rounds`
 * steps after the key schedule (RC4-drop-N). All arithmetic is on non-negative values, so
 * the source's `& 255` is `% 256` here.
 */
module Rc4 {
  import opened Bytes

  const N: int := 256

  /** The state: the permutation `_ksa` and the two indices. */
  datatype State = State(s: seq<byte>, i: int, j: int)

  function Identity(): (r: seq<byte>)
    ensures |r| == N && forall k :: 0 <= k < N ==> r[k] == k
  {
    seq(N, k requires 0 <= k < N => k)
  }

  /** `s` is a permutation of 0..255. */
  ghost predicate IsPermutation(s: seq<byte>) {
    |s| == N && multiset(s) == multiset(Identity())
  }

  /** A table of 256 entries (each entry, a byte, is an index into it) and two indices into it. */
  predicate Valid(st: State) {
    |st.s| == N && 0 <= st.i < N && 0 <= st.j < N
  }

  /** Exchanging two entries keeps the multiset of entries. */
  lemma SwapPermutes(s: seq<byte>, a: int, b: int)
    requires 0 <= a < |s| && 0 <= b < |s|
    ensures multiset(Swap(s, a, b)) == multiset(s)
  {
  }

  /** `[ksa[a], ksa[b]] = [ksa[b], ksa[a]]`. */
  function Swap(s: seq<byte>, a: int, b: int): (r: seq<byte>)
    requires 0 <= a < |s| && 0 <= b < |s|
    ensures |r| == |s| && r[a] == s[b] && r[b] == s[a]
    ensures forall k :: 0 <= k < |s| && k != a && k != b ==> r[k] == s[k]
  {
    s[a := s[b]][b := s[a]]
  }

  // ---------------------------------------------------------------------------------------
  // Key schedule and drop
  // ---------------------------------------------------------------------------------------

  /** A key: a non-empty sequence of bytes (an empty key skips the schedule altogether). */
  predicate IsKey(key: seq<byte>) { |key| > 0 }

  /**
   * The table and `j` after the first `n` rounds of the key schedule: round `i` sets
   * `j = (j + S[i] + key[i mod len]) & 255` and swaps `S[i]` with `S[j]`.
   */
  function Schedule(key: seq<byte>, n: nat): (r: (seq<byte>, int))
    requires IsKey(key) && n <= N
    ensures |r.0| == N && 0 <= r.1 < N
    ensures IsPermutation(r.0)
  {
    if n == 0 then (Identity(), 0)
    else
      var (s, j) := Schedule(key, n - 1);
      var j' := (j + s[n - 1] + key[(n - 1) % |key|]) % N;
      (Swap(s, n - 1, j'), j')
  }

  /** One generator step: `i = (i + 1) & 255`, `j = (j + S[i]) & 255`, swap. */
  function Step(st: State): (r: State)
    requires Valid(st)
    ensures Valid(r)
    ensures r.i == (st.i + 1) % N && r.j == (st.j + st.s[r.i]) % N
  {
    var i := (st.i + 1) % N;
    var j := (st.j + st.s[i]) % N;
    State(Swap(st.s, i, j), i, j)
  }

  /** Advancing a residue by one more is advancing the sum by one more. */
  lemma ModSucc(a: int, n: nat)
    requires 0 <= a
    ensures ((a + n) % N + 1) % N == (a + n + 1) % N
  {
  }

  /** The state after `n` steps. */
  function Steps(st: State, n: nat): (r: State)
    requires Valid(st)
    ensures Valid(r)
    ensures r.i == (st.i + n) % N
  {
    if n == 0 then st
    else
      var prev := Steps(st, n - 1);
      ModSucc(st.i, n - 1);
      Step(prev)
  }

  /**
   * `new CryptRC4(key, rounds)`: with a non-empty key, the key schedule and then `rounds`
   * output-free steps from `i = j = 0`; with an empty key nothing runs at all, so the state
   * is the identity permutation with `i = j = 0`.
   */
  function Init(key: seq<byte>, rounds: nat): (r: State)
    ensures Valid(r)
    ensures IsPermutation(r.s)
    ensures |key| == 0 ==> r == State(Identity(), 0, 0)
    ensures |key| > 0 ==> r.i == rounds % N
  {
    if |key| == 0 then State(Identity(), 0, 0)
    else
      StepsPermute(State(Schedule(key, N).0, 0, 0), rounds);
      Steps(State(Schedule(key, N).0, 0, 0), rounds)
  }

  lemma StepPermutes(st: State)
    requires Valid(st) && IsPermutation(st.s)
    ensures IsPermutation(Step(st).s)
  {
    var i := (st.i + 1) % N;
    SwapPermutes(st.s, i, (st.j + st.s[i]) % N);
  }

  /** Output-free steps only rearrange the table, so a permutation stays one. */
  lemma {:induction false} StepsPermute(st: State, n: nat)
    requires Valid(st) && IsPermutation(st.s)
    ensures IsPermutation(Steps(st, n).s)
  {
    if n > 0 {
      StepsPermute(st, n - 1);
      StepPermutes(Steps(st, n - 1));
    }
  }

  /** The drop used to sign requests. */
  const REQUEST_ROUNDS: nat := 1024

  // ---------------------------------------------------------------------------------------
  // crypt
  // ---------------------------------------------------------------------------------------

  /** The key byte a step produces: `S[(S[i] + S[j]) & 255]` after the step. */
  function KeyByte(st: State): (b: byte)
    requires Valid(st)
  {
    st.s[(st.s[st.i] + st.s[st.j]) % N]
  }

  /** Key byte `k` (from 0) of the stream that starts at `st`: the one produced by step `k + 1`. */
  function KeyAt(st: State, k: nat): (b: byte)
    requires Valid(st)
  {
    KeyByte(Steps(st, k + 1))
  }

  /** `crypt(data)`: each byte xored with the next key byte, from a copy of the state, which is not advanced. */
  function Crypt(st: State, data: seq<byte>): (r: seq<byte>)
    requires Valid(st)
    ensures |r| == |data|
  {
    seq(|data|, k requires 0 <= k < |data| => Xor(data[k], KeyAt(st, k)))
  }

  /** Because every call starts from the same saved state, decoding what was encoded gives the data back. */
  lemma CryptInvolution(st: State, data: seq<byte>)
    requires Valid(st)
    ensures Crypt(st, Crypt(st, data)) == data
  {
    var once := Crypt(st, data);
    forall k | 0 <= k < |data| ensures Crypt(st, once)[k] == data[k] {
      XorInvolution(data[k], KeyAt(st, k));
    }
  }

  /** Crypting one more byte appends that byte xored with the key byte of the next step. */
  lemma CryptSnoc(st: State, data: seq<byte>, c: nat)
    requires Valid(st) && c < |data|
    ensures Crypt(st, data[..c + 1]) == Crypt(st, data[..c]) + [Xor(data[c], KeyAt(st, c))]
  {
    var longer, shorter := Crypt(st, data[..c + 1]), Crypt(st, data[..c]);
    assert longer[c] == Xor(data[c], KeyAt(st, c));
    forall k | 0 <= k < c ensures longer[k] == shorter[k] {
      assert longer[k] == Xor(data[k], KeyAt(st, k));
    }
  }

  // ---------------------------------------------------------------------------------------
  // The loops as written
  // ---------------------------------------------------------------------------------------

  /** The key-schedule loop. */
  method ScheduleLoop(key: seq<byte>) returns (ksa: seq<byte>, j: int)
    requires IsKey(key)
    ensures (ksa, j) == Schedule(key, N)
  {
    ksa := Identity();
    j := 0;
    var i := 0;
    while i < N
      invariant 0 <= i <= N && (ksa, j) == Schedule(key, i)
    {
      j := (j + ksa[i] + key[i % |key|]) % N;
      ksa := Swap(ksa, i, j);
      i := i + 1;
    }
  }

  /** The drop loop. */
  method DropLoop(st: State, rounds: nat) returns (r: State)
    requires Valid(st)
    ensures r == Steps(st, rounds)
  {
    r := st;
    var c := 0;
    while c < rounds
      invariant 0 <= c <= rounds && r == Steps(st, c)
    {
      r := Step(r);
      c := c + 1;
    }
  }

  /** The constructor: both loops are skipped for an empty key. */
  method InitLoop(key: seq<byte>, rounds: nat) returns (st: State)
    ensures st == Init(key, rounds)
  {
    if |key| > 0 {
      var ksa, _ := ScheduleLoop(key);
      st := DropLoop(State(ksa, 0, 0), rounds);
    } else {
      st := State(Identity(), 0, 0);
    }
  }

  /** `crypt(data)`: a loop over a copy of the state. */
  method CryptLoop(st: State, data: seq<byte>) returns (out: seq<byte>)
    requires Valid(st)
    ensures out == Crypt(st, data)
  {
    var cur := st;
    out := [];
    var c := 0;
    while c < |data|
      invariant 0 <= c <= |data| && cur == Steps(st, c)
      invariant out == Crypt(st, data[..c])
    {
      CryptSnoc(st, data, c);
      assert Steps(st, c + 1) == Step(cur);
      cur := Step(cur);
      out := out + [Xor(data[c], KeyByte(cur))];
      c := c + 1;
    }
    assert data[..c] == data;
  }
}

=== FILE: signing.dfy ===
/**
 * Request signing shared by the two cloud clients (`Api.ts` and `service/MiIOClient.ts`):
 * the ordered parameter record, the text that is hashed into a signature, the RC4
 * encryption of every parameter value, and the 12-byte nonce.
 */
module Signing {
  import opened Wrappers
  import opened Strings
  import opened Bytes
  import opened Crypto
  import Rc4

  // ---------------------------------------------------------------------------------------
  // Parameter records
  // ---------------------------------------------------------------------------------------

  /**
   * A record of string-valued parameters in insertion order, which is the order
   * `Object.keys` and `Object.entries` report for keys that are not array indices.
   */
  type Params = seq<(string, string)>

  function Keys(ps: Params): (r: seq<string>)
    ensures |r| == |ps| && forall i :: 0 <= i < |ps| ==> r[i] == ps[i].0
  {
    seq(|ps|, i requires 0 <= i < |ps| => ps[i].0)
  }

  /** No key appears twice, as in a JavaScript object. */
  predicate DistinctKeys(ps: Params) {
    forall i, j :: 0 <= i < j < |ps| ==> ps[i].0 != ps[j].0
  }

  /** `params[key]`: the value stored under `key`, if any. */
  function Lookup(ps: Params, key: string): (r: Option<string>)
    ensures r.None? <==> key !in Keys(ps)
    ensures r.Some? ==> exists i :: 0 <= i < |ps| && ps[i] == (key, r.value)
    decreases |ps|
  {
    if |ps| == 0 then None
    else if ps[0].0 == key then Some(ps[0].1)
    else
      assert Keys(ps) == [ps[0].0] + Keys(ps[1..]);
      var r := Lookup(ps[1..], key);
      assert r.Some? ==> exists i :: 0 <= i < |ps[1..]| && ps[1..][i] == (key, r.value);
      r
  }

  /** With distinct keys, the entry at position `i` is what a lookup of its key finds. */
  lemma {:induction false} LookupAt(ps: Params, i: nat)
    requires DistinctKeys(ps) && i < |ps|
    ensures Lookup(ps, ps[i].0) == Some(ps[i].1)
    decreases i
  {
    if i > 0 {
      assert ps[0].0 != ps[i].0;
      assert ps[1..][i - 1] == ps[i];
      LookupAt(ps[1..], i - 1);
    }
  }

  /** `${params[key]}`: the stored text, or "undefined" for a missing key. */
  function Text(ps: Params, key: string): string {
    match Lookup(ps, key)
    case Some(v) => v
    case None => "undefined"
  }

  /** Every value replaced by its image under `f`, keys and order kept. */
  function MapValues(ps: Params, f: string -> string): (r: Params)
    ensures |r| == |ps| && Keys(r) == Keys(ps)
    ensures forall i :: 0 <= i < |ps| ==> r[i] == (ps[i].0, f(ps[i].1))
  {
    seq(|ps|, i requires 0 <= i < |ps| => (ps[i].0, f(ps[i].1)))
  }

  // ---------------------------------------------------------------------------------------
  // The signed text
  // ---------------------------------------------------------------------------------------

  /** `key=value` for each key, in the order given. */
  function Pairs(ps: Params, keys: seq<string>): (r: seq<string>)
    ensures |r| == |keys| && forall i :: 0 <= i < |keys| ==> r[i] == keys[i] + "=" + Text(ps, keys[i])
  {
    seq(|keys|, i requires 0 <= i < |keys| => keys[i] + "=" + Text(ps, keys[i]))
  }

  /** `Object.keys(params).sort().map(key => `${key}=${params[key]}`)`. */
  function SortedPairs(ps: Params): (r: seq<string>)
    ensures |r| == |ps|
  {
    Pairs(ps, SortStrings(Keys(ps)))
  }

  /**
   * The text a request signature hashes: "POST", the path, the sorted `key=value` pairs and
   * the signed nonce, joined by '&'.
   */
  function SignatureText(path: string, ps: Params, signedNonce: string): (r: string)
    ensures StartsWith(r, "POST&" + path + "&")
    ensures EndsWith(r, "&" + signedNonce)
  {
    SignatureTextEnds(path, SortedPairs(ps), signedNonce);
    Join(["POST", path] + SortedPairs(ps) + [signedNonce], "&")
  }

  /** The text framing any list of pairs: "POST&<path>&" in front, "&<signed nonce>" behind. */
  lemma SignatureTextEnds(path: string, pairs: seq<string>, signedNonce: string)
    ensures var r := Join(["POST", path] + pairs + [signedNonce], "&");
      StartsWith(r, "POST&" + path + "&") && EndsWith(r, "&" + signedNonce)
  {
    var parts := ["POST", path] + pairs + [signedNonce];
    var rest := Join(parts[2..], "&");
    assert parts[1..][0] == path && parts[1..][1..] == parts[2..];
    assert Join(parts, "&") == "POST&" + path + "&" + rest;
    JoinEndsWithSepLast(parts, "&");
  }

  /** SHA-1 of the text, in base64: the signature carries a 20-byte digest. */
  function Signature(p: Primitives, path: string, ps: Params, signedNonce: string): (r: string)
    ensures Sound(p) ==> p.base64Decode(r) == p.sha1(p.utf8Encode(SignatureText(path, ps, signedNonce)))
    ensures Sound(p) ==> |p.base64Decode(r)| == 20
  {
    p.base64Encode(p.sha1(p.utf8Encode(SignatureText(path, ps, signedNonce))))
  }

  /** The head of an ascending sequence is at most each of its elements. */
  lemma SortedHeadLeast(a: seq<string>, x: string)
    requires SortedStrings(a) && x in multiset(a)
    ensures StrLessEq(a[0], x)
  {
    var j :| 0 <= j < |a| && a[j] == x;
    if j > 0 {
      assert StrLessEq(a[0], a[j]);
    }
  }

  lemma SortedTail(a: seq<string>)
    requires SortedStrings(a) && |a| > 0
    ensures SortedStrings(a[1..]) && multiset(a[1..]) == multiset(a) - multiset{a[0]}
  {
    assert forall i, j :: 0 <= i < j < |a| - 1 ==> a[1..][i] == a[i + 1] && a[1..][j] == a[j + 1];
    assert a == [a[0]] + a[1..];
  }

  /** Two ascending sequences with the same elements are the same sequence. */
  lemma {:induction false} SortedUnique(a: seq<string>, b: seq<string>)
    requires SortedStrings(a) && SortedStrings(b) && multiset(a) == multiset(b)
    ensures a == b
    decreases |a|
  {
    if |a| == 0 {
      assert |multiset(b)| == 0;
    } else {
      assert a[0] in multiset(a);
      assert |b| > 0;
      assert b[0] in multiset(b);
      SortedHeadLeast(a, b[0]);
      SortedHeadLeast(b, a[0]);
      if a[0] != b[0] {
        StrLessAsymmetric(a[0], b[0]);
      }
      SortedTail(a);
      SortedTail(b);
      SortedUnique(a[1..], b[1..]);
      assert a == [a[0]] + a[1..] && b == [b[0]] + b[1..];
    }
  }

  /**
   * The signed text does not depend on insertion order: two records with the same keys and
   * the same value under every key sign the same text.
   */
  lemma SignatureTextOrderFree(path: string, ps: Params, qs: Params, signedNonce: string)
    requires multiset(Keys(ps)) == multiset(Keys(qs))
    requires forall k :: Lookup(ps, k) == Lookup(qs, k)
    ensures SignatureText(path, ps, signedNonce) == SignatureText(path, qs, signedNonce)
  {
    var keys := SortStrings(Keys(ps));
    SortedUnique(keys, SortStrings(Keys(qs)));
    PairsAgree(ps, qs, keys);
  }

  lemma PairsAgree(ps: Params, qs: Params, keys: seq<string>)
    requires forall k :: Lookup(ps, k) == Lookup(qs, k)
    ensures Pairs(ps, keys) == Pairs(qs, keys)
  {
    forall i | 0 <= i < |keys| ensures Text(ps, keys[i]) == Text(qs, keys[i]) {
      assert Lookup(ps, keys[i]) == Lookup(qs, keys[i]);
    }
  }

  /** Every key of the record is signed exactly once, with its own value, in ascending key order. */
  lemma SortedPairsCover(ps: Params)
    requires DistinctKeys(ps)
    ensures forall i :: 0 <= i < |ps| ==> ps[i].0 + "=" + ps[i].1 in SortedPairs(ps)
    ensures SortedStrings(SortStrings(Keys(ps)))
  {
    var sorted := SortStrings(Keys(ps));
    forall i | 0 <= i < |ps| ensures ps[i].0 + "=" + ps[i].1 in SortedPairs(ps) {
      assert ps[i].0 == Keys(ps)[i];
      assert ps[i].0 in multiset(sorted);
      var j :| 0 <= j < |sorted| && sorted[j] == ps[i].0;
      LookupAt(ps, i);
      assert SortedPairs(ps)[j] == ps[i].0 + "=" + ps[i].1;
    }
  }

  // ---------------------------------------------------------------------------------------
  // The encrypted request
  // ---------------------------------------------------------------------------------------

  /** The drop the clients use. */
  const DROP: nat := 1024

  /** `new CryptRC4(Buffer.from(signedNonce, 'base64'), 1024)`. */
  function Cipher(p: Primitives, signedNonce: string): (st: Rc4.State)
    ensures Rc4.Valid(st)
  {
    Rc4.Init(p.base64Decode(signedNonce), DROP)
  }

  /** `crypt.encode(text)`: RC4 over the UTF-8 bytes, in base64. */
  function Encode(p: Primitives, st: Rc4.State, text: string): (r: string)
    requires Rc4.Valid(st)
    ensures Sound(p) ==> Rc4.Crypt(st, p.base64Decode(r)) == p.utf8Encode(text)
  {
    var b := Rc4.Crypt(st, p.utf8Encode(text));
    Rc4.CryptInvolution(st, p.utf8Encode(text));
    p.base64Encode(b)
  }

  /** `crypt.decode(text)`: RC4 over the base64-decoded bytes, read as UTF-8. */
  function Decode(p: Primitives, st: Rc4.State, text: string): (r: string)
    requires Rc4.Valid(st)
    ensures Sound(p) ==> forall s :: text == Encode(p, st, s) ==> r == s
  {
    p.utf8Decode(Rc4.Crypt(st, p.base64Decode(text)))
  }

  /**
   * `crypt` starts from the saved state on every call, so decoding with the same object
   * what it encoded gives the text back.
   */
  lemma DecodeEncode(p: Primitives, st: Rc4.State, text: string)
    requires Sound(p) && Rc4.Valid(st)
    ensures Decode(p, st, Encode(p, st, text)) == text
  {
    var b := Rc4.Crypt(st, p.utf8Encode(text));
    assert p.base64Decode(p.base64Encode(b)) == b;
    Rc4.CryptInvolution(st, p.utf8Encode(text));
  }

  /**
   * The encrypted request body, built in the source's order from `{ data }`:
   * `rc4_hash__` signs the plaintext record; every value (data and `rc4_hash__`) is then
   * encrypted; `signature` signs the encrypted record; `ssecurity` and `_nonce` are appended
   * after both signatures and are neither signed nor encrypted.
   */
  function EncryptedParams(p: Primitives, path: string, data: string, signedNonce: string, nonce: string, ssecurity: string): (r: Params)
    ensures Keys(r) == ["data", "rc4_hash__", "signature", "ssecurity", "_nonce"]
    ensures var st := Cipher(p, signedNonce);
      var plainHash := Signature(p, path, [("data", data)], signedNonce);
      && r[0].1 == Encode(p, st, data)
      && r[1].1 == Encode(p, st, plainHash)
      && r[2].1 == Signature(p, path, r[..2], signedNonce)
      && r[3].1 == ssecurity && r[4].1 == nonce
  {
    var st := Cipher(p, signedNonce);
    var plain := [("data", data)];
    var hashed := plain + [("rc4_hash__", Signature(p, path, plain, signedNonce))];
    var encrypted := MapValues(hashed, v => Encode(p, st, v));
    var plainHash := hashed[1].1;
    assert encrypted == [("data", Encode(p, st, data)), ("rc4_hash__", Encode(p, st, plainHash))];
    var r := encrypted + [("signature", Signature(p, path, encrypted, signedNonce)), ("ssecurity", ssecurity), ("_nonce", nonce)];
    assert r[..2] == encrypted;
    assert Keys(r) == ["data", "rc4_hash__", "signature", "ssecurity", "_nonce"];
    r
  }

  /**
   * What the server can check: the data and the plaintext hash decrypt back under the cipher
   * keyed by the signed nonce, the key record is distinct, and `signature` covers exactly the
   * two encrypted entries, data first.
   */
  lemma EncryptedParamsRecoverable(p: Primitives, path: string, data: string, signedNonce: string, nonce: string, ssecurity: string)
    requires Sound(p)
    ensures var r := EncryptedParams(p, path, data, signedNonce, nonce, ssecurity);
      var st := Cipher(p, signedNonce);
      && DistinctKeys(r)
      && Decode(p, st, r[0].1) == data
      && Decode(p, st, r[1].1) == Signature(p, path, [("data", data)], signedNonce)
      && SignatureText(path, r[..2], signedNonce)
         == "POST&" + path + "&data=" + r[0].1 + "&rc4_hash__=" + r[1].1 + "&" + signedNonce
  {
    var r := EncryptedParams(p, path, data, signedNonce, nonce, ssecurity);
    var st := Cipher(p, signedNonce);
    assert forall i :: 0 <= i < |r| ==> r[i].0 == Keys(r)[i];
    DecodeEncode(p, st, data);
    DecodeEncode(p, st, Signature(p, path, [("data", data)], signedNonce));
    assert r[..2] == [("data", r[0].1), ("rc4_hash__", r[1].1)];
    SignTwo(path, r[0].1, r[1].1, signedNonce);
  }

  /** The signed text of a record holding `data` and `rc4_hash__`. */
  lemma SignTwo(path: string, x: string, y: string, signedNonce: string)
    ensures SignatureText(path, [("data", x), ("rc4_hash__", y)], signedNonce)
         == "POST&" + path + "&data=" + x + "&rc4_hash__=" + y + "&" + signedNonce
  {
    var two := [("data", x), ("rc4_hash__", y)];
    var pairs := ["data=" + x, "rc4_hash__=" + y];
    PairsTwo(x, y);
    SignatureTextOf(path, two, signedNonce, pairs);
    FramedFive(path, "data=" + x, "rc4_hash__=" + y, signedNonce);
    JoinFive("POST", path, "data=" + x, "rc4_hash__=" + y, signedNonce);
  }

  lemma FramedFive(path: string, a: string, b: string, signedNonce: string)
    ensures ["POST", path] + [a, b] + [signedNonce] == ["POST", path, a, b, signedNonce]
  {
  }

  lemma SignatureTextOf(path: string, ps: Params, signedNonce: string, pairs: seq<string>)
    requires SortedPairs(ps) == pairs
    ensures SignatureText(path, ps, signedNonce) == Join(["POST", path] + pairs + [signedNonce], "&")
  {
  }

  lemma PairsTwo(x: string, y: string)
    ensures SortedPairs([("data", x), ("rc4_hash__", y)]) == ["data=" + x, "rc4_hash__=" + y]
  {
    var two := [("data", x), ("rc4_hash__", y)];
    assert Keys(two) == ["data", "rc4_hash__"];
    SortTwo("data", "rc4_hash__");
    assert Lookup(two, "data") == Some(x);
    assert Lookup(two, "rc4_hash__") == Some(y);
    var sorted := SortStrings(Keys(two));
    assert Pairs(two, sorted)[0] == "data=" + x && Pairs(two, sorted)[1] == "rc4_hash__=" + y;
  }

  /** "data" sorts before "rc4_hash__". */
  lemma SortTwo(a: string, b: string)
    requires a == "data" && b == "rc4_hash__"
    ensures SortStrings([a, b]) == [a, b]
  {
    assert StrLess(a, b);
    assert SortStrings([b]) == [b] by {
      assert [b][1..] == [];
    }
    assert [a, b][1..] == [b];
  }

  lemma JoinFive(a: string, b: string, c: string, d: string, e: string)
    ensures Join([a, b, c, d, e], "&") == a + "&" + b + "&" + c + "&" + d + "&" + e
  {
    assert [d, e][1..] == [e];
    assert Join([d, e], "&") == d + "&" + e;
    assert [c, d, e][1..] == [d, e];
    assert Join([c, d, e], "&") == c + "&" + d + "&" + e;
    assert [b, c, d, e][1..] == [c, d, e];
    assert Join([b, c, d, e], "&") == b + "&" + c + "&" + d + "&" + e;
    assert [a, b, c, d, e][1..] == [b, c, d, e];
  }

  lemma JoinFour(a: string, b: string, c: string, d: string)
    ensures Join([a, b, c, d], "&") == a + "&" + b + "&" + c + "&" + d
  {
    assert [c, d][1..] == [d];
    assert Join([c, d], "&") == c + "&" + d;
    assert [b, c, d][1..] == [c, d];
    assert Join([b, c, d], "&") == b + "&" + c + "&" + d;
    assert [a, b, c, d][1..] == [b, c, d];
  }

  // ---------------------------------------------------------------------------------------
  // The nonce
  // ---------------------------------------------------------------------------------------

  const MINUTE_MS: nat := 60000

  /**
   * The 12 nonce bytes: 8 random bytes, then the minutes since the epoch as a big-endian
   * 32-bit integer (`parseInt(String(now / 60000), 10)` is the floor for a non-negative
   * clock). `writeInt32BE` throws a range error above 2^31 - 1, which is `None` here.
   */
  function NonceBytes(random: seq<byte>, nowMs: nat): (r: Option<seq<byte>>)
    requires |random| == 8
    ensures r.Some? <==> nowMs / MINUTE_MS < 0x8000_0000
    ensures r.Some? ==> |r.value| == 12 && r.value[..8] == random && ReadU32BE(r.value, 8) == nowMs / MINUTE_MS
  {
    var minutes := nowMs / MINUTE_MS;
    if minutes < 0x8000_0000 then
      ReadU32BEAt(random, minutes, []);
      assert random + U32BE(minutes) + [] == random + U32BE(minutes);
      Some(random + U32BE(minutes))
    else None
  }

  /** The unencrypted request signs url, signed nonce, nonce and the data pair, joined by '&'. */
  function HmacText(url: string, signedNonce: string, nonce: string, data: string): (r: string)
    ensures r == url + "&" + signedNonce + "&" + nonce + "&data=" + data
  {
    JoinFour(url, signedNonce, nonce, "data=" + data);
    Join([url, signedNonce, nonce, "data=" + data], "&")
  }

  /** `signNonce(nonce)`: SHA-256 over the decoded `ssecurity` and the decoded nonce, in base64. */
  function SignedNonce(p: Primitives, ssecurity: string, nonce: string): (r: string)
    ensures Sound(p) ==> |p.base64Decode(r)| == 32
  {
    p.base64Encode(p.sha256(p.base64Decode(ssecurity) + p.base64Decode(nonce)))
  }

  /**
   * The unencrypted request body: `_nonce`, `data`, and an HMAC-SHA-256 signature keyed by
   * the decoded signed nonce over the given signed text.
   */
  function PlainParams(p: Primitives, signed: string, data: string, signedNonce: string, nonce: string): (r: Params)
    ensures Keys(r) == ["_nonce", "data", "signature"] && DistinctKeys(r)
    ensures r[0].1 == nonce && r[1].1 == data
    ensures r[2].1 == p.base64Encode(p.hmacSha256(p.base64Decode(signedNonce), p.utf8Encode(signed)))
  {
    [("_nonce", nonce), ("data", data), ("signature", p.base64Encode(p.hmacSha256(p.base64Decode(signedNonce), p.utf8Encode(signed))))]
  }
}

=== FILE: strings.dfy ===
/**
 * The JavaScript string operations the repository leans on: `split`, `join`, `indexOf`,
 * `startsWith`, `replace` (first occurrence), `trim`, decimal rendering of numbers, `Number()`
 * and `parseInt(_, 16)`, and lexicographic `sort()`.
 */
module Strings {
  import opened Wrappers

  // ---------------------------------------------------------------------------------------
  // Character classes (ASCII, as the regular expressions of the source use them)
  // ---------------------------------------------------------------------------------------

  predicate IsDigit(c: char) { '0' <= c <= '9' }
  predicate IsLower(c: char) { 'a' <= c <= 'z' }
  predicate IsUpper(c: char) { 'A' <= c <= 'Z' }
  predicate IsAlnum(c: char) { IsDigit(c) || IsLower(c) || IsUpper(c) }
  /** `\w` of a JavaScript regular expression. */
  predicate IsWordChar(c: char) { IsAlnum(c) || c == '_' }
  predicate IsHexDigit(c: char) { IsDigit(c) || 'a' <= c <= 'f' || 'A' <= c <= 'F' }

  /** WhiteSpace and LineTerminator code points of ECMAScript, which `trim` removes. */
  predicate IsJsSpace(c: char) {
    var n := c as int;
    n == 0x09 || n == 0x0A || n == 0x0B || n == 0x0C || n == 0x0D || n == 0x20 || n == 0xA0
    || n == 0x1680 || (0x2000 <= n <= 0x200A) || n == 0x2028 || n == 0x2029 || n == 0x202F
    || n == 0x205F || n == 0x3000 || n == 0xFEFF
  }

  function ToLowerChar(c: char): (r: char)
    ensures IsUpper(c) ==> IsLower(r) && r as int == c as int + 32
    ensures !IsUpper(c) ==> r == c
  {
    if IsUpper(c) then (c as int + 32) as char else c
  }

  function ToUpperChar(c: char): (r: char)
    ensures IsLower(c) ==> IsUpper(r) && r as int == c as int - 32
    ensures !IsLower(c) ==> r == c
  {
    if IsLower(c) then (c as int - 32) as char else c
  }

  // ---------------------------------------------------------------------------------------
  // Searching
  // ---------------------------------------------------------------------------------------

  predicate StartsWith(s: string, prefix: string) {
    |prefix| <= |s| && s[..|prefix|] == prefix
  }

  predicate EndsWith(s: string, suffix: string) {
    |suffix| <= |s| && s[|s| - |suffix|..] == suffix
  }

  predicate IsOccurrence(s: string, pat: string, i: int) {
    0 <= i && i + |pat| <= |s| && s[i..i + |pat|] == pat
  }

  predicate Contains(s: string, pat: string) {
    exists i :: 0 <= i <= |s| && IsOccurrence(s, pat, i)
  }

  /** The first occurrence of `pat` in `s` at or after `from` (`indexOf(pat, from)`). */
  function FindFrom(s: string, pat: string, from: nat): (r: Option<nat>)
    ensures r.Some? ==> from <= r.value && IsOccurrence(s, pat, r.value)
    ensures r.Some? ==> forall k :: from <= k < r.value ==> !IsOccurrence(s, pat, k)
    ensures r.None? ==> forall k :: from <= k ==> !IsOccurrence(s, pat, k)
    decreases |s| - from
  {
    if from + |pat| > |s| then None
    else if s[from..from + |pat|] == pat then Some(from)
    else FindFrom(s, pat, from + 1)
  }

  /** `s.indexOf(pat)`, with `None` for -1. */
  function IndexOf(s: string, pat: string): (r: Option<nat>)
    ensures r.Some? ==> IsOccurrence(s, pat, r.value)
    ensures r.Some? ==> forall k :: 0 <= k < r.value ==> !IsOccurrence(s, pat, k)
    ensures r.None? <==> !Contains(s, pat)
  {
    FindFrom(s, pat, 0)
  }

  /** A text with no `c` has no occurrence of any pattern that starts with `c`. */
  lemma NoCharNoPattern(s: string, pat: string)
    requires |pat| > 0 && !Contains(s, [pat[0]])
    ensures !Contains(s, pat)
  {
    forall k | 0 <= k <= |s| ensures !IsOccurrence(s, pat, k) {
      if IsOccurrence(s, pat, k) {
        assert s[k..k + 1] == [pat[0]];
        assert IsOccurrence(s, [pat[0]], k);
      }
    }
  }

  /** A text none of whose characters is `c` has no occurrence of `[c]`. */
  lemma CharFree(s: string, c: char)
    requires forall k :: 0 <= k < |s| ==> s[k] != c
    ensures !Contains(s, [c])
  {
    forall k | 0 <= k <= |s| ensures !IsOccurrence(s, [c], k) {
      if k < |s| { assert s[k..k + 1][0] == s[k]; }
    }
  }

  /** Two texts free of `c` concatenate to a text free of `c`. */
  lemma NoCharConcat(a: string, b: string, c: char)
    requires !Contains(a, [c]) && !Contains(b, [c])
    ensures !Contains(a + b, [c])
  {
    var s := a + b;
    forall k | 0 <= k <= |s| ensures !IsOccurrence(s, [c], k) {
      if k < |a| {
        assert s[k..k + 1] == a[k..k + 1];
        assert !IsOccurrence(a, [c], k);
      } else if k < |s| {
        assert s[k..k + 1] == b[k - |a|..k - |a| + 1];
        assert !IsOccurrence(b, [c], k - |a|);
      }
    }
  }

  // ---------------------------------------------------------------------------------------
  // split / join / replace
  // ---------------------------------------------------------------------------------------

  /** `s.split(sep)` for a non-empty separator: pieces between non-overlapping occurrences, left to right. */
  function Split(s: string, sep: string): (r: seq<string>)
    requires |sep| > 0
    ensures |r| >= 1
    decreases |s|
  {
    match IndexOf(s, sep)
    case None => [s]
    case Some(i) => [s[..i]] + Split(s[i + |sep|..], sep)
  }

  /** `parts.join(sep)`. */
  function Join(parts: seq<string>, sep: string): string
  {
    if |parts| == 0 then ""
    else if |parts| == 1 then parts[0]
    else parts[0] + sep + Join(parts[1..], sep)
  }

  /** A join ends with its last part. */
  lemma {:induction false} JoinEndsWithLast(parts: seq<string>, sep: string)
    requires |parts| > 0
    ensures EndsWith(Join(parts, sep), parts[|parts| - 1])
    decreases |parts|
  {
    if |parts| > 1 {
      JoinEndsWithLast(parts[1..], sep);
      var tail := Join(parts[1..], sep);
      var whole := parts[0] + sep + tail;
      assert whole[|whole| - |tail|..] == tail;
    }
  }

  /** A join of two or more parts ends with the separator and the last part. */
  lemma {:induction false} JoinEndsWithSepLast(parts: seq<string>, sep: string)
    requires |parts| >= 2
    ensures EndsWith(Join(parts, sep), sep + parts[|parts| - 1])
    decreases |parts|
  {
    var tail := Join(parts[1..], sep);
    var whole := parts[0] + sep + tail;
    var last := parts[|parts| - 1];
    if |parts| == 2 {
      assert tail == last;
      assert whole == parts[0] + (sep + last);
    } else {
      JoinEndsWithSepLast(parts[1..], sep);
      assert parts[1..][|parts| - 2] == last;
      assert whole[|whole| - |sep + last|..] == tail[|tail| - |sep + last|..];
    }
  }

  /** Joining the pieces of a split with the same separator gives back the original text. */
  lemma {:induction false} JoinSplit(s: string, sep: string)
    requires |sep| > 0
    ensures Join(Split(s, sep), sep) == s
    decreases |s|
  {
    match IndexOf(s, sep)
    case None =>
    case Some(i) =>
      var rest := s[i + |sep|..];
      var tail := Split(rest, sep);
      JoinSplit(rest, sep);
      assert Split(s, sep) == [s[..i]] + tail;
      assert ([s[..i]] + tail)[1..] == tail;
      assert s == s[..i] + sep + rest;
  }

  /** No piece of a split contains the separator. */
  lemma {:induction false} SplitPiecesAvoidSeparator(s: string, sep: string)
    requires |sep| > 0
    ensures forall k :: 0 <= k < |Split(s, sep)| ==> !Contains(Split(s, sep)[k], sep)
    decreases |s|
  {
    match IndexOf(s, sep)
    case None =>
    case Some(i) =>
      var rest := s[i + |sep|..];
      var tail := Split(rest, sep);
      SplitPiecesAvoidSeparator(rest, sep);
      PrefixBeforeFirst(s, sep, i);
      assert Split(s, sep) == [s[..i]] + tail;
      forall k | 0 <= k < |Split(s, sep)| ensures !Contains(Split(s, sep)[k], sep) {
        if k > 0 { assert Split(s, sep)[k] == tail[k - 1]; }
      }
  }

  /** The text before the first occurrence of a pattern does not contain it. */
  lemma PrefixBeforeFirst(s: string, sep: string, i: nat)
    requires |sep| > 0 && IndexOf(s, sep) == Some(i)
    ensures !Contains(s[..i], sep)
  {
    var head := s[..i];
    forall j | 0 <= j <= |head| ensures !IsOccurrence(head, sep, j) {
      if IsOccurrence(head, sep, j) {
        assert s[j..j + |sep|] == head[j..j + |sep|];
        assert IsOccurrence(s, sep, j);
      }
    }
  }

  /** A split yields a single piece exactly when the separator does not occur. */
  lemma SplitSingle(s: string, sep: string)
    requires |sep| > 0
    ensures |Split(s, sep)| == 1 <==> !Contains(s, sep)
    ensures !Contains(s, sep) ==> Split(s, sep) == [s]
  {
    match IndexOf(s, sep)
    case None =>
    case Some(i) =>
      assert |Split(s, sep)| == 1 + |Split(s[i + |sep|..], sep)|;
  }

  /** The first piece of a split is the text before the first occurrence of the separator. */
  lemma SplitHead(s: string, sep: string)
    requires |sep| > 0
    ensures IndexOf(s, sep).Some? ==> Split(s, sep)[0] == s[..IndexOf(s, sep).value]
    ensures IndexOf(s, sep).Some? ==> Join(Split(s, sep)[1..], sep) == s[IndexOf(s, sep).value + |sep|..]
  {
    match IndexOf(s, sep)
    case None =>
    case Some(i) =>
      var rest := s[i + |sep|..];
      JoinSplit(rest, sep);
      assert Split(s, sep)[1..] == Split(rest, sep);
  }

  /** The first piece of a split starts the text and does not contain the separator. */
  lemma SplitHeadPrefix(s: string, sep: string)
    requires |sep| > 0
    ensures StartsWith(s, Split(s, sep)[0]) && !Contains(Split(s, sep)[0], sep)
  {
    SplitHead(s, sep);
    SplitSingle(s, sep);
    SplitPiecesAvoidSeparator(s, sep);
  }

  /** Splitting on a one-character separator peels off a first piece that does not contain it. */
  lemma SplitCons(a: string, b: string, c: char)
    requires !Contains(a, [c])
    ensures Split(a + [c] + b, [c]) == [a] + Split(b, [c])
  {
    var s := a + [c] + b;
    assert IsOccurrence(s, [c], |a|);
    forall k | 0 <= k < |a| ensures !IsOccurrence(s, [c], k) {
      assert s[k..k + 1] == a[k..k + 1];
      assert !IsOccurrence(a, [c], k);
    }
    assert IndexOf(s, [c]) == Some(|a|);
    assert s[..|a|] == a && s[|a| + 1..] == b;
  }

  /** Splitting a join on a one-character separator that no part contains gives back the parts. */
  lemma {:induction false} SplitJoin(parts: seq<string>, c: char)
    requires |parts| > 0 && forall k :: 0 <= k < |parts| ==> !Contains(parts[k], [c])
    ensures Split(Join(parts, [c]), [c]) == parts
    decreases |parts|
  {
    if |parts| == 1 {
      SplitSingle(parts[0], [c]);
    } else {
      SplitJoin(parts[1..], c);
      SplitCons(parts[0], Join(parts[1..], [c]), c);
      assert parts == [parts[0]] + parts[1..];
    }
  }

  /** `s.replace(pat, rep)` with a string pattern: only the first occurrence is replaced. */
  function ReplaceFirst(s: string, pat: string, rep: string): (r: string)
    ensures !Contains(s, pat) ==> r == s
    ensures IndexOf(s, pat).Some? ==>
      var i := IndexOf(s, pat).value; r == s[..i] + rep + s[i + |pat|..]
  {
    match IndexOf(s, pat)
    case None => s
    case Some(i) => s[..i] + rep + s[i + |pat|..]
  }

  /** Replace every `from` character by `to` (`replace(/-/g, '_')` and the like). */
  function ReplaceChar(s: string, from: char, to: char): (r: string)
    ensures |r| == |s|
    ensures forall i :: 0 <= i < |s| ==> r[i] == (if s[i] == from then to else s[i])
  {
    seq(|s|, i requires 0 <= i < |s| => if s[i] == from then to else s[i])
  }

  // ---------------------------------------------------------------------------------------
  // trim
  // ---------------------------------------------------------------------------------------

  function TrimStart(s: string): (r: string)
    ensures |r| <= |s| && r == s[|s| - |r|..]
    ensures |r| > 0 ==> !IsJsSpace(r[0])
    ensures forall k :: 0 <= k < |s| - |r| ==> IsJsSpace(s[k])
  {
    if |s| > 0 && IsJsSpace(s[0]) then TrimStart(s[1..]) else s
  }

  function TrimEnd(s: string): (r: string)
    ensures |r| <= |s| && r == s[..|r|]
    ensures |r| > 0 ==> !IsJsSpace(r[|r| - 1])
    ensures forall k :: |r| <= k < |s| ==> IsJsSpace(s[k])
  {
    if |s| > 0 && IsJsSpace(s[|s| - 1]) then TrimEnd(s[..|s| - 1]) else s
  }

  /** `s.trim()`: strip leading and trailing ECMAScript white space. */
  function Trim(s: string): (r: string)
    ensures |r| <= |s|
    ensures |r| > 0 ==> !IsJsSpace(r[0]) && !IsJsSpace(r[|r| - 1])
    ensures (forall k :: 0 <= k < |s| ==> !IsJsSpace(s[k])) ==> r == s
  {
    TrimEnd(TrimStart(s))
  }

  // ---------------------------------------------------------------------------------------
  // Decimal and hexadecimal numerals
  // ---------------------------------------------------------------------------------------

  function DigitChar(d: nat): (c: char)
    requires d < 10
    ensures IsDigit(c)
  {
    ('0' as int + d) as char
  }

  function DigitValue(c: char): (d: nat)
    requires IsDigit(c)
    ensures d < 10 && DigitChar(d) == c
  {
    c as int - '0' as int
  }

  function HexDigitValue(c: char): (d: nat)
    requires IsHexDigit(c)
    ensures d < 16
  {
    if IsDigit(c) then c as int - '0' as int
    else if 'a' <= c <= 'f' then c as int - 'a' as int + 10
    else c as int - 'A' as int + 10
  }

  predicate AllDigits(s: string) { forall k :: 0 <= k < |s| ==> IsDigit(s[k]) }
  predicate AllHexDigits(s: string) { forall k :: 0 <= k < |s| ==> IsHexDigit(s[k]) }

  /** Value of a string of decimal digits, most significant first. */
  function DigitsValue(s: string): nat
    requires AllDigits(s)
  {
    if |s| == 0 then 0 else DigitsValue(s[..|s| - 1]) * 10 + DigitValue(s[|s| - 1])
  }

  function HexDigitsValue(s: string): nat
    requires AllHexDigits(s)
  {
    if |s| == 0 then 0 else HexDigitsValue(s[..|s| - 1]) * 16 + HexDigitValue(s[|s| - 1])
  }

  /** `String(n)` for a non-negative integer: decimal digits without leading zeros. */
  function NatToDecimal(n: nat): (r: string)
    ensures |r| >= 1 && AllDigits(r)
    ensures |r| > 1 ==> r[0] != '0'
    decreases n
  {
    if n < 10 then [DigitChar(n)] else NatToDecimal(n / 10) + [DigitChar(n % 10)]
  }

  /** `String(i)` / `i.toString()` for an integer. */
  function IntToDecimal(i: int): (r: string)
    ensures |r| >= 1
    ensures i < 0 <==> r[0] == '-'
  {
    if i < 0 then "-" + NatToDecimal(-i) else NatToDecimal(i)
  }

  /** Reading back the decimal rendering of `n` gives `n`. */
  lemma {:induction false} NatToDecimalValue(n: nat)
    ensures DigitsValue(NatToDecimal(n)) == n
    decreases n
  {
    var r := NatToDecimal(n);
    if n >= 10 {
      NatToDecimalValue(n / 10);
      assert r[..|r| - 1] == NatToDecimal(n / 10);
      assert r[|r| - 1] == DigitChar(n % 10);
    }
  }

  /** Decimal rendering is injective: different integers print differently. */
  lemma IntToDecimalInjective(a: int, b: int)
    requires IntToDecimal(a) == IntToDecimal(b)
    ensures a == b
  {
    if a < 0 {
      assert IntToDecimal(a)[1..] == NatToDecimal(-a);
      assert IntToDecimal(b)[1..] == NatToDecimal(-b);
      NatToDecimalValue(-a);
      NatToDecimalValue(-b);
    } else {
      NatToDecimalValue(a);
      NatToDecimalValue(b);
    }
  }

  /** Digits of a non-empty all-digit string (`None` when it is not one). */
  function ParseDigits(s: string): (r: Option<nat>)
    ensures r.Some? <==> |s| > 0 && AllDigits(s)
  {
    if |s| > 0 && AllDigits(s) then Some(DigitsValue(s)) else None
  }

  /**
   * `Number(text)` restricted to integers: surrounding white space is ignored, the empty
   * text is 0, an optional sign precedes decimal digits; anything else is `None` (NaN).
   */
  function JsNumber(text: string): (r: Option<int>)
    ensures Trim(text) == "" ==> r == Some(0)
    ensures AllDigits(text) && |text| > 0 ==> r == Some(DigitsValue(text))
  {
    var t := Trim(text);
    if t == "" then Some(0)
    else if t[0] == '-' then
      match ParseDigits(t[1..]) case Some(v) => Some(-(v as int)) case None => None
    else if t[0] == '+' then
      match ParseDigits(t[1..]) case Some(v) => Some(v) case None => None
    else
      match ParseDigits(t) case Some(v) => Some(v) case None => None
  }

  /** `Number(String(i)) == i`. */
  lemma JsNumberOfDecimal(i: int)
    ensures JsNumber(IntToDecimal(i)) == Some(i)
  {
    var s := IntToDecimal(i);
    assert forall k :: 0 <= k < |s| ==> !IsJsSpace(s[k]);
    if i < 0 {
      assert s[1..] == NatToDecimal(-i);
      NatToDecimalValue(-i);
    } else {
      NatToDecimalValue(i);
    }
  }

  /** Length of the longest prefix of hexadecimal digits. */
  function HexPrefixLength(s: string): (n: nat)
    ensures n <= |s| && AllHexDigits(s[..n])
    ensures n < |s| ==> !IsHexDigit(s[n])
  {
    if |s| > 0 && IsHexDigit(s[0]) then
      var n := 1 + HexPrefixLength(s[1..]);
      assert s[..n] == [s[0]] + s[1..][..n - 1];
      n
    else 0
  }

  /**
   * `parseInt(text, 16)`: leading white space, an optional sign and an optional `0x`/`0X`
   * are skipped, then the longest run of hexadecimal digits is read; no digit at all is NaN.
   */
  function ParseIntHex(text: string): (r: Option<int>)
    ensures AllHexDigits(text) && |text| > 0 ==> r == Some(HexDigitsValue(text))
  {
    var t := TrimStart(text);
    var neg := |t| > 0 && t[0] == '-';
    var u := if |t| > 0 && (t[0] == '-' || t[0] == '+') then t[1..] else t;
    var v := if |u| >= 2 && u[0] == '0' && (u[1] == 'x' || u[1] == 'X') then u[2..] else u;
    var n := HexPrefixLength(v);
    assert AllHexDigits(text) && |text| > 0 ==> v == text && n == |text| && v[..n] == text;
    if n == 0 then None
    else if neg then Some(-(HexDigitsValue(v[..n]) as int))
    else Some(HexDigitsValue(v[..n]))
  }

  // ---------------------------------------------------------------------------------------
  // Lexicographic order and sort() on strings
  // ---------------------------------------------------------------------------------------

  /** The order `Array.prototype.sort()` uses for strings: character by character, a proper prefix first. */
  predicate StrLess(a: string, b: string) {
    if |a| == 0 then |b| > 0
    else if |b| == 0 then false
    else if a[0] != b[0] then a[0] < b[0]
    else StrLess(a[1..], b[1..])
  }

  lemma {:induction false} StrLessIrreflexive(a: string)
    ensures !StrLess(a, a)
  {
    if |a| > 0 { StrLessIrreflexive(a[1..]); }
  }

  lemma {:induction false} StrLessTotal(a: string, b: string)
    ensures a == b || StrLess(a, b) || StrLess(b, a)
  {
    if |a| > 0 && |b| > 0 && a[0] == b[0] {
      StrLessTotal(a[1..], b[1..]);
      if a[1..] == b[1..] {
        assert a == [a[0]] + a[1..] && b == [b[0]] + b[1..];
      }
    }
  }

  lemma {:induction false} StrLessTransitive(a: string, b: string, c: string)
    requires StrLess(a, b) && StrLess(b, c)
    ensures StrLess(a, c)
  {
    if |a| > 0 && |b| > 0 && |c| > 0 && a[0] == b[0] && b[0] == c[0] {
      StrLessTransitive(a[1..], b[1..], c[1..]);
    }
  }

  lemma StrLessAsymmetric(a: string, b: string)
    requires StrLess(a, b)
    ensures !StrLess(b, a)
  {
    if StrLess(b, a) {
      StrLessTransitive(a, b, a);
      StrLessIrreflexive(a);
    }
  }

  predicate StrLessEq(a: string, b: string) { a == b || StrLess(a, b) }

  predicate SortedStrings(xs: seq<string>) {
    forall i, j :: 0 <= i < j < |xs| ==> StrLessEq(xs[i], xs[j])
  }

  function InsertString(x: string, xs: seq<string>): (r: seq<string>)
    requires SortedStrings(xs)
    ensures SortedStrings(r)
    ensures multiset(r) == multiset(xs) + multiset{x}
    decreases |xs|
  {
    if |xs| == 0 then [x]
    else if StrLessEq(x, xs[0]) then
      assert forall j :: 0 < j < |xs| ==> StrLessEq(x, xs[j]) by {
        forall j | 0 < j < |xs| ensures StrLessEq(x, xs[j]) {
          if x != xs[0] && xs[0] != xs[j] { StrLessTransitive(x, xs[0], xs[j]); }
        }
      }
      [x] + xs
    else
      var rest := InsertString(x, xs[1..]);
      StrLessTotal(x, xs[0]);
      assert xs == [xs[0]] + xs[1..];
      assert forall k :: 0 <= k < |rest| ==> StrLessEq(xs[0], rest[k]) by {
        forall k | 0 <= k < |rest| ensures StrLessEq(xs[0], rest[k]) {
          assert rest[k] in multiset(rest);
          assert rest[k] == x || rest[k] in multiset(xs[1..]);
          if rest[k] != x {
            var j :| 0 <= j < |xs[1..]| && xs[1..][j] == rest[k];
            assert xs[1 + j] == rest[k];
          }
        }
      }
      [xs[0]] + rest
  }

  /** `keys.sort()`: the same strings, in ascending order. */
  function SortStrings(xs: seq<string>): (r: seq<string>)
    ensures SortedStrings(r)
    ensures multiset(r) == multiset(xs)
  {
    if |xs| == 0 then []
    else
      assert xs == [xs[0]] + xs[1..];
      InsertString(xs[0], SortStrings(xs[1..]))
  }
}

=== FILE: wrappers.dfy ===
/** Failure-compatible wrappers shared by every module of the model. */
module Wrappers {

  /** A value that may be missing: JavaScript's `undefined` for optional fields and return values. */
  datatype Option<+T> = None | Some(value: T) {

    predicate IsFailure() {
      None?
    }

    function PropagateFailure<U>(): Option<U>
      requires None?
    {
      None
    }

    function Extract(): T
      requires Some?
    {
      value
    }

    function GetOr(default: T): T {
      match this
      case Some(v) => v
      case None => default
    }
  }

  /** Either a value or the error a JavaScript call would have thrown or rejected with. */
  datatype Result<+R, +E> = Success(value: R) | Failure(error: E) {

    predicate IsFailure() {
      Failure?
    }

    function PropagateFailure<U>(): Result<U, E>
      requires Failure?
    {
      Failure(error)
    }

    function Extract(): R
      requires Success?
    {
      value
    }
  }
}

=== FILE: xiaomi_device.dfy ===
/**
 * The miIO `Device`: its attributes (device id, token, last device stamp and when it was
 * seen), the `MiIO` codec built from them, the stamp clock for outgoing packets, and the
 * dispatch of decrypted replies to the waiting-request table.
 *
 * `JSON.parse` is the `parse` parameter (`None` when it throws), `Date.now()` is `now`.
 */
module XiaomiDevice {
  import opened Wrappers
  import opened Strings
  import opened Json
  import opened Bytes
  import opened Crypto
  import opened MiioHeader
  import MiioCodec
  import BaseDevice

  const DEFAULT_PORT: int := 54321

  datatype Device = Device(host: string, port: int, attrs: BaseDevice.Attributes, codec: MiioCodec.Codec, table: BaseDevice.Table)

  ghost predicate Valid(d: Device) { BaseDevice.Valid(d.table) }

  /** The `did` attribute as the codec receives it. */
  function DidOf(v: Value): (r: Option<int>)
    ensures r.Some? <==> v.Num?
  {
    if v.Num? then Some(v.n) else None
  }

  /** The `token` attribute as the codec receives it. */
  function TokenOf(v: Value): (r: Option<string>)
    ensures r.Some? <==> v.Str?
  {
    if v.Str? then Some(v.s) else None
  }

  /** `id`: "xiaomi_" then the device id as `String` renders it. */
  function Id(d: Device): (r: string)
    ensures StartsWith(r, "xiaomi_")
    ensures r[7..] == JsString(BaseDevice.GetAttribute(d.attrs, "did"))
  {
    "xiaomi_" + JsString(BaseDevice.GetAttribute(d.attrs, "did"))
  }

  /** Devices with different numeric device ids have different ids. */
  lemma IdInjective(a: Device, b: Device)
    requires BaseDevice.GetAttribute(a.attrs, "did").Num? && BaseDevice.GetAttribute(b.attrs, "did").Num?
    requires Id(a) == Id(b)
    ensures BaseDevice.GetAttribute(a.attrs, "did") == BaseDevice.GetAttribute(b.attrs, "did")
  {
    var da, db := BaseDevice.GetAttribute(a.attrs, "did"), BaseDevice.GetAttribute(b.attrs, "did");
    assert Id(a)[7..] == IntToDecimal(da.n) && Id(b)[7..] == IntToDecimal(db.n);
    IntToDecimalInjective(da.n, db.n);
  }

  /**
   * `new Device({host, port, ...props})` at time `now`: the port defaults to 54321, the
   * remaining properties become the attributes, a timestamp is recorded only when a truthy
   * stamp is among them, and the codec is built from the `did` and `token` attributes.
   */
  function New(p: Primitives, host: string, port: Option<int>, props: map<string, Value>, now: int): (d: Device)
    ensures Valid(d) && d.table.waiting == map[]
    ensures d.host == host && d.port == port.GetOr(DEFAULT_PORT)
    ensures "timestamp" in d.attrs && "timestamp" !in props ==> Truthy(BaseDevice.GetAttribute(props, "stamp"))
    ensures Truthy(BaseDevice.GetAttribute(props, "stamp")) ==> d.attrs == props["timestamp" := Num(now)]
    ensures !Truthy(BaseDevice.GetAttribute(props, "stamp")) ==> d.attrs == props
    ensures d.codec == MiioCodec.New(p, DidOf(BaseDevice.GetAttribute(props, "did")), TokenOf(BaseDevice.GetAttribute(props, "token")))
  {
    var attrs := if Truthy(BaseDevice.GetAttribute(props, "stamp")) then BaseDevice.SetAttribute(props, "timestamp", Num(now)) else props;
    var codec := MiioCodec.New(p, DidOf(BaseDevice.GetAttribute(attrs, "did")), TokenOf(BaseDevice.GetAttribute(attrs, "token")));
    Device(host, port.GetOr(DEFAULT_PORT), attrs, codec, BaseDevice.Empty())
  }

  /** `setToken(token)`: stored as an attribute and handed to the codec. */
  function SetToken(p: Primitives, d: Device, token: string): (r: Device)
    ensures BaseDevice.GetAttribute(r.attrs, "token") == Str(token)
    ensures r.codec.token == Some(token) && r.codec.did == d.codec.did
    ensures r.codec.tokenKey == Some(MiioCodec.TokenKey(p, token))
    ensures r.host == d.host && r.port == d.port && r.table == d.table
    ensures forall k :: k in d.attrs && k != "token" ==> k in r.attrs && r.attrs[k] == d.attrs[k]
  {
    d.(attrs := BaseDevice.SetAttribute(d.attrs, "token", Str(token)), codec := MiioCodec.SetToken(p, d.codec, token))
  }

  /**
   * The stamp written into an outgoing packet: the last device stamp plus the whole seconds
   * elapsed since it was seen (rounded down, also for a clock that went backwards), when both
   * are set and non-zero; otherwise none, so the codec writes 0xFFFFFFFF.
   */
  function OutgoingStamp(attrs: BaseDevice.Attributes, now: int): (r: Option<int>)
    ensures r.Some? <==>
      var st, ts := BaseDevice.GetAttribute(attrs, "stamp"), BaseDevice.GetAttribute(attrs, "timestamp");
      st.Num? && ts.Num? && st.n != 0 && ts.n != 0
  {
    var st, ts := BaseDevice.GetAttribute(attrs, "stamp"), BaseDevice.GetAttribute(attrs, "timestamp");
    if st.Num? && ts.Num? && st.n != 0 && ts.n != 0 then Some(st.n + (now - ts.n) / 1000) else None
  }

  /** The outgoing stamp advances by exactly the whole seconds elapsed: `floor((now - timestamp) / 1000)`. */
  lemma OutgoingStampSeconds(attrs: BaseDevice.Attributes, now: int)
    requires OutgoingStamp(attrs, now).Some?
    ensures var elapsed := OutgoingStamp(attrs, now).value - BaseDevice.GetAttribute(attrs, "stamp").n;
      var ms := now - BaseDevice.GetAttribute(attrs, "timestamp").n;
      1000 * elapsed <= ms < 1000 * (elapsed + 1)
  {
  }

  /** The outgoing stamp never runs backwards as the clock advances. */
  lemma OutgoingStampMonotone(attrs: BaseDevice.Attributes, now: int, later: int)
    requires OutgoingStamp(attrs, now).Some? && now <= later
    ensures OutgoingStamp(attrs, now).value <= OutgoingStamp(attrs, later).value
  {
    var ts := BaseDevice.GetAttribute(attrs, "timestamp").n;
    OutgoingStampSeconds(attrs, now);
    OutgoingStampSeconds(attrs, later);
  }

  /** What `send(data)` does. */
  datatype SendOutcome =
    | Sent(packet: seq<byte>)   // handed to the socket
    | Refused(reason: string)   // a rejected promise, nothing written
    | Threw(error: Thrown)      // thrown by the codec

  const TOKEN_REQUIRED: string := "Token is required to call method"

  /** `send(data)` at time `now`. */
  function Send(p: Primitives, d: Device, data: string, now: int): (r: SendOutcome)
    ensures r == Refused(TOKEN_REQUIRED) <==> !MiioCodec.Ready(d.codec)
    ensures r.Sent? ==> MiioCodec.Encode(p, d.codec, data, OutgoingStamp(d.attrs, now)) == Success(Some(r.packet))
    ensures r.Sent? ==> ReadU32BE(r.packet, 12) == OutgoingStamp(d.attrs, now).GetOr(NO_STAMP)
    ensures var e := MiioCodec.Encode(p, d.codec, data, OutgoingStamp(d.attrs, now));
      && (e.Success? && e.value.Some? ==> r == Sent(e.value.value))
      && (e.Failure? ==> r == Threw(e.error))
  {
    match MiioCodec.Encode(p, d.codec, data, OutgoingStamp(d.attrs, now))
    case Failure(e) => Threw(e)
    case Success(None) => Refused(TOKEN_REQUIRED)
    case Success(Some(packet)) => Sent(packet)
  }

  /**
   * `call(method, params)`: the next id of the shared counter names the request, whose
   * payload is `{id, method, params}` (params defaulting to `[]`).
   */
  function Call(d: Device, counter: int, name: string, params: Value, deconnect: bool, now: int): (r: (Device, Value, string, int))
    requires Valid(d)
    ensures var (d', payload, uuid, counter') := r;
      && Valid(d') && counter' > counter
      && payload == Obj(map["id" := Num(counter'), "method" := Str(name), "params" := if params.Undefined? then Arr([]) else params])
      && uuid == JsString(Get(payload, "id"))
      && BaseDevice.GetWaitingRequest(d'.table, uuid) == Some(|d.table.requests|)
      && d'.attrs == d.attrs && d'.codec == d.codec
  {
    var (id, counter') := BaseDevice.GenerateId(counter);
    var payload := Obj(map["id" := Num(id), "method" := Str(name), "params" := if params.Undefined? then Arr([]) else params]);
    var uuid := IntToDecimal(id);
    (d.(table := BaseDevice.Issue(d.table, uuid, deconnect, now)), payload, uuid, counter')
  }

  /** `.then(val => val.result)`: what `call` yields from the reply that resolved it. */
  function CallResult(reply: Value): (r: Value)
    requires reply.Obj?
    ensures "result" in reply.fields ==> r == reply.fields["result"]
  {
    Get(reply, "result")
  }

  /**
   * Whether dispatching a parsed message throws a `TypeError`: `message.id` on `null` or
   * `undefined`, `'id' in message` on any other primitive, and `'code' in message.error` when
   * the message has an `id` and an `error` but no `result` and its `error` is a primitive.
   * Arrays and objects answer `in`; an array has none of the keys asked for.
   */
  predicate DispatchThrows(message: Value) {
    || !(message.Obj? || message.Arr?)
    || (&& message.Obj? && "id" in message.fields && "result" !in message.fields && "error" in message.fields
        && !(message.fields["error"].Obj? || message.fields["error"].Arr?))
  }

  /** The table after a dispatch, whether the device disconnects, and whether a `TypeError` escaped. */
  datatype Dispatched = Dispatched(table: BaseDevice.Table, closes: bool, threw: bool)

  /**
   * The parsed reply dispatched on its `id`: `{id, result}` resolves, `{id, error: {code, message}}`
   * rejects, the throwing shapes of `DispatchThrows` throw, and anything else changes nothing.
   */
  function Dispatch(table: BaseDevice.Table, message: Value): (r: Dispatched)
    requires BaseDevice.Valid(table)
    ensures BaseDevice.Valid(r.table)
    ensures r.threw <==> DispatchThrows(message)
    ensures r.threw || message.Arr? ==> r == Dispatched(table, false, r.threw)
    ensures message.Obj? && "id" in message.fields && "result" in message.fields ==>
      var (t, closes) := BaseDevice.Deliver(table, JsString(message.fields["id"]), message);
      r == Dispatched(t, closes, false)
    ensures (&& message.Obj? && "id" in message.fields && "result" !in message.fields
             && "error" in message.fields && message.fields["error"].Obj?
             && "code" in message.fields["error"].fields && "message" in message.fields["error"].fields) ==>
      var (t, closes) := BaseDevice.DeliverError(table, JsString(message.fields["id"]), JsString(message.fields["error"].fields["message"]));
      r == Dispatched(t, closes, false)
    ensures message.Obj? && !("id" in message.fields && ("result" in message.fields || "error" in message.fields)) ==>
      r == Dispatched(table, false, false)
  {
    match message
    case Arr(_) => Dispatched(table, false, false)
    case Obj(fields) =>
      var id := JsString(Get(message, "id"));
      if Has(message, "id") && Has(message, "result") then
        var (t, closes) := BaseDevice.Deliver(table, id, message);
        Dispatched(t, closes, false)
      else if Has(message, "id") && Has(message, "error") then
        match fields["error"]
        case Obj(e) =>
          if "code" in e && "message" in e then
            var (t, closes) := BaseDevice.DeliverError(table, id, JsString(e["message"]));
            Dispatched(t, closes, false)
          else Dispatched(table, false, false)
        case Arr(_) => Dispatched(table, false, false)
        case _ => Dispatched(table, false, true)
      else Dispatched(table, false, false)
    case _ => Dispatched(table, false, true)
  }

  /** An exception that leaves the socket listener: the codec's, `JSON.parse`'s or a `TypeError`. */
  datatype Escape = CodecError(error: Thrown) | SyntaxError | TypeError

  /** The device after `onMessage`, whether it disconnects, and the exception that escaped, if any. */
  datatype Reaction = Reaction(device: Device, closes: bool, escaped: Option<Escape>)

  /** The text `onMessage` parses: the plaintext of a decoded packet with a body, when it is not empty. */
  function ParsedText(p: Primitives, c: MiioCodec.Codec, packet: seq<byte>): (r: Option<string>)
    ensures r.Some? <==>
      && MiioCodec.Decode(p, c, packet).Success? && MiioCodec.Decode(p, c, packet).value.Some?
      && |MiioCodec.Decode(p, c, packet).value.value.encrypted| > 0
      && MiioCodec.Decode(p, c, packet).value.value.decrypted.Some?
      && MiioCodec.Decode(p, c, packet).value.value.decrypted.value != ""
    ensures r.Some? ==> MiioCodec.Decode(p, c, packet).value.value.decrypted == r
  {
    match MiioCodec.Decode(p, c, packet)
    case Success(Some(data)) =>
      if |data.encrypted| > 0 && data.decrypted.Some? && data.decrypted.value != "" then data.decrypted else None
    case _ => None
  }

  /**
   * `onMessage(packet)` at time `now`. A decode error escapes. A packet that decodes to nothing
   * or with an empty body changes nothing. Otherwise a positive stamp is recorded with the time
   * it was seen; then an empty or missing plaintext ends the call, text that is not JSON
   * escapes as a `SyntaxError` (after the stamp was recorded), and a parsed message is
   * dispatched.
   */
  function OnMessage(p: Primitives, parse: string -> Option<Value>, d: Device, packet: seq<byte>, now: int): (r: Reaction)
    requires Valid(d)
    ensures Valid(r.device)
    ensures r.device.host == d.host && r.device.port == d.port && r.device.codec == d.codec
    ensures MiioCodec.Decode(p, d.codec, packet).Failure? ==>
      r == Reaction(d, false, Some(CodecError(MiioCodec.Decode(p, d.codec, packet).error)))
    ensures (match MiioCodec.Decode(p, d.codec, packet)
             case Success(Some(data)) => |data.encrypted| == 0
             case Success(None) => true
             case Failure(_) => false) ==> r == Reaction(d, false, None)
    ensures ParsedText(p, d.codec, packet).None? && MiioCodec.Decode(p, d.codec, packet).Success? ==>
      r.device.table == d.table && !r.closes && r.escaped.None?
    ensures ParsedText(p, d.codec, packet).Some? && parse(ParsedText(p, d.codec, packet).value).None? ==>
      r.device.table == d.table && !r.closes && r.escaped == Some(SyntaxError)
    ensures ParsedText(p, d.codec, packet).Some? && parse(ParsedText(p, d.codec, packet).value).Some? ==>
      var dr := Dispatch(d.table, parse(ParsedText(p, d.codec, packet).value).value);
      && r.device.table == dr.table && r.closes == dr.closes
      && r.escaped == (if dr.threw then Some(TypeError) else None)
    ensures r.device.attrs != d.attrs ==>
      && MiioCodec.Decode(p, d.codec, packet).Success?
      && MiioCodec.Decode(p, d.codec, packet).value.Some?
      && var data := MiioCodec.Decode(p, d.codec, packet).value.value;
      && data.stamp > 0
      && r.device.attrs == d.attrs["stamp" := Num(data.stamp)]["timestamp" := Num(now)]
  {
    match MiioCodec.Decode(p, d.codec, packet)
    case Failure(e) => Reaction(d, false, Some(CodecError(e)))
    case Success(None) => Reaction(d, false, None)
    case Success(Some(data)) =>
      if |data.encrypted| == 0 then Reaction(d, false, None)
      else
        var attrs := if data.stamp > 0 then d.attrs["stamp" := Num(data.stamp)]["timestamp" := Num(now)] else d.attrs;
        var d1 := d.(attrs := attrs);
        match data.decrypted
        case None => Reaction(d1, false, None)
        case Some(text) =>
          if text == "" then Reaction(d1, false, None)
          else
            match parse(text)
            case None => Reaction(d1, false, Some(SyntaxError))
            case Some(message) =>
              var dr := Dispatch(d1.table, message);
              Reaction(d1.(table := dr.table), dr.closes, if dr.threw then Some(TypeError) else None)
  }

  /** A packet shorter than the 16-byte header makes `decode` throw out of the listener. */
  lemma ShortPacketEscapes(p: Primitives, parse: string -> Option<Value>, d: Device, packet: seq<byte>, now: int)
    requires Valid(d) && |packet| < 16
    ensures OnMessage(p, parse, d, packet, now) == Reaction(d, false, Some(CodecError(BufferOutOfBounds)))
  {
  }

  /**
   * An empty plaintext is never parsed: the listener's outcome does not depend on `JSON.parse`
   * for any packet whose body decrypts to "".
   */
  lemma EmptyTextNotParsed(p: Primitives, parse1: string -> Option<Value>, parse2: string -> Option<Value>,
                           d: Device, packet: seq<byte>, now: int)
    requires Valid(d)
    requires MiioCodec.Decode(p, d.codec, packet).Success? && MiioCodec.Decode(p, d.codec, packet).value.Some?
    requires MiioCodec.Decode(p, d.codec, packet).value.value.decrypted == Some("")
    ensures OnMessage(p, parse1, d, packet, now) == OnMessage(p, parse2, d, packet, now)
    ensures OnMessage(p, parse1, d, packet, now).escaped.None?
  {
  }

  /** `null`, numbers, text and booleans throw a `TypeError`; arrays are ignored. */
  lemma PrimitiveMessageThrows(table: BaseDevice.Table, message: Value)
    requires BaseDevice.Valid(table) && !message.Obj?
    ensures Dispatch(table, message).threw <==> !message.Arr?
    ensures Dispatch(table, message).table == table
  {
  }

  /** `{id, error}` with a primitive `error`, such as `{"id": 1, "error": "x"}`, throws at `'code' in message.error`. */
  lemma PrimitiveErrorThrows(table: BaseDevice.Table, id: Value, error: Value)
    requires BaseDevice.Valid(table) && !(error.Obj? || error.Arr?)
    ensures Dispatch(table, Obj(map["id" := id, "error" := error])) == Dispatched(table, false, true)
  {
    var m := Obj(map["id" := id, "error" := error]);
    assert "result" !in m.fields;
  }

  /** A device stamp is recorded from every packet with a body and a positive stamp that decodes, whether or not it decrypts. */
  lemma StampRecorded(p: Primitives, parse: string -> Option<Value>, d: Device, packet: seq<byte>, now: int)
    requires Valid(d)
    requires MiioCodec.Decode(p, d.codec, packet).Success? && MiioCodec.Decode(p, d.codec, packet).value.Some?
    requires var data := MiioCodec.Decode(p, d.codec, packet).value.value; |data.encrypted| > 0 && data.stamp > 0
    ensures var data := MiioCodec.Decode(p, d.codec, packet).value.value;
      var attrs := OnMessage(p, parse, d, packet, now).device.attrs;
      BaseDevice.GetAttribute(attrs, "stamp") == Num(data.stamp)
      && OutgoingStamp(attrs, now + 1000) == (if now == 0 then None else Some(data.stamp + 1))
  {
  }

  /**
   * A call followed by the device's reply `{id, result}` under the call's id resolves that
   * call's request with the whole reply, and nothing remains waiting under its uuid.
   */
  lemma CallThenReplyResolves(d: Device, counter: int, name: string, params: Value, now: int, fields: map<string, Value>)
    requires Valid(d)
    requires "result" in fields
    ensures var (d1, payload, uuid, _) := Call(d, counter, name, params, false, now);
      var reply := Obj(fields["id" := payload.fields["id"]]);
      var r := Dispatch(d1.table, reply);
      && r.table.requests[|d.table.requests|].outcome == Some(BaseDevice.Resolved(reply))
      && BaseDevice.GetWaitingRequest(r.table, uuid).None?
      && !r.closes && !r.threw
  {
  }

  /** A call answered with `{id, error: {code, message}}` is rejected with the message. */
  lemma CallThenErrorRejects(d: Device, counter: int, name: string, params: Value, now: int, code: Value, text: string)
    requires Valid(d)
    ensures var (d1, payload, uuid, _) := Call(d, counter, name, params, false, now);
      var reply := Obj(map["id" := payload.fields["id"], "error" := Obj(map["code" := code, "message" := Str(text)])]);
      var r := Dispatch(d1.table, reply);
      r.table.requests[|d.table.requests|].outcome == Some(BaseDevice.Rejected(text)) && !r.threw
  {
  }

  /**
   * `miIoInfo()`: every entry of the reply, as `Object.entries` lists them, is copied into the
   * attributes. A `null` or `undefined` result makes `Object.entries` throw a `TypeError`; an
   * array or a string contributes its index keys; other primitives contribute nothing.
   */
  function MiIoInfo(attrs: BaseDevice.Attributes, info: Value): (r: Result<BaseDevice.Attributes, Escape>)
    ensures r.Failure? <==> IsNullish(info)
    ensures r.Failure? ==> r.error == TypeError
    ensures r.Success? ==> r.value.Keys == attrs.Keys + Entries(info).value.Keys
    ensures r.Success? ==> forall k :: k in r.value ==> r.value[k] == (if k in Entries(info).value then Get(info, k) else attrs[k])
    ensures info.Obj? ==> r.Success? && r.value.Keys == attrs.Keys + info.fields.Keys
    ensures info.Obj? ==> forall k :: k in info.fields ==> r.value[k] == info.fields[k]
  {
    match Entries(info)
    case None => Failure(TypeError)
    case Some(entries) => Success(attrs + entries)
  }

  /** An array reply stores each element under its index, `"0"`, `"1"`, …. */
  lemma MiIoInfoIndexKeys(attrs: BaseDevice.Attributes, items: seq<Value>, i: nat)
    requires i < |items|
    ensures var r := MiIoInfo(attrs, Arr(items));
      r.Success? && NatToDecimal(i) in r.value && r.value[NatToDecimal(i)] == items[i]
  {
    IndexKeyOfDecimal(i);
  }
}

=== FILE: xiaomi_discovery.dfy ===
/**
 * The miIO `Discovery`: it broadcasts the hello packet and turns every header-only reply
 * into an announcement of a device, with the token when the reply carries one.
 */
module XiaomiDiscovery {
  import opened Wrappers
  import opened Strings
  import opened Bytes
  import opened MiioHeader

  const PROBE_HOST: string := "255.255.255.255"
  const PROBE_PORT: int := 54321

  /** The probe broadcast to every device on the local network. */
  function Probe(): (r: seq<byte>)
    ensures |r| == HEADER_SIZE && ReadU16BE(r, 0) == MAGIC && ReadU16BE(r, 2) == HEADER_SIZE
    ensures forall k :: 4 <= k < HEADER_SIZE ==> r[k] == 0xFF
  {
    HelloBytes()
  }

  /** A device announced by a reply: the sender's address, its device id, its token if known, and its stamp. */
  datatype Announcement = Announcement(host: string, port: int, id: int, token: Option<string>, serverStamp: int)

  /** A character the pattern `^[fF0]+$` accepts. */
  predicate IsFOrZero(c: char) { c == 'f' || c == 'F' || c == '0' }

  /** `text.match(/^[fF0]+$/)`: a non-empty text of 'f', 'F' and '0' only. */
  predicate OnlyFOrZero(text: string) {
    |text| > 0 && forall k :: 0 <= k < |text| ==> IsFOrZero(text[k])
  }

  /**
   * `onMessage(message, remote)`: the header is read (a message shorter than 16 bytes throws);
   * a reply with stamp 0 or with a body announces nothing; otherwise the checksum field, as
   * hex, is the token unless it is made of 'f' and '0' digits only.
   */
  function OnMessage(message: seq<byte>, host: string, port: int): (r: Result<Option<Announcement>, Thrown>)
    ensures r.Failure? <==> |message| < 16
    ensures r.Success? ==>
      (r.value.None? <==> ReadU32BE(message, 12) == 0 || |message| > HEADER_SIZE)
    ensures r.Success? && r.value.Some? ==>
      var a := r.value.value;
      && a.host == host && a.port == port
      && a.id == ReadU32BE(message, 8) && a.serverStamp == ReadU32BE(message, 12)
      && (a.token.None? <==> OnlyFOrZero(HexEncode(message[16..])))
      && (a.token.Some? ==> a.token.value == HexEncode(message[16..]))
  {
    var fields :- ReadFields(message);
    if fields.stamp == 0 || |fields.encrypted| > 0 then Success(None)
    else
      assert fields.checksum == message[16..];
      var checksum := HexEncode(fields.checksum);
      var token := if OnlyFOrZero(checksum) then None else Some(checksum);
      Success(Some(Announcement(host, port, fields.did, token, fields.stamp)))
  }

  /** A byte renders as two digits from {0, f}: each nibble is 0 or 15. */
  predicate BlankByte(b: byte) { b in {0x00, 0x0F, 0xF0, 0xFF} }

  lemma HexCharFOrZero(d: nat)
    requires d < 16
    ensures IsFOrZero(HexChar(d)) <==> d == 0 || d == 15
  {
  }

  /** The token is withheld exactly when every checksum byte is a blank byte (and there is at least one). */
  lemma {:induction false} TokenWithheldIff(checksum: seq<byte>)
    ensures OnlyFOrZero(HexEncode(checksum)) <==> |checksum| > 0 && forall k :: 0 <= k < |checksum| ==> BlankByte(checksum[k])
  {
    var text := HexEncode(checksum);
    if |checksum| > 0 {
      if OnlyFOrZero(text) {
        forall k | 0 <= k < |checksum| ensures BlankByte(checksum[k]) {
          HexEncodeAt(checksum, k);
          HexCharFOrZero(checksum[k] / 16);
          HexCharFOrZero(checksum[k] % 16);
          assert IsFOrZero(text[2 * k]) && IsFOrZero(text[2 * k + 1]);
        }
      }
      if forall k :: 0 <= k < |checksum| ==> BlankByte(checksum[k]) {
        forall i | 0 <= i < |text| ensures IsFOrZero(text[i]) {
          var k := i / 2;
          HexEncodeAt(checksum, k);
          HexCharFOrZero(checksum[k] / 16);
          HexCharFOrZero(checksum[k] % 16);
          assert i == 2 * k || i == 2 * k + 1;
        }
      }
    }
  }

  /** A reply with stamp 0xFFFFFFFF and blank header bytes announces itself, so the probe's own echo is announced as a device with id 0xFFFFFFFF and no token. */
  lemma ProbeEchoAnnounced(host: string, port: int)
    ensures OnMessage(Probe(), host, port) == Success(Some(Announcement(host, port, NO_STAMP, None, NO_STAMP)))
  {
    var m := Probe();
    assert m[8] == 0xFF && m[9] == 0xFF && m[10] == 0xFF && m[11] == 0xFF;
    assert m[12] == 0xFF && m[13] == 0xFF && m[14] == 0xFF && m[15] == 0xFF;
    TokenWithheldIff(m[16..]);
  }

  /** A 16-byte header-only reply is classified by its bytes alone: exactly one announcement, with its token withheld iff all its checksum bytes are blank. */
  lemma AnnouncementOfReply(message: seq<byte>, host: string, port: int)
    requires |message| == HEADER_SIZE && ReadU32BE(message, 12) != 0
    ensures OnMessage(message, host, port).Success? && OnMessage(message, host, port).value.Some?
    ensures OnMessage(message, host, port).value.value.token.None? <==>
      forall k :: 16 <= k < HEADER_SIZE ==> BlankByte(message[k])
  {
    var c := message[16..];
    TokenWithheldIff(c);
    assert forall k :: 16 <= k < HEADER_SIZE ==> message[k] == c[k - 16];
    if forall k :: 16 <= k < HEADER_SIZE ==> BlankByte(message[k]) {
      forall j | 0 <= j < |c| ensures BlankByte(c[j]) { assert c[j] == message[j + 16]; }
    }
  }
}

=== FILE: yeelight_case.dfy ===
/**
 * The Yeelight case converters: `toKebabCase`, `toSnakeCase` and `toCameCase`, with the
 * regular-expression replacements written out as scans over the text. Letters are ASCII.
 */
module YeelightCase {
  import opened Wrappers
  import opened Strings

  // ---------------------------------------------------------------------------------------
  // toKebabCase, stage by stage
  // ---------------------------------------------------------------------------------------

  /** `replace(/[^a-z0-9]/gi, '-')` on one character. */
  function Mask(c: char): (r: char)
    ensures IsAlnum(r) || r == '-'
    ensures IsAlnum(c) ==> r == c
    ensures !IsAlnum(c) ==> r == '-'
  {
    if IsAlnum(c) then c else '-'
  }

  function MaskAll(s: string): (r: string)
    ensures |r| == |s| && forall i :: 0 <= i < |s| ==> r[i] == Mask(s[i])
  {
    seq(|s|, i requires 0 <= i < |s| => Mask(s[i]))
  }

  /**
   * `replace(/\B([A-Z])/g, '-$1')`: a '-' before every upper-case letter that is not at a
   * word boundary, that is, whose predecessor is a word character. `prev` is the character
   * before `s`, if any.
   */
  function Hyphenate(prev: Option<char>, s: string): (r: string)
    ensures |r| >= |s|
    decreases |s|
  {
    if |s| == 0 then ""
    else
      var dash := if IsUpper(s[0]) && prev.Some? && IsWordChar(prev.value) then "-" else "";
      dash + [s[0]] + Hyphenate(Some(s[0]), s[1..])
  }

  /** `toLowerCase()` on ASCII. */
  function Lower(s: string): (r: string)
    ensures |r| == |s| && forall i :: 0 <= i < |s| ==> r[i] == ToLowerChar(s[i])
  {
    seq(|s|, i requires 0 <= i < |s| => ToLowerChar(s[i]))
  }

  // ---------------------------------------------------------------------------------------
  // toKebabCase in one pass over the input
  // ---------------------------------------------------------------------------------------

  /** A kebab-case character: lower-case letter, digit or '-'. */
  predicate IsKebabChar(c: char) { IsLower(c) || IsDigit(c) || c == '-' }

  /**
   * The same conversion described on the original text: each character becomes its
   * lower-cased letter or digit, or '-' when it is neither; an upper-case letter whose
   * predecessor is a letter or digit gets a '-' in front.
   */
  function KebabFrom(prev: Option<char>, s: string): (r: string)
    ensures forall i :: 0 <= i < |r| ==> IsKebabChar(r[i])
    decreases |s|
  {
    if |s| == 0 then ""
    else
      var dash := if IsUpper(s[0]) && prev.Some? && IsAlnum(prev.value) then "-" else "";
      dash + [ToLowerChar(Mask(s[0]))] + KebabFrom(Some(s[0]), s[1..])
  }

  function MaskOpt(prev: Option<char>): Option<char> {
    if prev.Some? then Some(Mask(prev.value)) else None
  }

  lemma {:induction false} StagesAreOnePass(prev: Option<char>, s: string)
    ensures Lower(Hyphenate(MaskOpt(prev), MaskAll(s))) == KebabFrom(prev, s)
    decreases |s|
  {
    if |s| > 0 {
      var m := MaskAll(s);
      assert m[0] == Mask(s[0]) && m[1..] == MaskAll(s[1..]);
      StagesAreOnePass(Some(s[0]), s[1..]);
      var dash := if IsUpper(m[0]) && MaskOpt(prev).Some? && IsWordChar(MaskOpt(prev).value) then "-" else "";
      var rest := Hyphenate(Some(m[0]), m[1..]);
      assert Hyphenate(MaskOpt(prev), m) == dash + [m[0]] + rest;
      LowerAppend(dash + [m[0]], rest);
      LowerAppend(dash, [m[0]]);
    }
  }

  lemma LowerAppend(a: string, b: string)
    ensures Lower(a + b) == Lower(a) + Lower(b)
  {
  }

  /**
   * `toKebabCase(str)`: the three stages together are the one-pass conversion, so the output
   * holds only a-z, 0-9 and '-'.
   */
  function ToKebabCase(s: string): (r: string)
    ensures r == KebabFrom(None, s)
    ensures forall i :: 0 <= i < |r| ==> IsKebabChar(r[i])
  {
    StagesAreOnePass(None, s);
    Lower(Hyphenate(None, MaskAll(s)))
  }

  /** Text made of kebab-case characters passes through every stage unchanged. */
  lemma {:induction false} KebabFromFixed(prev: Option<char>, s: string)
    requires forall i :: 0 <= i < |s| ==> IsKebabChar(s[i])
    ensures KebabFrom(prev, s) == s
    decreases |s|
  {
    if |s| > 0 {
      KebabFromFixed(Some(s[0]), s[1..]);
      assert s == [s[0]] + s[1..];
    }
  }

  /** `toKebabCase` is idempotent. */
  lemma KebabCaseIdempotent(s: string)
    ensures ToKebabCase(ToKebabCase(s)) == ToKebabCase(s)
  {
    KebabFromFixed(None, ToKebabCase(s));
  }

  // ---------------------------------------------------------------------------------------
  // toSnakeCase
  // ---------------------------------------------------------------------------------------

  /** `toSnakeCase(str)`: the kebab-case text with every '-' replaced by '_'. */
  function ToSnakeCase(s: string): (r: string)
    ensures |r| == |ToKebabCase(s)|
    ensures forall i :: 0 <= i < |r| ==> r[i] != '-'
    ensures forall i :: 0 <= i < |r| ==> (r[i] == '_' <==> ToKebabCase(s)[i] == '-')
    ensures forall i :: 0 <= i < |r| ==> IsLower(r[i]) || IsDigit(r[i]) || r[i] == '_'
    ensures forall i :: 0 <= i < |r| && ToKebabCase(s)[i] != '-' ==> r[i] == ToKebabCase(s)[i]
  {
    ReplaceChar(ToKebabCase(s), '-', '_')
  }

  // ---------------------------------------------------------------------------------------
  // toCameCase
  // ---------------------------------------------------------------------------------------

  predicate IsJoiner(c: char) { c == '-' || c == '_' }

  /**
   * `toCameCase(str)`: scanning left to right, each '-' or '_' followed by a word character
   * is replaced by that character upper-cased; matches do not overlap.
   */
  function ToCamelCase(s: string): (r: string)
    ensures |r| <= |s|
    ensures (forall i :: 0 <= i < |s| ==> !IsJoiner(s[i])) ==> r == s
    decreases |s|
  {
    if |s| == 0 then ""
    else if |s| >= 2 && IsJoiner(s[0]) && IsWordChar(s[1]) then [ToUpperChar(s[1])] + ToCamelCase(s[2..])
    else [s[0]] + ToCamelCase(s[1..])
  }

  /** The first character of a conversion is a joiner only if the text starts with one. */
  lemma CamelHead(s: string)
    requires |ToCamelCase(s)| > 0
    ensures |s| > 0
    ensures ToCamelCase(s)[0] == '-' ==> s[0] == '-'
    ensures IsLower(ToCamelCase(s)[0]) ==> s[0] == ToCamelCase(s)[0]
  {
  }

  /** No '-' is directly followed by a lower-case letter. */
  predicate NoDashBeforeLower(r: string) {
    forall i :: 0 <= i < |r| - 1 && r[i] == '-' ==> !IsLower(r[i + 1])
  }

  /**
   * In the camel-case form of a text without '_' (a kebab-case text, say) no '-' is
   * followed by a lower-case letter: every '-' followed by a word character was consumed.
   */
  lemma {:induction false} CamelLeavesNoDashLower(s: string)
    requires forall i :: 0 <= i < |s| ==> s[i] != '_'
    ensures NoDashBeforeLower(ToCamelCase(s))
    decreases |s|
  {
    var r := ToCamelCase(s);
    if |s| >= 2 && IsJoiner(s[0]) && IsWordChar(s[1]) {
      CamelLeavesNoDashLower(s[2..]);
      assert r == [ToUpperChar(s[1])] + ToCamelCase(s[2..]);
      assert r[0] != '-';
    } else if |s| > 0 {
      CamelLeavesNoDashLower(s[1..]);
      var rest := ToCamelCase(s[1..]);
      assert r == [s[0]] + rest;
      forall i | 0 <= i < |r| - 1 && r[i] == '-' ensures !IsLower(r[i + 1]) {
        if i == 0 {
          CamelHead(s[1..]);
          assert s[1..][0] == s[1];
        } else {
          assert r[i] == rest[i - 1] && r[i + 1] == rest[i - 1 + 1];
          assert 0 <= i - 1 < |rest| - 1;
          assert rest[i - 1] == '-';
          assert NoDashBeforeLower(rest);
        }
      }
    }
  }
}

=== FILE: yeelight_device.dfy ===
/**
 * The Yeelight `Device`: commands are JSON lines `{id, method, params}` over TCP, replies come
 * back as CRLF-separated JSON lines that resolve or reject the waiting request of the same id
 * or carry a `props` notification. The command argument builders and the property setters
 * that turn an assignment into a command are modelled here too.
 */
module YeelightDevice {
  import opened Wrappers
  import opened Strings
  import opened Json
  import opened YeelightModel
  import BaseDevice

  const DEFAULT_PORT: int := 55443
  const EOL: string := "\r\n"

  /** A device: address, attribute store, the capabilities its model gives, and the waiting-request table. */
  datatype Device = Device(host: string, port: int, attrs: BaseDevice.Attributes, info: ModelInfo, table: BaseDevice.Table)

  ghost predicate Valid(d: Device) { BaseDevice.Valid(d.table) }

  // ---------------------------------------------------------------------------------------
  // Construction and display name
  // ---------------------------------------------------------------------------------------

  /** A string-valued property, `None` when it is missing or not a string. */
  function StrProp(props: map<string, Value>, key: string): (r: Option<string>)
    ensures r.Some? <==> key in props && props[key].Str?
    ensures r.Some? ==> props[key] == Str(r.value)
  {
    if key in props && props[key].Str? then Some(props[key].s) else None
  }

  /** The string items of an array property (`includes` compares with `===`, so other items never match). */
  function SupportProp(props: map<string, Value>): (r: Option<seq<string>>)
    ensures r.Some? <==> "support" in props && props["support"].Arr?
    ensures r.Some? ==> forall m :: m in r.value <==> Str(m) in props["support"].items
  {
    if "support" in props && props["support"].Arr? then Some(StrItems(props["support"].items)) else None
  }

  function StrItems(items: seq<Value>): (r: seq<string>)
    ensures forall m :: m in r <==> Str(m) in items
  {
    if |items| == 0 then []
    else
      assert items == [items[0]] + items[1..];
      (if items[0].Str? then [items[0].s] else []) + StrItems(items[1..])
  }

  /**
   * `new Device(info)`: the port defaults to 55443, every other field of `info` goes to the
   * attribute store, and the capabilities come from `parseModel(info.model, info.support)`.
   */
  function New(host: string, port: Option<int>, props: map<string, Value>): (d: Device)
    ensures Valid(d) && d.table.waiting == map[]
    ensures d.host == host && d.port == port.GetOr(DEFAULT_PORT) && d.attrs == props
    ensures StrProp(props, "model").Some? && StrProp(props, "model").value in MODELS ==>
      d.info == MODELS[StrProp(props, "model").value]
    ensures StrProp(props, "model").None? ==> d.info == Fallback(SupportProp(props))
  {
    Device(host, port.GetOr(DEFAULT_PORT), props, ParseModel(StrProp(props, "model"), SupportProp(props)), BaseDevice.Empty())
  }

  /** `displayName`: the name, else the model name, else the model, else 'unknown', by truthiness. */
  function DisplayName(d: Device): (r: Value)
    ensures Truthy(r)
    ensures Truthy(BaseDevice.GetAttribute(d.attrs, "name")) ==> r == BaseDevice.GetAttribute(d.attrs, "name")
    ensures !Truthy(BaseDevice.GetAttribute(d.attrs, "name")) && d.info.modelName.Some? && d.info.modelName.value != "" ==>
      r == Str(d.info.modelName.value)
    ensures !Truthy(BaseDevice.GetAttribute(d.attrs, "name")) && (d.info.modelName.None? || d.info.modelName.value == "") ==>
      r == (if Truthy(BaseDevice.GetAttribute(d.attrs, "model")) then BaseDevice.GetAttribute(d.attrs, "model") else Str("unknown"))
  {
    var name := BaseDevice.GetAttribute(d.attrs, "name");
    var model := BaseDevice.GetAttribute(d.attrs, "model");
    if Truthy(name) then name
    else if d.info.modelName.Some? && d.info.modelName.value != "" then Str(d.info.modelName.value)
    else if Truthy(model) then model
    else Str("unknown")
  }

  // ---------------------------------------------------------------------------------------
  // call and the reply dispatcher
  // ---------------------------------------------------------------------------------------

  /** The line `call` sends: `{id: Number(uuid), method, params}`. */
  function Payload(uuid: string, name: string, params: seq<Value>): (r: Value)
    ensures r.Obj? && r.fields.Keys == {"id", "method", "params"}
    ensures r.fields["method"] == Str(name) && r.fields["params"] == Arr(params)
    ensures r.fields["id"].Num? <==> JsNumber(uuid).Some?
  {
    Obj(map["id" := NumberValue(JsNumber(uuid)), "method" := Str(name), "params" := Arr(params)])
  }

  /**
   * `call(method, params)` with the uuid the device hands out at time `now`: the request is
   * registered under the uuid (keep-alive, so it never disconnects) and its payload sent.
   */
  function Call(d: Device, uuid: string, name: string, params: seq<Value>, now: int): (r: (Device, Value))
    requires Valid(d)
    ensures Valid(r.0) && r.0.attrs == d.attrs && r.0.info == d.info
    ensures r.1 == Payload(uuid, name, params)
    ensures BaseDevice.GetWaitingRequest(r.0.table, uuid) == Some(|d.table.requests|)
    ensures |r.0.table.requests| == |d.table.requests| + 1 && !r.0.table.requests[|d.table.requests|].deconnect
  {
    (d.(table := BaseDevice.Issue(d.table, uuid, false, now)), Payload(uuid, name, params))
  }

  /** `.then(val => val.result)`: what `call` yields from the reply line that resolved it. */
  function CallResult(reply: Value): (r: Value)
    requires !IsNullish(reply)
    ensures reply.Obj? ==> r == (if "result" in reply.fields then reply.fields["result"] else Undefined)
  {
    Get(reply, "result")
  }

  /** `new Error(v).message`: empty for `undefined`, otherwise `String(v)`. */
  function ErrorMessage(v: Value): (r: string)
    ensures v.Str? ==> r == v.s
  {
    if v.Undefined? then "" else JsString(v)
  }

  /** What handling a sequence of reply lines produced: the table, the `update:props` payloads emitted, and whether a `TypeError` stopped the loop. */
  datatype Handled = Handled(table: BaseDevice.Table, emitted: seq<Value>, threw: bool)

  /** A `props` notification: it has `method` and `params`, and `method === 'props'`. */
  predicate IsNotification(data: Value)
    requires data.Obj?
  {
    Has(data, "method") && Has(data, "params") && data.fields["method"] == Str("props")
  }

  /** A result reply: it has `id` and `result`. */
  predicate IsResult(data: Value)
    requires data.Obj?
  {
    Has(data, "id") && Has(data, "result")
  }

  /** An error reply: it has `id` and an object `error` holding `code` and `message`. */
  predicate IsErrorReply(data: Value)
    requires data.Obj?
  {
    && Has(data, "id") && Has(data, "error") && data.fields["error"].Obj?
    && "code" in data.fields["error"].fields && "message" in data.fields["error"].fields
  }

  /**
   * A line on which handling throws a `TypeError`: a primitive, or an object that is neither a
   * notification nor a result and whose `error` (next to an `id`) is a primitive.
   */
  predicate ItemThrows(data: Value) {
    || !(data.Obj? || data.Arr?)
    || (&& data.Obj? && !IsNotification(data) && !IsResult(data) && Has(data, "id") && Has(data, "error")
        && !(data.fields["error"].Obj? || data.fields["error"].Arr?))
  }

  /** Some line throws. */
  predicate AnyThrows(items: seq<Value>) {
    exists i :: 0 <= i < |items| && ItemThrows(items[i])
  }

  /** The `params` of every `props` notification among the lines, in order. */
  function Notified(items: seq<Value>): seq<Value>
    decreases |items|
  {
    if |items| == 0 then []
    else
      (if items[0].Obj? && IsNotification(items[0]) then [items[0].fields["params"]] else [])
      + Notified(items[1..])
  }

  /**
   * One parsed line. `'method' in data` throws on a primitive, and `'code' in data.error`
   * throws when `error` is a primitive; arrays have none of the keys and are passed over.
   */
  function HandleItem(t: BaseDevice.Table, data: Value): (r: Handled)
    requires BaseDevice.Valid(t)
    ensures BaseDevice.Valid(r.table) && |r.table.requests| == |t.requests|
    ensures r.threw <==> ItemThrows(data)
    ensures r.threw || data.Arr? ==> r.table == t && r.emitted == []
    ensures data.Obj? && IsNotification(data) ==> r == Handled(t, [data.fields["params"]], false)
    ensures data.Obj? && !IsNotification(data) && IsResult(data) ==>
      r == Handled(BaseDevice.Deliver(t, JsString(data.fields["id"]), data).0, [], false)
    ensures data.Obj? && !IsNotification(data) && !IsResult(data) && IsErrorReply(data) ==>
      r == Handled(BaseDevice.DeliverError(t, JsString(data.fields["id"]), ErrorMessage(data.fields["error"].fields["message"])).0, [], false)
    ensures data.Obj? && !IsNotification(data) && !IsResult(data) && !IsErrorReply(data) && !ItemThrows(data) ==>
      r == Handled(t, [], false)
    ensures |r.emitted| <= 1
  {
    match data
    case Arr(_) => Handled(t, [], false)
    case Obj(fields) =>
      if IsNotification(data) then Handled(t, [fields["params"]], false)
      else if IsResult(data) then Handled(BaseDevice.Deliver(t, JsString(fields["id"]), data).0, [], false)
      else if Has(data, "id") && Has(data, "error") then
        match fields["error"]
        case Obj(e) =>
          if "code" in e && "message" in e then
            Handled(BaseDevice.DeliverError(t, JsString(fields["id"]), ErrorMessage(e["message"])).0, [], false)
          else Handled(t, [], false)
        case Arr(_) => Handled(t, [], false)
        case _ => Handled(t, [], true)
      else Handled(t, [], false)
    case _ => Handled(t, [], true)
  }

  /** The `for (const data of items)` loop: items in order, stopping at the first `TypeError`. */
  function HandleItems(t: BaseDevice.Table, items: seq<Value>): (r: Handled)
    requires BaseDevice.Valid(t)
    ensures BaseDevice.Valid(r.table) && |r.table.requests| == |t.requests|
    ensures |r.emitted| <= |items|
    decreases |items|
  {
    if |items| == 0 then Handled(t, [], false)
    else
      var h := HandleItem(t, items[0]);
      if h.threw then h
      else
        var rest := HandleItems(h.table, items[1..]);
        Handled(rest.table, h.emitted + rest.emitted, rest.threw)
  }

  /** The loop throws exactly when some line throws. */
  lemma {:induction false} HandleItemsThrows(t: BaseDevice.Table, items: seq<Value>)
    requires BaseDevice.Valid(t)
    ensures HandleItems(t, items).threw <==> AnyThrows(items)
    decreases |items|
  {
    if |items| > 0 {
      var h := HandleItem(t, items[0]);
      if !h.threw {
        HandleItemsThrows(h.table, items[1..]);
        assert AnyThrows(items) <==> AnyThrows(items[1..]) by {
          if AnyThrows(items) {
            var i :| 0 <= i < |items| && ItemThrows(items[i]);
            assert i > 0 && ItemThrows(items[1..][i - 1]);
          }
          if AnyThrows(items[1..]) {
            var i :| 0 <= i < |items[1..]| && ItemThrows(items[1..][i]);
            assert ItemThrows(items[i + 1]);
          }
        }
      } else {
        assert ItemThrows(items[0]);
      }
    }
  }

  /** When no line throws, what is emitted is the `params` of every notification, in order. */
  lemma {:induction false} HandleItemsEmitsNotified(t: BaseDevice.Table, items: seq<Value>)
    requires BaseDevice.Valid(t)
    ensures !HandleItems(t, items).threw ==> HandleItems(t, items).emitted == Notified(items)
    decreases |items|
  {
    if |items| > 0 {
      var h := HandleItem(t, items[0]);
      if !h.threw {
        HandleItemsEmitsNotified(h.table, items[1..]);
      }
    }
  }

  /** Going on from what handling some lines produced: unless they threw, handle `b` from the table they left. */
  function Continue(ha: Handled, b: seq<Value>): (r: Handled)
    requires BaseDevice.Valid(ha.table)
  {
    if ha.threw then ha
    else
      var hb := HandleItems(ha.table, b);
      Handled(hb.table, ha.emitted + hb.emitted, hb.threw)
  }

  /** Handling `a + b` is handling `a`, then, unless that threw, handling `b` from where `a` left off. */
  lemma {:induction false} HandleItemsAppend(t: BaseDevice.Table, a: seq<Value>, b: seq<Value>)
    requires BaseDevice.Valid(t)
    ensures HandleItems(t, a + b) == Continue(HandleItems(t, a), b)
    decreases |a|
  {
    if |a| == 0 {
      assert a + b == b;
      assert [] + HandleItems(t, b).emitted == HandleItems(t, b).emitted;
    } else {
      assert (a + b)[0] == a[0] && (a + b)[1..] == a[1..] + b;
      var h := HandleItem(t, a[0]);
      if !h.threw {
        HandleItemsAppend(h.table, a[1..], b);
        var ra := HandleItems(h.table, a[1..]);
        if !ra.threw {
          var hb := HandleItems(ra.table, b);
          assert h.emitted + (ra.emitted + hb.emitted) == (h.emitted + ra.emitted) + hb.emitted;
        }
      }
    }
  }

  /** `.filter(Boolean)`: the non-empty lines. */
  function NonEmpty(lines: seq<string>): (r: seq<string>)
    ensures forall i :: 0 <= i < |r| ==> r[i] != ""
    ensures forall l :: l in r <==> l in lines && l != ""
  {
    if |lines| == 0 then []
    else
      assert lines == [lines[0]] + lines[1..];
      (if lines[0] != "" then [lines[0]] else []) + NonEmpty(lines[1..])
  }

  /** `.map(v => JSON.parse(v))`: every line parsed, or `None` at the first that does not parse. */
  function ParseAll(parse: string -> Option<Value>, lines: seq<string>): (r: Option<seq<Value>>)
    ensures r.Some? <==> forall i :: 0 <= i < |lines| ==> parse(lines[i]).Some?
    ensures r.Some? ==> |r.value| == |lines| && forall i :: 0 <= i < |lines| ==> r.value[i] == parse(lines[i]).value
  {
    if |lines| == 0 then Some([])
    else
      match parse(lines[0])
      case None => None
      case Some(v) =>
        match ParseAll(parse, lines[1..])
        case None => None
        case Some(vs) => Some([v] + vs)
  }

  /**
   * `onMessage(message)`: the text is split on CRLF, empty lines are dropped and every line is
   * parsed before any is handled, so one line that does not parse means nothing is handled
   * (the `SyntaxError` is reported as `threw`).
   */
  function OnMessage(parse: string -> Option<Value>, t: BaseDevice.Table, message: string): (r: Handled)
    requires BaseDevice.Valid(t)
    ensures BaseDevice.Valid(r.table) && |r.table.requests| == |t.requests|
    ensures var lines := NonEmpty(Split(message, EOL));
      && (ParseAll(parse, lines).None? ==> r == Handled(t, [], true))
      && (ParseAll(parse, lines).Some? ==> r == HandleItems(t, ParseAll(parse, lines).value))
  {
    match ParseAll(parse, NonEmpty(Split(message, EOL)))
    case None => Handled(t, [], true)
    case Some(items) => HandleItems(t, items)
  }

  /** A message of one non-empty line without CRLF is that line, parsed and handled alone. */
  lemma OneLineMessage(parse: string -> Option<Value>, t: BaseDevice.Table, line: string)
    requires BaseDevice.Valid(t)
    requires line != "" && !Contains(line, EOL)
    ensures parse(line).None? ==> OnMessage(parse, t, line) == Handled(t, [], true)
    ensures parse(line).Some? ==> OnMessage(parse, t, line) == HandleItem(t, parse(line).value)
  {
    SplitSingle(line, EOL);
    assert NonEmpty([line]) == [line];
    if parse(line).Some? {
      var h := HandleItem(t, parse(line).value);
      assert HandleItems(t, [parse(line).value]) == h by {
        if !h.threw {
          assert [parse(line).value][1..] == [];
        }
      }
    }
  }

  /** An `{id, result}` item for a waiting uuid resolves the request registered under it with the whole item. */
  lemma ResultItemResolves(t: BaseDevice.Table, fields: map<string, Value>)
    requires BaseDevice.Valid(t)
    requires "id" in fields && "result" in fields && JsString(fields["id"]) in t.waiting
    requires !("method" in fields && "params" in fields && fields["method"] == Str("props"))
    ensures var h := HandleItem(t, Obj(fields));
      && !h.threw && h.emitted == []
      && h.table.requests[t.waiting[JsString(fields["id"])]].outcome == Some(BaseDevice.Resolved(Obj(fields)))
      && JsString(fields["id"]) !in h.table.waiting
  {
    var uuid := JsString(fields["id"]);
    assert HandleItem(t, Obj(fields)).table == BaseDevice.Settle(t, t.waiting[uuid], BaseDevice.Resolved(Obj(fields))).0;
  }

  /** An `{id, error: {code, message}}` item for a waiting uuid rejects the request registered under it with the message. */
  lemma ErrorItemRejects(t: BaseDevice.Table, id: Value, error: map<string, Value>)
    requires BaseDevice.Valid(t)
    requires "code" in error && "message" in error && JsString(id) in t.waiting
    ensures var h := HandleItem(t, Obj(map["id" := id, "error" := Obj(error)]));
      && !h.threw && h.emitted == []
      && h.table.requests[t.waiting[JsString(id)]].outcome == Some(BaseDevice.Rejected(ErrorMessage(error["message"])))
      && JsString(id) !in h.table.waiting
  {
    var data := Obj(map["id" := id, "error" := Obj(error)]);
    assert !IsNotification(data) && !IsResult(data);
    assert HandleItem(t, data).table == BaseDevice.Settle(t, t.waiting[JsString(id)], BaseDevice.Rejected(ErrorMessage(error["message"]))).0;
  }

  /**
   * End to end: after `call` under `uuid`, a message of one line that parses to a result for
   * that uuid resolves the call's request, and the call yields the line's `result`.
   */
  lemma {:induction false} CallThenResultLine(parse: string -> Option<Value>, d: Device, uuid: string, name: string, params: seq<Value>, now: int,
                           line: string, fields: map<string, Value>)
    requires Valid(d)
    requires line != "" && !Contains(line, EOL)
    requires parse(line) == Some(Obj(fields)) && "id" in fields && "result" in fields && JsString(fields["id"]) == uuid
    requires !("method" in fields && "params" in fields && fields["method"] == Str("props"))
    ensures CallResult(Obj(fields)) == fields["result"]
    ensures var t := Call(d, uuid, name, params, now).0.table;
      var h := OnMessage(parse, t, line);
      && !h.threw
      && |h.table.requests| == |t.requests| == |d.table.requests| + 1
      && h.table.requests[|d.table.requests|].outcome == Some(BaseDevice.Resolved(Obj(fields)))
  {
    var t := Call(d, uuid, name, params, now).0.table;
    assert uuid in t.waiting && t.waiting[uuid] == |d.table.requests|;
    OneLineMessage(parse, t, line);
    assert OnMessage(parse, t, line) == HandleItem(t, Obj(fields));
    ResultItemResolves(t, fields);
  }

  /** A line that does not parse anywhere in the message means no line of it is handled. */
  lemma BadLineHandlesNothing(parse: string -> Option<Value>, t: BaseDevice.Table, message: string, k: nat)
    requires BaseDevice.Valid(t)
    requires var lines := NonEmpty(Split(message, EOL)); k < |lines| && parse(lines[k]).None?
    ensures OnMessage(parse, t, message) == Handled(t, [], true)
  {
  }

  // ---------------------------------------------------------------------------------------
  // getProp
  // ---------------------------------------------------------------------------------------

  /** `getProp(key)` for one key: `values[0]`, which throws when the reply's result is `null` or `undefined`. */
  function GetPropSingle(values: Value): (r: Option<Value>)
    ensures r.None? <==> IsNullish(values)
    ensures values.Arr? && |values.items| > 0 ==> r == Some(values.items[0])
  {
    if IsNullish(values) then None
    else
      IndexKeyOfDecimal(0);
      Some(Get(values, "0"))
  }

  /** The keys among the first `n`. */
  function KeySet(keys: seq<string>, n: nat): (r: set<string>)
    requires n <= |keys|
    ensures forall k :: k in r <==> exists i :: 0 <= i < n && keys[i] == k
  {
    if n == 0 then {} else KeySet(keys, n - 1) + {keys[n - 1]}
  }

  /** `props[k] = values[i]` for the first `n` keys, in order. */
  function PropsPrefix(keys: seq<string>, values: Value, n: nat): (r: map<string, Value>)
    requires n <= |keys| && !IsNullish(values)
    ensures r.Keys == KeySet(keys, n)
    ensures forall i :: 0 <= i < n && (forall j :: i < j < n ==> keys[j] != keys[i]) ==>
      r[keys[i]] == Get(values, NatToDecimal(i))
  {
    if n == 0 then map[]
    else PropsPrefix(keys, values, n - 1)[keys[n - 1] := Get(values, NatToDecimal(n - 1))]
  }

  /**
   * `getProp(keys)` for an array of keys: each key mapped to the value at its position, a
   * later duplicate overriding an earlier one. Reading `values[i]` throws on a `null` or
   * `undefined` result, which only happens when there is at least one key.
   */
  function GetPropMany(keys: seq<string>, values: Value): (r: Option<map<string, Value>>)
    ensures r.None? <==> |keys| > 0 && IsNullish(values)
    ensures r.Some? ==> r.value.Keys == set i | 0 <= i < |keys| :: keys[i]
  {
    if |keys| == 0 then Some(map[])
    else if IsNullish(values) then None
    else
      var r := PropsPrefix(keys, values, |keys|);
      assert r.Keys == set i | 0 <= i < |keys| :: keys[i];
      Some(r)
  }

  /** With distinct keys and an array reply at least as long, every key maps to the value at its position. */
  lemma GetPropPairs(keys: seq<string>, items: seq<Value>)
    requires |keys| <= |items|
    requires forall i, j :: 0 <= i < j < |keys| ==> keys[i] != keys[j]
    ensures GetPropMany(keys, Arr(items)).Some?
    ensures forall i :: 0 <= i < |keys| ==> GetPropMany(keys, Arr(items)).value[keys[i]] == items[i]
  {
    if |keys| > 0 {
      forall i | 0 <= i < |keys| ensures GetPropMany(keys, Arr(items)).value[keys[i]] == items[i] {
        IndexKeyOfDecimal(i);
      }
    }
  }

  /** A repeated key takes the value at its last position. */
  lemma GetPropLastWins(keys: seq<string>, items: seq<Value>, i: nat)
    requires i < |keys| <= |items|
    requires forall j :: i < j < |keys| ==> keys[j] != keys[i]
    ensures GetPropMany(keys, Arr(items)).value[keys[i]] == items[i]
  {
    IndexKeyOfDecimal(i);
  }

  // ---------------------------------------------------------------------------------------
  // Command builders
  // ---------------------------------------------------------------------------------------

  /** A command: the method name and its parameter list. */
  datatype Command = Command(name: string, params: seq<Value>)

  /** An optional transition; each of its fields is optional too. */
  datatype Transition = Transition(effect: Option<string>, duration: Option<int>)

  const DEFAULT_EFFECT: string := "smooth"
  const DEFAULT_DURATION: int := 400

  /** `transition?.effect ?? 'smooth'` and `transition?.duration ?? 400`. */
  function TransitionParams(t: Option<Transition>): (r: seq<Value>)
    ensures |r| == 2
    ensures t.None? ==> r == [Str(DEFAULT_EFFECT), Num(DEFAULT_DURATION)]
    ensures t.Some? && t.value.effect.Some? ==> r[0] == Str(t.value.effect.value)
    ensures t.Some? && t.value.duration.Some? ==> r[1] == Num(t.value.duration.value)
    ensures (t.None? || t.value.effect.None?) ==> r[0] == Str(DEFAULT_EFFECT)
    ensures (t.None? || t.value.duration.None?) ==> r[1] == Num(DEFAULT_DURATION)
  {
    var effect := if t.Some? && t.value.effect.Some? then t.value.effect.value else DEFAULT_EFFECT;
    var duration := if t.Some? && t.value.duration.Some? then t.value.duration.value else DEFAULT_DURATION;
    [Str(effect), Num(duration)]
  }

  /** The transition a value/effect/duration list carries, read back from positions `k` and `k + 1`. */
  function TransitionOf(params: seq<Value>, k: nat): (r: Option<Transition>)
    requires k + 1 < |params|
  {
    if params[k].Str? && params[k + 1].Num? then Some(Transition(Some(params[k].s), Some(params[k + 1].n))) else None
  }

  /** A fully given transition is carried verbatim; an absent one reads back as smooth over 400 ms. */
  lemma TransitionRoundTrip(t: Option<Transition>)
    ensures t.Some? && t.value.effect.Some? && t.value.duration.Some? ==> TransitionOf(TransitionParams(t), 0) == t
    ensures t.None? ==> TransitionOf(TransitionParams(t), 0) == Some(Transition(Some(DEFAULT_EFFECT), Some(DEFAULT_DURATION)))
  {
  }

  function SetCtAbx(ct: Value, t: Option<Transition>): (r: Command)
    ensures r.name == "set_ct_abx" && |r.params| == 3 && r.params[0] == ct && r.params[1..] == TransitionParams(t)
  {
    Command("set_ct_abx", [ct] + TransitionParams(t))
  }

  function SetRgb(rgb: Value, t: Option<Transition>): (r: Command)
    ensures r.name == "set_rgb" && |r.params| == 3 && r.params[0] == rgb && r.params[1..] == TransitionParams(t)
  {
    Command("set_rgb", [rgb] + TransitionParams(t))
  }

  function SetHsv(hue: Value, sat: Value, t: Option<Transition>): (r: Command)
    ensures r.name == "set_hsv" && |r.params| == 4 && r.params[..2] == [hue, sat] && r.params[2..] == TransitionParams(t)
  {
    Command("set_hsv", [hue, sat] + TransitionParams(t))
  }

  function SetBright(bright: Value, t: Option<Transition>): (r: Command)
    ensures r.name == "set_bright" && |r.params| == 3 && r.params[0] == bright && r.params[1..] == TransitionParams(t)
  {
    Command("set_bright", [bright] + TransitionParams(t))
  }

  /** `setPower(power, mode = 0, transition)`: the mode comes last, after the transition. */
  function SetPower(power: Value, mode: Option<int>, t: Option<Transition>): (r: Command)
    ensures r.name == "set_power" && |r.params| == 4
    ensures r.params[0] == power && r.params[1..3] == TransitionParams(t) && r.params[3] == Num(mode.GetOr(0))
  {
    Command("set_power", [power] + TransitionParams(t) + [Num(mode.GetOr(0))])
  }

  /** `startCf(flowExpression, count = 0, action = 0)`: count and action come before the expression. */
  function StartCf(expression: string, count: Option<int>, action: Option<int>): (r: Command)
    ensures r == Command("start_cf", [Num(count.GetOr(0)), Num(action.GetOr(0)), Str(expression)])
  {
    Command("start_cf", [Num(count.GetOr(0)), Num(action.GetOr(0)), Str(expression)])
  }

  /** `cronAdd(value, type = 0)`: the type comes first. */
  function CronAdd(value: int, kind: Option<int>): (r: Command)
    ensures r == Command("cron_add", [Num(kind.GetOr(0)), Num(value)])
  {
    Command("cron_add", [Num(kind.GetOr(0)), Num(value)])
  }

  function CronGet(kind: Option<int>): Command { Command("cron_get", [Num(kind.GetOr(0))]) }
  function CronDel(kind: Option<int>): Command { Command("cron_del", [Num(kind.GetOr(0))]) }
  function SetScene(klass: string, args: seq<Value>): Command { Command("set_scene", [Str(klass)] + args) }
  function SetAdjust(action: string, prop: string): Command { Command("set_adjust", [Str(action), Str(prop)]) }
  function SetMusic(host: string, port: int, action: Option<int>): Command { Command("set_music", [Num(action.GetOr(1)), Str(host), Num(port)]) }
  function SetName(name: string): Command { Command("set_name", [Str(name)]) }
  function AdjustBright(percentage: int, duration: int): Command { Command("adjust_bright", [Num(percentage), Num(duration)]) }
  function AdjustCt(percentage: int, duration: int): Command { Command("adjust_ct", [Num(percentage), Num(duration)]) }
  function AdjustColor(percentage: int, duration: int): Command { Command("adjust_color", [Num(percentage), Num(duration)]) }
  function Toggle(): Command { Command("toggle", []) }
  function SetDefault(): Command { Command("set_default", []) }
  function StopCf(): Command { Command("stop_cf", []) }
  function DevToggle(): Command { Command("dev_toggle", []) }

  /** The commands without a transition put the value in front of smooth/400, so the value reads back at position 0 and the transition at 1..3. */
  lemma BuildersCarryTransition(v: Value, t: Option<Transition>)
    requires t.None? || (t.value.effect.Some? && t.value.duration.Some?)
    ensures var dflt := Some(Transition(Some(DEFAULT_EFFECT), Some(DEFAULT_DURATION)));
      && TransitionOf(SetCtAbx(v, t).params, 1) == (if t.None? then dflt else t)
      && TransitionOf(SetRgb(v, t).params, 1) == (if t.None? then dflt else t)
      && TransitionOf(SetBright(v, t).params, 1) == (if t.None? then dflt else t)
      && TransitionOf(SetPower(v, None, t).params, 1) == (if t.None? then dflt else t)
      && TransitionOf(SetHsv(v, v, t).params, 2) == (if t.None? then dflt else t)
  {
    TransitionRoundTrip(t);
    var p := TransitionParams(t);
    assert SetCtAbx(v, t).params[1..3] == p;
    assert SetRgb(v, t).params[1..3] == p;
    assert SetBright(v, t).params[1..3] == p;
    assert SetHsv(v, v, t).params[2..4] == p;
  }

  // ---------------------------------------------------------------------------------------
  // Property setters
  // ---------------------------------------------------------------------------------------

  /** The properties with a setter that sends a command. */
  datatype Prop = Power | Bright | Ct | Rgb | Hue | Sat

  function KeyOf(p: Prop): (k: string)
    ensures p != Hue && p != Sat ==> k != "hue" && k != "sat"
  {
    match p
    case Power => "power"
    case Bright => "bright"
    case Ct => "ct"
    case Rgb => "rgb"
    case Hue => "hue"
    case Sat => "sat"
  }

  lemma KeyOfInjective(p: Prop, q: Prop)
    ensures KeyOf(p) == KeyOf(q) <==> p == q
  {
  }

  /**
   * `device.<prop> = value`: a command is sent only when the value is defined and is not
   * `===` the stored one (hue and saturation also need the other component to be defined);
   * the value is stored in every case.
   */
  function SetProp(attrs: BaseDevice.Attributes, p: Prop, value: Value): (r: (BaseDevice.Attributes, Option<Command>))
    ensures r.0 == BaseDevice.SetAttribute(attrs, KeyOf(p), value)
    ensures r.1.Some? <==>
      && !value.Undefined?
      && !StrictEquals(BaseDevice.GetAttribute(attrs, KeyOf(p)), value)
      && (p == Hue ==> !BaseDevice.GetAttribute(attrs, "sat").Undefined?)
      && (p == Sat ==> !BaseDevice.GetAttribute(attrs, "hue").Undefined?)
    ensures r.1.Some? && p == Power ==> r.1.value == SetPower(value, None, None)
    ensures r.1.Some? && p == Bright ==> r.1.value == SetBright(value, None)
    ensures r.1.Some? && p == Ct ==> r.1.value == SetCtAbx(value, None)
    ensures r.1.Some? && p == Rgb ==> r.1.value == SetRgb(value, None)
    ensures r.1.Some? && p == Hue ==> r.1.value == SetHsv(value, BaseDevice.GetAttribute(attrs, "sat"), None)
    ensures r.1.Some? && p == Sat ==> r.1.value == SetHsv(BaseDevice.GetAttribute(attrs, "hue"), value, None)
  {
    var current := BaseDevice.GetAttribute(attrs, KeyOf(p));
    var changed := !value.Undefined? && !StrictEquals(current, value);
    var cmd :=
      match p
      case Power => if changed then Some(SetPower(value, None, None)) else None
      case Bright => if changed then Some(SetBright(value, None)) else None
      case Ct => if changed then Some(SetCtAbx(value, None)) else None
      case Rgb => if changed then Some(SetRgb(value, None)) else None
      case Hue =>
        var sat := BaseDevice.GetAttribute(attrs, "sat");
        if changed && !sat.Undefined? then Some(SetHsv(value, sat, None)) else None
      case Sat =>
        var hue := BaseDevice.GetAttribute(attrs, "hue");
        if changed && !hue.Undefined? then Some(SetHsv(hue, value, None)) else None;
    (BaseDevice.SetAttribute(attrs, KeyOf(p), value), cmd)
  }

  /**
   * Assigning the same primitive value twice sends at most one command: the second assignment
   * finds it stored. `NaN`, arrays and objects are never `===` what is stored (see
   * `SetPropResendsNonPrimitive`).
   */
  lemma SetPropIdempotent(attrs: BaseDevice.Attributes, p: Prop, value: Value)
    requires !(value.NaN? || value.Arr? || value.Obj?)
    ensures var (attrs1, _) := SetProp(attrs, p, value);
      SetProp(attrs1, p, value) == (attrs1, None)
  {
    var (attrs1, _) := SetProp(attrs, p, value);
    assert attrs1[KeyOf(p) := value] == attrs1;
  }

  /**
   * Re-assigning `NaN`, an array or an object sends the command again: the stored value is
   * never `===` the new one. Power, brightness, colour temperature and rgb have no other
   * condition; hue and saturation also need the other component stored.
   */
  lemma SetPropResendsNonPrimitive(attrs: BaseDevice.Attributes, p: Prop, value: Value)
    requires value.NaN? || value.Arr? || value.Obj?
    requires p == Hue ==> !BaseDevice.GetAttribute(attrs, "sat").Undefined?
    requires p == Sat ==> !BaseDevice.GetAttribute(attrs, "hue").Undefined?
    ensures var (attrs1, first) := SetProp(attrs, p, value);
      && BaseDevice.GetAttribute(attrs1, KeyOf(p)) == value
      && first.Some? && SetProp(attrs1, p, value).1.Some?
  {
    var (attrs1, _) := SetProp(attrs, p, value);
    KeyOfInjective(p, if p == Hue then Sat else Hue);
    assert BaseDevice.GetAttribute(attrs1, KeyOf(p)) == value;
  }

  /** Assigning one property leaves every other stored property as it was. */
  lemma SetPropLeavesOthers(attrs: BaseDevice.Attributes, p: Prop, value: Value, q: Prop)
    requires p != q
    ensures BaseDevice.GetAttribute(SetProp(attrs, p, value).0, KeyOf(q)) == BaseDevice.GetAttribute(attrs, KeyOf(q))
  {
    KeyOfInjective(p, q);
  }
}

=== FILE: yeelight_discovery.dfy ===
/**
 * The Yeelight `Discovery`: the SSDP-style search text it multicasts and the parser that
 * turns a reply or an advertisement into the properties of a device.
 */
module YeelightDiscovery {
  import opened Wrappers
  import opened Strings
  import opened Json

  const EOL: string := "\r\n"
  const SEARCH_HOST: string := "239.255.255.250"
  const SEARCH_PORT: int := 1982
  const SEARCH_LINE: string := "M-SEARCH * HTTP/1.1"

  /** The search text: three lines joined by CRLF. */
  function Probe(): (r: string)
    ensures r == SEARCH_LINE + EOL + "MAN: \"ssdp:discover\"" + EOL + "ST: wifi_bulb"
  {
    var lines := [SEARCH_LINE, "MAN: \"ssdp:discover\"", "ST: wifi_bulb"];
    assert lines[1..][1..] == ["ST: wifi_bulb"];
    assert Join(lines[1..], EOL) == lines[1] + EOL + lines[2];
    Join(lines, EOL)
  }

  /** Where a message came from, by its first line. */
  function FromOf(firstLine: string): (r: string)
    ensures firstLine == "NOTIFY * HTTP/1.1" ==> r == "notify"
    ensures firstLine == "HTTP/1.1 200 OK" ==> r == "response"
    ensures firstLine != "NOTIFY * HTTP/1.1" && firstLine != "HTTP/1.1 200 OK" ==> r == firstLine
  {
    if firstLine == "NOTIFY * HTTP/1.1" then "notify"
    else if firstLine == "HTTP/1.1 200 OK" then "response"
    else firstLine
  }

  /**
   * One header line split on ':': `None` for a line without ':', otherwise the text before
   * the first ':' and the rest rejoined with ':' and trimmed.
   */
  function HeaderLine(line: string): (r: Option<(string, string)>)
    ensures r.None? <==> !Contains(line, ":")
    ensures r.Some? ==>
      var i := IndexOf(line, ":").value;
      r.value.0 == line[..i] && r.value.1 == Trim(line[i + 1..])
  {
    var parts := Split(line, ":");
    SplitSingle(line, ":");
    if |parts| == 1 then None
    else
      SplitHead(line, ":");
      Some((parts[0], Trim(Join(parts[1..], ":"))))
  }

  /** Headers that are dropped. */
  predicate Dropped(key: string) {
    key in {"Cache-Control", "Date", "Ext", "Host", "Server", "NTS"}
  }

  /** Headers converted with `Number`. */
  predicate Numeric(key: string) {
    key in {"bright", "ct", "hue", "sat", "rgb", "color_mode"}
  }

  /** The value a header contributes, or `None` when the header is dropped. */
  function HeaderValue(key: string, value: string): (r: Option<Value>)
    ensures r.None? <==> Dropped(key)
    ensures Numeric(key) ==> r == Some(NumberValue(JsNumber(value)))
    ensures key == "support" ==> r == Some(Arr(StrValues(Split(value, " "))))
    ensures !Dropped(key) && !Numeric(key) && key != "support" ==> r == Some(Str(value))
  {
    if Dropped(key) then None
    else if Numeric(key) then Some(NumberValue(JsNumber(value)))
    else if key == "support" then Some(Arr(StrValues(Split(value, " "))))
    else Some(Str(value))
  }

  function StrValues(xs: seq<string>): (r: seq<Value>)
    ensures |r| == |xs| && forall i :: 0 <= i < |xs| ==> r[i] == Str(xs[i])
  {
    seq(|xs|, i requires 0 <= i < |xs| => Str(xs[i]))
  }

  /** The properties collected from the header lines, in order, starting from `props`. */
  function CollectHeaders(props: map<string, Value>, lines: seq<string>): (r: map<string, Value>)
    ensures props.Keys <= r.Keys
    decreases |lines|
  {
    if |lines| == 0 then props
    else
      var props' :=
        match HeaderLine(lines[0])
        case None => props
        case Some((key, value)) =>
          match HeaderValue(key, value)
          case None => props
          case Some(v) => props[key := v];
      CollectHeaders(props', lines[1..])
  }

  /** A later header line overrides an earlier one with the same key; a line with an unrelated key changes nothing else. */
  lemma {:induction false} CollectLastWins(props: map<string, Value>, lines: seq<string>, key: string, value: string)
    requires !Dropped(key) && !Contains(key, ":")
    ensures var r := CollectHeaders(props, lines + [key + ":" + value]);
      key in r && r[key] == HeaderValue(key, Trim(value)).value
    decreases |lines|
  {
    var line := key + ":" + value;
    if |lines| == 0 {
      FirstColon(key, value);
      assert ([line])[1..] == [];
    } else {
      assert (lines + [line])[1..] == lines[1..] + [line];
      var props' :=
        match HeaderLine(lines[0])
        case None => props
        case Some((k, v)) =>
          match HeaderValue(k, v)
          case None => props
          case Some(x) => props[k := x];
      CollectLastWins(props', lines[1..], key, value);
    }
  }

  /** The first ':' of `key:value` is the one after the key, when the key has none. */
  lemma FirstColon(key: string, value: string)
    requires !Contains(key, ":")
    ensures var line := key + ":" + value;
      IndexOf(line, ":") == Some(|key|) && HeaderLine(line) == Some((key, Trim(value)))
  {
    var line := key + ":" + value;
    assert IsOccurrence(line, ":", |key|);
    forall k | 0 <= k < |key| ensures !IsOccurrence(line, ":", k) {
      if IsOccurrence(line, ":", k) {
        assert line[k..k + 1] == key[k..k + 1];
        assert IsOccurrence(key, ":", k);
      }
    }
    assert line[..|key|] == key && line[|key| + 1..] == value;
  }

  /** `location` accepted as the service address. */
  const SCHEME: string := "yeelight://"

  /** No character of a text without `c` is `c`. */
  lemma Absent(s: string, c: char)
    requires !Contains(s, [c])
    ensures forall k :: 0 <= k < |s| ==> s[k] != c
  {
    forall k | 0 <= k < |s| ensures s[k] != c {
      assert !IsOccurrence(s, [c], k) && s[k..k + 1] == [s[k]];
    }
  }

  /** Host and port of a location starting with "yeelight://": the text after "//", split on ':'. */
  function Address(location: string): (r: (string, Value))
    requires StartsWith(location, SCHEME)
    ensures StartsWith(location[|SCHEME|..], r.0) && !Contains(r.0, ":")
    ensures r.1.Num? || r.1.NaN?
  {
    assert location[9..11] == "//";
    assert IsOccurrence(location, "//", 9);
    SplitSingle(location, "//");
    var after := Split(location, "//");
    var hostPort := Split(after[1], ":");
    HostStartsRest(location);
    (hostPort[0], if |hostPort| > 1 then NumberValue(JsNumber(hostPort[1])) else NaN)
  }

  /** The host part of a location starts the text after the scheme. */
  lemma HostStartsRest(location: string)
    requires StartsWith(location, SCHEME)
    ensures var after := Split(location, "//");
      |after| > 1 && StartsWith(location[|SCHEME|..], Split(after[1], ":")[0]) && !Contains(Split(after[1], ":")[0], ":")
  {
    forall k | 0 <= k < 9 ensures !IsOccurrence(location, "//", k) {
      assert location[k] == SCHEME[k];
    }
    assert IsOccurrence(location, "//", 9);
    assert IndexOf(location, "//") == Some(9);
    var rest := location[11..];
    var after := Split(location, "//");
    assert after == [location[..9]] + Split(rest, "//");
    SplitHeadPrefix(rest, "//");
    SplitHeadPrefix(after[1], ":");
    var host := Split(after[1], ":")[0];
    assert rest[..|host|] == after[1][..|host|];
  }

  /**
   * `onMessage(message)`: the properties of the announced device, or `None` when the message
   * is ignored (its first line lacks "HTTP/1.1" or is the search line itself) or carries no
   * `location` header that starts with "yeelight://". Host and port come from the location.
   */
  function OnMessage(message: string): (r: Option<map<string, Value>>)
    ensures var firstLine := Split(message, EOL)[0];
      var info := CollectHeaders(map["from" := Str(FromOf(firstLine))], Split(message, EOL)[1..]);
      r.Some? <==> (&& Contains(firstLine, "HTTP/1.1") && firstLine != SEARCH_LINE
                    && "location" in info && info["location"].Str? && StartsWith(info["location"].s, SCHEME))
    ensures var firstLine := Split(message, EOL)[0];
      !Contains(firstLine, "HTTP/1.1") || firstLine == SEARCH_LINE ==> r.None?
    ensures r.Some? ==>
      var info := CollectHeaders(map["from" := Str(FromOf(Split(message, EOL)[0]))], Split(message, EOL)[1..]);
      && "location" in info && info["location"].Str? && StartsWith(info["location"].s, SCHEME)
      && r.value == info["host" := Str(Address(info["location"].s).0)]["port" := Address(info["location"].s).1]
  {
    var lines := Split(message, EOL);
    var firstLine := lines[0];
    if !Contains(firstLine, "HTTP/1.1") || firstLine == SEARCH_LINE then None
    else
      var info := CollectHeaders(map["from" := Str(FromOf(firstLine))], lines[1..]);
      if "location" in info && info["location"].Str? && StartsWith(info["location"].s, SCHEME) then
        var (host, port) := Address(info["location"].s);
        Some(info["host" := Str(host)]["port" := port])
      else None
  }

  /** A location "yeelight://H:P", with neither ':' nor '/' in H or P, gives host H and port `Number(P)`. */
  lemma LocationAddress(h: string, p: string)
    requires !Contains(h, ":") && !Contains(h, "/") && !Contains(p, ":") && !Contains(p, "/")
    ensures Address(SCHEME + h + ":" + p) == (h, NumberValue(JsNumber(p)))
  {
    var location := SCHEME + h + ":" + p;
    Absent(h, '/');
    Absent(p, '/');
    assert location[..11] == SCHEME;
    assert IsOccurrence(location, "//", 9);
    forall k | 0 <= k < 9 ensures !IsOccurrence(location, "//", k) {
      assert location[k] == SCHEME[k];
    }
    assert IndexOf(location, "//") == Some(9);
    var rest := location[11..];
    assert rest == h + ":" + p;
    forall k | 0 <= k < |rest| - 1 ensures rest[k] != '/' || rest[k + 1] != '/' {
    }
    assert !Contains(rest, "//");
    SplitSingle(rest, "//");
    assert Split(location, "//") == [location[..9]] + Split(rest, "//");
    SplitColon(h, p);
  }

  /** `h:p` splits on ':' into h and p when neither contains ':'. */
  lemma SplitColon(h: string, p: string)
    requires !Contains(h, ":") && !Contains(p, ":")
    ensures Split(h + ":" + p, ":") == [h, p]
  {
    FirstColon(h, p);
    var s := h + ":" + p;
    assert s[|h| + 1..] == p;
    SplitSingle(p, ":");
  }
}

=== FILE: yeelight_model.dfy ===
/**
 * The Yeelight capability table and `parseModel`: what a model supports (colour temperature
 * range, night light, background light, colour), from the table, a prefix of the model
 * name, or, failing both, the device's list of supported methods.
 */
module YeelightModel {
  import opened Wrappers
  import opened Strings

  /** `supportColorTemperature` when it is an object. */
  datatype CtRange = CtRange(min: int, max: int)

  /** One capability record; `ct` is `None` where the record holds `false`. */
  datatype ModelInfo = ModelInfo(modelName: Option<string>, ct: Option<CtRange>, nightLight: bool, background: bool, color: bool)

  function Model(name: string, min: int, max: int, nightLight: bool, background: bool, color: bool): ModelInfo {
    ModelInfo(Some(name), Some(CtRange(min, max)), nightLight, background, color)
  }

  /** The entries that the prefix rules fall back to. */
  const MONO := Model("Serene Eye-Friendly Desk Lamp", 0, 0, false, false, false)
  const STRIPE := Model("Lightstrip Plus", 1700, 6500, false, false, true)
  const COLOR := Model("Color Light", 1700, 6500, false, false, true)

  /** The `models` table. */
  const MODELS: map<string, ModelInfo> :=
    map[
      "mono" := MONO,
      "stripe" := STRIPE,
      "mono1" := Model("Mono Light", 0, 0, false, false, false),
      "color" := COLOR,
      "color1" := Model("Color Light", 1700, 6500, false, false, true),
      "strip1" := Model("Light Strip", 1700, 6500, false, false, true),
      "RGBW" := Model("RGBW", 1700, 6500, false, false, true),
      "bslamp1" := Model("Bedside Lamp", 1700, 6500, false, false, true),
      "bslamp2" := Model("Bedside Lamp 2", 1700, 6500, false, false, true),
      "ceiling1" := Model("Ceiling Light", 2700, 6500, true, false, false),
      "ceiling2" := Model("Ceiling Light - Youth Version", 2700, 6500, true, false, false),
      "ceiling3" := Model("Ceiling Light (Jiaoyue 480)", 2700, 6500, true, false, false),
      "ceiling4" := Model("Moon Pro (Jiaoyue 650)", 2700, 6500, true, true, false),
      "ceiling5" := Model("Mi LED Ceiling Light", 2700, 6500, true, false, false),
      "ceiling10" := Model("Meteorite", 2700, 6500, false, true, false),
      "ceiling11" := Model("Ceiling Light (YLXD41YL)", 2700, 6500, true, false, false),
      "ceiling13" := Model("Ceiling Light (A2001R900)", 2700, 6500, true, false, false),
      "ceiling14" := Model("Ceiling Light (A2001C550)", 2700, 6500, true, false, false),
      "ceiling15" := Model("Ceiling Light (YLXD42YL)", 2700, 6500, true, true, false),
      "ceiling18" := Model("Ceiling Light (A2001C450)", 2700, 6500, true, false, false),
      "ceiling20" := Model("GuangCan Ceiling Light", 2700, 6500, true, true, false),
      "color2" := Model("color2", 2700, 6500, false, false, true),
      "color4" := Model("color4", 2700, 6500, false, false, true),
      "lamp1" := Model("Color Temperature bulb", 2700, 6500, false, false, false),
      "lamp9" := Model("Staria Bedside Lamp Pro", 2700, 6500, false, false, false),
      "desklamp" := Model("Desk Lamp", 2700, 6599, false, false, false),
      "ceila" := Model("A2001 Ceiling Light", 2700, 6500, true, false, false),
      "ceilc" := Model("Arwen Ceiling Light 550C", 2700, 6500, true, true, false),
      "lamp15" := Model("Monitor Hanging Light", 2700, 6500, true, true, false)
    ]

  /** The fallback record built from a support list. */
  function Fallback(support: Option<seq<string>>): (r: ModelInfo)
    ensures r.modelName.None? && !r.nightLight
    ensures r.ct.Some? <==> support.Some? && "set_ct_abx" in support.value
    ensures r.ct.Some? ==> r.ct.value == CtRange(2700, 2700)
    ensures r.color <==> support.Some? && "set_hsv" in support.value
    ensures r.background <==> support.Some? && "bg_set_hsv" in support.value
  {
    var has := (m: string) => support.Some? && m in support.value;
    ModelInfo(None, if has("set_ct_abx") then Some(CtRange(2700, 2700)) else None, false, has("bg_set_hsv"), has("set_hsv"))
  }

  /**
   * `parseModel(model, support)`: a table key gives its entry; otherwise the prefixes
   * "mono", "stripe" and "color", tested in that order, give those entries; otherwise, and
   * when no model or an empty one is given, the fallback built from the support list.
   */
  function ParseModel(model: Option<string>, support: Option<seq<string>>): (r: ModelInfo)
    ensures model.Some? && model.value in MODELS ==> r == MODELS[model.value]
    ensures (model.None? || model.value == "") ==> r == Fallback(support)
    ensures r.modelName.None? ==> r == Fallback(support)
  {
    if model.Some? && model.value != "" then
      var m := model.value;
      if m in MODELS then TableRangesOrdered(m); MODELS[m]
      else if StartsWith(m, "mono") then MONO
      else if StartsWith(m, "stripe") then STRIPE
      else if StartsWith(m, "color") then COLOR
      else Fallback(support)
    else Fallback(support)
  }

  /** Every table entry has a colour temperature range whose minimum does not exceed its maximum. */
  lemma TableRangesOrdered(key: string)
    requires key in MODELS
    ensures MODELS[key].ct.Some? && MODELS[key].ct.value.min <= MODELS[key].ct.value.max
    ensures MODELS[key].modelName.Some?
  {
  }

  /** Whatever `parseModel` returns, a colour temperature range it reports is ordered. */
  lemma ParsedRangeOrdered(model: Option<string>, support: Option<seq<string>>)
    ensures var r := ParseModel(model, support);
      r.ct.Some? ==> r.ct.value.min <= r.ct.value.max
  {
    var r := ParseModel(model, support);
    if model.Some? && model.value != "" {
      var m := model.value;
      if m in MODELS { TableRangesOrdered(m); }
      else {
        TableRangesOrdered("mono");
        TableRangesOrdered("stripe");
        TableRangesOrdered("color");
      }
    }
  }

  /** The prefix rules apply only to names missing from the table, and in order: a name outside
   *  the table is classified by the first of "mono", "stripe", "color" it starts with. */
  lemma PrefixFallbacks(m: string, support: Option<seq<string>>)
    requires m !in MODELS && m != ""
    ensures StartsWith(m, "mono") ==> ParseModel(Some(m), support) == MODELS["mono"]
    ensures !StartsWith(m, "mono") && StartsWith(m, "stripe") ==> ParseModel(Some(m), support) == MODELS["stripe"]
    ensures !StartsWith(m, "mono") && !StartsWith(m, "stripe") && StartsWith(m, "color") ==> ParseModel(Some(m), support) == MODELS["color"]
    ensures !StartsWith(m, "mono") && !StartsWith(m, "stripe") && !StartsWith(m, "color") ==> ParseModel(Some(m), support) == Fallback(support)
  {
  }

  /** "strip9" is in no table entry and matches no prefix rule ("strip" is not "stripe"), so the support list decides. */
  lemma StripIsNotStripe()
    ensures ParseModel(Some("strip9"), Some(["set_hsv"])) == ModelInfo(None, None, false, false, true)
  {
    var m := "strip9";
    assert m[..4][0] != "mono"[0];
    assert m[..6][5] != "stripe"[5];
    assert m[..5][0] != "color"[0];
    assert m !in MODELS;
  }
}
